=== FILE: README.md ===
# A Dafny model of the java-class-parser class-file decoder

This project models the read-only JVM class-file decoder of the
`com.viridiansoftware.java` library. It covers the following parts:

- The byte cursor, with big-endian unsigned and signed reads
  (`DataInputStream` on a class file).
- The constant pool. Phase one scans the entries, and phase two is the
  fixed-point loop that resolves index placeholders. Typed look-ups and
  the pool queries are included.
- The class-file header and body: magic, versions, access flags,
  this/super class, interfaces, fields, methods and attributes.
- The class `Signature` split into `thisSignature` and `superSignature`.
- Attribute tables and the attributes this library decodes: `Code`,
  exception tables, `LocalVariableTable`, `MethodParameters`,
  `InnerClasses` entries, `EnclosingMethod`, `BootstrapMethods`, and
  the runtime-visible annotations with their element values.
- The access-flag enums and their scope predicates.
- The descriptor helpers of both `ClassUtils` classes and of
  `MethodUtils`.
- The override check of `MethodInfo`: `isImplementationOf`,
  `isSameType` and `resolveTypeVariable`.

The formats follow chapter 4 of the Java Virtual Machine Specification:
section 4.1 gives the class-file layout, section 4.4 the constant pool,
section 4.3 descriptors, section 4.7.9.1 the signature grammar, and
section 4.7 the attributes.

The model is written in Dafny's own terms:

- Bytes are a `byte` subset of `int`.
- Every decoder returns a `Parse<T>`: either the value and the rest of
  the input, or a `DecodeError`.
- Java `null` is `Option.None`.
- An exception the Java code would throw becomes a `Failure` that says
  which one it is:
  - `NullDereference` for a `NullPointerException`.
  - `IndexOutOfRange` for an array index out of bounds.
  - `WrongConstantKind` for a `ClassCastException`.
  - `NegativeLength` for a negative array size.
  - `Truncated` for an end of stream.
  - `BadMagic`, `UnknownConstantTag` and `UnknownReferenceKind` for the
    library's own `IOException`s.
- Parsed signatures are trees (`Signatures`). The ANTLR parser that builds
  them is not modelled. Its trees are inputs, and `getText()` is
  modelled by rendering functions.

The places where the code looks wrong are listed under "Findings". Each
has an as-written member and a corrected member. The operations that
compose them take a `Variant`: `AsWritten` follows the code line by line,
`Corrected` applies the fixes listed there. This holds for
`ClassFiles.ReadClassFile`, `Members.FieldSignature`,
`Members.MethodSignatureText` and the three `Overrides.ImplementationOf`
forms. The parameter walk of `MethodUtils` is modelled in both readings
too.

## Model

Paths are relative to the repository root.

| member | source | states |
|---|---|---|
| Bytes.ReadU1 | src/main/java/com/viridiansoftware/java/constants/ConstantPool.java:72-74 | an unsigned byte read succeeds exactly when a byte is left, yields that byte and leaves the rest |
| Bytes.ReadS1 | src/main/java/com/viridiansoftware/java/constants/ConstantPool.java:38 | `readByte` succeeds exactly when a byte is left and yields it sign-extended: bytes from 0x80 on become negative |
| Bytes.ReadU2 | src/main/java/com/viridiansoftware/java/constants/ConstantPool.java:35 | `readUnsignedShort` succeeds exactly when two bytes are left and yields the big-endian value hi*256+lo, leaving the rest |
| Bytes.ReadS2 | src/main/java/com/viridiansoftware/java/ClassFile.java:99 | `readShort` succeeds exactly when two bytes are left and yields a value in [-32768, 32768): hi*256+lo, minus 65536 when the high byte is 0x80 or more |
| Bytes.ReadU4 | src/main/java/com/viridiansoftware/java/ClassFile.java:69-72 | a 4-byte unsigned read succeeds exactly when four bytes are left and yields the value whose big-endian encoding is those bytes |
| Bytes.ReadS4 | src/main/java/com/viridiansoftware/java/attributes/AttributeInfo.java:16 | `readInt` succeeds exactly when four bytes are left and yields a 32-bit signed value |
| Bytes.ReadS8 | src/main/java/com/viridiansoftware/java/constants/ConstantPool.java:49-52 | `readLong` succeeds exactly when eight bytes are left and yields a 64-bit signed value |
| Bytes.ReadUnsigned | src/main/java/com/viridiansoftware/java/constants/ConstantPool.java:35-78 | an n-byte unsigned read fails with Truncated exactly when fewer than n bytes are left; otherwise the value is below 256^n and its encoding is the bytes consumed |
| Bytes.ReadSigned | src/main/java/com/viridiansoftware/java/constants/ConstantPool.java:43-56 | an n-byte signed read fails with Truncated exactly when fewer than n bytes are left; otherwise its two's-complement encoding is the bytes consumed |
| Bytes.ReadBytes | src/main/java/com/viridiansoftware/java/attributes/AttributeInfo.java:16-17 | `new byte[n]` plus `readFully`: a negative n gives NegativeLength, more than is left gives Truncated, otherwise the first n bytes and the rest, which together are the input |
| Bytes.ReadUnsignedRoundTrip | src/main/java/com/viridiansoftware/java/constants/ConstantPool.java:35 | reading n bytes back from the n-byte encoding of v gives v and the rest untouched |
| Bytes.ReadSignedRoundTrip | src/main/java/com/viridiansoftware/java/constants/ConstantPool.java:43-45 | reading n signed bytes back from an encoding gives its two's-complement value |
| Bytes.ReadShortNegative | src/main/java/com/viridiansoftware/java/MethodInfo.java:298 | `readShort` of a high byte of 0x80 or more is always negative, namely the unsigned value minus 65536 |
| Bytes.ReadCounted | src/main/java/com/viridiansoftware/java/attributes/Attributes.java:35-41 | the loop `for i < n: item(input)` yields exactly n items when it succeeds |
| Bytes.ReadCountedRoundTrip | src/main/java/com/viridiansoftware/java/attributes/Attributes.java:35-41 | reading n items back from the concatenation of their encodings gives the n values in order and the rest |
| Bytes.BigEndianOfToBytes | src/main/java/com/viridiansoftware/java/constants/ConstantPool.java:35 | decoding the n-byte big-endian encoding of v gives v back |
| Bytes.ToBytesOfBigEndian | src/main/java/com/viridiansoftware/java/constants/ConstantPool.java:35 | encoding the value of a byte string back to its length gives the same bytes |
| Constants.ReferenceKindCodes | src/main/java/com/viridiansoftware/java/constants/ConstantMethodHandle.java:83-99 | the nine reference kinds carry the codes 1 to 9 in declaration order, each code exactly once |
| Constants.KindFromCode | src/main/java/com/viridiansoftware/java/constants/ConstantMethodHandle.java:24-34 | a code from 1 to 9 selects the kind carrying that code; any other code falls back to REF_getField |
| Constants.NewMethodHandle | src/main/java/com/viridiansoftware/java/constants/ConstantMethodHandle.java:24-34 | a new handle keeps its member reference, and `getKind` returns the given code, or 1 when the code is not 1 to 9 |
| Constants.HandleName | src/main/java/com/viridiansoftware/java/constants/ConstantMethodHandle.java:40-73 | `getName` of a handle is the name in its referenced member's NameAndType, whichever of the field, method or interface-method branches applies |
| ConstantPoolScan.ReadUtf | src/main/java/com/viridiansoftware/java/constants/ConstantPool.java:40-42 | `readUTF`: fewer bytes than the u2 length prefix announces is Truncated; otherwise the result is the decoder's text for exactly that many bytes after the prefix, or BadUtf8 when the decoder rejects them, and the bytes after them are left |
| ConstantPoolScan.ReadFixed | src/main/java/com/viridiansoftware/java/constants/ConstantPool.java:43-74 | the payload of a fixed-size entry succeeds exactly when its 2, 3, 4 or 8 bytes are there (Truncated otherwise), yields the slot those bytes spell, and leaves what follows |
| ConstantPoolScan.ReadEntry | src/main/java/com/viridiansoftware/java/constants/ConstantPool.java:38-76 | no input is Truncated; a tag outside the known set aborts with UnknownConstantTag carrying the signed tag byte; a Utf8 entry is the `readUTF` of what follows its tag; every other entry succeeds exactly when its payload is there and yields the int, float bits, long, double bits or placeholder its payload spells, flagged as taking two slots exactly for Long and Double |
| ConstantPoolScan.EntryShape | src/main/java/com/viridiansoftware/java/constants/ConstantPool.java:38-76 | an entry read consumes input, never leaves its slot empty, is flagged wide exactly when its slot holds a Long or Double, and a placeholder keeps the entry's own tag, one phase two resolves |
| ConstantPoolScan.ScanFrom | src/main/java/com/viridiansoftware/java/constants/ConstantPool.java:37-78 | the scan from slot i fills count-i slots, laid out so that a slot is empty exactly when it follows a Long or Double, with only resolvable placeholders |
| ConstantPoolScan.ScanPool | src/main/java/com/viridiansoftware/java/constants/ConstantPool.java:34-78 | a scanned pool has exactly the u2 count of slots, and slot 0 is empty |
| ConstantPoolScan.ScanPoolShape | src/main/java/com/viridiansoftware/java/constants/ConstantPool.java:34-78 | in every scanned pool a slot is empty exactly when it is slot 0 or follows a Long or Double, and every placeholder has a tag phase two resolves |
| ConstantPoolScan.UnknownTagAborts | src/main/java/com/viridiansoftware/java/constants/ConstantPool.java:75-76 | an unknown tag in the first entry aborts the whole scan with that tag |
| PoolEncoding.Pattern | src/main/java/com/viridiansoftware/java/constants/ConstantPool.java:43-52 | the unsigned pattern written for an n-byte two's-complement value fits n bytes and reads back signed as that value |
| PoolEncoding.ReadUtfRoundTrip | src/main/java/com/viridiansoftware/java/constants/ConstantPool.java:40-42 | `readUTF` of bytes written behind their u2 length gives the decoder's text for exactly those bytes and leaves what follows, or BadUtf8 when the decoder rejects them |
| PoolEncoding.FixedSlotOfPayload | src/main/java/com/viridiansoftware/java/constants/ConstantPool.java:43-74 | the payload written for an int, float, long, double, one-index, two-index or method-handle entry reads back as that entry's value or placeholder |
| PoolEncoding.EntryRoundTrip | src/main/java/com/viridiansoftware/java/constants/ConstantPool.java:38-76 | every writable entry, whatever follows it, reads back as its own slot, flagged wide exactly when it is a Long or Double, leaving what follows |
| PoolEncoding.SlotsOf | src/main/java/com/viridiansoftware/java/constants/ConstantPool.java:49-56 | the slots a list of entries fills number their total width: two for each Long and Double, one otherwise |
| PoolEncoding.ScanFromRoundTrip | src/main/java/com/viridiansoftware/java/constants/ConstantPool.java:37-78 | scanning written entries from a slot up to a count that matches their width fills exactly their slots, an empty slot after each Long and Double, and stops right after the last entry |
| PoolEncoding.ScanPoolRoundTrip | src/main/java/com/viridiansoftware/java/constants/ConstantPool.java:34-78 | scanning a written pool yields the empty slot 0 followed by the slots of its entries in order, and leaves what follows the pool |
| ConstantPoolResolve.CastString | src/main/java/com/viridiansoftware/java/constants/ConstantPool.java:115 | `(String) pool[k]`: an index outside the pool fails, an empty slot is null, a Utf8 entry is its text, and anything else is a ClassCastException |
| ConstantPoolResolve.CastClass | src/main/java/com/viridiansoftware/java/constants/ConstantPool.java:97 | `(ConstantClass) pool[k]` with the same four outcomes as the string cast |
| ConstantPoolResolve.CastNameAndType | src/main/java/com/viridiansoftware/java/constants/ConstantPool.java:183 | `(ConstantNameAndType) pool[k]` with the same four outcomes |
| ConstantPoolResolve.CheckHandle | src/main/java/com/viridiansoftware/java/constants/ConstantPool.java:121-173 | a MethodHandle resolves exactly when its target is a member reference its kind admits: field refs for kinds 1-4, method refs for 5 and 8, method refs (plus interface method refs from major version 52) for 6 and 7, interface method refs for 9; a kind outside 1-9 is UnknownReferenceKind; an empty target is a NullPointerException |
| ConstantPoolResolve.Build | src/main/java/com/viridiansoftware/java/constants/ConstantPool.java:86-201 | a copying tag (String, Module, Package) may yield the operand slot itself, even a placeholder; a member-reference tag yields a reference of the matching kind; an unknown tag is UnknownConstantTag |
| ConstantPoolResolve.Step | src/main/java/com/viridiansoftware/java/constants/ConstantPool.java:83-203 | one loop visit keeps resolved slots, defers a member ref, handle, Dynamic or InvokeDynamic exactly while an operand it checks is still a placeholder, and resolves it otherwise |
| ConstantPoolResolve.Resolved | src/main/java/com/viridiansoftware/java/constants/ConstantPool.java:80-204 | the declarative value of a slot after resolution is never a placeholder, and a slot resolved in phase one keeps its value |
| ConstantPoolResolve.StepAgrees | src/main/java/com/viridiansoftware/java/constants/ConstantPool.java:83-203 | whatever a loop visit resolves or rejects agrees with the declarative value of that slot |
| ConstantPoolResolve.DeferNeedsHighLayer | src/main/java/com/viridiansoftware/java/constants/ConstantPool.java:94-95 | after a given number of passes, only slots at least two dependency layers higher can still be deferred |
| ConstantPoolResolve.PassGood | src/main/java/com/viridiansoftware/java/constants/ConstantPool.java:83-203 | one for-loop pass over an array whose slots are each untouched or final, with the earlier layers done, either fails with some slot's declarative failure or leaves every slot untouched or final with one more layer done, deferring only in the first two passes and leaving no placeholder when it defers nothing |
| ConstantPoolResolve.PassesGood | src/main/java/com/viridiansoftware/java/constants/ConstantPool.java:81-200 | repeating the pass while it defers, for the passes left out of three, fails only with some slot's declarative failure and otherwise leaves every slot at its declarative value, with no placeholder |
| ConstantPoolResolve.Resolution | src/main/java/com/viridiansoftware/java/constants/ConstantPool.java:81-200 | the loop's outcome in pass order: on success every slot holds its declarative value, and it equals the slot-by-slot pool; it succeeds exactly when that pool does; on failure the error is some slot's declarative failure |
| ConstantPoolResolve.ResolvePool | src/main/java/com/viridiansoftware/java/constants/ConstantPool.java:80-204 | the do-while loop ends after at most three passes on a layered pool and returns exactly `Resolution`, the first failing visit in pass order, in both outcomes; on success no placeholder is left and each slot equals its declarative value and the slot-by-slot pool |
| ConstantPoolResolve.ResolveFrom | src/main/java/com/viridiansoftware/java/constants/ConstantPool.java:83 | the pool tail from a slot on resolves exactly when each of its slots does, slot by slot |
| ConstantPoolResolve.ResolvedPool | src/main/java/com/viridiansoftware/java/constants/ConstantPool.java:80-204 | the declarative partner of the loop: the pool exists exactly when every slot resolves, and then holds every slot's declarative value and no placeholder; on failure it reports the lowest-numbered failing slot, which need not be the loop's error |
| ConstantPoolResolve.LoopStopsAtSlotSix | src/main/java/com/viridiansoftware/java/constants/ConstantPool.java:83-99 | on the example pool the first pass defers slots 1 and 2, resolves slots 3 and 4, and stops at slot 6 with index 99 out of range |
| ConstantPoolResolve.SlotOneFailsFirst | src/main/java/com/viridiansoftware/java/constants/ConstantPool.java:117-175 | on the example pool slot 1 is the lowest failing slot: its target resolves, but kind 0 is unknown |
| ConstantPoolResolve.PassOrderDecidesError | src/main/java/com/viridiansoftware/java/constants/ConstantPool.java:81-200 | a layered pool on which the loop reports IndexOutOfRange(99) while the slot-by-slot resolution reports UnknownReferenceKind(0): the error depends on the order of the visits |
| ConstantPoolResolve.ClassResolvesToName | src/main/java/com/viridiansoftware/java/constants/ConstantPool.java:87-89 | a Class entry resolves to a class constant named by the Utf8 text at its operand |
| ConstantPoolResolve.CopyResolvesToOperand | src/main/java/com/viridiansoftware/java/constants/ConstantPool.java:90-92 | a String, Module or Package entry resolves to whatever its operand slot holds |
| ConstantPoolResolve.HandleResolution | src/main/java/com/viridiansoftware/java/constants/ConstantPool.java:117-175 | a MethodHandle resolves exactly when its resolved target is an admitted member reference, and an unknown kind always fails with UnknownReferenceKind |
| ConstantPoolResolve.LayeredExcludesPlaceholderOperands | src/main/java/com/viridiansoftware/java/constants/ConstantPool.java:87-115 | a Class, NameAndType, MethodType or copying entry over a placeholder, and a member reference over a member reference, dynamic entry or handle, make a pool not layered |
| ConstantPoolResolve.SelfReferenceWaitsForever | src/main/java/com/viridiansoftware/java/constants/ConstantPool.java:93-99 | a member reference naming itself is deferred on every visit, so the source loop never ends; such a pool is not layered |
| ConstantPoolQueries.Get | src/main/java/com/viridiansoftware/java/constants/ConstantPool.java:211-213 | `get(i)` succeeds exactly for an index inside the pool and returns that slot; otherwise IndexOutOfRange(i) |
| ConstantPoolQueries.ConstantClasses | src/main/java/com/viridiansoftware/java/constants/ConstantPool.java:223-231 | the class constants of the pool in pool order, and a class is listed exactly when some slot holds it |
| ConstantPoolQueries.ConstantFieldDescriptors | src/main/java/com/viridiansoftware/java/constants/ConstantPool.java:233-241 | the descriptors of the field references in pool order, and a descriptor is listed exactly when some field reference carries it |
| ConstantPoolQueries.ConstantMethodDescriptors | src/main/java/com/viridiansoftware/java/constants/ConstantPool.java:243-253 | the descriptors of method and interface-method references in pool order, one per reference |
| ConstantPoolQueries.ConstantMethodRefs | src/main/java/com/viridiansoftware/java/constants/ConstantPool.java:255-265 | the method and interface-method references in pool order, and a reference is listed exactly when a slot holds it and it is not a field reference |
| ConstantPoolQueries.MethodDescriptorsMatchRefs | src/main/java/com/viridiansoftware/java/constants/ConstantPool.java:243-265 | the descriptor list and the reference list line up: the i-th descriptor belongs to the i-th reference |
| ConstantPoolQueries.CastAt | src/main/java/com/viridiansoftware/java/constants/ConstantPool.java:211-213 | a cast of `get(i)` fails with IndexOutOfRange outside the pool, with WrongConstantKind on a constant of another type, gives null on an empty slot, and otherwise the constant stored there |
| ConstantPoolQueries.StringAt | src/main/java/com/viridiansoftware/java/MethodInfo.java:72-73 | `(String) constantPool.get(i)`: null exactly on an empty slot, otherwise the Utf8 text stored there, with the cast's errors |
| ConstantPoolQueries.ClassAt | src/main/java/com/viridiansoftware/java/ClassFile.java:85-89 | `(ConstantClass) constantPool.get(i)`: null on an empty slot, otherwise the class constant stored there |
| ConstantPoolQueries.NameAndTypeAt | src/main/java/com/viridiansoftware/java/attributes/EnclosingMethod.java:35 | `(ConstantNameAndType) constantPool.get(i)`: null on an empty slot, otherwise the NameAndType stored there |
| ConstantPoolQueries.MethodRefAt | src/main/java/com/viridiansoftware/java/attributes/Code.java:146 | `(ConstantMethodRef) constantPool.get(i)`: null on an empty slot, otherwise a method reference stored there |
| ConstantPoolQueries.MethodHandleAt | src/main/java/com/viridiansoftware/java/attributes/BootstrapMethods.java:30 | `(ConstantMethodHandle) constantPool.get(i)`: null on an empty slot, otherwise the handle stored there |
| AccessMasks.SingleBitTestsAgree | src/main/java/com/viridiansoftware/java/MethodInfo.java:112-114 | for a one-bit mask, "all bits set" (the flag lists) and "some bit set" (the `is...` predicates) agree |
| ClassAccess.FlagsOf | src/main/java/com/viridiansoftware/java/ClassFile.java:79-83 | the class flags listed are those whose mask is wholly set in the word, in `ClassAccessFlag` declaration order |
| ClassAccess.MasksDistinct | src/main/java/com/viridiansoftware/java/ClassAccessFlag.java:3-17 | no two class flags share a mask and none is listed twice |
| ClassAccess.AnySetIffListed | src/main/java/com/viridiansoftware/java/ClassFile.java:359-377 | `isPublic`, `isProtected` and `isPrivate` hold exactly when the flag list contains that flag |
| ClassAccess.IsDefaultScope | src/main/java/com/viridiansoftware/java/ClassFile.java:342-353 | default scope holds exactly when none of the low three bits is set, which is when none of public, protected and private is listed |
| ClassAccess.UnitTestPublicFinal | src/test/java/com/viridiansoftware/java/ClassAccessFlagTest.java:8-14 | the word 0x0011 lists exactly PUBLIC and FINAL, and 0x1000 does not list FINAL |
| MethodAccess.FlagsOf | src/main/java/com/viridiansoftware/java/MethodInfo.java:66-70 | the method flags listed are those whose mask is wholly set, in `MethodAccessFlag` declaration order |
| MethodAccess.MasksDistinct | src/main/java/com/viridiansoftware/java/MethodAccessFlag.java:3-18 | no two method flags share a mask |
| MethodAccess.Has | src/main/java/com/viridiansoftware/java/MethodInfo.java:137-211 | each `is...` predicate of a method holds exactly when its flag is listed, which is when its bit is set |
| MethodAccess.IsDefaultScope | src/main/java/com/viridiansoftware/java/MethodInfo.java:120-131 | default scope exactly when neither public, protected nor private is listed |
| MethodAccess.UnitTestsScope | src/test/java/com/viridiansoftware/java/MethodAccessFlagTest.java:23-38 | 0x0401 is public and abstract, not private or protected; 0x0400 is abstract and of default scope |
| FieldAccess.FlagsOf | src/main/java/com/viridiansoftware/java/FieldInfo.java:61-65 | the field flags listed are those whose mask is wholly set, in `FieldAccessFlag` declaration order |
| FieldAccess.MasksDistinct | src/main/java/com/viridiansoftware/java/FieldAccessFlag.java:3-14 | no two field flags share a mask |
| FieldAccess.Has | src/main/java/com/viridiansoftware/java/FieldInfo.java:104-158 | each `is...` predicate of a field holds exactly when its flag is listed |
| FieldAccess.IsDefaultScope | src/main/java/com/viridiansoftware/java/FieldInfo.java:91-102 | default scope exactly when neither public, protected nor private is listed |
| TypeCodes.PrimitiveTypeOf | src/main/java/com/viridiansoftware/java/utils/ClassUtils.java:96-103 | the primitive type whose term is the character, or null exactly when no primitive type has that term |
| TypeCodes.PrimitiveOrReferenceTypeOf | src/main/java/com/viridiansoftware/java/utils/ClassUtils.java:105-112 | the type code whose term is the character, or null exactly when the character is no type code |
| TypeCodes.TypeOfCode | src/main/java/com/viridiansoftware/java/PrimitiveOrReferenceType.java:3-13 | a direct table from character to type code, null exactly for non-codes |
| TypeCodes.TypeOfCodeIsLookup | src/main/java/com/viridiansoftware/java/utils/ClassUtils.java:105-112 | the linear search over `values()` and the direct table give the same answer for every character |
| TypeCodes.PrimitiveLookupInvertsTerm | src/main/java/com/viridiansoftware/java/PrimitiveType.java:19-21 | looking up a primitive type's term finds that type again |
| TypeCodes.LookupInvertsTerm | src/main/java/com/viridiansoftware/java/PrimitiveOrReferenceType.java:3-13 | looking up a type code's term finds that type code again |
| TypeCodes.PrimitiveTermInjective | src/main/java/com/viridiansoftware/java/PrimitiveType.java:3-11 | two primitive types never share a term |
| TypeCodes.TermInjective | src/main/java/com/viridiansoftware/java/PrimitiveOrReferenceType.java:3-13 | two type codes never share a term |
| TypeCodes.PrimitiveCodeListed | src/main/java/com/viridiansoftware/java/utils/ClassUtils.java:97-101 | a character is a primitive code exactly when some entry of `PrimitiveType.values()` has it as its term |
| TypeCodes.TypeCodeListed | src/main/java/com/viridiansoftware/java/utils/ClassUtils.java:106-110 | a character is a type code exactly when some entry of `PrimitiveOrReferenceType.values()` has it as its term |
| JavaStrings.IndexOf | src/main/java/com/viridiansoftware/java/utils/ClassUtils.java:37 | `indexOf(c)` is -1 exactly when c is absent, and otherwise the position of the first c |
| JavaStrings.LastIndexOf | src/main/java/com/viridiansoftware/java/utils/ClassUtils.java:37 | `lastIndexOf(c)` is -1 exactly when c is absent, and otherwise the position of the last c |
| JavaStrings.SplitAll | src/main/java/com/viridiansoftware/java/utils/ClassUtils.java:38 | splitting on a separator gives at least one piece, no piece holds the separator, and joining the pieces gives the text back |
| JavaStrings.SplitAllJoin | src/main/java/com/viridiansoftware/java/utils/ClassUtils.java:38 | splitting the join of separator-free pieces gives those pieces back |
| JavaStrings.DropTrailingEmpty | src/main/java/com/viridiansoftware/java/utils/ClassUtils.java:38 | `String.split` drops exactly the trailing empty pieces: a prefix of the pieces whose last is non-empty |
| JavaStrings.Split | src/main/java/com/viridiansoftware/java/utils/ClassUtils.java:38 | `split(";")` of a text without the separator is the text itself, and otherwise the pieces without trailing empty ones |
| JavaStrings.SplitTerminated | src/main/java/com/viridiansoftware/java/utils/ClassUtils.java:38 | splitting "a;b;c;" gives back a, b, c: the terminating separator leaves no empty piece |
| JavaStrings.EqualsIgnoreCaseReflexive | src/main/java/com/viridiansoftware/java/attributes/RuntimeVisibleAnnotation.java:42-49 | every text equals itself ignoring case |
| DescriptorUtils.GenericTypes | src/main/java/com/viridiansoftware/java/utils/ClassUtils.java:33-39 | a name without both '<' and '>' has no generic types; otherwise every entry is free of ';' |
| DescriptorUtils.GenericTypesRoundTrip | src/main/java/com/viridiansoftware/java/utils/ClassUtils.java:33-39 | the generic types of `Owner<A;B;>tail` are exactly A and B |
| DescriptorUtils.GenericTypesBetween | src/main/java/com/viridiansoftware/java/utils/ClassUtils.java:37-38 | the generic types of `Owner<inner>tail` are the split of inner on ';' |
| DescriptorUtils.ClassificationPartitions | src/main/java/com/viridiansoftware/java/utils/ClassUtils.java:41-61 | every name is exactly one of array, object and primitive |
| DescriptorUtils.ArrayDimensions | src/main/java/com/viridiansoftware/java/utils/ClassUtils.java:45-53 | the count of '[' is at most the length, and zero exactly when there is no '[' |
| DescriptorUtils.ArrayDimensionsOfBrackets | src/main/java/com/viridiansoftware/java/utils/ClassUtils.java:45-53 | d brackets before a bracket-free element type count as d dimensions |
| DescriptorUtils.LeadingBrackets | src/main/java/com/viridiansoftware/java/utils/ClassUtils.java:63-87 | the length of the run of '[' that opens the name |
| DescriptorUtils.ArrayKindsExclusive | src/main/java/com/viridiansoftware/java/utils/ClassUtils.java:63-87 | no name is both an array of primitives and an array of objects; an array with an element character is one of them; a non-array or all-bracket name is neither |
| DescriptorUtils.PrimitiveTypeOfName | src/main/java/com/viridiansoftware/java/utils/ClassUtils.java:89-94 | after the leading brackets, the primitive type whose term is the element character, or null when it is not a primitive code |
| DescriptorUtils.ReferenceClass | src/main/java/com/viridiansoftware/java/utils/ClassUtils.java:114-149 | null exactly for a primitive code or an array of a non-object element; a name that is no type code comes back without a trailing ';' |
| DescriptorUtils.ReferenceClassOfObject | src/main/java/com/viridiansoftware/java/utils/ClassUtils.java:114-149 | `[...[Lcls;` at any depth gives cls |
| DescriptorUtils.ReferenceClassOfPrimitive | src/main/java/com/viridiansoftware/java/utils/ClassUtils.java:114-149 | a primitive code at any array depth gives null |
| DescriptorUtils.ReferenceClassObjectExamples | src/test/java/com/viridiansoftware/java/constants/ClassUtilsTest.java:28-29 | both `java/lang/Object` and `Ljava/lang/Object;` give `java/lang/Object` |
| DescriptorUtils.ReferenceClassObjectArrayExample | src/test/java/com/viridiansoftware/java/constants/ClassUtilsTest.java:30 | `[Ljava/lang/Object;` gives `java/lang/Object` |
| DescriptorUtils.ReferenceClassObjectMatrixExample | src/test/java/com/viridiansoftware/java/constants/ClassUtilsTest.java:31 | `[[Ljava/lang/Object;` gives `java/lang/Object` |
| DescriptorUtils.ReferenceClassPrimitiveExamples | src/test/java/com/viridiansoftware/java/constants/ClassUtilsTest.java:32-34 | `[[I`, `[I` and `I` give null |
| PoolClassUtils.ArrayDimensions | src/main/java/com/viridiansoftware/java/constants/ClassUtils.java:12-20 | the loop over the name counts exactly the '[' characters, agreeing with the functional definition |
| PoolClassUtils.ArrayElementTests | src/main/java/com/viridiansoftware/java/constants/ClassUtils.java:30-54 | the two loops answer "array of primitives" and "array of objects" exactly as the functional definitions |
| PoolClassUtils.PrimitiveTypeOfName | src/main/java/com/viridiansoftware/java/constants/ClassUtils.java:56-66 | stripping brackets in a loop and then looking up the code agrees with the functional definition |
| PoolClassUtils.ReferenceClass | src/main/java/com/viridiansoftware/java/constants/ClassUtils.java:68-103 | the switch with its bracket loop agrees with the functional definition for every non-empty name |
| MethodUtils.CodeAt | src/main/java/com/viridiansoftware/java/MethodUtils.java:28 | the type code at a position: out of range is an index error, a non-code is null and so a NullPointerException in the switch |
| MethodUtils.UpToSemicolon | src/main/java/com/viridiansoftware/java/MethodUtils.java:32-39 | the position of the first ';' from the start on, or the default 1 when there is none |
| MethodUtils.BracketRun | src/main/java/com/viridiansoftware/java/MethodUtils.java:49-54 | the inner loop stops at the first non-'[' character and reports its type code |
| MethodUtils.ReadToken | src/main/java/com/viridiansoftware/java/MethodUtils.java:28-99 | one parameter token: its description is the prefix it consumes and its kind is the type code of the first character; a base type consumes one character and `[` plus a base type two; an empty rest is an index error and a non-code is null |
| MethodUtils.ReadParameters | src/main/java/com/viridiansoftware/java/MethodUtils.java:27-103 | one entry per parameter name, carrying that name, in order |
| MethodUtils.MethodParametersAsWritten | src/main/java/com/viridiansoftware/java/MethodUtils.java:24-104 | the source's walk: an empty descriptor fails on `substring(1)`; a success gives one entry per name, with that name |
| MethodUtils.MethodParameters | src/main/java/com/viridiansoftware/java/MethodUtils.java:24-104 | the corrected walk: an empty descriptor fails on `substring(1)`; a success gives one entry per name, with that name |
| MethodUtils.ObjectStopsOnSemicolon | src/main/java/com/viridiansoftware/java/MethodUtils.java:31-45 | as written, an object parameter `Lcls;` is read as `Lcls`, and the ';' is left for the next parameter |
| MethodUtils.ObjectThenParameterAborts | src/main/java/com/viridiansoftware/java/MethodUtils.java:31-45 | as written, any object parameter followed by a second parameter fails with a NullPointerException on the left-over ';' |
| MethodUtils.ObjectThenIntAborts | src/main/java/com/viridiansoftware/java/MethodUtils.java:31-45 | as written, `(Ljava/lang/String;I)V` with two names fails with a NullPointerException |
| MethodUtils.MultiDimensionalPrimitiveTruncated | src/main/java/com/viridiansoftware/java/MethodUtils.java:68-73 | as written, a d-dimensional primitive array with d of 2 or more is read as d-1 brackets, without its element code |
| MethodUtils.TwoDimensionalIntMisread | src/main/java/com/viridiansoftware/java/MethodUtils.java:46-93 | as written, `([[II)V` is read as the two arrays `[` and `[I` |
| MethodUtils.LaterFailureAborts | src/main/java/com/viridiansoftware/java/MethodUtils.java:27-103 | a failure on a later parameter aborts the whole reading with that failure |
| MethodUtils.ObjectLengthCorrected | src/main/java/com/viridiansoftware/java/MethodUtils.java:31-45 | the corrected length of an object token reaches past its ';' |
| MethodUtils.TokenRoundTrip | src/main/java/com/viridiansoftware/java/MethodUtils.java:28-99 | the corrected reader reads the descriptor of any valid field type back as one token of that type's kind, consuming exactly that descriptor |
| MethodUtils.BaseTokenRoundTrip | src/main/java/com/viridiansoftware/java/MethodUtils.java:94-99 | a base type code is one token of its own kind |
| MethodUtils.ObjectTokenRoundTrip | src/main/java/com/viridiansoftware/java/MethodUtils.java:31-45 | the corrected reader reads `Lcls;` back whole |
| MethodUtils.ArrayTokenRoundTrip | src/main/java/com/viridiansoftware/java/MethodUtils.java:74-91 | the corrected reader reads a one-dimensional array of any element type back whole |
| MethodUtils.NestedArrayTokenRoundTrip | src/main/java/com/viridiansoftware/java/MethodUtils.java:48-73 | the corrected reader reads an array of two or more dimensions back whole, element code included |
| MethodUtils.RunEndsAtElement | src/main/java/com/viridiansoftware/java/MethodUtils.java:49-54 | the bracket run of a well-formed array ends at its element code |
| MethodUtils.RunOverBrackets | src/main/java/com/viridiansoftware/java/MethodUtils.java:49-54 | over a primitive element the bracket run ends one before the element |
| MethodUtils.ParametersRoundTrip | src/main/java/com/viridiansoftware/java/MethodUtils.java:24-104 | the corrected reader reads any list of valid field types back as one entry per type, with the type's kind, the given name and its exact descriptor |
| MethodUtils.DescriptorSplits | src/main/java/com/viridiansoftware/java/MethodUtils.java:46-93 | every field-type descriptor is its dimension count of brackets followed by its element descriptor |
| AttributeTable.ReadAttributeInfo | src/main/java/com/viridiansoftware/java/attributes/AttributeInfo.java:14-18 | an attribute is a u2 pool name, a 4-byte length and that many payload bytes; a name index that does not cast to String fails the same way |
| AttributeTable.ReadAttributeInfoRoundTrip | src/main/java/com/viridiansoftware/java/attributes/AttributeInfo.java:14-18 | an encoded attribute reads back as its pool name and its exact payload |
| AttributeTable.ReadAttributeList | src/main/java/com/viridiansoftware/java/attributes/Attributes.java:36-39 | the loop reads exactly the requested number of attributes |
| AttributeTable.ReadAttributes | src/main/java/com/viridiansoftware/java/attributes/Attributes.java:35-41 | a table holds exactly its u2 count of attributes |
| AttributeTable.ReadAttributeListRoundTrip | src/main/java/com/viridiansoftware/java/attributes/Attributes.java:35-41 | encoded attributes read back in order with their names and payloads |
| AttributeTable.Get | src/main/java/com/viridiansoftware/java/attributes/Attributes.java:43-53 | a null name gives null; otherwise the first attribute with that name, null when none has it, or a NullPointerException when an unnamed attribute comes first |
| AttributeTable.Find | src/main/java/com/viridiansoftware/java/attributes/Attributes.java:47-52 | the search loop from a position on, with the same three outcomes |
| AttributeTable.GetFindsFirstNamed | src/main/java/com/viridiansoftware/java/attributes/Attributes.java:43-53 | when the k-th attribute is the first named so, `get` returns it |
| AttributeTable.SourceFile | src/main/java/com/viridiansoftware/java/attributes/Attributes.java:67-73 | `getSourceFile`: null without a SourceFile attribute, and otherwise the pool string at the u2 that opens its payload |
| SmallAttributes.ReadInnerClassRef | src/main/java/com/viridiansoftware/java/attributes/InnerClassRef.java:35-49 | an inner-class entry consumes eight bytes; an outer-class index of 0 gives no outer class |
| SmallAttributes.InnerClassRefRoundTrip | src/main/java/com/viridiansoftware/java/attributes/InnerClassRef.java:35-49 | an encoded entry reads back as its inner class, outer class (none for index 0), name and flags |
| SmallAttributes.InnerClassFlags | src/main/java/com/viridiansoftware/java/attributes/InnerClassRef.java:51-61 | the class flags listed are exactly those wholly set in the entry's word |
| SmallAttributes.ReadEnclosingMethod | src/main/java/com/viridiansoftware/java/attributes/EnclosingMethod.java:29-39 | the attribute consumes four bytes; a method index of 0 gives no NameAndType |
| SmallAttributes.EnclosingMethodRoundTrip | src/main/java/com/viridiansoftware/java/attributes/EnclosingMethod.java:29-39 | an encoded attribute reads back as its class and, for a non-zero index, its NameAndType |
| SmallAttributes.ReadBootstrapArguments | src/main/java/com/viridiansoftware/java/attributes/BootstrapMethod.java:28-42 | a bootstrap method keeps its handle and has exactly its u2 count of arguments |
| SmallAttributes.ReadBootstrapMethods | src/main/java/com/viridiansoftware/java/attributes/BootstrapMethods.java:27-37 | the attribute holds exactly its u2 count of bootstrap methods |
| SmallAttributes.BootstrapMethodRoundTrip | src/main/java/com/viridiansoftware/java/attributes/BootstrapMethod.java:28-42 | an encoded bootstrap method reads back as its handle and the pool slots its argument indices name |
| SmallAttributes.ArgumentsRoundTrip | src/main/java/com/viridiansoftware/java/attributes/BootstrapMethod.java:34-40 | encoded argument indices read back as the pool slots they name |
| SmallAttributes.ReadMethodParameters | src/main/java/com/viridiansoftware/java/MethodParameters.java:27-36 | the attribute holds exactly its u1 count of names and as many flag words |
| SmallAttributes.FromNames | src/main/java/com/viridiansoftware/java/MethodParameters.java:38-41 | built from names alone: the given names, each with flags 0 |
| SmallAttributes.MethodParametersRoundTrip | src/main/java/com/viridiansoftware/java/MethodParameters.java:27-36 | encoded parameters read back with their flags and the pool names their indices give |
| CodeAttributes.ReadTryCatchFinallyAt | src/main/java/com/viridiansoftware/java/TryCatchFinally.java:38-43 | an exception-table entry is four u2 fields; fewer than eight bytes is Truncated, and the catch type is the class at the fourth index, with its cast errors |
| CodeAttributes.TryCatchFinallyRoundTrip | src/main/java/com/viridiansoftware/java/TryCatchFinally.java:38-63 | an encoded entry reads back with its start, end and handler, and is a finally block exactly when its catch-type slot is empty |
| CodeAttributes.ReadCode | src/main/java/com/viridiansoftware/java/attributes/Code.java:48-61 | a Code attribute is max stack, max locals, a 4-byte code length and that many code bytes, then the exception table and an attribute table |
| CodeAttributes.ReadCodeBytes | src/main/java/com/viridiansoftware/java/attributes/Code.java:53-54 | the code array is the 4-byte length and exactly that many bytes |
| CodeAttributes.ReadExceptionTable | src/main/java/com/viridiansoftware/java/attributes/Code.java:56-59 | the exception table holds exactly its u2 count of entries |
| CodeAttributes.CodeRoundTrip | src/main/java/com/viridiansoftware/java/attributes/Code.java:48-61 | an encoded Code attribute reads back as its max stack, max locals, code bytes, handlers and one attribute per record |
| CodeAttributes.ExceptionTableRoundTrip | src/main/java/com/viridiansoftware/java/attributes/Code.java:56-59 | encoded handlers read back in order |
| CodeAttributes.AttributesRoundTrip | src/main/java/com/viridiansoftware/java/attributes/Code.java:60 | an encoded attribute table reads back with each record's pool name and payload |
| CodeAttributes.EmptyCode | src/main/java/com/viridiansoftware/java/attributes/Code.java:63-73 | the empty Code has no code bytes, zero limits, no handlers and no attribute table |
| CodeAttributes.AttributeOf | src/main/java/com/viridiansoftware/java/attributes/Code.java:89-98 | looking up a Code attribute dereferences the attribute table, a NullPointerException when it is missing |
| CodeAttributes.FirstLineNr | src/main/java/com/viridiansoftware/java/attributes/Code.java:112-119 | -1 without a LineNumberTable, otherwise the table's minimum line |
| CodeAttributes.LastLineNr | src/main/java/com/viridiansoftware/java/attributes/Code.java:121-128 | -1 without a LineNumberTable, otherwise the table's maximum line |
| CodeAttributes.NoLineNumberTable | src/main/java/com/viridiansoftware/java/attributes/Code.java:112-128 | when no attribute is a LineNumberTable, both line numbers are -1 |
| CodeAttributes.NothingNamed | src/main/java/com/viridiansoftware/java/attributes/Attributes.java:47-52 | the search over attributes none of which has the name finds nothing |
| CodeAttributes.EmptyCodeLineNumbersFail | src/main/java/com/viridiansoftware/java/attributes/Code.java:63-73 | on the empty Code, asking for a line number is a NullPointerException |
| CodeAttributes.SignExtend | src/main/java/com/viridiansoftware/java/attributes/Code.java:145 | a Java `byte` widened to `int` lies in [-128, 128) and is congruent to the byte modulo 256 |
| CodeAttributes.OperandIndex | src/main/java/com/viridiansoftware/java/attributes/Code.java:145 | the intended u2 operand: hi*256+lo, below 65536 |
| CodeAttributes.IndexAsWrittenValue | src/main/java/com/viridiansoftware/java/attributes/Code.java:145 | as written, `codeData[2] & 0xFF << 8` is `hi & 0xFF00`, so the index is lo, plus 0xFF00 when hi is 0x80 or more |
| CodeAttributes.IndexAsWrittenAgrees | src/main/java/com/viridiansoftware/java/attributes/Code.java:145 | the written and intended indices agree exactly when the high byte is 0 or 0xFF |
| CodeAttributes.OwnerIs | src/main/java/com/viridiansoftware/java/attributes/Code.java:146-147 | true exactly when the slot holds a method reference whose class is the given super class; the cast's failures otherwise |
| CodeAttributes.StartWithSuperInitAsWritten | src/main/java/com/viridiansoftware/java/attributes/Code.java:143-150 | as written: false unless the code opens with `aload_0; invokespecial`, and then true exactly when the slot at the misread index is a method reference owned by the super class |
| CodeAttributes.StartWithSuperInit | src/main/java/com/viridiansoftware/java/attributes/Code.java:143-150 | false unless the code opens with `aload_0; invokespecial`, and then true exactly when the slot at the u2 operand is a method reference owned by the super class |
| CodeAttributes.IsSuperInitReturn | src/main/java/com/viridiansoftware/java/attributes/Code.java:162-169 | false unless the code is exactly `aload_0; invokespecial; return`, and then true exactly when the operand names a method reference owned by the super class |
| CodeAttributes.IsSuperInitReturnAsWritten | src/main/java/com/viridiansoftware/java/attributes/Code.java:162-169 | as written: false unless the code has that shape, and then the same as the written start check |
| CodeAttributes.SuperInitReturnStartsWithSuperInit | src/main/java/com/viridiansoftware/java/attributes/Code.java:143-169 | a super-init-return body also starts with the super init, and on that shape the two checks agree |
| CodeAttributes.SmallPoolsAgree | src/main/java/com/viridiansoftware/java/attributes/Code.java:145 | with a zero high operand byte the written check and the intended check agree |
| CodeAttributes.SuperInitIndexMisread | src/main/java/com/viridiansoftware/java/attributes/Code.java:145-147 | the operand 0x0105 is read as 5, so a constructor calling the super class through pool slot 0x105 fails as written and is recognised when corrected |
| LocalVariables.NewTable | src/main/java/com/viridiansoftware/java/attributes/LocalVariableTable.java:39-43 | a new table has maxLocals empty slots and as many empty positions |
| LocalVariables.Load | src/main/java/com/viridiansoftware/java/attributes/LocalVariableTable.java:59-66 | the entry loop yields one variable per remaining entry, each with an index below maxLocals |
| LocalVariables.Entries | src/main/java/com/viridiansoftware/java/attributes/LocalVariableTable.java:56-66 | the table holds exactly its u2 count of entries |
| LocalVariables.FirstWithIndex | src/main/java/com/viridiansoftware/java/attributes/LocalVariableTable.java:59-66 | the slot for index j is the first entry with index j, and empty exactly when no entry has it |
| LocalVariables.Compact | src/main/java/com/viridiansoftware/java/attributes/LocalVariableTable.java:68-75 | the occupied slots in order: exactly the non-empty ones |
| LocalVariables.Read | src/main/java/com/viridiansoftware/java/attributes/LocalVariableTable.java:56-76 | `read` fails exactly when the entries do; otherwise slot j holds the first entry with index j, and with positions the occupied slots are packed to the front and the rest empty |
| LocalVariables.FillSlots | src/main/java/com/viridiansoftware/java/attributes/LocalVariableTable.java:59-66 | the fill loop leaves in slot j the first entry with index j |
| LocalVariables.Pack | src/main/java/com/viridiansoftware/java/attributes/LocalVariableTable.java:68-75 | the position loop puts the occupied slots first, in order, and leaves the rest empty |
| LocalVariables.GetAt | src/main/java/com/viridiansoftware/java/attributes/LocalVariableTable.java:114-116 | `get(i)` succeeds exactly for a slot index and returns that slot; otherwise IndexOutOfRange |
| LocalVariables.GetPosition | src/main/java/com/viridiansoftware/java/attributes/LocalVariableTable.java:102-104 | `getPosition(i)` succeeds exactly for a position index and returns that position |
| LocalVariables.GetNamedAsWritten | src/main/java/com/viridiansoftware/java/attributes/LocalVariableTable.java:125-135 | as written: null name gives null; otherwise the first slot with the name, or a NullPointerException when an empty slot comes first |
| LocalVariables.ScanAsWritten | src/main/java/com/viridiansoftware/java/attributes/LocalVariableTable.java:128-134 | the written search loop from a position on, with the same outcomes |
| LocalVariables.GetNamed | src/main/java/com/viridiansoftware/java/attributes/LocalVariableTable.java:125-135 | the corrected lookup: the first occupied slot with the name, skipping empty slots; null exactly when none has it |
| LocalVariables.Scan | src/main/java/com/viridiansoftware/java/attributes/LocalVariableTable.java:128-134 | the corrected search loop from a position on |
| LocalVariables.GetNamedAgreesWhenFull | src/main/java/com/viridiansoftware/java/attributes/LocalVariableTable.java:125-135 | with every slot occupied the written and corrected lookups agree |
| LocalVariables.LookupPastLongFails | src/main/java/com/viridiansoftware/java/attributes/LocalVariableTable.java:130 | a long in slot 0 leaves slot 1 empty, so looking up the variable in slot 2 fails as written and succeeds when corrected |
| LocalVariables.FirstWithIndexSnoc | src/main/java/com/viridiansoftware/java/attributes/LocalVariableTable.java:59-66 | appending an entry changes the slot for j only when no earlier entry had index j |
| Members.ReadMember | src/main/java/com/viridiansoftware/java/MethodInfo.java:63-77 | a field or method is a u2 flag word, a pool name, a pool descriptor and an attribute table; a name that does not cast to String fails the same way |
| Members.MemberRoundTrip | src/main/java/com/viridiansoftware/java/FieldInfo.java:57-70 | an encoded member reads back with its flags, pool name, pool descriptor and attributes |
| Members.ShortOperand | src/main/java/com/viridiansoftware/java/MethodInfo.java:298 | `readShort` of an attribute's payload: null without the attribute, the look-up's failure, Truncated when the payload has fewer than two bytes, otherwise hi*256+lo less 65536 when hi >= 0x80, so a value in [-32768, 32768) |
| Members.UnsignedOperand | src/main/java/com/viridiansoftware/java/FieldInfo.java:190 | the intended u2 read of an attribute's payload: null without the attribute, the look-up's failure, Truncated when the payload has fewer than two bytes, otherwise hi*256+lo in [0, 65536) |
| Members.OperandReadingsAgree | src/main/java/com/viridiansoftware/java/FieldInfo.java:190 | the signed and unsigned readings agree exactly when the high byte is below 0x80, and otherwise differ by 65536 |
| Members.SignatureAsWritten | src/main/java/com/viridiansoftware/java/MethodInfo.java:292-302 | as written: null without a Signature attribute, otherwise the pool string at the signed index |
| Members.Signature | src/main/java/com/viridiansoftware/java/FieldInfo.java:184-194 | null without a Signature attribute, otherwise the pool string at the unsigned index |
| Members.SignatureReadingsAgree | src/main/java/com/viridiansoftware/java/MethodInfo.java:298 | for pool indices below 0x8000 the written and corrected readings agree |
| Members.HighSignatureIndexMisread | src/main/java/com/viridiansoftware/java/FieldInfo.java:190 | a Signature at pool index 0x8000 is read as -32768 and fails as written, and found when corrected |
| Members.ConstantValueAsWritten | src/main/java/com/viridiansoftware/java/FieldInfo.java:203-213 | as written: null without a ConstantValue attribute, otherwise `get` of the signed index |
| Members.ConstantValue | src/main/java/com/viridiansoftware/java/FieldInfo.java:203-213 | null without the attribute, otherwise the slot at the unsigned index, or IndexOutOfRange past the pool |
| Members.HighConstantValueIndexMisread | src/main/java/com/viridiansoftware/java/FieldInfo.java:209 | a ConstantValue at pool index 0x8000 is read as -32768 and fails with IndexOutOfRange(-32768) as written, and is found when corrected |
| Members.ConstantValueReadingsAgree | src/main/java/com/viridiansoftware/java/FieldInfo.java:209 | for indices below 0x8000 the two readings agree |
| Members.FieldSignature | src/main/java/com/viridiansoftware/java/FieldInfo.java:232-240 | the parsed field signature exists exactly when `getSignature` in the chosen reading succeeds, is null exactly when that text is null, is the parse of that text, and fails with its failure (as written, the index is read with `readShort`) |
| Members.MethodSignatureText | src/main/java/com/viridiansoftware/java/MethodInfo.java:327-336 | the text a method signature is parsed from: the Signature attribute's text when `getSignature` in the chosen reading finds one, otherwise the descriptor, and that reading's failure otherwise (as written, the index is read with `readShort`) |
| Members.HighMethodSignatureIndex | src/main/java/com/viridiansoftware/java/MethodInfo.java:298 | a method whose Signature is at pool index 0x8000: as written the signature text fails on index -32768; corrected it is the signature, not the descriptor |
| Members.Decoded | src/main/java/com/viridiansoftware/java/MethodInfo.java:236-264 | an attribute-backed getter is null (or its default) without the attribute, and otherwise the decoding of the attribute's payload |
| Members.CodeOf | src/main/java/com/viridiansoftware/java/MethodInfo.java:266-275 | `getCode` is null without a Code attribute, and otherwise succeeds exactly when its payload decodes, giving that Code |
| Members.MethodParametersOf | src/main/java/com/viridiansoftware/java/MethodInfo.java:304-315 | without the attribute, no names; with it, exactly the `MethodParameters` its payload decodes to, and that decoder's failure when it fails; always as many names as flag words, at most 255 |
| ClassFiles.ReadHeader | src/main/java/com/viridiansoftware/java/ClassFile.java:69-74 | fewer than four bytes is Truncated, a wrong magic is BadMagic, and otherwise the minor and major versions follow 0xCAFEBABE |
| ClassFiles.MagicIff | src/main/java/com/viridiansoftware/java/ClassFile.java:69-72 | the u4 read equals 0xCAFEBABE exactly when the first four bytes are CA FE BA BE |
| ClassFiles.MagicSpelling | src/main/java/com/viridiansoftware/java/ClassFile.java:70 | 0xCAFEBABE is the byte string CA FE BA BE |
| ClassFiles.HeaderRoundTrip | src/main/java/com/viridiansoftware/java/ClassFile.java:69-74 | an encoded header reads back as its two versions |
| ClassFiles.ReadClassIndex | src/main/java/com/viridiansoftware/java/ClassFile.java:85-86 | a class index is the class at a u2 pool index, with its cast errors |
| ClassFiles.ReadList | src/main/java/com/viridiansoftware/java/ClassFile.java:87-92 | a u2 count followed by exactly that many items |
| ClassFiles.ReadClassBody | src/main/java/com/viridiansoftware/java/ClassFile.java:77-93 | the body is the flag word, this class, super class, interfaces, fields, methods and attributes in that order |
| ClassFiles.ReadListRoundTrip | src/main/java/com/viridiansoftware/java/ClassFile.java:269-283 | a counted list of encoded items reads back as those items |
| ClassFiles.InterfacesRoundTrip | src/main/java/com/viridiansoftware/java/ClassFile.java:87-90 | encoded interface indices read back as the classes they name |
| ClassFiles.MembersRoundTrip | src/main/java/com/viridiansoftware/java/ClassFile.java:269-283 | encoded fields or methods read back in order |
| ClassFiles.MemberSourceRoundTrip | src/main/java/com/viridiansoftware/java/ClassFile.java:269-283 | one encoded member reads back as that member |
| ClassFiles.TableRoundTrip | src/main/java/com/viridiansoftware/java/ClassFile.java:93 | the class's encoded attribute table reads back |
| ClassFiles.BodyRoundTrip | src/main/java/com/viridiansoftware/java/ClassFile.java:77-93 | an encoded class body reads back as its flags, classes, interfaces, fields, methods and attributes |
| ClassFiles.SignatureAt | src/main/java/com/viridiansoftware/java/ClassFile.java:100-102 | the signature string must exist: an empty slot is a NullPointerException at `signature.length()` |
| ClassFiles.ClassSignatureAsWritten | src/main/java/com/viridiansoftware/java/ClassFile.java:97-100 | as written: null without a Signature attribute, otherwise the pool string at the signed index |
| ClassFiles.ClassSignature | src/main/java/com/viridiansoftware/java/ClassFile.java:97-100 | null without a Signature attribute, otherwise the pool string at the unsigned index |
| ClassFiles.ClassSignatureReadingsAgree | src/main/java/com/viridiansoftware/java/ClassFile.java:99 | for indices below 0x8000 both readings agree |
| ClassFiles.HighClassSignatureIndexMisread | src/main/java/com/viridiansoftware/java/ClassFile.java:99 | a class Signature at pool index 0x8000 fails as written and is found when corrected |
| ClassFiles.SplitFrom | src/main/java/com/viridiansoftware/java/ClassFile.java:101-117 | the split loop stops at the first position at depth 0 that is neither '<' nor '>' |
| ClassFiles.SplitSignature | src/main/java/com/viridiansoftware/java/ClassFile.java:101-117 | this and super signature are both set or both null; when set they concatenate to the signature and split it at the first such position; null exactly when there is none |
| ClassFiles.SplitWithoutTypeParameters | src/main/java/com/viridiansoftware/java/ClassFile.java:101-117 | a signature without type parameters gives an empty this signature and itself as super signature |
| ClassFiles.SplitAfterTypeParameters | src/main/java/com/viridiansoftware/java/ClassFile.java:101-117 | a type-parameter block followed by the super class splits exactly after the block |
| ClassFiles.NoSplitInUnclosedBlock | src/main/java/com/viridiansoftware/java/ClassFile.java:101-117 | a signature whose '<' block never closes leaves both parts null |
| ClassFiles.EnclosingMethodOf | src/main/java/com/viridiansoftware/java/ClassFile.java:132-135 | null without an EnclosingMethod attribute, otherwise its decoding |
| ClassFiles.ReadClassFile | src/main/java/com/viridiansoftware/java/ClassFile.java:67-136 | the header's errors, then the first failing stage's error (pool scan, resolution with the first failing visit in pass order, body, class signature); with those stages through, success exactly when the class signature, the NestHost, NestMembers and InnerClasses look-ups and the EnclosingMethod decoding succeed; on success the versions, the pool (scanned then resolved with the major version), the body, the class signature in the chosen reading (as written, its index read with `readShort`) and its split, and the enclosing method |
| ClassFiles.ReadClassFileOf | src/main/java/com/viridiansoftware/java/ClassFile.java:67-136 | once header, pool, resolution, body and the attribute look-ups succeed, the constructor succeeds with the versions, pool and body those stages produced |
| ClassFiles.FileRoundTrip | src/main/java/com/viridiansoftware/java/ClassFile.java:67-136 | a written header, constant pool and class body read back as a class file with those versions, the pool the entries resolve to and the body written, when the pool is layered and its Signature and EnclosingMethod attributes name fitting entries |
| ClassFiles.GetType | src/main/java/com/viridiansoftware/java/ClassFile.java:382-391 | Interface exactly when bit 0x0200 is set; Enum exactly when it is not and the super class is `java/lang/Enum`; Class otherwise |
| ClassFiles.TypeAgreesWithFlagList | src/main/java/com/viridiansoftware/java/ClassFile.java:382-384 | the type is Interface exactly when the flag list contains INTERFACE |
| ClassFiles.MethodsNamed | src/main/java/com/viridiansoftware/java/ClassFile.java:204-212 | the methods with the name, in order, exactly those |
| ClassFiles.MethodCount | src/main/java/com/viridiansoftware/java/ClassFile.java:223-231 | the counting loop gives the number of methods with the name |
| ClassFiles.SelectNamed | src/main/java/com/viridiansoftware/java/ClassFile.java:169-202 | a filter over the methods by name fails exactly when some method has no name, and otherwise keeps exactly the matching methods in order |
| ClassFiles.ConstructorMethods | src/main/java/com/viridiansoftware/java/ClassFile.java:179-187 | exactly the methods named `<init>`, failing when one has no name |
| ClassFiles.ClassInitialisationMethods | src/main/java/com/viridiansoftware/java/ClassFile.java:169-177 | exactly the methods named `<clinit>` |
| ClassFiles.NonInitMethods | src/main/java/com/viridiansoftware/java/ClassFile.java:189-202 | exactly the methods named neither `<init>` nor `<clinit>` |
| ClassFiles.InitQueriesPartition | src/main/java/com/viridiansoftware/java/ClassFile.java:169-202 | constructors, class initialisers and the rest together count every method exactly once |
| ClassFiles.FieldNamed | src/main/java/com/viridiansoftware/java/ClassFile.java:233-240 | the first field with the name, null exactly when none has it |
| ClassFiles.MethodMatches | src/main/java/com/viridiansoftware/java/MethodInfo.java:409-417 | a method with no name fails; a different name is false; with a descriptor it is descriptor equality; without one it is the type comparison |
| ClassFiles.FindMethod | src/main/java/com/viridiansoftware/java/ClassFile.java:214-221 | the first method that matches the NameAndType, null when none does, or the failure of the first method whose match fails |
| ClassFiles.FindMethodFindsFirstMatch | src/main/java/com/viridiansoftware/java/ClassFile.java:214-221 | when method k is the first match, `getMethod` returns it |
| Annotations.KindOf | src/main/java/com/viridiansoftware/java/attributes/AnnotationElementValue.java:25-47 | tag 'e' is an enum constant, 'c' a class, '@' a nested annotation, '[' an array, and every other tag a constant, each exactly |
| Annotations.ReadTag | src/main/java/com/viridiansoftware/java/attributes/AnnotationElementValuePair.java:30 | a tag is one byte read as a character |
| Annotations.ReadElementValue | src/main/java/com/viridiansoftware/java/attributes/AnnotationElementValue.java:25-47 | an element value consumes input and is of the kind its tag selects; a constant keeps its tag |
| Annotations.ReadElements | src/main/java/com/viridiansoftware/java/attributes/ArrayElementValue.java:26-36 | an array value holds exactly the requested number of elements |
| Annotations.ReadAnnotation | src/main/java/com/viridiansoftware/java/attributes/RuntimeVisibleAnnotation.java:29-36 | an annotation is a pool type descriptor and exactly its u2 count of pairs |
| Annotations.ReadPair | src/main/java/com/viridiansoftware/java/attributes/AnnotationElementValuePair.java:28-33 | a pair is a pool name, a tag byte and a value |
| Annotations.ReadPairs | src/main/java/com/viridiansoftware/java/attributes/RuntimeVisibleAnnotation.java:31-35 | exactly the requested number of pairs |
| Annotations.ReadParameterAnnotation | src/main/java/com/viridiansoftware/java/attributes/RuntimeVisibleParameterAnnotation.java:28-33 | one parameter's annotations: exactly its u2 count |
| Annotations.ReadParameterAnnotations | src/main/java/com/viridiansoftware/java/attributes/RuntimeVisibleParameterAnnotations.java:28-37 | exactly the u1 count of parameters; a count of zero reads nothing more |
| Annotations.ReadAnnotationDefault | src/main/java/com/viridiansoftware/java/attributes/AnnotationDefault.java:15-23 | the first payload byte is the tag, and the default is the element value it introduces; it succeeds exactly when that value decodes |
| Annotations.PairPredicatesExclusive | src/main/java/com/viridiansoftware/java/attributes/AnnotationElementValuePair.java:43-93 | at most one `is...` predicate of a pair holds, and one holds exactly for the tags B C D F I J S Z s e c @ [ |
| Annotations.ConstPredicatesExclusive | src/main/java/com/viridiansoftware/java/attributes/ConstElementValue.java:36-70 | at most one `is...` predicate of a constant holds, and one holds exactly for B C D F I J S Z s |
| Annotations.DistinctTagsExclusive | src/main/java/com/viridiansoftware/java/attributes/AnnotationElementValuePair.java:43-93 | predicates testing a character against distinct tags hold at most once, and some holds exactly when the character is a tag |
| Annotations.FirstIgnoringCase | src/main/java/com/viridiansoftware/java/attributes/RuntimeVisibleAnnotation.java:42-49 | the first key equal ignoring case, null when none matches, or a NullPointerException when a missing key comes first |
| Annotations.GetElementValuePair | src/main/java/com/viridiansoftware/java/attributes/RuntimeVisibleAnnotation.java:42-49 | the first pair whose name equals the name ignoring case, with the same three outcomes |
| Annotations.Normalize | src/main/java/com/viridiansoftware/java/attributes/RuntimeVisibleParameterAnnotation.java:36-38 | a name already starting with 'L' is kept, any other is wrapped as `L...;` |
| Annotations.NormalizeIdempotent | src/main/java/com/viridiansoftware/java/attributes/RuntimeVisibleParameterAnnotation.java:36-38 | normalising twice is normalising once |
| Annotations.GetAnnotationByType | src/main/java/com/viridiansoftware/java/attributes/RuntimeVisibleParameterAnnotation.java:35-45 | a null class is a NullPointerException; otherwise the first annotation whose descriptor equals the normalised class ignoring case |
| Annotations.BareNameFindsDescriptor | src/main/java/com/viridiansoftware/java/attributes/RuntimeVisibleParameterAnnotation.java:35-45 | looking up `java/lang/Foo` and `Ljava/lang/Foo;` give the same annotation |
| Annotations.ValueRoundTrip | src/main/java/com/viridiansoftware/java/attributes/AnnotationElementValue.java:25-47 | any well-formed encoded element value reads back as its decoding, at any nesting |
| Annotations.ElementsRoundTrip | src/main/java/com/viridiansoftware/java/attributes/ArrayElementValue.java:26-36 | encoded array elements read back in order |
| Annotations.AnnotationRoundTrip | src/main/java/com/viridiansoftware/java/attributes/RuntimeVisibleAnnotation.java:29-36 | an encoded annotation reads back with its descriptor and pairs |
| Annotations.PairsRoundTrip | src/main/java/com/viridiansoftware/java/attributes/AnnotationElementValuePair.java:28-33 | encoded pairs read back in order |
| Signatures.IsExtendsWildcard | src/main/java/com/viridiansoftware/java/utils/TypeArgumentUtils.java:22-30 | a type argument is an extends wildcard exactly when its text starts with '+' |
| Signatures.IsSuperWildcard | src/main/java/com/viridiansoftware/java/utils/TypeArgumentUtils.java:32-40 | a super wildcard exactly when its text starts with '-' |
| Signatures.IsAnyType | src/main/java/com/viridiansoftware/java/utils/TypeArgumentUtils.java:42-44 | the any type exactly when its text is `*` |
| Signatures.WildcardTestsExclusive | src/main/java/com/viridiansoftware/java/utils/TypeArgumentUtils.java:22-44 | no type argument is two of the three wildcard kinds |
| Signatures.ClassText | src/main/java/com/viridiansoftware/java/MethodInfo.java:486 | the text of a class type signature opens with 'L' and closes with ';' |
| Signatures.Erase | src/main/java/com/viridiansoftware/java/MethodInfo.java:486-491 | the class name without generics is shorter than the signature text |
| Signatures.EraseGivesBinaryName | src/main/java/com/viridiansoftware/java/MethodInfo.java:486-491 | cutting at '<' (or at ';' without type arguments) and dropping the 'L' gives the package path and the identifier, a non-empty name |
| Signatures.ListOfEExample | src/main/java/com/viridiansoftware/java/MethodInfo.java:486-491 | `Ljava/util/List<TE;>;` erases to `java/util/List` |
| TypeVariables.Resolve | src/main/java/com/viridiansoftware/java/ResolvedTypeVariable.java:28-45 | a resolved variable keeps the name, the class bound and the interface bounds in order (none when the node is missing) |
| TypeVariables.ResolvedParameterRendersBack | src/main/java/com/viridiansoftware/java/ResolvedTypeVariable.java:28-45 | the parameter's text is rebuilt from the resolved variable, so nothing is lost |
| TypeVariables.StripT | src/main/java/com/viridiansoftware/java/ClassFile.java:310-312 | one leading 'T' is dropped and nothing else |
| TypeVariables.ClassResolve | src/main/java/com/viridiansoftware/java/ClassFile.java:306-320 | without a class signature it fails with the name as given; otherwise the first class type parameter named by the stripped name, failing with the stripped name exactly when none is |
| TypeVariables.MethodResolveAsWritten | src/main/java/com/viridiansoftware/java/MethodInfo.java:386-403 | as written: when no accepted method type parameter has the stripped name, the class lookup receives the stripped name and strips again |
| TypeVariables.MethodResolve | src/main/java/com/viridiansoftware/java/MethodInfo.java:386-403 | the first accepted method type parameter with the stripped name; otherwise the class lookup of that same identifier |
| TypeVariables.ResolutionsAgree | src/main/java/com/viridiansoftware/java/MethodInfo.java:402 | the two lookups agree whenever the stripped identifier does not itself start with 'T' |
| TypeVariables.ClassParameterTMissed | src/main/java/com/viridiansoftware/java/MethodInfo.java:402 | the class parameter `T` named by `TT` fails as written and resolves when corrected |
| SameType.SameJavaSymmetric | src/main/java/com/viridiansoftware/java/MethodInfo.java:687-700 | comparing Java type signatures does not depend on which side is which |
| SameType.SameRefSymmetric | src/main/java/com/viridiansoftware/java/MethodInfo.java:652-685 | the reference-type comparison is symmetric |
| SameType.SameClassSymmetric | src/main/java/com/viridiansoftware/java/MethodInfo.java:606-650 | the class-type comparison is symmetric |
| SameType.SameSuffixesSymmetric | src/main/java/com/viridiansoftware/java/MethodInfo.java:555-566 | the suffix-list comparison is symmetric |
| SameType.SameSimpleSymmetric | src/main/java/com/viridiansoftware/java/MethodInfo.java:568-604 | the simple-class comparison is symmetric |
| SameType.SameArgumentsSymmetric | src/main/java/com/viridiansoftware/java/MethodInfo.java:587-600 | the type-argument comparison is symmetric |
| SameType.SameRefReflexive | src/main/java/com/viridiansoftware/java/MethodInfo.java:652-685 | every reference type matches itself |
| SameType.SameClassReflexive | src/main/java/com/viridiansoftware/java/MethodInfo.java:606-650 | every class type matches itself |
| SameType.SameSimpleReflexive | src/main/java/com/viridiansoftware/java/MethodInfo.java:568-604 | every simple class type matches itself |
| SameType.SameSuffixesReflexive | src/main/java/com/viridiansoftware/java/MethodInfo.java:555-566 | every suffix list matches itself |
| SameType.SameArgumentsReflexive | src/main/java/com/viridiansoftware/java/MethodInfo.java:587-600 | every type-argument list matches itself |
| SameType.ChainsMatch | src/main/java/com/viridiansoftware/java/MethodInfo.java:614-636 | the package-specifier walk succeeds exactly when both chains are equal |
| SameType.CutAtAngle | src/main/java/com/viridiansoftware/java/MethodInfo.java:668-671 | a class text cut at its first '<' no longer holds a '<' |
| SameType.VariableAgainstClass | src/main/java/com/viridiansoftware/java/MethodInfo.java:661-683 | a type variable matches a class type exactly when it is bound, to that class's text cut at '<' |
| SameType.ParameterisedBindingNeverMatchesClass | src/main/java/com/viridiansoftware/java/MethodInfo.java:661-683 | a binding holding '<' never matches a class type |
| SameType.UnboundVariableMatchesAnyUnboundOrArray | src/main/java/com/viridiansoftware/java/MethodInfo.java:661-683 | an unbound variable matches any array and any other unbound variable, both sides reducing to the empty text |
| SameType.IndicatorIgnored | src/main/java/com/viridiansoftware/java/MethodInfo.java:587-600 | wildcard indicators are not compared: `? extends X`, `? super X` and `X` all match `X` |
| Overrides.Bind | src/main/java/com/viridiansoftware/java/MethodInfo.java:494-503 | binding the target's type parameters to a class's type arguments fails exactly when the class has type arguments but fewer than there are parameters, and then with a null dereference |
| Overrides.BindContents | src/main/java/com/viridiansoftware/java/MethodInfo.java:494-503 | when the binding succeeds, every parameter is bound to the argument at the position of its last occurrence (or to `Ljava/lang/Object;` without type arguments), and every other key keeps its entry |
| Overrides.InterfaceBindings | src/main/java/com/viridiansoftware/java/MethodInfo.java:506-528 | when no remaining superinterface erases to the key, the bindings are unchanged |
| Overrides.SubstitutionAsWritten | src/main/java/com/viridiansoftware/java/MethodInfo.java:479-528 | as written: a class with superinterfaces and no superclass is a NullPointerException, since the interface loop reads the superclass text |
| Overrides.Substitution | src/main/java/com/viridiansoftware/java/MethodInfo.java:479-528 | when neither the superclass nor any superinterface erases to the declaring class's name, nothing is bound |
| Overrides.SuperclassArgumentsBound | src/main/java/com/viridiansoftware/java/MethodInfo.java:485-505 | when the superclass erases to the declaring class, each of its type parameters is bound to the matching superclass type argument |
| Overrides.ThisSignatureShape | src/main/java/com/viridiansoftware/java/ClassFile.java:101-117 | the this-signature key is null, empty, or opens with '<' or '>' |
| Overrides.ErasureIsNeverAThisSignature | src/main/java/com/viridiansoftware/java/MethodInfo.java:479-493 | no class name erasure ever equals the this-signature key |
| Overrides.AsWrittenBindsNothing | src/main/java/com/viridiansoftware/java/MethodInfo.java:479-528 | as written the substitution never binds a type variable: it is empty, or a NullPointerException |
| Overrides.GenericMatch | src/main/java/com/viridiansoftware/java/MethodInfo.java:462-543 | without both class signatures it compares signature texts; otherwise true exactly when void-ness and argument counts agree, the bindings exist and return and arguments match under them |
| Overrides.ImplementsSignatureAsWritten | src/main/java/com/viridiansoftware/java/MethodInfo.java:462-543 | as written: the generic comparison under the substitution keyed by `thisSignature` |
| Overrides.ImplementsSignature | src/main/java/com/viridiansoftware/java/MethodInfo.java:462-543 | the generic comparison under the substitution keyed by the declaring class's name |
| Overrides.ImplementationOf | src/main/java/com/viridiansoftware/java/MethodInfo.java:423-442 | no name is a NullPointerException; otherwise true exactly when the names agree, synthetic methods are allowed or this is not one, and either the descriptors agree (with erasure allowed or no signature on the other) or the other's generic signature is implemented by the chosen reading of `isImplementationOf(ClassFile, MethodSignature)`, whose failure is the only other failure |
| Overrides.ImplementationOfAllowing | src/main/java/com/viridiansoftware/java/MethodInfo.java:444-460 | a same-named method with the same descriptor always implements under the two-argument form, in either reading |
| Overrides.ImplementationOfDefault | src/main/java/com/viridiansoftware/java/MethodInfo.java:419-421 | the one-argument form is the three-argument form with erasure allowed and synthetic methods rejected, in the same reading |
| Overrides.TwoArgumentFormAllowsErased | src/main/java/com/viridiansoftware/java/MethodInfo.java:444-460 | in either reading, the two-argument form is the three-argument form with erasure allowed |
| Overrides.ErasedMatchOnlyForSignatures | src/main/java/com/viridiansoftware/java/MethodInfo.java:423-442 | in either reading, erasure matters only when the other method has a signature and the descriptors agree |
| Overrides.ErasureOfOneArgument | src/main/java/com/viridiansoftware/java/MethodInfo.java:486-491 | a class with one type argument erases to its name |
| Overrides.BindOne | src/main/java/com/viridiansoftware/java/MethodInfo.java:494-503 | one parameter and one argument bind the parameter to the argument's text |
| Overrides.VariableAgainstPlainClass | src/main/java/com/viridiansoftware/java/MethodInfo.java:661-683 | an unbound variable never matches a plain class, and one bound to the class text does |
| Overrides.SuperclassBindingMissed | src/main/java/com/viridiansoftware/java/MethodInfo.java:479-493 | `class Sub extends Base<String>` overriding `foo(T)` with `foo(String)` is rejected as written and accepted when corrected |
| Overrides.SuperclassOverrideMissed | src/main/java/com/viridiansoftware/java/MethodInfo.java:423-442 | through the three-argument `isImplementationOf`, `foo(String)` in `Sub extends Base<String>` against `foo(T)` is false as written and true when corrected, whatever the erasure flag |
| Overrides.SuperinterfaceBindingMissed | src/main/java/com/viridiansoftware/java/MethodInfo.java:506-528 | a type parameter bound through a superinterface is missed as written and bound when corrected |

## Left out

- Stream plumbing: `DataInputStream`, `close()` and `IOException` from the stream. A decoder consumes a byte sequence and returns the rest.
- The modified-UTF-8 decoding of `readUTF` is a parameter (`Utf8Decoder`). The u2 length prefix, the bytes handed to the decoder and its rejection are modelled; the decoding itself is not.
- Float and Double pool entries keep their raw bits. IEEE 754 conversion is not modelled.
- The ANTLR `SignatureParser`, and the `MethodSignature`, `ClassSignature` and `MethodDescriptor` wrappers that run it, are not part of this model. Parsed trees are inputs, and `getText()` is rendering.
- `ClassUtils.isSameType(MethodDescriptor, MethodSignature)` is not part of this model. `ClassFiles.MethodMatches` takes its answer as the `sameType` argument.
- The library has two copies each of `Attributes` and `ClassUtils`. Each copy's behaviour is modelled once. `PoolClassUtils` restates the loops of the second `ClassUtils` copy and proves them equal to the first.
- `AccessFlagDef` repeats eight of the `ClassAccessFlag` masks. It is covered by `ClassAccess.Mask`, and its one check by `ClassAccess.UnitTestPublicFinal`.
- `Member` and `ConstantNameAndType` are plain interfaces and records, modelled as datatypes with no operations of their own.
- ClassFiles.ReadClassFile: requires a layered pool (`PoolLayered`), where every entry reads only entries of a lower layer. This excludes more than the pools on which the constructor never returns, such as a self-referencing member reference (`ConstantPoolResolve.SelfReferenceWaitsForever`). It also excludes pools the source does get through, and their outcomes are not modelled (`ConstantPoolResolve.LayeredExcludesPlaceholderOperands`):
  - a Class, NameAndType or MethodType entry whose operand is still a placeholder throws a ClassCastException (constants/ConstantPool.java:88, 115, 177), unless the operand was resolved earlier in the same pass;
  - a String, Module or Package entry over a placeholder copies whatever the slot holds at that moment (constants/ConstantPool.java:91);
  - a member reference whose class or NameAndType operand is a member reference, dynamic entry or method handle waits for it, then throws a ClassCastException (constants/ConstantPool.java:97, 104, 111).
- ClassFiles.FileRoundTrip: takes as premises that the written Signature and EnclosingMethod attributes name pool entries of the right kind. Those look-ups read the resolved pool, and the round trip does not describe which pools satisfy them.
- ConstantPoolResolve.ResolvePool: requires `Layered`, and so leaves out the same pools: those it never finishes on, and those on which the source stops with a ClassCastException or copies a placeholder, with an outcome that depends on slot order.
- The text of the library's `IOException` messages is not modelled, only which failure occurs. The kinds 5/8 message names `ConstantFieldRef` where `ConstantMethodRef` is meant (constants/ConstantPool.java:138). It is a message-only slip.
- `LocalVariable` entry decoding is a parameter (`EntryReader`). `Code.getLocalVariableTable` calls `read` with one argument (attributes/Code.java:107), which does not match the two-argument `read`; the model uses the two-argument form.
- The `LineNumberTable` class is not part of this model. Its minimum and maximum lines are parameters of `FirstLineNr` and `LastLineNr`.
- Lazy caches (`annotationDefault`, `code`, `signature`, `methodSignature`, `classAccessFlags`) are not modelled. A getter is its first computation.
- `MethodInfo.resolveTypeVariable` reads the `methodSignature` field directly, which is only set after `getMethodSignature()` has run. The model takes the parsed signature as given.
- `NestHost`, `NestMembers`, `InnerClasses` (the list), `LineNumberTable`, `RuntimeVisibleAnnotations` (the list), `EnumConstElementValue`, `ClassElementValue` and `AnnotationValue` are not part of this model beyond the layouts the element-value reader consumes.
- `BootstrapMethods` is decoded but only stored by `Code`. How the bootstrap methods are used is not modelled.
- `printAttributeNames` is console output and is not modelled.
- `getMethodArgumentName` catches any exception and falls back to `"arg" + i`. It is not modelled.
- `getTotalMethodArguments` prefers the descriptor's count. The model takes the argument list of the parsed signature.
- The source-file name carried by `UnresolvedTypeVariableException` is dropped. The failure carries only the variable name.
- `MethodView` and `ClassView` are already-decoded views of a method and its declaring class: name, descriptor, flags, parsed signature and class signature.
- `TestParsing` reads class files from the test classpath. It is I/O only and has no model.
- `EqualsIgnoreCase` folds ASCII letters only. Java's full Unicode case folding is not modelled.
- DescriptorUtils.GenericTypes: requires the first '<' to come before the last '>'. Otherwise the source throws `StringIndexOutOfBoundsException` from `substring`, and that exception is not modelled.
- DescriptorUtils.ReferenceClass: requires a non-empty name. The source throws `StringIndexOutOfBoundsException` on `charAt(0)`.
- PoolClassUtils.ReferenceClass: requires a non-empty name, like `DescriptorUtils.ReferenceClass`, for the same reason.
- DescriptorUtils.PrimitiveTypeOfName: requires an element character after the brackets, for the same reason.
- PoolClassUtils.PrimitiveTypeOfName: requires an element character after the brackets, like `DescriptorUtils.PrimitiveTypeOfName`.
- ConstantPoolQueries.ConstantFieldDescriptors: requires every field reference to carry a NameAndType. The source would throw a `NullPointerException` in `getType()`.
- ConstantPoolQueries.ConstantMethodDescriptors: requires the same of method references.
- Constants.HandleName: requires the handle's target to fit its kind and carry a NameAndType, which `CheckHandle` guarantees for every handle the pool builds.

## Findings

| source | as written | input that shows it | evidently intended | confidence | as-written member | corrected member |
|---|---|---|---|---|---|---|
| src/main/java/com/viridiansoftware/java/MethodUtils.java:31-45 | an object parameter's length is `j - start`, which stops before its ';' | `(Ljava/lang/String;I)V` with two names: the ';' is read as the next type code and the switch on null throws | the length reaches past the ';' so the next parameter starts after it | not executed | MethodUtils.ObjectThenIntAborts | MethodUtils.ParametersRoundTrip |
| src/main/java/com/viridiansoftware/java/MethodUtils.java:68-73 | a primitive array of two or more dimensions takes `offset` characters, which leaves out the last '[' and the element code | `([[II)V` with two names reads `[` and `[I` | the token is every bracket plus the element code | not executed | MethodUtils.TwoDimensionalIntMisread | MethodUtils.NestedArrayTokenRoundTrip |
| src/main/java/com/viridiansoftware/java/attributes/Code.java:145 | `codeData[2] & 0xFF << 8` binds as `codeData[2] & 0xFF00`, so the index loses its high byte | code `2a b7 01 05 b1` calling the super class through pool slot 0x105 reads slot 5 | `((codeData[2] & 0xFF) << 8) + (codeData[3] & 0xFF)` | not executed | CodeAttributes.SuperInitIndexMisread | CodeAttributes.StartWithSuperInit |
| src/main/java/com/viridiansoftware/java/attributes/LocalVariableTable.java:130 | `get(String)` dereferences every slot, but slots after a long or double are null | a long in slot 0 and `y` in slot 2: looking up "y" throws | skip empty slots | not executed | LocalVariables.LookupPastLongFails | LocalVariables.GetNamed |
| src/main/java/com/viridiansoftware/java/FieldInfo.java:190 | `readShort` reads the Signature pool index as signed | a Signature at pool index 0x8000 is read as -32768 | `readUnsignedShort`, as for every other u2 pool index | not executed | Members.HighSignatureIndexMisread | Members.Signature |
| src/main/java/com/viridiansoftware/java/FieldInfo.java:209 | `readShort` reads the ConstantValue pool index as signed | a ConstantValue at pool index 0x8000 is read as -32768 | `readUnsignedShort` | not executed | Members.HighConstantValueIndexMisread | Members.ConstantValue |
| src/main/java/com/viridiansoftware/java/ClassFile.java:99 | `readShort` reads the class Signature pool index as signed | a class Signature at pool index 0x8000 is read as -32768 | `readUnsignedShort` | not executed | ClassFiles.HighClassSignatureIndexMisread | ClassFiles.ClassSignature |
| src/main/java/com/viridiansoftware/java/MethodInfo.java:479 | the class erasure of the superclass is compared with `getThisSignature()`, the type-parameter block, which is never a class name | `class Sub extends Base<String>`, overriding `foo(T)` with `foo(String)`, is rejected | compare with the declaring class's own name | not executed | Overrides.SuperclassOverrideMissed | Overrides.ImplementsSignature |
| src/main/java/com/viridiansoftware/java/MethodInfo.java:508 | the superinterface loop takes the superclass text instead of the superinterface's | a type parameter bound through an implemented interface is never bound | the current superinterface's text | not executed | Overrides.SuperinterfaceBindingMissed | Overrides.Substitution |
| src/main/java/com/viridiansoftware/java/MethodInfo.java:402 | the already-stripped name is handed to `ClassFile.resolveTypeVariable`, which strips a leading 'T' again | the class parameter `T` named `TT` is looked up as "" and not found | hand over the name as received | not executed | TypeVariables.ClassParameterTMissed | TypeVariables.MethodResolve |

=== FILE: access_flags.dfy ===
/** Mask arithmetic on the 16-bit `access_flags` word (section 4.1, table 4.1-A;
    section 4.5, table 4.5-A; section 4.6, table 4.6-A of the Java Virtual
    Machine Specification). */
module AccessMasks {

  /** The 16-bit `access_flags` word. */
  type u2 = bv16

  /** The word `readUnsignedShort` returned, as bits. */
  function FlagWord(v: nat): u2
    requires v < 0x1_0000
  {
    v as bv16
  }

  /** `(mask & flags) == mask`: the form used to build flag lists and by the method predicates. */
  predicate WhollySet(flags: u2, mask: u2) {
    (flags & mask) == mask
  }

  /** `(flags & mask) > 0`: the form used by the class and field predicates. */
  predicate AnySet(flags: u2, mask: u2) {
    (flags & mask) != 0
  }

  predicate SingleBit(mask: u2) {
    mask in {0x0001, 0x0002, 0x0004, 0x0008, 0x0010, 0x0020, 0x0040, 0x0080,
             0x0100, 0x0200, 0x0400, 0x0800, 0x1000, 0x2000, 0x4000, 0x8000}
  }

  /** For a one-bit mask the two tests agree, so `> 0` and `== mask` are interchangeable. */
  lemma SingleBitTestsAgree(flags: u2, mask: u2)
    requires SingleBit(mask)
    ensures WhollySet(flags, mask) <==> AnySet(flags, mask)
  {
  }
}

/** `ClassAccessFlag`: the flags of a class or of an inner-class entry. */
module ClassAccess {
  import opened AccessMasks
  import opened Selection

  datatype Flag = Public | Private | Protected | Static | Final | Super
                | Interface | Abstract | Synthetic | Annotation | Enum

  function Mask(f: Flag): (m: u2)
    ensures SingleBit(m)
  {
    match f
    case Public => 0x0001
    case Private => 0x0002
    case Protected => 0x0004
    case Static => 0x0008
    case Final => 0x0010
    case Super => 0x0020
    case Interface => 0x0200
    case Abstract => 0x0400
    case Synthetic => 0x1000
    case Annotation => 0x2000
    case Enum => 0x4000
  }

  /** `ClassAccessFlag.values()`, in declaration order. */
  const Values: seq<Flag> := [Public, Private, Protected, Static, Final, Super,
                              Interface, Abstract, Synthetic, Annotation, Enum]

  /** Position of a flag in declaration order. */
  function Ordinal(f: Flag): (i: nat)
    ensures i < |Values| && Values[i] == f
  {
    match f
    case Public => 0
    case Private => 1
    case Protected => 2
    case Static => 3
    case Final => 4
    case Super => 5
    case Interface => 6
    case Abstract => 7
    case Synthetic => 8
    case Annotation => 9
    case Enum => 10
  }

  function SetIn(flags: u2): Flag -> bool {
    f => WhollySet(flags, Mask(f))
  }

  /** The flag list built while decoding a class or an inner-class entry: every
      flag whose mask is wholly set, each once, in declaration order. */
  function FlagsOf(flags: u2): (r: seq<Flag>)
    ensures SelectsExactly(Values, SetIn(flags), Id, r)
    ensures forall f :: f in r <==> WhollySet(flags, Mask(f))
  {
    var r := Filter(Values, SetIn(flags));
    forall f ensures f in r <==> WhollySet(flags, Mask(f)) {
      var i := Ordinal(f);
      assert SetIn(flags)(Values[i]) == WhollySet(flags, Mask(f));
    }
    r
  }

  /** Masks are pairwise distinct and `Values` lists every flag exactly once. */
  lemma MasksDistinct()
    ensures forall f, g :: Mask(f) == Mask(g) ==> f == g
    ensures forall i, j :: 0 <= i < j < |Values| ==> Values[i] != Values[j]
  {
  }

  /** `isPublic`, `isProtected`, `isPrivate` test `> 0`; since every mask is one
      bit, they agree with membership in the flag list. */
  lemma AnySetIffListed(flags: u2, f: Flag)
    ensures AnySet(flags, Mask(f)) <==> f in FlagsOf(flags)
  {
    SingleBitTestsAgree(flags, Mask(f));
  }

  /** Package visibility: none of private, public, protected. */
  function IsDefaultScope(flags: u2): (r: bool)
    ensures r <==> (flags & 0x0007) == 0
    ensures r <==> Public !in FlagsOf(flags) && Protected !in FlagsOf(flags) && Private !in FlagsOf(flags)
  {
    AnySetIffListed(flags, Public);
    AnySetIffListed(flags, Protected);
    AnySetIffListed(flags, Private);
    !AnySet(flags, Mask(Private)) && !AnySet(flags, Mask(Public)) && !AnySet(flags, Mask(Protected))
  }

  /** The class-flag unit test: FINAL and PUBLIC are in 0x0011, FINAL is not in 0x1000. */
  lemma UnitTestPublicFinal()
    ensures Public in FlagsOf(0x0011) && Final in FlagsOf(0x0011)
    ensures forall f :: f in FlagsOf(0x0011) ==> f == Public || f == Final
    ensures Final !in FlagsOf(0x1000)
  {
  }
}

/** `MethodAccessFlag`: the flags of a method. */
module MethodAccess {
  import opened AccessMasks
  import opened Selection

  datatype Flag = Public | Private | Protected | Static | Final | Synchronized
                | Bridge | VarArgs | Native | Abstract | Strict | Synthetic

  function Mask(f: Flag): (m: u2)
    ensures SingleBit(m)
  {
    match f
    case Public => 0x0001
    case Private => 0x0002
    case Protected => 0x0004
    case Static => 0x0008
    case Final => 0x0010
    case Synchronized => 0x0020
    case Bridge => 0x0040
    case VarArgs => 0x0080
    case Native => 0x0100
    case Abstract => 0x0400
    case Strict => 0x0800
    case Synthetic => 0x1000
  }

  const Values: seq<Flag> := [Public, Private, Protected, Static, Final, Synchronized,
                              Bridge, VarArgs, Native, Abstract, Strict, Synthetic]

  /** Position of a flag in declaration order. */
  function Ordinal(f: Flag): (i: nat)
    ensures i < |Values| && Values[i] == f
  {
    match f
    case Public => 0
    case Private => 1
    case Protected => 2
    case Static => 3
    case Final => 4
    case Synchronized => 5
    case Bridge => 6
    case VarArgs => 7
    case Native => 8
    case Abstract => 9
    case Strict => 10
    case Synthetic => 11
  }

  function SetIn(flags: u2): Flag -> bool {
    f => WhollySet(flags, Mask(f))
  }

  /** `methodAccessFlags`: every flag whose mask is wholly set, in declaration order. */
  function FlagsOf(flags: u2): (r: seq<Flag>)
    ensures SelectsExactly(Values, SetIn(flags), Id, r)
    ensures forall f :: f in r <==> WhollySet(flags, Mask(f))
  {
    var r := Filter(Values, SetIn(flags));
    forall f ensures f in r <==> WhollySet(flags, Mask(f)) {
      var i := Ordinal(f);
      assert SetIn(flags)(Values[i]) == WhollySet(flags, Mask(f));
    }
    r
  }

  lemma MasksDistinct()
    ensures forall f, g :: Mask(f) == Mask(g) ==> f == g
    ensures forall i, j :: 0 <= i < j < |Values| ==> Values[i] != Values[j]
  {
  }

  /** Each `isX()` predicate: `(flags & mask) == mask`. */
  function Has(flags: u2, f: Flag): (r: bool)
    ensures r <==> f in FlagsOf(flags)
    ensures r <==> AnySet(flags, Mask(f))
  {
    SingleBitTestsAgree(flags, Mask(f));
    WhollySet(flags, Mask(f))
  }

  function IsDefaultScope(flags: u2): (r: bool)
    ensures r <==> (flags & 0x0007) == 0
    ensures r <==> Public !in FlagsOf(flags) && Protected !in FlagsOf(flags) && Private !in FlagsOf(flags)
  {
    !Has(flags, Private) && !Has(flags, Public) && !Has(flags, Protected)
  }

  /** The method-flag unit tests on 0x0401 (public abstract) and 0x0400 (package abstract). */
  lemma UnitTestsScope()
    ensures Has(0x0401, Abstract) && Has(0x0401, Public)
    ensures !Has(0x0400, Public) && !Has(0x0400, Private) && !Has(0x0400, Protected)
    ensures !Has(0x0401, Private) && !Has(0x0401, Protected)
    ensures IsDefaultScope(0x0400) && !IsDefaultScope(0x0401)
  {
  }
}

/** `FieldAccessFlag`: the flags of a field. */
module FieldAccess {
  import opened AccessMasks
  import opened Selection

  datatype Flag = Public | Private | Protected | Static | Final | Volatile
                | Transient | Synthetic | Enum

  function Mask(f: Flag): (m: u2)
    ensures SingleBit(m)
  {
    match f
    case Public => 0x0001
    case Private => 0x0002
    case Protected => 0x0004
    case Static => 0x0008
    case Final => 0x0010
    case Volatile => 0x0040
    case Transient => 0x0080
    case Synthetic => 0x1000
    case Enum => 0x4000
  }

  const Values: seq<Flag> := [Public, Private, Protected, Static, Final, Volatile,
                              Transient, Synthetic, Enum]

  /** Position of a flag in declaration order. */
  function Ordinal(f: Flag): (i: nat)
    ensures i < |Values| && Values[i] == f
  {
    match f
    case Public => 0
    case Private => 1
    case Protected => 2
    case Static => 3
    case Final => 4
    case Volatile => 5
    case Transient => 6
    case Synthetic => 7
    case Enum => 8
  }

  function SetIn(flags: u2): Flag -> bool {
    f => WhollySet(flags, Mask(f))
  }

  /** `fieldAccessFlags`: every flag whose mask is wholly set, in declaration order. */
  function FlagsOf(flags: u2): (r: seq<Flag>)
    ensures SelectsExactly(Values, SetIn(flags), Id, r)
    ensures forall f :: f in r <==> WhollySet(flags, Mask(f))
  {
    var r := Filter(Values, SetIn(flags));
    forall f ensures f in r <==> WhollySet(flags, Mask(f)) {
      var i := Ordinal(f);
      assert SetIn(flags)(Values[i]) == WhollySet(flags, Mask(f));
    }
    r
  }

  lemma MasksDistinct()
    ensures forall f, g :: Mask(f) == Mask(g) ==> f == g
    ensures forall i, j :: 0 <= i < j < |Values| ==> Values[i] != Values[j]
  {
  }

  /** Each field `isX()` predicate: `(flags & mask) > 0`. */
  function Has(flags: u2, f: Flag): (r: bool)
    ensures r <==> f in FlagsOf(flags)
  {
    SingleBitTestsAgree(flags, Mask(f));
    AnySet(flags, Mask(f))
  }

  function IsDefaultScope(flags: u2): (r: bool)
    ensures r <==> (flags & 0x0007) == 0
    ensures r <==> Public !in FlagsOf(flags) && Protected !in FlagsOf(flags) && Private !in FlagsOf(flags)
  {
    !Has(flags, Private) && !Has(flags, Public) && !Has(flags, Protected)
  }
}

=== FILE: annotations.dfy ===
/** Annotation attributes (section 4.7.16 of the Java Virtual Machine
    Specification): the `element_value` tagged union of section 4.7.16.1,
    which nests through arrays and annotations, the element-value pairs, the
    RuntimeVisible(Parameter)Annotations lists and AnnotationDefault. */
module Annotations {
  import opened Wrappers
  import opened Bytes
  import opened Constants
  import opened ConstantPoolQueries
  import opened JavaStrings
  import SmallAttributes

  /** One element value. `ConstValue` keeps its tag and the pool object at
      its index. `EnumConstValue`, `ClassValue` and `AnnotationValue` come
      from classes that are not part of this model; they are given the
      layouts of section 4.7.16.1 (two pool indices, one pool index, a nested
      annotation). */
  datatype ElementValue =
    | ConstValue(tag: char, value: Slot)
    | EnumConstValue(typeName: Slot, constName: Slot)
    | ClassValue(classInfo: Slot)
    | AnnotationValue(annotation: Annotation)
    | ArrayValue(values: seq<ElementValue>)

  /** `AnnotationElementValuePair`: the pool string naming the element, its tag and its value. */
  datatype ElementValuePair = ElementValuePair(elementName: Option<string>, elementTag: char, elementValue: ElementValue)

  /** `RuntimeVisibleAnnotation`: the pool string naming the type, then the pairs. */
  datatype Annotation = Annotation(typeDescriptor: Option<string>, pairs: seq<ElementValuePair>)

  /** Which class `create` instantiates for a tag. */
  datatype ValueKind = ConstKind | EnumKind | ClassKind | AnnotationKind | ArrayKind

  /** `create`'s switch: 'e', 'c', '@' and '[' pick their own class; the
      nine constant tags and, through the `default` label that shares their
      branch, every other tag give a constant value. */
  function KindOf(tag: char): (k: ValueKind)
    ensures k == EnumKind <==> tag == 'e'
    ensures k == ClassKind <==> tag == 'c'
    ensures k == AnnotationKind <==> tag == '@'
    ensures k == ArrayKind <==> tag == '['
    ensures k == ConstKind <==> tag !in "ec@["
  {
    match tag
    case 'e' => EnumKind
    case 'c' => ClassKind
    case '@' => AnnotationKind
    case '[' => ArrayKind
    case _ => ConstKind
  }

  /** The kind of a decoded value. */
  function KindOfValue(v: ElementValue): ValueKind {
    match v
    case ConstValue(_, _) => ConstKind
    case EnumConstValue(_, _) => EnumKind
    case ClassValue(_) => ClassKind
    case AnnotationValue(_) => AnnotationKind
    case ArrayValue(_) => ArrayKind
  }

  /** The tag a reader consumes before `create`: an unsigned byte widened to `char`. */
  function ReadTag(s: seq<byte>): (r: Parse<char>)
    ensures r.Success? <==> |s| >= 1
    ensures r.Success? ==> r.value.0 == s[0] as char && r.value.1 == s[1..] && r.value.0 as int < 256
  {
    var (b, rest) :- ReadU1(s);
    Success((b as char, rest))
  }

  // ---------------------------------------------------------------- readers

  /** `create(tag, pool, input)`: the value's payload after its tag. */
  function ReadElementValue(tag: char, s: seq<byte>, pool: seq<Slot>): (r: Parse<ElementValue>)
    ensures r.Success? ==> |r.value.1| < |s| && KindOfValue(r.value.0) == KindOf(tag)
    ensures r.Success? && KindOf(tag) == ConstKind ==> r.value.0.tag == tag
    decreases |s|, 1
  {
    match KindOf(tag)
    case ConstKind =>
      var (index, rest) :- ReadU2(s);
      var value :- Get(pool, index);
      Success((ConstValue(tag, value), rest))
    case EnumKind =>
      var (typeIndex, afterType) :- ReadU2(s);
      var typeName :- Get(pool, typeIndex);
      var (constIndex, rest) :- ReadU2(afterType);
      var constName :- Get(pool, constIndex);
      Success((EnumConstValue(typeName, constName), rest))
    case ClassKind =>
      var (index, rest) :- ReadU2(s);
      var classInfo :- Get(pool, index);
      Success((ClassValue(classInfo), rest))
    case AnnotationKind =>
      var (annotation, rest) :- ReadAnnotation(s, pool);
      Success((AnnotationValue(annotation), rest))
    case ArrayKind =>
      var (count, afterCount) :- ReadU2(s);
      var (values, rest) :- ReadElements(afterCount, count, pool);
      Success((ArrayValue(values), rest))
  }

  /** `ArrayElementValue`'s loop: `n` values, each a tag byte and `create`. */
  function ReadElements(s: seq<byte>, n: nat, pool: seq<Slot>): (r: Parse<seq<ElementValue>>)
    ensures r.Success? ==> |r.value.1| <= |s| && |r.value.0| == n
    decreases |s|, 0, n
  {
    if n == 0 then Success(([], s))
    else
      var (tag, afterTag) :- ReadTag(s);
      var (first, afterFirst) :- ReadElementValue(tag, afterTag, pool);
      var (others, rest) :- ReadElements(afterFirst, n - 1, pool);
      Success(([first] + others, rest))
  }

  /** The `RuntimeVisibleAnnotation` constructor: type index, u2 pair count, pairs. */
  function ReadAnnotation(s: seq<byte>, pool: seq<Slot>): (r: Parse<Annotation>)
    ensures r.Success? ==> |r.value.1| < |s|
    ensures r.Success? ==> |s| >= 4 && |r.value.0.pairs| == s[2] as int * 256 + s[3] as int
    ensures |s| >= 2 && StringAt(pool, s[0] as int * 256 + s[1] as int).Success? && r.Success? ==>
              r.value.0.typeDescriptor == StringAt(pool, s[0] as int * 256 + s[1] as int).value
    decreases |s|, 0, 0
  {
    var (typeIndex, afterType) :- ReadU2(s);
    var typeDescriptor :- StringAt(pool, typeIndex);
    var (count, afterCount) :- ReadU2(afterType);
    var (pairs, rest) :- ReadPairs(afterCount, count, pool);
    Success((Annotation(typeDescriptor, pairs), rest))
  }

  /** The `AnnotationElementValuePair` constructor: name index, tag byte, value. */
  function ReadPair(s: seq<byte>, pool: seq<Slot>): (r: Parse<ElementValuePair>)
    ensures r.Success? ==> |r.value.1| < |s| && |s| >= 3 && r.value.0.elementTag == s[2] as char
    ensures r.Success? ==> StringAt(pool, s[0] as int * 256 + s[1] as int).Success?
                           && r.value.0.elementName == StringAt(pool, s[0] as int * 256 + s[1] as int).value
    decreases |s|, 0, 0
  {
    var (nameIndex, afterName) :- ReadU2(s);
    var elementName :- StringAt(pool, nameIndex);
    var (tag, afterTag) :- ReadTag(afterName);
    var (value, rest) :- ReadElementValue(tag, afterTag, pool);
    Success((ElementValuePair(elementName, tag, value), rest))
  }

  function ReadPairs(s: seq<byte>, n: nat, pool: seq<Slot>): (r: Parse<seq<ElementValuePair>>)
    ensures r.Success? ==> |r.value.1| <= |s| && |r.value.0| == n
    decreases |s|, 0, n
  {
    if n == 0 then Success(([], s))
    else
      var (first, afterFirst) :- ReadPair(s, pool);
      var (others, rest) :- ReadPairs(afterFirst, n - 1, pool);
      Success(([first] + others, rest))
  }

  function ReadAnnotationAt(pool: seq<Slot>): seq<byte> -> Parse<Annotation> {
    s => ReadAnnotation(s, pool)
  }

  /** `RuntimeVisibleParameterAnnotation`: a u2 count, then that many annotations. */
  function ReadParameterAnnotation(s: seq<byte>, pool: seq<Slot>): (r: Parse<seq<Annotation>>)
    ensures r.Success? ==> |s| >= 2 && |r.value.0| == s[0] as int * 256 + s[1] as int
  {
    var (count, afterCount) :- ReadU2(s);
    ReadCounted(afterCount, count, ReadAnnotationAt(pool))
  }

  function ReadParameterAnnotationAt(pool: seq<Slot>): seq<byte> -> Parse<seq<Annotation>> {
    s => ReadParameterAnnotation(s, pool)
  }

  /** `RuntimeVisibleParameterAnnotations`: a u1 count, then that many
      parameter groups. A zero count reads one byte and gives no groups. */
  function ReadParameterAnnotations(s: seq<byte>, pool: seq<Slot>): (r: Parse<seq<seq<Annotation>>>)
    ensures r.Success? ==> |s| >= 1 && |r.value.0| == s[0] && |r.value.0| < 256
    ensures |s| >= 1 && s[0] == 0 ==> r == Success(([], s[1..]))
  {
    var (count, afterCount) :- ReadU1(s);
    ReadCounted(afterCount, count, ReadParameterAnnotationAt(pool))
  }

  /** `AnnotationDefault`: the payload's first byte is the tag, the rest its value. */
  datatype AnnotationDefault = AnnotationDefault(tag: char, defaultValue: ElementValue)

  function ReadAnnotationDefault(data: seq<byte>, pool: seq<Slot>): (r: Result<AnnotationDefault, DecodeError>)
    ensures r.Success? ==> |data| >= 1 && r.value.tag == data[0] as char && r.value.tag as int < 256
    ensures r.Success? <==> |data| >= 1 && ReadElementValue(data[0] as char, data[1..], pool).Success?
    ensures r.Success? ==> r.value.defaultValue == ReadElementValue(data[0] as char, data[1..], pool).value.0
  {
    var (tag, afterTag) :- ReadTag(data);
    var (value, _) :- ReadElementValue(tag, afterTag, pool);
    Success(AnnotationDefault(tag, value))
  }

  // ---------------------------------------------------------------- tag predicates

  /** `AnnotationElementValuePair`'s thirteen `isX` predicates, in declaration order. */
  function PairPredicates(p: ElementValuePair): seq<bool> {
    var t := p.elementTag;
    [t == 'B', t == 'C', t == 'D', t == 'F', t == 'I', t == 'J', t == 'S', t == 'Z',
     t == 's', t == 'e', t == 'c', t == '@', t == '[']
  }

  /** No two entries hold together. */
  predicate AtMostOne(bs: seq<bool>) {
    forall i, j :: 0 <= i < j < |bs| ==> !(bs[i] && bs[j])
  }

  predicate SomeHolds(bs: seq<bool>) {
    exists i :: 0 <= i < |bs| && bs[i]
  }

  /** Exactly one pair predicate holds for each of the thirteen tags, none for any other. */
  lemma PairPredicatesExclusive(p: ElementValuePair)
    ensures AtMostOne(PairPredicates(p))
    ensures SomeHolds(PairPredicates(p)) <==> p.elementTag in "BCDFIJSZsec@["
  {
    var tags := "BCDFIJSZsec@[";
    var bs := PairPredicates(p);
    assert |bs| == |tags| && forall i :: 0 <= i < |bs| ==> (bs[i] <==> p.elementTag == tags[i]);
    DistinctTagsExclusive(tags, p.elementTag, bs);
  }

  /** `ConstElementValue`'s nine `isX` predicates, in declaration order. */
  function ConstPredicates(tag: char): seq<bool> {
    [tag == 'B', tag == 'C', tag == 'D', tag == 'F', tag == 'I', tag == 'J', tag == 'S', tag == 'Z', tag == 's']
  }

  /** At most one constant predicate holds, and none outside the nine constant tags. */
  lemma ConstPredicatesExclusive(tag: char)
    ensures AtMostOne(ConstPredicates(tag))
    ensures SomeHolds(ConstPredicates(tag)) <==> tag in "BCDFIJSZs"
  {
    var tags := "BCDFIJSZs";
    var bs := ConstPredicates(tag);
    assert |bs| == |tags| && forall i :: 0 <= i < |bs| ==> (bs[i] <==> tag == tags[i]);
    DistinctTagsExclusive(tags, tag, bs);
  }

  /** Tests of one character against pairwise distinct characters: at most
      one succeeds, and one does exactly when the character is among them. */
  lemma DistinctTagsExclusive(tags: string, c: char, bs: seq<bool>)
    requires |bs| == |tags| && forall i :: 0 <= i < |bs| ==> (bs[i] <==> c == tags[i])
    requires forall i, j :: 0 <= i < j < |tags| ==> tags[i] != tags[j]
    ensures AtMostOne(bs)
    ensures SomeHolds(bs) <==> c in tags
  {
    if c in tags {
      var i :| 0 <= i < |tags| && tags[i] == c;
      assert bs[i];
    }
  }

  // ---------------------------------------------------------------- lookups

  /** The first key equal to `target` ignoring case. Each comparison calls a
      method on the key, so a `null` key reached before a match fails; a
      `null` target matches nothing. */
  function FirstIgnoringCase(keys: seq<Option<string>>, target: Option<string>, from: nat): (r: Result<Option<nat>, DecodeError>)
    requires from <= |keys|
    requires forall j :: 0 <= j < from ==> Skipped(keys[j], target)
    ensures r.Success? && r.value.Some? ==>
              from <= r.value.value < |keys| && Matches(keys[r.value.value], target)
              && forall j :: 0 <= j < r.value.value ==> Skipped(keys[j], target)
    ensures r == Success(None) ==> forall j :: 0 <= j < |keys| ==> Skipped(keys[j], target)
    ensures r.Failure? ==> r.error == NullDereference
                            && exists k :: from <= k < |keys| && keys[k].None?
                                           && forall j :: 0 <= j < k ==> Skipped(keys[j], target)
    decreases |keys| - from
  {
    if from == |keys| then Success(None)
    else if keys[from].None? then Failure(NullDereference)
    else if Matches(keys[from], target) then Success(Some(from))
    else FirstIgnoringCase(keys, target, from + 1)
  }

  predicate Matches(key: Option<string>, target: Option<string>) {
    key.Some? && target.Some? && EqualsIgnoreCase(key.value, target.value)
  }

  predicate Skipped(key: Option<string>, target: Option<string>) {
    key.Some? && !Matches(key, target)
  }

  function PairNames(pairs: seq<ElementValuePair>): (r: seq<Option<string>>)
    ensures |r| == |pairs| && forall i :: 0 <= i < |r| ==> r[i] == pairs[i].elementName
  {
    seq(|pairs|, i requires 0 <= i < |pairs| => pairs[i].elementName)
  }

  /** `getElementValuePair(name)`: the first pair whose name equals `name` ignoring case. */
  function GetElementValuePair(a: Annotation, name: Option<string>): (r: Result<Option<ElementValuePair>, DecodeError>)
    ensures r.Success? && r.value.Some? ==>
              exists k :: 0 <= k < |a.pairs| && a.pairs[k] == r.value.value && Matches(a.pairs[k].elementName, name)
                          && forall j :: 0 <= j < k ==> Skipped(a.pairs[j].elementName, name)
    ensures r == Success(None) ==> forall j :: 0 <= j < |a.pairs| ==> Skipped(a.pairs[j].elementName, name)
    ensures r.Failure? ==> r.error == NullDereference
  {
    var k :- FirstIgnoringCase(PairNames(a.pairs), name, 0);
    if k.None? then Success(None) else Success(Some(a.pairs[k.value]))
  }

  /** The argument of `getAnnotationByType` as a descriptor: an argument not
      starting with 'L' is wrapped as `L...;`. */
  function Normalize(classInfo: string): (r: string)
    ensures StartsWith(r, 'L')
    ensures StartsWith(classInfo, 'L') ==> r == classInfo
    ensures !StartsWith(classInfo, 'L') ==> r == "L" + classInfo + ";"
  {
    if StartsWith(classInfo, 'L') then classInfo else "L" + classInfo + ";"
  }

  /** Normalising twice is normalising once. */
  lemma NormalizeIdempotent(classInfo: string)
    ensures Normalize(Normalize(classInfo)) == Normalize(classInfo)
  {
  }

  function TypeDescriptors(annotations: seq<Annotation>): (r: seq<Option<string>>)
    ensures |r| == |annotations| && forall i :: 0 <= i < |r| ==> r[i] == annotations[i].typeDescriptor
  {
    seq(|annotations|, i requires 0 <= i < |annotations| => annotations[i].typeDescriptor)
  }

  /** `getAnnotationByType(classInfo)` of `RuntimeVisibleParameterAnnotation`:
      a `null` argument fails at `startsWith`; otherwise the first annotation
      whose type descriptor equals the normalised argument ignoring case. */
  function GetAnnotationByType(annotations: seq<Annotation>, classInfo: Option<string>): (r: Result<Option<Annotation>, DecodeError>)
    ensures classInfo.None? ==> r == Failure(NullDereference)
    ensures r.Success? && r.value.Some? ==>
              exists k :: 0 <= k < |annotations| && annotations[k] == r.value.value
                          && Matches(annotations[k].typeDescriptor, Some(Normalize(classInfo.value)))
                          && forall j :: 0 <= j < k ==> Skipped(annotations[j].typeDescriptor, Some(Normalize(classInfo.value)))
    ensures classInfo.Some? && r == Success(None) ==>
              forall j :: 0 <= j < |annotations| ==> Skipped(annotations[j].typeDescriptor, Some(Normalize(classInfo.value)))
    ensures r.Failure? ==> r.error == NullDereference
  {
    if classInfo.None? then Failure(NullDereference)
    else
      var k :- FirstIgnoringCase(TypeDescriptors(annotations), Some(Normalize(classInfo.value)), 0);
      if k.None? then Success(None) else Success(Some(annotations[k.value]))
  }

  /** Looking a type up by its bare name or by its descriptor finds the same annotation. */
  lemma BareNameFindsDescriptor(annotations: seq<Annotation>, name: string)
    requires !StartsWith(name, 'L')
    ensures GetAnnotationByType(annotations, Some(name)) == GetAnnotationByType(annotations, Some("L" + name + ";"))
  {
  }

  // ---------------------------------------------------------------- writing element values

  /** What a writer puts into an element value: pool indices and the nested
      structure, before the pool resolves them. */
  datatype ValueSource =
    | ConstAt(tag: char, index: nat)
    | EnumAt(typeIndex: nat, constIndex: nat)
    | ClassInfoAt(index: nat)
    | NestedAt(annotation: AnnotationSource)
    | ArrayOf(elements: seq<ValueSource>)

  datatype PairSource = PairSource(nameIndex: nat, value: ValueSource)

  datatype AnnotationSource = AnnotationSource(typeIndex: nat, pairs: seq<PairSource>)

  /** The tag byte written before a value. */
  function TagOf(v: ValueSource): char {
    match v
    case ConstAt(tag, _) => tag
    case EnumAt(_, _) => 'e'
    case ClassInfoAt(_) => 'c'
    case NestedAt(_) => '@'
    case ArrayOf(_) => '['
  }

  /** Every index and count fits its u2, and a constant's tag is a byte that
      `create` sends to the constant branch. */
  predicate WellFormed(v: ValueSource) {
    match v
    case ConstAt(tag, index) => tag as int < 256 && KindOf(tag) == ConstKind && index < 0x1_0000
    case EnumAt(typeIndex, constIndex) => typeIndex < 0x1_0000 && constIndex < 0x1_0000
    case ClassInfoAt(index) => index < 0x1_0000
    case NestedAt(a) => AnnotationWellFormed(a)
    case ArrayOf(es) => |es| < 0x1_0000 && forall i :: 0 <= i < |es| ==> WellFormed(es[i])
  }

  predicate AnnotationWellFormed(a: AnnotationSource) {
    a.typeIndex < 0x1_0000 && |a.pairs| < 0x1_0000
    && forall i :: 0 <= i < |a.pairs| ==> a.pairs[i].nameIndex < 0x1_0000 && WellFormed(a.pairs[i].value)
  }

  /** Every index names a pool slot, and every name index a pool string (or the empty slot). */
  predicate Resolvable(v: ValueSource, pool: seq<Slot>) {
    match v
    case ConstAt(_, index) => index < |pool|
    case EnumAt(typeIndex, constIndex) => typeIndex < |pool| && constIndex < |pool|
    case ClassInfoAt(index) => index < |pool|
    case NestedAt(a) => AnnotationResolvable(a, pool)
    case ArrayOf(es) => forall i :: 0 <= i < |es| ==> Resolvable(es[i], pool)
  }

  predicate AnnotationResolvable(a: AnnotationSource, pool: seq<Slot>) {
    StringAt(pool, a.typeIndex).Success?
    && forall i :: 0 <= i < |a.pairs| ==>
         StringAt(pool, a.pairs[i].nameIndex).Success? && Resolvable(a.pairs[i].value, pool)
  }

  function TagByte(v: ValueSource): (b: byte)
    requires WellFormed(v)
    ensures b as char == TagOf(v)
  {
    TagOf(v) as int as byte
  }

  /** The bytes of a value after its tag. The helpers walk a list by index so
      that every call descends from the value that holds the list. */
  function Encode(v: ValueSource): seq<byte>
    requires WellFormed(v)
    decreases v, 1, 0
  {
    match v
    case ConstAt(_, index) => SmallAttributes.U2(index)
    case EnumAt(typeIndex, constIndex) => SmallAttributes.U2(typeIndex) + SmallAttributes.U2(constIndex)
    case ClassInfoAt(index) => SmallAttributes.U2(index)
    case NestedAt(a) => EncodeAnnotation(a)
    case ArrayOf(es) => SmallAttributes.U2(|es|) + EncodeElements(es, 0)
  }

  /** `es[i..]`, each value with its tag byte in front. */
  function EncodeElements(es: seq<ValueSource>, i: nat): seq<byte>
    requires i <= |es| && forall k :: 0 <= k < |es| ==> WellFormed(es[k])
    decreases ArrayOf(es), 0, |es| - i
  {
    if i == |es| then []
    else [TagByte(es[i])] + Encode(es[i]) + EncodeElements(es, i + 1)
  }

  function EncodeAnnotation(a: AnnotationSource): seq<byte>
    requires AnnotationWellFormed(a)
    decreases NestedAt(a), 0, |a.pairs| + 1
  {
    SmallAttributes.U2(a.typeIndex) + SmallAttributes.U2(|a.pairs|) + EncodePairs(a, 0)
  }

  /** The pairs `a.pairs[i..]`: name index, tag byte, value. */
  function EncodePairs(a: AnnotationSource, i: nat): seq<byte>
    requires i <= |a.pairs| && AnnotationWellFormed(a)
    decreases NestedAt(a), 0, |a.pairs| - i
  {
    if i == |a.pairs| then []
    else SmallAttributes.U2(a.pairs[i].nameIndex) + [TagByte(a.pairs[i].value)] + Encode(a.pairs[i].value)
         + EncodePairs(a, i + 1)
  }

  /** The value the reader should produce: each index replaced by the pool
      object it names, each name index by its pool string. */
  function Decoded(v: ValueSource, pool: seq<Slot>): ElementValue
    requires Resolvable(v, pool)
    decreases v, 1, 0
  {
    match v
    case ConstAt(tag, index) => ConstValue(tag, pool[index])
    case EnumAt(typeIndex, constIndex) => EnumConstValue(pool[typeIndex], pool[constIndex])
    case ClassInfoAt(index) => ClassValue(pool[index])
    case NestedAt(a) => AnnotationValue(DecodedAnnotation(a, pool))
    case ArrayOf(es) => ArrayValue(DecodedElements(es, 0, pool))
  }

  function DecodedElements(es: seq<ValueSource>, i: nat, pool: seq<Slot>): seq<ElementValue>
    requires i <= |es| && forall k :: 0 <= k < |es| ==> Resolvable(es[k], pool)
    decreases ArrayOf(es), 0, |es| - i
  {
    if i == |es| then [] else [Decoded(es[i], pool)] + DecodedElements(es, i + 1, pool)
  }

  function DecodedAnnotation(a: AnnotationSource, pool: seq<Slot>): Annotation
    requires AnnotationResolvable(a, pool)
    decreases NestedAt(a), 0, |a.pairs| + 1
  {
    Annotation(StringAt(pool, a.typeIndex).value, DecodedPairs(a, 0, pool))
  }

  function DecodedPairs(a: AnnotationSource, i: nat, pool: seq<Slot>): seq<ElementValuePair>
    requires i <= |a.pairs| && AnnotationResolvable(a, pool)
    decreases NestedAt(a), 0, |a.pairs| - i
  {
    if i == |a.pairs| then []
    else [ElementValuePair(StringAt(pool, a.pairs[i].nameIndex).value, TagOf(a.pairs[i].value),
                           Decoded(a.pairs[i].value, pool))]
         + DecodedPairs(a, i + 1, pool)
  }

  /** Reading a written value back, under its own tag, gives the pool objects
      its indices name, nested in the same shape, and leaves what follows. */
  lemma {:induction false} ValueRoundTrip(v: ValueSource, rest: seq<byte>, pool: seq<Slot>)
    requires WellFormed(v) && Resolvable(v, pool)
    ensures ReadElementValue(TagOf(v), Encode(v) + rest, pool) == Success((Decoded(v, pool), rest))
    decreases |Encode(v)|, 1
  {
    match v
    case NestedAt(a) =>
      AnnotationRoundTrip(a, rest, pool);
      ReadNestedValue(EncodeAnnotation(a) + rest, pool, DecodedAnnotation(a, pool), rest);
    case ArrayOf(es) =>
      var after := EncodeElements(es, 0) + rest;
      assert Encode(v) + rest == SmallAttributes.U2(|es|) + after;
      SmallAttributes.ReadU2OfU2(|es|, after);
      ElementsRoundTrip(es, 0, rest, pool);
      ReadArrayValue(Encode(v) + rest, pool, |es|, after, DecodedElements(es, 0, pool), rest);
    case _ =>
      LeafValueRoundTrip(v, rest, pool);
  }

  /** A constant, enum or class value: its u2 indices name the pool slots. */
  lemma LeafValueRoundTrip(v: ValueSource, rest: seq<byte>, pool: seq<Slot>)
    requires v.ConstAt? || v.EnumAt? || v.ClassInfoAt?
    requires WellFormed(v) && Resolvable(v, pool)
    ensures ReadElementValue(TagOf(v), Encode(v) + rest, pool) == Success((Decoded(v, pool), rest))
  {
    match v
    case ConstAt(_, index) =>
      SmallAttributes.ReadU2OfU2(index, rest);
    case EnumAt(typeIndex, constIndex) =>
      assert Encode(v) + rest == SmallAttributes.U2(typeIndex) + (SmallAttributes.U2(constIndex) + rest);
      SmallAttributes.ReadU2OfU2(typeIndex, SmallAttributes.U2(constIndex) + rest);
      SmallAttributes.ReadU2OfU2(constIndex, rest);
    case ClassInfoAt(index) =>
      SmallAttributes.ReadU2OfU2(index, rest);
  }

  /** The '@' branch of `create` wraps the annotation it reads. */
  lemma ReadNestedValue(s: seq<byte>, pool: seq<Slot>, a: Annotation, rest: seq<byte>)
    requires ReadAnnotation(s, pool) == Success((a, rest))
    ensures ReadElementValue('@', s, pool) == Success((AnnotationValue(a), rest))
  {
  }

  /** The '[' branch of `create`: a u2 count, then that many values. */
  lemma ReadArrayValue(s: seq<byte>, pool: seq<Slot>, n: nat, after: seq<byte>, values: seq<ElementValue>, rest: seq<byte>)
    requires ReadU2(s) == Success((n, after))
    requires ReadElements(after, n, pool) == Success((values, rest))
    ensures ReadElementValue('[', s, pool) == Success((ArrayValue(values), rest))
  {
  }

  lemma {:induction false} ElementsRoundTrip(es: seq<ValueSource>, i: nat, rest: seq<byte>, pool: seq<Slot>)
    requires i <= |es| && forall k :: 0 <= k < |es| ==> WellFormed(es[k]) && Resolvable(es[k], pool)
    ensures ReadElements(EncodeElements(es, i) + rest, |es| - i, pool) == Success((DecodedElements(es, i, pool), rest))
    decreases |EncodeElements(es, i)|, 0, |es| - i, 1
  {
    if i < |es| {
      ElementsRoundTrip(es, i + 1, rest, pool);
      ElementsStep(es, i, rest, pool, EncodeElements(es, i + 1) + rest, DecodedElements(es, i + 1, pool));
    } else {
      assert EncodeElements(es, i) + rest == rest;
    }
  }

  /** Element `i` read in front of the already-read `es[i + 1..]`. */
  lemma {:induction false} ElementsStep(es: seq<ValueSource>, i: nat, rest: seq<byte>, pool: seq<Slot>,
                                        tail: seq<byte>, others: seq<ElementValue>)
    requires i < |es| && forall k :: 0 <= k < |es| ==> WellFormed(es[k]) && Resolvable(es[k], pool)
    requires tail == EncodeElements(es, i + 1) + rest && others == DecodedElements(es, i + 1, pool)
    requires ReadElements(tail, |es| - (i + 1), pool) == Success((others, rest))
    ensures ReadElements(EncodeElements(es, i) + rest, |es| - i, pool) == Success((DecodedElements(es, i, pool), rest))
    decreases |EncodeElements(es, i)|, 0, |es| - i, 0
  {
    var payload := Encode(es[i]) + tail;
    EncodeElementsCons(es, i, rest);
    ReadTagCons(TagByte(es[i]), payload);
    ValueRoundTrip(es[i], tail, pool);
    ReadElementsCons(EncodeElements(es, i) + rest, |es| - i, |es| - (i + 1), pool, TagOf(es[i]), payload,
                     Decoded(es[i], pool), tail, others, rest);
    DecodedElementsCons(es, i, pool);
  }

  lemma EncodeElementsCons(es: seq<ValueSource>, i: nat, rest: seq<byte>)
    requires i < |es| && forall k :: 0 <= k < |es| ==> WellFormed(es[k])
    ensures EncodeElements(es, i) + rest == [TagByte(es[i])] + (Encode(es[i]) + (EncodeElements(es, i + 1) + rest))
  {
  }

  lemma DecodedElementsCons(es: seq<ValueSource>, i: nat, pool: seq<Slot>)
    requires i < |es| && forall k :: 0 <= k < |es| ==> Resolvable(es[k], pool)
    ensures DecodedElements(es, i, pool) == [Decoded(es[i], pool)] + DecodedElements(es, i + 1, pool)
  {
  }

  lemma ReadTagCons(b: byte, payload: seq<byte>)
    ensures ReadTag([b] + payload) == Success((b as char, payload))
  {
    assert ([b] + payload)[1..] == payload;
  }

  /** One tagged value, then `m` more, is `m + 1` values. */
  lemma ReadElementsCons(s: seq<byte>, n: nat, m: nat, pool: seq<Slot>, tag: char, payload: seq<byte>,
                         first: ElementValue, mid: seq<byte>, others: seq<ElementValue>, rest: seq<byte>)
    requires n == m + 1
    requires ReadTag(s) == Success((tag, payload))
    requires ReadElementValue(tag, payload, pool) == Success((first, mid))
    requires ReadElements(mid, m, pool) == Success((others, rest))
    ensures ReadElements(s, n, pool) == Success(([first] + others, rest))
  {
  }

  lemma {:induction false} AnnotationRoundTrip(a: AnnotationSource, rest: seq<byte>, pool: seq<Slot>)
    requires AnnotationWellFormed(a) && AnnotationResolvable(a, pool)
    ensures ReadAnnotation(EncodeAnnotation(a) + rest, pool) == Success((DecodedAnnotation(a, pool), rest))
    decreases |EncodeAnnotation(a)|, 0, 0
  {
    var pairs := EncodePairs(a, 0) + rest;
    SmallAttributes.Associate3(SmallAttributes.U2(a.typeIndex), SmallAttributes.U2(|a.pairs|), EncodePairs(a, 0), rest);
    SmallAttributes.ReadU2OfU2(a.typeIndex, SmallAttributes.U2(|a.pairs|) + pairs);
    SmallAttributes.ReadU2OfU2(|a.pairs|, pairs);
    PairsRoundTrip(a, 0, rest, pool);
  }

  lemma {:induction false} PairsRoundTrip(a: AnnotationSource, i: nat, rest: seq<byte>, pool: seq<Slot>)
    requires i <= |a.pairs| && AnnotationWellFormed(a) && AnnotationResolvable(a, pool)
    ensures ReadPairs(EncodePairs(a, i) + rest, |a.pairs| - i, pool) == Success((DecodedPairs(a, i, pool), rest))
    decreases |EncodePairs(a, i)|, 0, |a.pairs| - i, 2
  {
    if i < |a.pairs| {
      PairsRoundTrip(a, i + 1, rest, pool);
      PairsStep(a, i, rest, pool, EncodePairs(a, i + 1) + rest, DecodedPairs(a, i + 1, pool));
    } else {
      assert EncodePairs(a, i) + rest == rest;
    }
  }

  /** The pairs from `i` read back, given that those after `i` do. */
  lemma {:induction false} PairsStep(a: AnnotationSource, i: nat, rest: seq<byte>, pool: seq<Slot>,
                                     tail: seq<byte>, others: seq<ElementValuePair>)
    requires i < |a.pairs| && AnnotationWellFormed(a) && AnnotationResolvable(a, pool)
    requires tail == EncodePairs(a, i + 1) + rest && others == DecodedPairs(a, i + 1, pool)
    requires ReadPairs(tail, |a.pairs| - (i + 1), pool) == Success((others, rest))
    ensures ReadPairs(EncodePairs(a, i) + rest, |a.pairs| - i, pool) == Success((DecodedPairs(a, i, pool), rest))
    decreases |EncodePairs(a, i)|, 0, |a.pairs| - i, 1
  {
    PairRoundTrip(a, i, rest, pool);
    ReadPairsCons(EncodePairs(a, i) + rest, |a.pairs| - i, |a.pairs| - (i + 1), pool, DecodedPair(a, i, pool), tail,
                  others, rest);
    DecodedPairsCons(a, i, pool);
  }

  /** Pair `i` of an annotation, resolved against the pool. */
  function DecodedPair(a: AnnotationSource, i: nat, pool: seq<Slot>): ElementValuePair
    requires i < |a.pairs| && AnnotationResolvable(a, pool)
  {
    ElementValuePair(StringAt(pool, a.pairs[i].nameIndex).value, TagOf(a.pairs[i].value), Decoded(a.pairs[i].value, pool))
  }

  /** Pair `i` reads back in front of the pairs after it. */
  lemma {:induction false} PairRoundTrip(a: AnnotationSource, i: nat, rest: seq<byte>, pool: seq<Slot>)
    requires i < |a.pairs| && AnnotationWellFormed(a) && AnnotationResolvable(a, pool)
    ensures ReadPair(EncodePairs(a, i) + rest, pool) == Success((DecodedPair(a, i, pool), EncodePairs(a, i + 1) + rest))
    decreases |EncodePairs(a, i)|, 0, |a.pairs| - i, 0
  {
    var p := a.pairs[i];
    var tail := EncodePairs(a, i + 1) + rest;
    EncodePairsCons(a, i, rest);
    ValueRoundTrip(p.value, tail, pool);
    ReadPairOf(p.nameIndex, TagByte(p.value), Encode(p.value) + tail, pool, Decoded(p.value, pool), tail);
  }

  lemma EncodePairsCons(a: AnnotationSource, i: nat, rest: seq<byte>)
    requires i < |a.pairs| && AnnotationWellFormed(a)
    ensures EncodePairs(a, i) + rest
            == SmallAttributes.U2(a.pairs[i].nameIndex)
               + ([TagByte(a.pairs[i].value)] + (Encode(a.pairs[i].value) + (EncodePairs(a, i + 1) + rest)))
  {
  }

  lemma DecodedPairsCons(a: AnnotationSource, i: nat, pool: seq<Slot>)
    requires i < |a.pairs| && AnnotationResolvable(a, pool)
    ensures DecodedPairs(a, i, pool) == [DecodedPair(a, i, pool)] + DecodedPairs(a, i + 1, pool)
  {
  }

  /** A name index, a tag byte and a value's payload read as one pair. */
  lemma ReadPairOf(nameIndex: nat, b: byte, payload: seq<byte>, pool: seq<Slot>, value: ElementValue, mid: seq<byte>)
    requires nameIndex < 0x1_0000 && StringAt(pool, nameIndex).Success?
    requires ReadElementValue(b as char, payload, pool) == Success((value, mid))
    ensures ReadPair(SmallAttributes.U2(nameIndex) + ([b] + payload), pool)
            == Success((ElementValuePair(StringAt(pool, nameIndex).value, b as char, value), mid))
  {
    SmallAttributes.ReadU2OfU2(nameIndex, [b] + payload);
    ReadTagCons(b, payload);
  }

  /** One pair, then `m` more, is `m + 1` pairs. */
  lemma ReadPairsCons(s: seq<byte>, n: nat, m: nat, pool: seq<Slot>, first: ElementValuePair, mid: seq<byte>,
                      others: seq<ElementValuePair>, rest: seq<byte>)
    requires n == m + 1
    requires ReadPair(s, pool) == Success((first, mid))
    requires ReadPairs(mid, m, pool) == Success((others, rest))
    ensures ReadPairs(s, n, pool) == Success(([first] + others, rest))
  {
  }
}

=== FILE: attributes.dfy ===
/** The generic attribute table (section 4.7 of the Java Virtual Machine
    Specification): `Attributes` and `AttributeInfo`. The package
    `com.viridiansoftware.java` holds an older copy of both classes with the
    same bodies; this module stands for both. */
module AttributeTable {
  import opened Wrappers
  import opened Bytes
  import opened Constants
  import opened ConstantPoolQueries

  /** `AttributeInfo`: the name (the pool string at the first u2, possibly
      null) and the payload. */
  datatype AttributeInfo = AttributeInfo(name: Option<string>, data: seq<byte>)

  /** One attribute record: u2 name index, signed u4 length, then exactly that
      many payload bytes. */
  function ReadAttributeInfo(s: seq<byte>, pool: seq<Slot>): (r: Parse<AttributeInfo>)
    ensures r.Success? ==> |s| >= 6 + |r.value.0.data| && r.value.1 == s[6 + |r.value.0.data|..]
                            && r.value.0.data == s[6 .. 6 + |r.value.0.data|]
    ensures |s| < 2 ==> r == Failure(Truncated)
    ensures |s| >= 2 && StringAt(pool, s[0] as int * 256 + s[1] as int).Failure? ==>
              r == Failure(StringAt(pool, s[0] as int * 256 + s[1] as int).error)
  {
    var (nameIndex, afterName) :- ReadU2(s);
    var name :- StringAt(pool, nameIndex);
    var (length, afterLength) :- ReadS4(afterName);
    var (data, rest) :- ReadBytes(afterLength, length);
    assert afterLength == s[6..];
    Success((AttributeInfo(name, data), rest))
  }

  /** The bytes of one attribute record. */
  function EncodeAttribute(nameIndex: nat, data: seq<byte>): (s: seq<byte>)
    requires nameIndex < 0x1_0000 && |data| < 0x8000_0000
    ensures |s| == 6 + |data|
  {
    ToBytes(nameIndex, 2) + ToBytes(|data|, 4) + data
  }

  /** Reading a written record gives its name from the pool and its payload,
      and leaves what follows; a name index the pool cannot cast to a string
      fails as the cast does. */
  lemma ReadAttributeInfoRoundTrip(nameIndex: nat, data: seq<byte>, rest: seq<byte>, pool: seq<Slot>)
    requires nameIndex < 0x1_0000 && |data| < 0x8000_0000
    ensures var r := ReadAttributeInfo(EncodeAttribute(nameIndex, data) + rest, pool);
            var name := StringAt(pool, nameIndex);
            (name.Success? ==> r == Success((AttributeInfo(name.value, data), rest)))
            && (name.Failure? ==> r == Failure(name.error))
  {
    var s := EncodeAttribute(nameIndex, data) + rest;
    assert s == ToBytes(nameIndex, 2) + (ToBytes(|data|, 4) + data + rest);
    ReadUnsignedRoundTrip(nameIndex, 2, ToBytes(|data|, 4) + data + rest);
    var afterName := ToBytes(|data|, 4) + (data + rest);
    assert s[2..] == afterName;
    ReadSignedRoundTrip(|data|, 4, data + rest);
    assert afterName[4..] == data + rest;
    assert (data + rest)[..|data|] == data;
    assert (data + rest)[|data|..] == rest;
  }

  /** `readAttributs`' loop: `n` records, in stream order. */
  function ReadAttributeList(s: seq<byte>, pool: seq<Slot>, n: nat): (r: Parse<seq<AttributeInfo>>)
    ensures r.Success? ==> |r.value.0| == n && |r.value.1| <= |s|
    decreases n
  {
    if n == 0 then Success(([], s))
    else
      var (first, afterFirst) :- ReadAttributeInfo(s, pool);
      var (others, rest) :- ReadAttributeList(afterFirst, pool, n - 1);
      Success(([first] + others, rest))
  }

  /** `readAttributs`: a u2 count, then that many records. */
  function ReadAttributes(s: seq<byte>, pool: seq<Slot>): (r: Parse<seq<AttributeInfo>>)
    ensures r.Success? ==> |s| >= 2 && |r.value.0| == s[0] as int * 256 + s[1] as int
  {
    var (count, afterCount) :- ReadU2(s);
    ReadAttributeList(afterCount, pool, count)
  }

  /** The bytes of a list of records. */
  function EncodeAttributeList(records: seq<(nat, seq<byte>)>): seq<byte>
    requires forall i :: 0 <= i < |records| ==> records[i].0 < 0x1_0000 && |records[i].1| < 0x8000_0000
  {
    if |records| == 0 then []
    else EncodeAttribute(records[0].0, records[0].1) + EncodeAttributeList(records[1..])
  }

  /** Reading written records whose names are all pool strings gives one
      attribute per record, in order, with each record's payload. */
  lemma {:induction false} ReadAttributeListRoundTrip(records: seq<(nat, seq<byte>)>, rest: seq<byte>, pool: seq<Slot>)
    requires forall i :: 0 <= i < |records| ==> records[i].0 < 0x1_0000 && |records[i].1| < 0x8000_0000
    requires forall i :: 0 <= i < |records| ==> StringAt(pool, records[i].0).Success?
    ensures var r := ReadAttributeList(EncodeAttributeList(records) + rest, pool, |records|);
            r.Success? && r.value.1 == rest
            && forall i :: 0 <= i < |records| ==>
                 r.value.0[i] == AttributeInfo(StringAt(pool, records[i].0).value, records[i].1)
    decreases |records|
  {
    if |records| > 0 {
      var more := records[1..];
      var head := EncodeAttribute(records[0].0, records[0].1);
      var tail := EncodeAttributeList(more);
      assert EncodeAttributeList(records) + rest == head + (tail + rest);
      ReadAttributeInfoRoundTrip(records[0].0, records[0].1, tail + rest, pool);
      var first := AttributeInfo(StringAt(pool, records[0].0).value, records[0].1);
      assert ReadAttributeInfo(head + (tail + rest), pool) == Success((first, tail + rest));
      ReadAttributeListRoundTrip(more, rest, pool);
      var others := ReadAttributeList(tail + rest, pool, |more|).value.0;
      ReadAttributeListCons(head + (tail + rest), tail + rest, pool, |more|, first, others, rest);
      assert |records| == |more| + 1;
      var r := ReadAttributeList(head + (tail + rest), pool, |records|);
      forall i | 0 <= i < |records|
        ensures r.value.0[i] == AttributeInfo(StringAt(pool, records[i].0).value, records[i].1)
      {
        if i > 0 {
          assert more[i - 1] == records[i];
          assert r.value.0[i] == others[i - 1];
        }
      }
    }
  }

  /** One record, then the other `m`. */
  lemma ReadAttributeListCons(s: seq<byte>, mid: seq<byte>, pool: seq<Slot>, m: nat,
                              first: AttributeInfo, others: seq<AttributeInfo>, rest: seq<byte>)
    requires ReadAttributeInfo(s, pool) == Success((first, mid))
    requires ReadAttributeList(mid, pool, m) == Success((others, rest))
    ensures ReadAttributeList(s, pool, m + 1) == Success(([first] + others, rest))
  {
  }

  /** An attribute `get(name)` passes over: its name is present and differs. */
  predicate PassedOver(a: AttributeInfo, name: string) {
    a.name.Some? && a.name.value != name
  }

  /** `get(name)`: `null` for a `null` name; otherwise the first attribute
      whose name equals it, or `null`. Comparing calls `getName().equals`, so an
      attribute with a `null` name reached before any match fails. */
  function Get(attrs: seq<AttributeInfo>, name: Option<string>): (r: Result<Option<AttributeInfo>, DecodeError>)
    ensures name.None? ==> r == Success(None)
    ensures r.Success? && r.value.Some? ==>
              exists k :: 0 <= k < |attrs| && attrs[k] == r.value.value && attrs[k].name == name
                          && forall j :: 0 <= j < k ==> PassedOver(attrs[j], name.value)
    ensures name.Some? && r == Success(None) ==> forall j :: 0 <= j < |attrs| ==> PassedOver(attrs[j], name.value)
    ensures r.Failure? ==> r.error == NullDereference && name.Some?
                            && exists k :: 0 <= k < |attrs| && attrs[k].name.None?
                                           && forall j :: 0 <= j < k ==> PassedOver(attrs[j], name.value)
  {
    if name.None? then Success(None) else Find(attrs, name.value, 0)
  }

  function Find(attrs: seq<AttributeInfo>, name: string, from: nat): (r: Result<Option<AttributeInfo>, DecodeError>)
    requires from <= |attrs|
    requires forall j :: 0 <= j < from ==> PassedOver(attrs[j], name)
    ensures r.Success? && r.value.Some? ==>
              exists k :: from <= k < |attrs| && attrs[k] == r.value.value && attrs[k].name == Some(name)
                          && forall j :: 0 <= j < k ==> PassedOver(attrs[j], name)
    ensures r == Success(None) ==> forall j :: 0 <= j < |attrs| ==> PassedOver(attrs[j], name)
    ensures r.Failure? ==> r.error == NullDereference
                            && exists k :: from <= k < |attrs| && attrs[k].name.None?
                                           && forall j :: 0 <= j < k ==> PassedOver(attrs[j], name)
    decreases |attrs| - from
  {
    if from == |attrs| then Success(None)
    else if attrs[from].name.None? then Failure(NullDereference)
    else if attrs[from].name.value == name then Success(Some(attrs[from]))
    else Find(attrs, name, from + 1)
  }

  /** Conversely, an attribute named `name` with only differently named
      attributes before it is the one `get` returns. */
  lemma GetFindsFirstNamed(attrs: seq<AttributeInfo>, name: string, k: nat)
    requires k < |attrs| && attrs[k].name == Some(name)
    requires forall j :: 0 <= j < k ==> PassedOver(attrs[j], name)
    ensures Get(attrs, Some(name)) == Success(Some(attrs[k]))
  {
    var r := Get(attrs, Some(name));
    if r.Success? && r.value.Some? {
      var k' :| 0 <= k' < |attrs| && attrs[k'] == r.value.value && attrs[k'].name == Some(name)
                && forall j :: 0 <= j < k' ==> PassedOver(attrs[j], name);
      assert !PassedOver(attrs[k], name);
      assert !PassedOver(attrs[k'], name);
    }
  }

  /** `getSourceFile`: `null` without a SourceFile attribute, otherwise the
      pool string at the u2 that opens its payload. */
  function SourceFile(attrs: seq<AttributeInfo>, pool: seq<Slot>): (r: Result<Option<string>, DecodeError>)
    ensures Get(attrs, Some("SourceFile")) == Success(None) ==> r == Success(None)
    ensures Get(attrs, Some("SourceFile")).Failure? ==> r == Failure(NullDereference)
    ensures Get(attrs, Some("SourceFile")).Success? && Get(attrs, Some("SourceFile")).value.Some? ==>
              var data := Get(attrs, Some("SourceFile")).value.value.data;
              (|data| < 2 ==> r == Failure(Truncated))
              && (|data| >= 2 ==> r == StringAt(pool, data[0] as int * 256 + data[1] as int))
  {
    var found :- Get(attrs, Some("SourceFile"));
    if found.None? then Success(None)
    else
      var (index, _) :- ReadU2(found.value.data);
      StringAt(pool, index)
  }
}

=== FILE: bytes.dfy ===
/** Big-endian byte cursor standing in for `java.io.DataInputStream`.
    Every reader takes the remaining input and returns the value read together
    with the input that follows it; running out of input is a `Truncated` failure
    (Java's `EOFException`). */
module Bytes {
  import opened Wrappers

  type byte = x: int | 0 <= x < 256

  /** Why decoding stopped. The first four are the decoder's own exceptions;
      the rest stand for the Java runtime failures a malformed file provokes. */
  datatype DecodeError =
    | BadMagic(magic: int)                         // IOException "Invalid class file"
    | UnknownConstantTag(tag: int)                 // "Unknown constant pool type"
    | HandleTargetMismatch(expected: string, index: int, found: string)
                                                   // "Expected <expected> in constant pool index <index> but found <found>"
    | UnknownReferenceKind(kind: int)              // "Unknown method handle reference kind"
    | Truncated                                    // EOFException
    | BadUtf8                                      // UTFDataFormatException
    | IndexOutOfRange(index: int)                  // ArrayIndexOutOfBoundsException
    | WrongConstantKind(index: int)                // ClassCastException on a pool cast
    | NegativeLength(length: int)                  // NegativeArraySizeException
    | NullDereference                              // NullPointerException

  /** Which reading a composed operation follows: the code as written, or
      the one with the defects recorded for this model corrected. */
  datatype Variant = AsWritten | Corrected

  /** A decoded value and the input left after it. */
  type Parse<T> = Result<(T, seq<byte>), DecodeError>

  function Pow256(n: nat): (p: int)
    ensures p >= 1
  {
    if n == 0 then 1 else 256 * Pow256(n - 1)
  }

  /** The unsigned big-endian number the bytes spell. */
  function BigEndian(s: seq<byte>): (v: nat)
    ensures v < Pow256(|s|)
  {
    if |s| == 0 then 0 else BigEndian(s[..|s| - 1]) * 256 + s[|s| - 1]
  }

  /** The `n`-byte big-endian spelling of `v`. */
  function ToBytes(v: nat, n: nat): (s: seq<byte>)
    requires v < Pow256(n)
    ensures |s| == n
  {
    if n == 0 then [] else ToBytes(v / 256, n - 1) + [v % 256]
  }

  lemma {:induction false} BigEndianOfToBytes(v: nat, n: nat)
    requires v < Pow256(n)
    ensures BigEndian(ToBytes(v, n)) == v
  {
    if n > 0 {
      var s := ToBytes(v, n);
      assert s[..n - 1] == ToBytes(v / 256, n - 1);
      BigEndianOfToBytes(v / 256, n - 1);
    }
  }

  lemma {:induction false} ToBytesOfBigEndian(s: seq<byte>)
    ensures ToBytes(BigEndian(s), |s|) == s
  {
    if |s| > 0 {
      var init := s[..|s| - 1];
      ToBytesOfBigEndian(init);
      assert BigEndian(s) / 256 == BigEndian(init);
      assert BigEndian(s) % 256 == s[|s| - 1];
    }
  }

  /** Two's-complement reading of an `n`-byte unsigned value. */
  function Signed(v: nat, n: nat): (x: int)
    requires 1 <= n && v < Pow256(n)
    ensures -Pow256(n) / 2 <= x < Pow256(n) / 2
    ensures x < 0 <==> v >= Pow256(n) / 2
    ensures (if x < 0 then x + Pow256(n) else x) == v
  {
    if v < Pow256(n) / 2 then v else v - Pow256(n)
  }

  /** `n` bytes read as an unsigned big-endian number. */
  function ReadUnsigned(s: seq<byte>, n: nat): (r: Parse<nat>)
    ensures r.Success? <==> |s| >= n
    ensures r.Failure? ==> r.error == Truncated
    ensures r.Success? ==> r.value.0 < Pow256(n) && r.value.1 == s[n..]
                            && ToBytes(r.value.0, n) == s[..n]
  {
    if |s| < n then Failure(Truncated)
    else
      ToBytesOfBigEndian(s[..n]);
      Success((BigEndian(s[..n]), s[n..]))
  }

  /** `n` bytes read as a signed two's-complement number. */
  function ReadSigned(s: seq<byte>, n: nat): (r: Parse<int>)
    requires n >= 1
    ensures r.Success? <==> |s| >= n
    ensures r.Failure? ==> r.error == Truncated
    ensures r.Success? ==> r.value.1 == s[n..]
                            && -Pow256(n) / 2 <= r.value.0 < Pow256(n) / 2
                            && ToBytes(if r.value.0 < 0 then r.value.0 + Pow256(n) else r.value.0, n) == s[..n]
  {
    var (v, rest) :- ReadUnsigned(s, n);
    Success((Signed(v, n), rest))
  }

  /** `readUnsignedByte`. */
  function ReadU1(s: seq<byte>): (r: Parse<nat>)
    ensures r.Success? <==> |s| >= 1
    ensures r.Success? ==> r.value.0 == s[0] && r.value.1 == s[1..]
  {
    var r := ReadUnsigned(s, 1);
    if r.Success? then assert r.value.0 == s[0] by { assert [r.value.0 % 256] == s[..1]; } r else r
  }

  /** `readByte`: one byte, sign-extended. */
  function ReadS1(s: seq<byte>): (r: Parse<int>)
    ensures r.Success? <==> |s| >= 1
    ensures r.Success? ==> r.value.0 == (if s[0] < 128 then s[0] as int else s[0] as int - 256) && r.value.1 == s[1..]
  {
    var (v, rest) :- ReadU1(s);
    Success((Signed(v, 1), rest))
  }

  /** `readUnsignedShort`. */
  function ReadU2(s: seq<byte>): (r: Parse<nat>)
    ensures r.Success? <==> |s| >= 2
    ensures r.Success? ==> r.value.0 == s[0] as int * 256 + s[1] as int && r.value.1 == s[2..]
  {
    var r := ReadUnsigned(s, 2);
    if r.Success? then
      assert BigEndian(s[..2]) == s[0] as int * 256 + s[1] as int by {
        assert s[..2][..1] == [s[0]];
      }
      r
    else r
  }

  /** `readShort`: two bytes, sign-extended; values from 0x8000 come out negative. */
  function ReadS2(s: seq<byte>): (r: Parse<int>)
    ensures r.Success? <==> |s| >= 2
    ensures r.Success? ==> r.value.1 == s[2..] && -0x8000 <= r.value.0 < 0x8000
    ensures r.Success? ==> r.value.0 == (if s[0] < 128 then s[0] as int * 256 + s[1] else s[0] as int * 256 + s[1] - 0x1_0000)
  {
    var (v, rest) :- ReadU2(s);
    Success((Signed(v, 2), rest))
  }

  /** `readInt` as an unsigned 32-bit pattern (used for raw float bits and lengths before sign). */
  function ReadU4(s: seq<byte>): (r: Parse<nat>)
    ensures r.Success? <==> |s| >= 4
    ensures r.Success? ==> r.value.0 < 0x1_0000_0000 && r.value.1 == s[4..]
                            && ToBytes(r.value.0, 4) == s[..4]
  {
    ReadUnsigned(s, 4)
  }

  /** `readInt`: four bytes, two's complement. */
  function ReadS4(s: seq<byte>): (r: Parse<int>)
    ensures r.Success? <==> |s| >= 4
    ensures r.Success? ==> r.value.1 == s[4..] && -0x8000_0000 <= r.value.0 < 0x8000_0000
  {
    ReadSigned(s, 4)
  }

  /** `readLong`: eight bytes, two's complement. */
  function ReadS8(s: seq<byte>): (r: Parse<int>)
    ensures r.Success? <==> |s| >= 8
    ensures r.Success? ==> r.value.1 == s[8..]
                            && -0x8000_0000_0000_0000 <= r.value.0 < 0x8000_0000_0000_0000
  {
    ReadSigned(s, 8)
  }

  /** `new byte[n]` followed by `readFully`: a negative size fails before any byte is read. */
  function ReadBytes(s: seq<byte>, n: int): (r: Parse<seq<byte>>)
    ensures n < 0 ==> r == Failure(NegativeLength(n))
    ensures 0 <= n <= |s| ==> r == Success((s[..n], s[n..]))
    ensures n > |s| ==> r == Failure(Truncated)
    ensures r.Success? ==> r.value.0 + r.value.1 == s
  {
    if n < 0 then Failure(NegativeLength(n))
    else if n > |s| then Failure(Truncated)
    else Success((s[..n], s[n..]))
  }

  /** Reading back what `ToBytes` wrote gives the value and leaves what follows. */
  lemma ReadUnsignedRoundTrip(v: nat, n: nat, rest: seq<byte>)
    requires v < Pow256(n)
    ensures ReadUnsigned(ToBytes(v, n) + rest, n) == Success((v, rest))
  {
    var s := ToBytes(v, n) + rest;
    assert s[..n] == ToBytes(v, n);
    assert s[n..] == rest;
    BigEndianOfToBytes(v, n);
  }

  /** A signed read of a written pattern gives its two's-complement value. */
  lemma ReadSignedRoundTrip(v: nat, n: nat, rest: seq<byte>)
    requires 1 <= n && v < Pow256(n)
    ensures ReadSigned(ToBytes(v, n) + rest, n) == Success((Signed(v, n), rest))
  {
    ReadUnsignedRoundTrip(v, n, rest);
  }

  /** The `readShort` quirk: every index from 0x8000 up reads back negative. */
  lemma ReadShortNegative(hi: byte, lo: byte, rest: seq<byte>)
    requires hi >= 0x80
    ensures ReadS2([hi, lo] + rest).Success?
    ensures ReadS2([hi, lo] + rest).value.0 < 0
    ensures ReadS2([hi, lo] + rest).value.0 == hi as int * 256 + lo - 0x1_0000
  {
  }

  /** `n` items read back to back by `item`, in stream order: the body of every
      "read a count, then that many entries" loop. */
  function ReadCounted<T>(s: seq<byte>, n: nat, item: seq<byte> -> Parse<T>): (r: Parse<seq<T>>)
    ensures r.Success? ==> |r.value.0| == n
    decreases n
  {
    if n == 0 then Success(([], s))
    else
      var (first, afterFirst) :- item(s);
      var (others, rest) :- ReadCounted(afterFirst, n - 1, item);
      Success(([first] + others, rest))
  }

  /** The chunks, back to back. */
  function Flatten(chunks: seq<seq<byte>>): (s: seq<byte>) {
    if |chunks| == 0 then [] else chunks[0] + Flatten(chunks[1..])
  }

  /** When each chunk reads back as its value whatever follows it, the chunks
      back to back read back as the values, in order. */
  lemma {:induction false} ReadCountedRoundTrip<T>(chunks: seq<seq<byte>>, values: seq<T>, rest: seq<byte>,
                                                   item: seq<byte> -> Parse<T>)
    requires |chunks| == |values|
    requires forall i, tail :: 0 <= i < |chunks| ==> item(chunks[i] + tail) == Success((values[i], tail))
    ensures ReadCounted(Flatten(chunks) + rest, |chunks|, item) == Success((values, rest))
    decreases |chunks|
  {
    if |chunks| > 0 {
      var tail := Flatten(chunks[1..]) + rest;
      assert Flatten(chunks) + rest == chunks[0] + tail;
      assert item(chunks[0] + tail) == Success((values[0], tail));
      forall i, t | 0 <= i < |chunks[1..]|
        ensures item(chunks[1..][i] + t) == Success((values[1..][i], t))
      {
        assert chunks[1..][i] == chunks[i + 1];
      }
      ReadCountedRoundTrip(chunks[1..], values[1..], rest, item);
      assert ReadCounted(tail, |chunks| - 1, item) == Success((values[1..], rest));
      assert [values[0]] + values[1..] == values;
      assert ReadCounted(chunks[0] + tail, |chunks|, item) == Success(([values[0]] + values[1..], rest));
    } else {
      assert Flatten(chunks) + rest == rest;
    }
  }
}

=== FILE: class_file.dfy ===
/** `ClassFile` (section 4.1 of the Java Virtual Machine Specification): the
    top-level reader, the split of the class Signature attribute, the class
    kind, and the method and field lookups. */
module ClassFiles {
  import opened Wrappers
  import opened Bytes
  import opened Constants
  import opened Selection
  import opened ConstantPoolQueries
  import opened AttributeTable
  import opened AccessMasks
  import ClassAccess
  import ConstantPoolScan
  import ConstantPoolResolve
  import PoolEncoding
  import SmallAttributes
  import Members
  import CodeAttributes

  // ---------------------------------------------------------------- header

  /** The four bytes every class file starts with. */
  const Magic: seq<byte> := [0xCA, 0xFE, 0xBA, 0xBE]

  lemma MagicSpelling()
    ensures ToBytes(0xCAFEBABE, 4) == Magic
  {
  }

  /** `readInt` for the magic, which must be 0xCAFEBABE, then the unsigned
      minor and major versions. */
  function ReadHeader(s: seq<byte>): (r: Parse<(nat, nat)>)
    ensures |s| < 4 ==> r == Failure(Truncated)
    ensures |s| >= 4 && s[..4] != Magic ==> r.Failure? && r.error.BadMagic?
    ensures |s| >= 4 && s[..4] == Magic && |s| < 8 ==> r == Failure(Truncated)
    ensures |s| >= 8 && s[..4] == Magic ==>
              r == Success(((s[4] as int * 256 + s[5] as int, s[6] as int * 256 + s[7] as int), s[8..]))
    ensures r.Success? ==> |s| >= 8 && s[..4] == Magic
  {
    assert |s| >= 4 ==> (ReadU4(s).value.0 == 0xCAFEBABE <==> s[..4] == Magic) by {
      if |s| >= 4 { MagicIff(s); }
    }
    var (magic, afterMagic) :- ReadU4(s);
    if magic != 0xCAFEBABE then
      Failure(BadMagic(magic))
    else
      var (minor, afterMinor) :- ReadU2(afterMagic);
      var (major, rest) :- ReadU2(afterMinor);
      assert afterMagic[0] == s[4] && afterMinor[0] == s[6] && rest == s[8..];
      Success(((minor, major), rest))
  }

  /** The magic read as a number is 0xCAFEBABE exactly when its bytes spell `Magic`. */
  lemma MagicIff(s: seq<byte>)
    requires |s| >= 4
    ensures ReadU4(s).value.0 == 0xCAFEBABE <==> s[..4] == Magic
  {
    var magic := ReadU4(s).value.0;
    MagicSpelling();
    BigEndianOfToBytes(magic, 4);
    BigEndianOfToBytes(0xCAFEBABE, 4);
  }

  /** The header bytes of a file with the given versions. */
  function EncodeHeader(minor: nat, major: nat): (s: seq<byte>)
    requires minor < 0x1_0000 && major < 0x1_0000
    ensures |s| == 8
  {
    Magic + SmallAttributes.U2(minor) + SmallAttributes.U2(major)
  }

  /** A written header reads back as its versions. */
  lemma HeaderRoundTrip(minor: nat, major: nat, rest: seq<byte>)
    requires minor < 0x1_0000 && major < 0x1_0000
    ensures ReadHeader(EncodeHeader(minor, major) + rest) == Success(((minor, major), rest))
  {
    var s := EncodeHeader(minor, major) + rest;
    assert s[..4] == Magic;
    assert s[4..6] == SmallAttributes.U2(minor) && s[6..8] == SmallAttributes.U2(major) && s[8..] == rest;
    SmallAttributes.ReadU2OfU2(minor, s[6..]);
    SmallAttributes.ReadU2OfU2(major, rest);
    assert s[4..] == SmallAttributes.U2(minor) + s[6..];
    assert s[6..] == SmallAttributes.U2(major) + rest;
  }

  // ---------------------------------------------------------------- body

  /** Everything the constructor reads after the constant pool. */
  datatype ClassBody = ClassBody(accessFlags: nat, thisClass: Option<ClassRef>, superClass: Option<ClassRef>,
                                 interfaces: seq<Option<ClassRef>>, fields: seq<Members.Member>,
                                 methods: seq<Members.Member>, attributes: seq<AttributeInfo>)

  /** `(ConstantClass) constantPool.get(input.readUnsignedShort())`. */
  function ReadClassIndex(s: seq<byte>, pool: seq<Slot>): (r: Parse<Option<ClassRef>>)
    ensures |s| < 2 ==> r == Failure(Truncated)
    ensures |s| >= 2 ==> var c := ClassAt(pool, s[0] as int * 256 + s[1] as int);
                         (c.Success? ==> r == Success((c.value, s[2..]))) && (c.Failure? ==> r == Failure(c.error))
  {
    var (index, rest) :- ReadU2(s);
    var c :- ClassAt(pool, index);
    Success((c, rest))
  }

  function ClassIndexReader(pool: seq<Slot>): seq<byte> -> Parse<Option<ClassRef>> {
    s => ReadClassIndex(s, pool)
  }

  function MemberReader(pool: seq<Slot>): seq<byte> -> Parse<Members.Member> {
    s => Members.ReadMember(s, pool)
  }

  /** A u2 count, then that many items. */
  function ReadList<T>(s: seq<byte>, item: seq<byte> -> Parse<T>): (r: Parse<seq<T>>)
    ensures |s| < 2 ==> r == Failure(Truncated)
    ensures |s| >= 2 ==> r == ReadCounted(s[2..], s[0] as int * 256 + s[1] as int, item)
  {
    var (count, rest) :- ReadU2(s);
    ReadCounted(rest, count, item)
  }

  /** Access flags, this class, super class, interfaces, fields, methods,
      attributes, in that order; each pool lookup is cast as it is read. */
  function ReadClassBody(s: seq<byte>, pool: seq<Slot>): (r: Parse<ClassBody>)
    ensures |s| < 2 ==> r == Failure(Truncated)
    ensures r.Success? ==> |s| >= 6
                           && r.value.0.accessFlags == s[0] as int * 256 + s[1] as int
                           && ReadClassIndex(s[2..], pool) == Success((r.value.0.thisClass, s[4..]))
                           && ReadClassIndex(s[4..], pool) == Success((r.value.0.superClass, s[6..]))
  {
    var (flags, s1) :- ReadU2(s);
    var (thisClass, s2) :- ReadClassIndex(s1, pool);
    var (superClass, s3) :- ReadClassIndex(s2, pool);
    var (interfaces, s4) :- ReadList(s3, ClassIndexReader(pool));
    var (fields, s5) :- ReadList(s4, MemberReader(pool));
    var (methods, s6) :- ReadList(s5, MemberReader(pool));
    var (attributes, rest) :- ReadAttributes(s6, pool);
    assert s1 == s[2..] && s2 == s[4..] && s3 == s[6..];
    Success((ClassBody(flags, thisClass, superClass, interfaces, fields, methods, attributes), rest))
  }

  /** What a member record is written from: flags, name and descriptor
      indices, and the attribute records. */
  datatype MemberSource = MemberSource(flags: nat, nameIndex: nat, descriptorIndex: nat,
                                       records: seq<(nat, seq<byte>)>)

  predicate MemberWritable(m: MemberSource) {
    && m.flags < 0x1_0000 && m.nameIndex < 0x1_0000 && m.descriptorIndex < 0x1_0000 && |m.records| < 0x1_0000
    && forall i :: 0 <= i < |m.records| ==> m.records[i].0 < 0x1_0000 && |m.records[i].1| < 0x8000_0000
  }

  predicate MemberReadable(m: MemberSource, pool: seq<Slot>) {
    && StringAt(pool, m.nameIndex).Success? && StringAt(pool, m.descriptorIndex).Success?
    && forall i :: 0 <= i < |m.records| ==> StringAt(pool, m.records[i].0).Success?
  }

  function EncodeMemberSource(m: MemberSource): seq<byte>
    requires MemberWritable(m)
  {
    Members.EncodeMember(m.flags, m.nameIndex, m.descriptorIndex, m.records)
  }

  /** The attributes written attribute records decode to. */
  function RecordAttributes(records: seq<(nat, seq<byte>)>, pool: seq<Slot>): (r: seq<AttributeInfo>)
    requires forall i :: 0 <= i < |records| ==> StringAt(pool, records[i].0).Success?
    ensures |r| == |records|
    ensures forall i :: 0 <= i < |records| ==> r[i] == AttributeInfo(StringAt(pool, records[i].0).value, records[i].1)
  {
    seq(|records|, i requires 0 <= i < |records| => AttributeInfo(StringAt(pool, records[i].0).value, records[i].1))
  }

  /** The member a readable source decodes to. */
  function DecodedMember(m: MemberSource, pool: seq<Slot>): Members.Member
    requires MemberReadable(m, pool)
  {
    Members.Member(m.flags, StringAt(pool, m.nameIndex).value, StringAt(pool, m.descriptorIndex).value,
                   RecordAttributes(m.records, pool))
  }

  lemma MemberSourceRoundTrip(m: MemberSource, tail: seq<byte>, pool: seq<Slot>)
    requires MemberWritable(m) && MemberReadable(m, pool)
    ensures MemberReader(pool)(EncodeMemberSource(m) + tail) == Success((DecodedMember(m, pool), tail))
  {
    Members.MemberRoundTrip(m.flags, m.nameIndex, m.descriptorIndex, m.records, tail, pool);
    var r := Members.ReadMember(EncodeMemberSource(m) + tail, pool);
    assert r.value.0.attributes == RecordAttributes(m.records, pool);
  }

  /** A count written as a u2 is read back before the items it counts. */
  lemma ReadListOf<T>(n: nat, items: seq<byte>, item: seq<byte> -> Parse<T>)
    requires n < 0x1_0000
    ensures ReadList(SmallAttributes.U2(n) + items, item) == ReadCounted(items, n, item)
  {
    SmallAttributes.ReadU2OfU2(n, items);
  }

  /** A u2 count followed by that many chunks, each of which reads back as
      its value, reads back as the values. */
  lemma ReadListRoundTrip<T>(chunks: seq<seq<byte>>, values: seq<T>, rest: seq<byte>, item: seq<byte> -> Parse<T>)
    requires |chunks| == |values| < 0x1_0000
    requires forall i, tail :: 0 <= i < |chunks| ==> item(chunks[i] + tail) == Success((values[i], tail))
    ensures ReadList(SmallAttributes.U2(|chunks|) + Flatten(chunks) + rest, item) == Success((values, rest))
  {
    ReadCountedRoundTrip(chunks, values, rest, item);
    assert SmallAttributes.U2(|chunks|) + Flatten(chunks) + rest == SmallAttributes.U2(|chunks|) + (Flatten(chunks) + rest);
    ReadListOf(|chunks|, Flatten(chunks) + rest, item);
  }

  lemma ReadClassIndexOf(index: nat, tail: seq<byte>, pool: seq<Slot>)
    requires index < 0x1_0000 && ClassAt(pool, index).Success?
    ensures ClassIndexReader(pool)(SmallAttributes.U2(index) + tail) == Success((ClassAt(pool, index).value, tail))
  {
    SmallAttributes.ReadU2OfU2(index, tail);
  }

  /** What a class body is written from. */
  datatype BodySource = BodySource(flags: nat, thisIndex: nat, superIndex: nat, interfaceIndices: seq<nat>,
                                   fields: seq<MemberSource>, methods: seq<MemberSource>,
                                   records: seq<(nat, seq<byte>)>)

  predicate BodyWritable(b: BodySource) {
    && b.flags < 0x1_0000 && b.thisIndex < 0x1_0000 && b.superIndex < 0x1_0000
    && |b.interfaceIndices| < 0x1_0000 && |b.fields| < 0x1_0000 && |b.methods| < 0x1_0000 && |b.records| < 0x1_0000
    && (forall i :: 0 <= i < |b.interfaceIndices| ==> b.interfaceIndices[i] < 0x1_0000)
    && (forall i :: 0 <= i < |b.fields| ==> MemberWritable(b.fields[i]))
    && (forall i :: 0 <= i < |b.methods| ==> MemberWritable(b.methods[i]))
    && forall i :: 0 <= i < |b.records| ==> b.records[i].0 < 0x1_0000 && |b.records[i].1| < 0x8000_0000
  }

  /** Every pool lookup the body makes succeeds. */
  predicate BodyReadable(b: BodySource, pool: seq<Slot>) {
    && ClassAt(pool, b.thisIndex).Success? && ClassAt(pool, b.superIndex).Success?
    && (forall i :: 0 <= i < |b.interfaceIndices| ==> ClassAt(pool, b.interfaceIndices[i]).Success?)
    && (forall i :: 0 <= i < |b.fields| ==> MemberReadable(b.fields[i], pool))
    && (forall i :: 0 <= i < |b.methods| ==> MemberReadable(b.methods[i], pool))
    && forall i :: 0 <= i < |b.records| ==> StringAt(pool, b.records[i].0).Success?
  }

  function EncodeMembers(ms: seq<MemberSource>): (r: seq<seq<byte>>)
    requires forall i :: 0 <= i < |ms| ==> MemberWritable(ms[i])
    ensures |r| == |ms| && forall i :: 0 <= i < |ms| ==> r[i] == EncodeMemberSource(ms[i])
  {
    if |ms| == 0 then [] else [EncodeMemberSource(ms[0])] + EncodeMembers(ms[1..])
  }

  function EncodeBody(b: BodySource): seq<byte>
    requires BodyWritable(b)
  {
    SmallAttributes.U2(b.flags) + SmallAttributes.U2(b.thisIndex) + SmallAttributes.U2(b.superIndex)
    + (SmallAttributes.U2(|b.interfaceIndices|) + Flatten(SmallAttributes.EncodeIndices(b.interfaceIndices)))
    + (SmallAttributes.U2(|b.fields|) + Flatten(EncodeMembers(b.fields)))
    + (SmallAttributes.U2(|b.methods|) + Flatten(EncodeMembers(b.methods)))
    + (SmallAttributes.U2(|b.records|) + EncodeAttributeList(b.records))
  }

  function DecodedMembers(ms: seq<MemberSource>, pool: seq<Slot>): (r: seq<Members.Member>)
    requires forall i :: 0 <= i < |ms| ==> MemberReadable(ms[i], pool)
    ensures |r| == |ms| && forall i :: 0 <= i < |ms| ==> r[i] == DecodedMember(ms[i], pool)
  {
    seq(|ms|, i requires 0 <= i < |ms| => DecodedMember(ms[i], pool))
  }

  function ClassesAt(pool: seq<Slot>, indices: seq<nat>): (r: seq<Option<ClassRef>>)
    requires forall i :: 0 <= i < |indices| ==> ClassAt(pool, indices[i]).Success?
    ensures |r| == |indices| && forall i :: 0 <= i < |indices| ==> r[i] == ClassAt(pool, indices[i]).value
  {
    seq(|indices|, i requires 0 <= i < |indices| => ClassAt(pool, indices[i]).value)
  }

  /** The body a readable source decodes to. */
  function DecodedBody(b: BodySource, pool: seq<Slot>): ClassBody
    requires BodyReadable(b, pool)
  {
    ClassBody(b.flags, ClassAt(pool, b.thisIndex).value, ClassAt(pool, b.superIndex).value,
              ClassesAt(pool, b.interfaceIndices), DecodedMembers(b.fields, pool), DecodedMembers(b.methods, pool),
              RecordAttributes(b.records, pool))
  }

  lemma InterfaceChunksReadBack(indices: seq<nat>, pool: seq<Slot>)
    requires forall i :: 0 <= i < |indices| ==> indices[i] < 0x1_0000 && ClassAt(pool, indices[i]).Success?
    ensures forall i, tail :: 0 <= i < |indices| ==>
              ClassIndexReader(pool)(SmallAttributes.EncodeIndices(indices)[i] + tail)
              == Success((ClassesAt(pool, indices)[i], tail))
  {
    forall i, tail | 0 <= i < |indices|
      ensures ClassIndexReader(pool)(SmallAttributes.EncodeIndices(indices)[i] + tail)
              == Success((ClassesAt(pool, indices)[i], tail))
    {
      ReadClassIndexOf(indices[i], tail, pool);
    }
  }

  lemma InterfacesRoundTrip(indices: seq<nat>, rest: seq<byte>, pool: seq<Slot>)
    requires |indices| < 0x1_0000 && forall i :: 0 <= i < |indices| ==> indices[i] < 0x1_0000
    requires forall i :: 0 <= i < |indices| ==> ClassAt(pool, indices[i]).Success?
    ensures ReadList(SmallAttributes.U2(|indices|) + Flatten(SmallAttributes.EncodeIndices(indices)) + rest,
                     ClassIndexReader(pool))
            == Success((ClassesAt(pool, indices), rest))
  {
    InterfaceChunksReadBack(indices, pool);
    ReadListRoundTrip(SmallAttributes.EncodeIndices(indices), ClassesAt(pool, indices), rest, ClassIndexReader(pool));
  }

  lemma MemberChunksReadBack(ms: seq<MemberSource>, pool: seq<Slot>)
    requires forall i :: 0 <= i < |ms| ==> MemberWritable(ms[i]) && MemberReadable(ms[i], pool)
    ensures forall i, tail :: 0 <= i < |ms| ==>
              MemberReader(pool)(EncodeMembers(ms)[i] + tail) == Success((DecodedMembers(ms, pool)[i], tail))
  {
    forall i, tail | 0 <= i < |ms|
      ensures MemberReader(pool)(EncodeMembers(ms)[i] + tail) == Success((DecodedMembers(ms, pool)[i], tail))
    {
      MemberSourceRoundTrip(ms[i], tail, pool);
    }
  }

  lemma MembersRoundTrip(ms: seq<MemberSource>, rest: seq<byte>, pool: seq<Slot>)
    requires |ms| < 0x1_0000
    requires forall i :: 0 <= i < |ms| ==> MemberWritable(ms[i]) && MemberReadable(ms[i], pool)
    ensures ReadList(SmallAttributes.U2(|ms|) + Flatten(EncodeMembers(ms)) + rest, MemberReader(pool))
            == Success((DecodedMembers(ms, pool), rest))
  {
    MemberChunksReadBack(ms, pool);
    ReadListRoundTrip(EncodeMembers(ms), DecodedMembers(ms, pool), rest, MemberReader(pool));
  }

  lemma TableRoundTrip(records: seq<(nat, seq<byte>)>, rest: seq<byte>, pool: seq<Slot>)
    requires |records| < 0x1_0000
    requires forall i :: 0 <= i < |records| ==> records[i].0 < 0x1_0000 && |records[i].1| < 0x8000_0000
    requires forall i :: 0 <= i < |records| ==> StringAt(pool, records[i].0).Success?
    ensures ReadAttributes(SmallAttributes.U2(|records|) + EncodeAttributeList(records) + rest, pool)
            == Success((RecordAttributes(records, pool), rest))
  {
    var attributes := CodeAttributes.AttributesRoundTrip(records, rest, pool);
  }

  /** `ReadClassBody` as the chain of its seven stages. */
  lemma ReadClassBodyOf(s: seq<byte>, s1: seq<byte>, s2: seq<byte>, s3: seq<byte>, s4: seq<byte>,
                        s5: seq<byte>, s6: seq<byte>, rest: seq<byte>, pool: seq<Slot>, body: ClassBody)
    requires ReadU2(s) == Success((body.accessFlags, s1))
    requires ReadClassIndex(s1, pool) == Success((body.thisClass, s2))
    requires ReadClassIndex(s2, pool) == Success((body.superClass, s3))
    requires ReadList(s3, ClassIndexReader(pool)) == Success((body.interfaces, s4))
    requires ReadList(s4, MemberReader(pool)) == Success((body.fields, s5))
    requires ReadList(s5, MemberReader(pool)) == Success((body.methods, s6))
    requires ReadAttributes(s6, pool) == Success((body.attributes, rest))
    ensures ReadClassBody(s, pool) == Success((body, rest))
  {
  }

  lemma Regroup(a: seq<byte>, b: seq<byte>, c: seq<byte>, d: seq<byte>, e: seq<byte>, f: seq<byte>,
                g: seq<byte>, rest: seq<byte>)
    ensures a + b + c + d + e + f + g + rest == a + (b + (c + (d + (e + (f + (g + rest))))))
  {
  }

  /** A written body reads back with its flags, the pool classes at its
      indices, one member per written field and method record, and one
      attribute per written attribute record, leaving what follows. */
  lemma BodyRoundTrip(b: BodySource, rest: seq<byte>, pool: seq<Slot>)
    requires BodyWritable(b) && BodyReadable(b, pool)
    ensures ReadClassBody(EncodeBody(b) + rest, pool) == Success((DecodedBody(b, pool), rest))
  {
    var U2 := SmallAttributes.U2;
    var tableBytes := U2(|b.records|) + EncodeAttributeList(b.records);
    var methodBytes := U2(|b.methods|) + Flatten(EncodeMembers(b.methods));
    var fieldBytes := U2(|b.fields|) + Flatten(EncodeMembers(b.fields));
    var interfaceBytes := U2(|b.interfaceIndices|) + Flatten(SmallAttributes.EncodeIndices(b.interfaceIndices));
    var s6 := tableBytes + rest;
    var s5 := methodBytes + s6;
    var s4 := fieldBytes + s5;
    var s3 := interfaceBytes + s4;
    var s2 := U2(b.superIndex) + s3;
    var s1 := U2(b.thisIndex) + s2;
    Regroup(U2(b.flags), U2(b.thisIndex), U2(b.superIndex), interfaceBytes, fieldBytes, methodBytes, tableBytes, rest);
    assert EncodeBody(b) + rest == U2(b.flags) + s1;
    var body := DecodedBody(b, pool);
    SmallAttributes.ReadU2OfU2(b.flags, s1);
    ReadClassIndexOf(b.thisIndex, s2, pool);
    ReadClassIndexOf(b.superIndex, s3, pool);
    InterfacesRoundTrip(b.interfaceIndices, s4, pool);
    MembersRoundTrip(b.fields, s5, pool);
    MembersRoundTrip(b.methods, s6, pool);
    TableRoundTrip(b.records, rest, pool);
    ReadClassBodyOf(EncodeBody(b) + rest, s1, s2, s3, s4, s5, s6, rest, pool, body);
  }

  // ---------------------------------------------------------------- class Signature attribute

  /** The string at a pool index whose first use dereferences it: an empty
      slot (`null`) fails. */
  function SignatureAt(pool: seq<Slot>, index: int): (r: Result<Option<string>, DecodeError>)
    ensures StringAt(pool, index).Failure? ==> r == Failure(StringAt(pool, index).error)
    ensures StringAt(pool, index) == Success(None) ==> r == Failure(NullDereference)
    ensures r.Success? ==> r.value.Some? && r == StringAt(pool, index)
  {
    var text :- StringAt(pool, index);
    if text.None? then Failure(NullDereference) else Success(text)
  }

  /** The Signature attribute's text as the constructor reads it: its index
      read with `readShort`, so 0x8000 and above come out negative; `null`
      without the attribute. */
  function ClassSignatureAsWritten(attrs: seq<AttributeInfo>, pool: seq<Slot>): (r: Result<Option<string>, DecodeError>)
    ensures AttributeTable.Get(attrs, Some("Signature")) == Success(None) ==> r == Success(None)
    ensures Members.ShortOperand(attrs, "Signature").Failure? ==> r == Failure(Members.ShortOperand(attrs, "Signature").error)
    ensures Members.ShortOperand(attrs, "Signature").Success? && Members.ShortOperand(attrs, "Signature").value.Some? ==>
              r == SignatureAt(pool, Members.ShortOperand(attrs, "Signature").value.value)
  {
    var index :- Members.ShortOperand(attrs, "Signature");
    if index.None? then Success(None) else SignatureAt(pool, index.value)
  }

  /** The same with the index read as the unsigned u2 the format defines. */
  function ClassSignature(attrs: seq<AttributeInfo>, pool: seq<Slot>): (r: Result<Option<string>, DecodeError>)
    ensures AttributeTable.Get(attrs, Some("Signature")) == Success(None) ==> r == Success(None)
    ensures Members.UnsignedOperand(attrs, "Signature").Failure? ==> r == Failure(Members.UnsignedOperand(attrs, "Signature").error)
    ensures Members.UnsignedOperand(attrs, "Signature").Success? && Members.UnsignedOperand(attrs, "Signature").value.Some? ==>
              r == SignatureAt(pool, Members.UnsignedOperand(attrs, "Signature").value.value)
  {
    var index :- Members.UnsignedOperand(attrs, "Signature");
    if index.None? then Success(None) else SignatureAt(pool, index.value)
  }

  /** The class signature text in the chosen reading of its index. */
  function ClassSignatureIn(variant: Variant, attrs: seq<AttributeInfo>, pool: seq<Slot>): Result<Option<string>, DecodeError> {
    if variant == AsWritten then ClassSignatureAsWritten(attrs, pool) else ClassSignature(attrs, pool)
  }

  /** Below index 0x8000 the two readings agree. */
  lemma ClassSignatureReadingsAgree(attrs: seq<AttributeInfo>, pool: seq<Slot>)
    requires AttributeTable.Get(attrs, Some("Signature")).Success?
    requires var info := AttributeTable.Get(attrs, Some("Signature")).value;
             info.Some? && |info.value.data| >= 2 ==> info.value.data[0] < 0x80
    ensures ClassSignatureAsWritten(attrs, pool) == ClassSignature(attrs, pool)
  {
    var info := AttributeTable.Get(attrs, Some("Signature")).value;
    if info.Some? && |info.value.data| >= 2 {
      Members.OperandReadingsAgree(attrs, "Signature");
    }
  }

  /** A class whose signature sits at pool index 0x8000: the constructor asks
      the pool for index -32768 and fails, the unsigned reading finds it. */
  lemma HighClassSignatureIndexMisread()
    ensures var pool := seq(0x8001, i => if i == 0x8000 then Value(Utf8("Ljava/lang/Object;")) else Empty);
            var attrs := [AttributeInfo(Some("Signature"), [0x80, 0x00])];
            ClassSignatureAsWritten(attrs, pool) == Failure(IndexOutOfRange(-0x8000))
            && ClassSignature(attrs, pool) == Success(Some("Ljava/lang/Object;"))
  {
    var pool := seq(0x8001, i => if i == 0x8000 then Value(Utf8("Ljava/lang/Object;")) else Empty);
    var attrs := [AttributeInfo(Some("Signature"), [0x80, 0x00])];
    assert AttributeTable.Get(attrs, Some("Signature")) == Success(Some(attrs[0]));
    assert CastAt(pool, 0x8000, IsUtf8) == Success(Some(Utf8("Ljava/lang/Object;")));
  }

  // ---------------------------------------------------------------- splitting the signature

  /** `+1` for '<', `-1` for '>', 0 otherwise. */
  function Nesting(c: char): int {
    if c == '<' then 1 else if c == '>' then -1 else 0
  }

  /** The running count after reading `s`. */
  function Depth(s: string): int {
    if |s| == 0 then 0 else Depth(s[..|s| - 1]) + Nesting(s[|s| - 1])
  }

  /** Index `k` is where the constructor cuts: a character other than '<' and
      '>' reached with the count back at 0. */
  predicate SplitsAt(sig: string, k: int) {
    0 <= k < |sig| && sig[k] != '<' && sig[k] != '>' && Depth(sig[..k]) == 0
  }

  /** The loop from index `i` on, with `depth` the count so far. */
  function SplitFrom(sig: string, i: nat, depth: int): (r: Option<nat>)
    requires i <= |sig| && depth == Depth(sig[..i])
    ensures r.Some? ==> i <= r.value && SplitsAt(sig, r.value)
                        && forall k :: i <= k < r.value ==> !SplitsAt(sig, k)
    ensures r.None? ==> forall k :: i <= k < |sig| ==> !SplitsAt(sig, k)
    decreases |sig| - i
  {
    if i == |sig| then None
    else
      assert sig[..i + 1][..i] == sig[..i];
      if sig[i] == '<' || sig[i] == '>' then SplitFrom(sig, i + 1, depth + Nesting(sig[i]))
      else if depth == 0 then Some(i)
      else SplitFrom(sig, i + 1, depth)
  }

  /** `thisSignature` and `superSignature`: the text before and from the
      first cut, or both `null` when the loop never cuts. */
  function SplitSignature(sig: string): (r: (Option<string>, Option<string>))
    ensures r.0.Some? <==> r.1.Some?
    ensures r.0.Some? ==> r.0.value + r.1.value == sig && SplitsAt(sig, |r.0.value|)
                          && forall k :: 0 <= k < |r.0.value| ==> !SplitsAt(sig, k)
    ensures r.0.None? ==> forall k :: 0 <= k < |sig| ==> !SplitsAt(sig, k)
    ensures (forall k :: 0 <= k < |sig| ==> !SplitsAt(sig, k)) ==> r.0.None?
  {
    match SplitFrom(sig, 0, 0)
    case None => (None, None)
    case Some(k) =>
      assert sig[..k] + sig[k..] == sig;
      (Some(sig[..k]), Some(sig[k..]))
  }

  /** One leading type-parameter block: it opens with '<', closes with the
      '>' that brings the count back to 0, and the count stays positive in
      between. */
  predicate TypeParameterBlock(p: string) {
    && |p| >= 2 && p[0] == '<' && p[|p| - 1] == '>' && Depth(p) == 0
    && forall k :: 1 <= k < |p| ==> Depth(p[..k]) >= 1
  }

  /** Without a leading block the cut is at 0: `thisSignature` is "" and
      `superSignature` the whole text. */
  lemma SplitWithoutTypeParameters(sig: string)
    requires |sig| > 0 && sig[0] != '<' && sig[0] != '>'
    ensures SplitSignature(sig) == (Some(""), Some(sig))
  {
    assert SplitsAt(sig, 0) by { assert sig[..0] == []; }
    var r := SplitSignature(sig);
    assert |r.0.value| == 0;
  }

  /** After a leading block the cut is right behind it. */
  lemma SplitAfterTypeParameters(block: string, rest: string)
    requires TypeParameterBlock(block)
    requires |rest| > 0 && rest[0] != '<' && rest[0] != '>'
    ensures SplitSignature(block + rest) == (Some(block), Some(rest))
  {
    var sig := block + rest;
    forall k | 0 <= k < |block| ensures !SplitsAt(sig, k) {
      assert sig[..k] == block[..k];
      if k == 0 { assert sig[0] == '<'; }
    }
    assert SplitsAt(sig, |block|) by { assert sig[..|block|] == block; }
    var r := SplitSignature(sig);
    assert |r.0.value| == |block|;
    assert r.0.value == sig[..|block|] == block;
    assert r.1.value == rest;
  }

  /** A block that never closes leaves both halves `null`. */
  lemma NoSplitInUnclosedBlock(sig: string)
    requires |sig| > 0 && sig[0] == '<'
    requires forall k :: 1 <= k <= |sig| ==> Depth(sig[..k]) >= 1
    ensures SplitSignature(sig) == (None, None)
  {
    forall k | 0 <= k < |sig| ensures !SplitsAt(sig, k) {
      if k > 0 { assert Depth(sig[..k]) >= 1; }
    }
  }

  // ---------------------------------------------------------------- the whole file

  /** The decoded class. The parsed `ClassSignature` tree is left to the
      signature grammar; the NestHost, NestMembers and InnerClasses payloads
      are kept as the attributes found. */
  datatype ClassFile = ClassFile(minorVersion: nat, majorVersion: nat, pool: seq<Slot>, body: ClassBody,
                                 signature: Option<string>, thisSignature: Option<string>,
                                 superSignature: Option<string>, nestHost: Option<AttributeInfo>,
                                 nestMembers: Option<AttributeInfo>, innerClasses: Option<AttributeInfo>,
                                 enclosingMethod: Option<SmallAttributes.EnclosingMethod>)

  /** The EnclosingMethod attribute decoded, or `null` without one. */
  function EnclosingMethodOf(attrs: seq<AttributeInfo>, pool: seq<Slot>): (r: Result<Option<SmallAttributes.EnclosingMethod>, DecodeError>)
    ensures AttributeTable.Get(attrs, Some("EnclosingMethod")) == Success(None) ==> r == Success(None)
    ensures AttributeTable.Get(attrs, Some("EnclosingMethod")).Failure? ==> r == Failure(NullDereference)
    ensures AttributeTable.Get(attrs, Some("EnclosingMethod")).Success? && AttributeTable.Get(attrs, Some("EnclosingMethod")).value.Some? ==>
              var m := SmallAttributes.ReadEnclosingMethod(AttributeTable.Get(attrs, Some("EnclosingMethod")).value.value.data, pool);
              (r.Success? <==> m.Success?) && (r.Success? ==> r.value == Some(m.value.0))
  {
    var info :- AttributeTable.Get(attrs, Some("EnclosingMethod"));
    if info.None? then Success(None)
    else
      var (m, _) :- SmallAttributes.ReadEnclosingMethod(info.value.data, pool);
      Success(Some(m))
  }

  /** The constructor's pool is layered: every entry reads only entries of a
      lower layer. This rules out the pools on which the resolution loop never
      finishes, and also those on which it stops with a ClassCastException or
      copies a placeholder (`ConstantPoolResolve.LayeredExcludesPlaceholderOperands`). */
  predicate PoolLayered(s: seq<byte>, utf: ConstantPoolScan.Utf8Decoder) {
    ReadHeader(s).Success? && ConstantPoolScan.ScanPool(ReadHeader(s).value.1, utf).Success? ==>
      ConstantPoolResolve.Layered(ConstantPoolScan.ScanPool(ReadHeader(s).value.1, utf).value.0)
  }

  /** The constructor: header, constant pool, body, then the attributes it
      looks up. Bytes after the attribute table are ignored. `AsWritten`
      reads the Signature index with `readShort` as the constructor does;
      `Corrected` reads it unsigned. */
  function ReadClassFile(variant: Variant, s: seq<byte>, utf: ConstantPoolScan.Utf8Decoder): (r: Result<ClassFile, DecodeError>)
    requires PoolLayered(s, utf)
    ensures |s| < 4 ==> r == Failure(Truncated)
    ensures |s| >= 4 && s[..4] != Magic ==> r.Failure? && r.error.BadMagic?
    ensures r.Success? ==> |s| >= 8 && s[..4] == Magic
                           && r.value.minorVersion == s[4] as int * 256 + s[5] as int
                           && r.value.majorVersion == s[6] as int * 256 + s[7] as int
    ensures r.Success? ==> var scanned := ConstantPoolScan.ScanPool(s[8..], utf);
                           && scanned.Success? && ConstantPoolResolve.Layered(scanned.value.0)
                           && ConstantPoolResolve.ResolvedPool(scanned.value.0, r.value.majorVersion) == Success(r.value.pool)
                           && ReadClassBody(scanned.value.1, r.value.pool).Success?
                           && ReadClassBody(scanned.value.1, r.value.pool).value.0 == r.value.body
    ensures r.Success? ==> ClassSignatureIn(variant, r.value.body.attributes, r.value.pool) == Success(r.value.signature)
    ensures r.Success? && r.value.signature.Some? ==>
              (r.value.thisSignature, r.value.superSignature) == SplitSignature(r.value.signature.value)
    ensures r.Success? && r.value.signature.None? ==> r.value.thisSignature.None? && r.value.superSignature.None?
    ensures r.Success? ==> EnclosingMethodOf(r.value.body.attributes, r.value.pool) == Success(r.value.enclosingMethod)
    ensures ReadHeader(s).Failure? ==> r == Failure(ReadHeader(s).error)
    ensures ReadHeader(s).Success? ==>
              var scanned := ConstantPoolScan.ScanPool(ReadHeader(s).value.1, utf);
              (scanned.Failure? ==> r == Failure(scanned.error))
              && (scanned.Success? ==>
                    var pool := ConstantPoolResolve.Resolution(scanned.value.0, ReadHeader(s).value.0.1);
                    (pool.Failure? ==> r == Failure(pool.error))
                    && (pool.Success? ==>
                          var body := ReadClassBody(scanned.value.1, pool.value);
                          (body.Failure? ==> r == Failure(body.error))
                          && (body.Success? ==>
                                var attrs := body.value.0.attributes;
                                (ClassSignatureIn(variant, attrs, pool.value).Failure? ==>
                                   r == Failure(ClassSignatureIn(variant, attrs, pool.value).error))
                                && (r.Success? <==> ClassSignatureIn(variant, attrs, pool.value).Success?
                                                    && AttributeTable.Get(attrs, Some("NestHost")).Success?
                                                    && AttributeTable.Get(attrs, Some("NestMembers")).Success?
                                                    && AttributeTable.Get(attrs, Some("InnerClasses")).Success?
                                                    && EnclosingMethodOf(attrs, pool.value).Success?))))
  {
    var ((minor, major), afterHeader) :- ReadHeader(s);
    var (p0, afterPool) :- ConstantPoolScan.ScanPool(afterHeader, utf);
    var pool :- ConstantPoolResolve.Resolution(p0, major);
    var (body, _) :- ReadClassBody(afterPool, pool);
    var signature :- ClassSignatureIn(variant, body.attributes, pool);
    var split := if signature.Some? then SplitSignature(signature.value) else (None, None);
    var nestHost :- AttributeTable.Get(body.attributes, Some("NestHost"));
    var nestMembers :- AttributeTable.Get(body.attributes, Some("NestMembers"));
    var innerClasses :- AttributeTable.Get(body.attributes, Some("InnerClasses"));
    var enclosing :- EnclosingMethodOf(body.attributes, pool);
    Success(ClassFile(minor, major, pool, body, signature, split.0, split.1, nestHost, nestMembers, innerClasses, enclosing))
  }

  /** The constructor succeeds once each stage succeeds, with the versions,
      pool and body those stages produce. */
  lemma ReadClassFileOf(variant: Variant, s: seq<byte>, utf: ConstantPoolScan.Utf8Decoder, minor: nat, major: nat,
                        afterHeader: seq<byte>, p0: seq<Slot>, afterPool: seq<byte>, pool: seq<Slot>,
                        body: ClassBody, rest: seq<byte>)
    requires ReadHeader(s) == Success(((minor, major), afterHeader))
    requires ConstantPoolScan.ScanPool(afterHeader, utf) == Success((p0, afterPool))
    requires ConstantPoolResolve.Layered(p0) && ConstantPoolResolve.ResolvedPool(p0, major) == Success(pool)
    requires ReadClassBody(afterPool, pool) == Success((body, rest))
    requires ClassSignatureIn(variant, body.attributes, pool).Success?
    requires forall i :: 0 <= i < |body.attributes| ==> body.attributes[i].name.Some?
    requires EnclosingMethodOf(body.attributes, pool).Success?
    ensures PoolLayered(s, utf)
    ensures var r := ReadClassFile(variant, s, utf);
            r.Success? && r.value.minorVersion == minor && r.value.majorVersion == major
            && r.value.pool == pool && r.value.body == body
  {
    NamedAttributesFound(body.attributes, "NestHost");
    NamedAttributesFound(body.attributes, "NestMembers");
    NamedAttributesFound(body.attributes, "InnerClasses");
  }

  /** With every attribute named, a look-up never meets the `null` name it
      would dereference. */
  lemma NamedAttributesFound(attrs: seq<AttributeInfo>, name: string)
    requires forall i :: 0 <= i < |attrs| ==> attrs[i].name.Some?
    ensures AttributeTable.Get(attrs, Some(name)).Success?
  {
  }

  /** Attribute names that are pool strings decode to named attributes. */
  lemma RecordsNamed(b: BodySource, pool: seq<Slot>)
    requires BodyReadable(b, pool)
    requires forall i :: 0 <= i < |b.records| ==> StringAt(pool, b.records[i].0).value.Some?
    ensures forall i :: 0 <= i < |DecodedBody(b, pool).attributes| ==> DecodedBody(b, pool).attributes[i].name.Some?
  {
  }

  /** The pool a written entry list resolves to, when it resolves. */
  function WrittenPool(es: seq<PoolEncoding.Entry>, utf: ConstantPoolScan.Utf8Decoder, major: nat): (r: Option<seq<Slot>>)
    requires PoolEncoding.AllDecode(es, utf)
    ensures r.Some? <==> ConstantPoolResolve.Layered([Empty] + PoolEncoding.SlotsOf(es, utf))
                         && ConstantPoolResolve.ResolvedPool([Empty] + PoolEncoding.SlotsOf(es, utf), major).Success?
    ensures r.Some? ==> ConstantPoolResolve.ResolvedPool([Empty] + PoolEncoding.SlotsOf(es, utf), major) == Success(r.value)
  {
    var p0 := [Empty] + PoolEncoding.SlotsOf(es, utf);
    if ConstantPoolResolve.Layered(p0) then
      var pool := ConstantPoolResolve.ResolvedPool(p0, major);
      if pool.Success? then Some(pool.value) else None
    else None
  }

  /** A written class file reads back: the versions, the pool its entries
      resolve to and the body it was written from. The source fails past the
      body when the Signature or EnclosingMethod attribute names the wrong
      pool entry, so those two look-ups are assumed to succeed; every
      attribute name being a pool string keeps the other look-ups from the
      `null` dereference. */
  lemma FileRoundTrip(variant: Variant, minor: nat, major: nat, es: seq<PoolEncoding.Entry>, b: BodySource,
                      rest: seq<byte>, utf: ConstantPoolScan.Utf8Decoder)
    requires minor < 0x1_0000 && major < 0x1_0000
    requires PoolEncoding.AllWritable(es) && PoolEncoding.AllDecode(es, utf) && PoolEncoding.PoolCount(es) < Pow256(2)
    requires WrittenPool(es, utf, major).Some?
    requires var pool := WrittenPool(es, utf, major).value;
             && BodyWritable(b) && BodyReadable(b, pool)
             && (forall i :: 0 <= i < |b.records| ==> StringAt(pool, b.records[i].0).value.Some?)
             && ClassSignatureIn(variant, DecodedBody(b, pool).attributes, pool).Success?
             && EnclosingMethodOf(DecodedBody(b, pool).attributes, pool).Success?
    ensures var s := EncodeHeader(minor, major) + PoolEncoding.EncodePool(es) + EncodeBody(b) + rest;
            var pool := WrittenPool(es, utf, major).value;
            && PoolLayered(s, utf)
            && var r := ReadClassFile(variant, s, utf);
            r.Success? && r.value.minorVersion == minor && r.value.majorVersion == major
            && r.value.pool == pool && r.value.body == DecodedBody(b, pool)
  {
    var pool := WrittenPool(es, utf, major).value;
    var afterPool := EncodeBody(b) + rest;
    var afterHeader := PoolEncoding.EncodePool(es) + afterPool;
    var s := EncodeHeader(minor, major) + PoolEncoding.EncodePool(es) + EncodeBody(b) + rest;
    SmallAttributes.Associate3(EncodeHeader(minor, major), PoolEncoding.EncodePool(es), EncodeBody(b), rest);
    HeaderRoundTrip(minor, major, afterHeader);
    PoolEncoding.ScanPoolRoundTrip(es, afterPool, utf);
    BodyRoundTrip(b, rest, pool);
    var body := DecodedBody(b, pool);
    RecordsNamed(b, pool);
    ReadClassFileOf(variant, s, utf, minor, major, afterHeader, [Empty] + PoolEncoding.SlotsOf(es, utf),
                    afterPool, pool, body, rest);
  }

  // ---------------------------------------------------------------- class kind

  datatype ClassType = Class | Interface | Enum

  /** `getType`: Interface when bit 0x0200 is set; otherwise Enum when the
      super class is named exactly `java/lang/Enum`; otherwise Class. */
  function GetType(flags: nat, superClass: Option<ClassRef>): (t: ClassType)
    requires flags < 0x1_0000
    ensures t == Interface <==> FlagWord(flags) & 0x0200 != 0
    ensures t == Enum <==> FlagWord(flags) & 0x0200 == 0 && superClass.Some?
                           && superClass.value.name == Some("java/lang/Enum")
  {
    if FlagWord(flags) & 0x0200 == 0x0200 then Interface
    else if superClass.Some? && superClass.value.name.Some? && superClass.value.name.value == "java/lang/Enum" then Enum
    else Class
  }

  /** The kind agrees with the flag list: Interface exactly when INTERFACE is
      listed, and an interface is never classified Enum. */
  lemma TypeAgreesWithFlagList(flags: nat, superClass: Option<ClassRef>)
    requires flags < 0x1_0000
    ensures GetType(flags, superClass) == Interface <==> ClassAccess.Interface in ClassAccess.FlagsOf(FlagWord(flags))
  {
    var w := FlagWord(flags);
    assert ClassAccess.Mask(ClassAccess.Interface) == 0x0200;
    SingleBitTestsAgree(w, 0x0200);
    assert ClassAccess.Interface in ClassAccess.FlagsOf(w) <==> WhollySet(w, 0x0200);
    assert GetType(flags, superClass) == Interface <==> AnySet(w, 0x0200);
  }

  // ---------------------------------------------------------------- lookups

  function Named(name: string): Members.Member -> bool {
    (m: Members.Member) => m.name == Some(name)
  }

  /** `getMethod(name)`: every method with that name, in declaration order. */
  function MethodsNamed(methods: seq<Members.Member>, name: string): (r: seq<Members.Member>)
    ensures SelectsExactly(methods, Named(name), Id, r)
    ensures forall m :: m in r <==> m in methods && m.name == Some(name)
  {
    Filter(methods, Named(name))
  }

  /** `getMethodCount(name)`: the loop that counts matches, which always
      agrees with the size of `getMethod(name)`. */
  method MethodCount(methods: seq<Members.Member>, name: string) returns (count: nat)
    ensures count == |MethodsNamed(methods, name)|
  {
    count := 0;
    for i := 0 to |methods|
      invariant count == Count(methods[..i], Named(name))
    {
      assert methods[..i + 1][..i] == methods[..i];
      if methods[i].name == Some(name) {
        count := count + 1;
      }
    }
    assert methods[..|methods|] == methods;
  }

  /** Every method has a name; otherwise the first one without fails
      `getName().equals`. */
  predicate AllNamed(methods: seq<Members.Member>) {
    forall i :: 0 <= i < |methods| ==> methods[i].name.Some?
  }

  /** Neither a constructor nor a class initialiser. */
  function Ordinary(): Members.Member -> bool {
    (m: Members.Member) => m.name.Some? && m.name.value != "<init>" && m.name.value != "<clinit>"
  }

  /** The loop shape shared by the three init queries: select the methods
      `keep` accepts, failing on a method without a name. */
  function SelectNamed(methods: seq<Members.Member>, keep: Members.Member -> bool): (r: Result<seq<Members.Member>, DecodeError>)
    ensures r.Failure? <==> !AllNamed(methods)
    ensures r.Failure? ==> r.error == NullDereference
    ensures r.Success? ==> SelectsExactly(methods, keep, Id, r.value)
    ensures r.Success? ==> forall m :: m in r.value <==> m in methods && keep(m)
  {
    if AllNamed(methods) then Success(Filter(methods, keep)) else Failure(NullDereference)
  }

  /** `getConstructorMethods`. */
  function ConstructorMethods(methods: seq<Members.Member>): (r: Result<seq<Members.Member>, DecodeError>)
    ensures r.Failure? <==> !AllNamed(methods)
    ensures r.Success? ==> forall m :: m in r.value <==> m in methods && m.name == Some("<init>")
  {
    SelectNamed(methods, Named("<init>"))
  }

  /** `getClassInitialisationMethods`. */
  function ClassInitialisationMethods(methods: seq<Members.Member>): (r: Result<seq<Members.Member>, DecodeError>)
    ensures r.Failure? <==> !AllNamed(methods)
    ensures r.Success? ==> forall m :: m in r.value <==> m in methods && m.name == Some("<clinit>")
  {
    SelectNamed(methods, Named("<clinit>"))
  }

  /** `getNonInitMethods`. */
  function NonInitMethods(methods: seq<Members.Member>): (r: Result<seq<Members.Member>, DecodeError>)
    ensures r.Failure? <==> !AllNamed(methods)
    ensures r.Success? ==> forall m :: m in r.value <==> (m in methods && m.name.Some?
                                                      && m.name.value != "<init>" && m.name.value != "<clinit>")
  {
    SelectNamed(methods, Ordinary())
  }

  /** With every method named, the three lists split the methods: their
      sizes add up to the method count. */
  lemma InitQueriesPartition(methods: seq<Members.Member>)
    requires AllNamed(methods)
    ensures |ConstructorMethods(methods).value| + |ClassInitialisationMethods(methods).value|
            + |NonInitMethods(methods).value| == |methods|
  {
    forall m | m in methods
      ensures (if Named("<init>")(m) then 1 else 0) + (if Named("<clinit>")(m) then 1 else 0)
              + (if Ordinary()(m) then 1 else 0) == 1
    {
      var i :| 0 <= i < |methods| && methods[i] == m;
    }
    CountPartition(methods, Named("<init>"), Named("<clinit>"), Ordinary());
  }

  /** `getField(name)`: the first field with that name, or `null`. */
  function FieldNamed(fields: seq<Members.Member>, name: string): (r: Option<Members.Member>)
    ensures r.None? <==> forall i :: 0 <= i < |fields| ==> fields[i].name != Some(name)
    ensures r.Some? ==> exists j :: 0 <= j < |fields| && fields[j] == r.value && fields[j].name == Some(name)
                                    && forall i :: 0 <= i < j ==> fields[i].name != Some(name)
  {
    var r := First(fields, Named(name));
    assert forall i :: 0 <= i < |fields| ==> (Named(name)(fields[i]) <==> fields[i].name == Some(name));
    r
  }

  /** `MethodInfo.matches`: names must be equal (a nameless method fails);
      then the raw descriptor decides when the method has one, otherwise
      `sameType`, the comparison of the reference's descriptor with the
      method's parsed signature. */
  function MethodMatches(m: Members.Member, nt: NameAndType, sameType: bool): (r: Result<bool, DecodeError>)
    ensures m.name.None? <==> r.Failure?
    ensures r.Failure? ==> r.error == NullDereference
    ensures m.name.Some? && m.name != nt.name ==> r == Success(false)
    ensures m.name.Some? && m.name == nt.name && m.description.Some? ==>
              r == Success(m.description == nt.descriptor)
    ensures m.name.Some? && m.name == nt.name && m.description.None? ==> r == Success(sameType)
  {
    if m.name.None? then Failure(NullDereference)
    else if Some(m.name.value) != nt.name then Success(false)
    else if m.description.Some? then Success(nt.descriptor.Some? && m.description.value == nt.descriptor.value)
    else Success(sameType)
  }

  /** `getMethod(NameAndType)` from index `from` on: the first method that
      matches, `null` if none does; a failing comparison ends the search. */
  function FindMethod(methods: seq<Members.Member>, nt: NameAndType, sameType: Members.Member -> bool, from: nat)
    : (r: Result<Option<Members.Member>, DecodeError>)
    requires from <= |methods|
    ensures r.Success? && r.value.Some? ==>
              exists k :: from <= k < |methods| && methods[k] == r.value.value
                          && MethodMatches(methods[k], nt, sameType(methods[k])) == Success(true)
                          && forall j :: from <= j < k ==> MethodMatches(methods[j], nt, sameType(methods[j])) == Success(false)
    ensures r == Success(None) ==>
              forall j :: from <= j < |methods| ==> MethodMatches(methods[j], nt, sameType(methods[j])) == Success(false)
    ensures r.Failure? ==>
              exists k :: from <= k < |methods| && MethodMatches(methods[k], nt, sameType(methods[k])) == Failure(r.error)
                          && forall j :: from <= j < k ==> MethodMatches(methods[j], nt, sameType(methods[j])) == Success(false)
    decreases |methods| - from
  {
    if from == |methods| then Success(None)
    else
      var hit :- MethodMatches(methods[from], nt, sameType(methods[from]));
      if hit then Success(Some(methods[from])) else FindMethod(methods, nt, sameType, from + 1)
  }

  /** A method that matches, with only non-matching methods before it, is
      the one found. */
  lemma FindMethodFindsFirstMatch(methods: seq<Members.Member>, nt: NameAndType, sameType: Members.Member -> bool, k: nat)
    requires k < |methods| && MethodMatches(methods[k], nt, sameType(methods[k])) == Success(true)
    requires forall j :: 0 <= j < k ==> MethodMatches(methods[j], nt, sameType(methods[j])) == Success(false)
    ensures FindMethod(methods, nt, sameType, 0) == Success(Some(methods[k]))
  {
    FindMethodFrom(methods, nt, sameType, 0, k);
  }

  lemma {:induction false} FindMethodFrom(methods: seq<Members.Member>, nt: NameAndType, sameType: Members.Member -> bool, from: nat, k: nat)
    requires from <= k < |methods| && MethodMatches(methods[k], nt, sameType(methods[k])) == Success(true)
    requires forall j :: from <= j < k ==> MethodMatches(methods[j], nt, sameType(methods[j])) == Success(false)
    ensures FindMethod(methods, nt, sameType, from) == Success(Some(methods[k]))
    decreases k - from
  {
    if from < k {
      FindMethodFrom(methods, nt, sameType, from + 1, k);
    }
  }
}

=== FILE: code.dfy ===
/** The Code attribute of a method (section 4.7.3 of the Java Virtual Machine
    Specification): `Code` and its exception-table entries `TryCatchFinally`,
    the line-number lookups and the two "does this constructor only call
    super()" tests. */
module CodeAttributes {
  import opened Wrappers
  import opened Bytes
  import opened Constants
  import opened ConstantPoolQueries
  import opened AttributeTable
  import SmallAttributes

  // ---------------------------------------------------------------- TryCatchFinally

  /** One exception-table entry; `catchType` is `null` for a `finally` block. */
  datatype TryCatchFinally = TryCatchFinally(start: nat, end: nat, handler: nat, catchType: Option<ClassRef>)

  /** Start, end and handler as u2 values, then the catch type as the class at a u2 pool index. */
  function ReadTryCatchFinallyAt(s: seq<byte>, pool: seq<Slot>): (r: Parse<TryCatchFinally>)
    ensures |s| < 8 ==> r == Failure(Truncated)
    ensures |s| >= 8 ==>
              var catchType := ClassAt(pool, s[6] as int * 256 + s[7] as int);
              (catchType.Failure? ==> r == Failure(catchType.error))
              && (catchType.Success? ==>
                    r == Success((TryCatchFinally(s[0] as int * 256 + s[1] as int, s[2] as int * 256 + s[3] as int,
                                                  s[4] as int * 256 + s[5] as int, catchType.value), s[8..])))
  {
    var (start, s1) :- ReadU2(s);
    var (end, s2) :- ReadU2(s1);
    var (handler, s3) :- ReadU2(s2);
    var (typeIndex, rest) :- ReadU2(s3);
    var catchType :- ClassAt(pool, typeIndex);
    assert s1[0] == s[2] && s2[0] == s[4] && s3[0] == s[6] && rest == s[8..];
    Success((TryCatchFinally(start, end, handler, catchType), rest))
  }

  function ReadTryCatchFinally(pool: seq<Slot>): seq<byte> -> Parse<TryCatchFinally> {
    s => ReadTryCatchFinallyAt(s, pool)
  }

  /** `isFinally`: the entry catches everything. */
  predicate IsFinally(t: TryCatchFinally) {
    t.catchType.None?
  }

  /** The eight bytes of one entry. */
  function EncodeTryCatchFinally(start: nat, end: nat, handler: nat, typeIndex: nat): (s: seq<byte>)
    requires start < 0x1_0000 && end < 0x1_0000 && handler < 0x1_0000 && typeIndex < 0x1_0000
    ensures |s| == 8
  {
    SmallAttributes.U2(start) + SmallAttributes.U2(end) + SmallAttributes.U2(handler) + SmallAttributes.U2(typeIndex)
  }

  /** A written entry reads back with its three offsets, and it is a `finally`
      entry exactly when its catch-type slot is empty. */
  lemma TryCatchFinallyRoundTrip(start: nat, end: nat, handler: nat, typeIndex: nat, tail: seq<byte>, pool: seq<Slot>)
    requires start < 0x1_0000 && end < 0x1_0000 && handler < 0x1_0000 && typeIndex < 0x1_0000
    requires ClassAt(pool, typeIndex).Success?
    ensures var r := ReadTryCatchFinallyAt(EncodeTryCatchFinally(start, end, handler, typeIndex) + tail, pool);
            r.Success? && r.value.1 == tail
            && r.value.0.start == start && r.value.0.end == end && r.value.0.handler == handler
            && (IsFinally(r.value.0) <==> pool[typeIndex].Empty?)
  {
    var s := EncodeTryCatchFinally(start, end, handler, typeIndex) + tail;
    var u := SmallAttributes.U2(start);
    var e := SmallAttributes.U2(end);
    var h := SmallAttributes.U2(handler);
    var t := SmallAttributes.U2(typeIndex);
    assert s == u + (e + (h + (t + tail)));
    SmallAttributes.ReadU2OfU2(start, e + (h + (t + tail)));
    SmallAttributes.ReadU2OfU2(end, h + (t + tail));
    SmallAttributes.ReadU2OfU2(handler, t + tail);
    SmallAttributes.ReadU2OfU2(typeIndex, tail);
    assert s[..2] == u && s[2..4] == e && s[4..6] == h && s[6..8] == t && s[8..] == tail;
    assert ReadU2(s).value.0 == start;
  }

  // ---------------------------------------------------------------- Code

  /** A method body. `attributes` is `None` for a body made by the no-argument
      constructor, which leaves the attribute table `null`. */
  datatype Code = Code(maxStack: nat, maxLocals: nat, code: seq<byte>,
                       exceptionTable: seq<TryCatchFinally>, attributes: Option<seq<AttributeInfo>>)

  /** The reading constructor: max_stack and max_locals as u2, a signed u4
      length and that many code bytes, a u2 count and that many
      exception-table entries, then the attribute table. */
  function ReadCode(s: seq<byte>, pool: seq<Slot>): (r: Parse<Code>)
    ensures r.Success? ==>
              var c := r.value.0;
              |s| >= 8 + |c.code|
              && c.maxStack == s[0] as int * 256 + s[1] as int && c.maxLocals == s[2] as int * 256 + s[3] as int
              && ReadS4(s[4..]) == Success((|c.code|, s[8..]))
              && c.code == s[8 .. 8 + |c.code|]
              && c.attributes.Some?
    ensures |s| < 8 ==> r == Failure(Truncated)
  {
    var (maxStack, s1) :- ReadU2(s);
    var (maxLocals, s2) :- ReadU2(s1);
    var (code, s4) :- ReadCodeBytes(s2);
    var (table, s6) :- ReadExceptionTable(s4, pool);
    var (attributes, rest) :- ReadAttributes(s6, pool);
    assert s1[0] == s[2] && s1[1] == s[3] && s2 == s[4..];
    Success((Code(maxStack, maxLocals, code, table, Some(attributes)), rest))
  }

  /** `code_length` as a signed u4, then that many bytes. */
  function ReadCodeBytes(s: seq<byte>): (r: Parse<seq<byte>>)
    ensures r.Success? ==> |s| >= 4 + |r.value.0| && ReadS4(s) == Success((|r.value.0|, s[4..]))
                           && r.value.0 == s[4 .. 4 + |r.value.0|] && r.value.1 == s[4 + |r.value.0|..]
  {
    var (length, afterLength) :- ReadS4(s);
    ReadBytes(afterLength, length)
  }

  /** A u2 count, then that many exception-table entries. */
  function ReadExceptionTable(s: seq<byte>, pool: seq<Slot>): (r: Parse<seq<TryCatchFinally>>)
    ensures r.Success? ==> |s| >= 2 && |r.value.0| == s[0] as int * 256 + s[1] as int
  {
    var (count, afterCount) :- ReadU2(s);
    ReadCounted(afterCount, count, ReadTryCatchFinally(pool))
  }

  /** The no-argument constructor: no limits, no code, no handlers, no attribute table. */
  function EmptyCode(): (c: Code)
    ensures CodeSize(c) == 0 && c.maxStack == 0 && c.maxLocals == 0 && c.exceptionTable == []
    ensures c.attributes.None?
  {
    Code(0, 0, [], [], None)
  }

  /** `getCodeSize`. */
  function CodeSize(c: Code): nat {
    |c.code|
  }

  /** The bytes of a body: limits, code, exception entries (each eight bytes)
      and attribute records. */
  function EncodeCode(maxStack: nat, maxLocals: nat, code: seq<byte>, entries: seq<seq<byte>>,
                      records: seq<(nat, seq<byte>)>): seq<byte>
    requires maxStack < 0x1_0000 && maxLocals < 0x1_0000 && |code| < 0x8000_0000
    requires |entries| < 0x1_0000 && |records| < 0x1_0000
    requires forall i :: 0 <= i < |records| ==> records[i].0 < 0x1_0000 && |records[i].1| < 0x8000_0000
  {
    SmallAttributes.U2(maxStack) + SmallAttributes.U2(maxLocals) + ToBytes(|code|, 4) + code
    + SmallAttributes.U2(|entries|) + Flatten(entries)
    + SmallAttributes.U2(|records|) + EncodeAttributeList(records)
  }

  /** A written body reads back with its limits, its code bytes, one
      exception entry per written entry and one attribute per record, and
      leaves what follows. */
  lemma CodeRoundTrip(s: seq<byte>, maxStack: nat, maxLocals: nat, code: seq<byte>, entries: seq<seq<byte>>,
                      handlers: seq<TryCatchFinally>, records: seq<(nat, seq<byte>)>, rest: seq<byte>, pool: seq<Slot>)
    requires maxStack < 0x1_0000 && maxLocals < 0x1_0000 && |code| < 0x8000_0000
    requires |entries| < 0x1_0000 && |records| < 0x1_0000
    requires forall i :: 0 <= i < |records| ==> records[i].0 < 0x1_0000 && |records[i].1| < 0x8000_0000
    requires forall i :: 0 <= i < |records| ==> StringAt(pool, records[i].0).Success?
    requires |entries| == |handlers|
    requires forall i, tail :: 0 <= i < |entries| ==>
               ReadTryCatchFinally(pool)(entries[i] + tail) == Success((handlers[i], tail))
    requires s == EncodeCode(maxStack, maxLocals, code, entries, records) + rest
    ensures ReadCode(s, pool).Success?
    ensures var r := ReadCode(s, pool).value;
            r.1 == rest && r.0.attributes.Some?
            && r.0 == Code(maxStack, maxLocals, code, handlers, r.0.attributes)
            && |r.0.attributes.value| == |records|
  {
    var attrs := SmallAttributes.U2(|records|) + EncodeAttributeList(records) + rest;
    var table := SmallAttributes.U2(|entries|) + Flatten(entries) + attrs;
    var afterLocals := ToBytes(|code|, 4) + (code + table);
    var afterStack := SmallAttributes.U2(maxLocals) + afterLocals;
    Regroup(SmallAttributes.U2(maxStack), SmallAttributes.U2(maxLocals), ToBytes(|code|, 4), code,
            SmallAttributes.U2(|entries|), Flatten(entries), SmallAttributes.U2(|records|),
            EncodeAttributeList(records), rest);
    HeadRoundTrip(s, afterStack, afterLocals, maxStack, maxLocals, code, table);
    ExceptionTableRoundTrip(entries, handlers, attrs, pool);
    var attributes := AttributesRoundTrip(records, rest, pool);
    ReadCodeOf(s, afterStack, afterLocals, table, attrs, pool, maxStack, maxLocals, code, handlers, attributes, rest);
  }

  lemma Regroup(a: seq<byte>, b: seq<byte>, c: seq<byte>, d: seq<byte>, e: seq<byte>,
                f: seq<byte>, g: seq<byte>, h: seq<byte>, i: seq<byte>)
    ensures a + b + c + d + e + f + g + h + i == a + (b + (c + (d + (e + f + (g + h + i)))))
  {
  }

  /** The fixed part of a body: both limits, then the counted code bytes. */
  lemma HeadRoundTrip(s: seq<byte>, afterStack: seq<byte>, afterLocals: seq<byte>,
                      maxStack: nat, maxLocals: nat, code: seq<byte>, table: seq<byte>)
    requires maxStack < 0x1_0000 && maxLocals < 0x1_0000 && |code| < 0x8000_0000
    requires afterLocals == ToBytes(|code|, 4) + (code + table)
    requires afterStack == SmallAttributes.U2(maxLocals) + afterLocals
    requires s == SmallAttributes.U2(maxStack) + afterStack
    ensures ReadU2(s) == Success((maxStack, afterStack))
    ensures ReadU2(afterStack) == Success((maxLocals, afterLocals))
    ensures ReadCodeBytes(afterLocals) == Success((code, table))
  {
    SmallAttributes.ReadU2OfU2(maxStack, afterStack);
    SmallAttributes.ReadU2OfU2(maxLocals, afterLocals);
    ReadS4Of(|code|, code + table);
    CodeBytesRoundTrip(afterLocals, code, table);
  }

  /** Written attribute records, behind their count, read back one per record. */
  lemma AttributesRoundTrip(records: seq<(nat, seq<byte>)>, rest: seq<byte>, pool: seq<Slot>)
      returns (attributes: seq<AttributeInfo>)
    requires |records| < 0x1_0000
    requires forall i :: 0 <= i < |records| ==> records[i].0 < 0x1_0000 && |records[i].1| < 0x8000_0000
    requires forall i :: 0 <= i < |records| ==> StringAt(pool, records[i].0).Success?
    ensures ReadAttributes(SmallAttributes.U2(|records|) + EncodeAttributeList(records) + rest, pool)
            == Success((attributes, rest))
    ensures |attributes| == |records|
    ensures forall i :: 0 <= i < |records| ==>
              attributes[i] == AttributeInfo(StringAt(pool, records[i].0).value, records[i].1)
  {
    var attrs := SmallAttributes.U2(|records|) + EncodeAttributeList(records) + rest;
    SmallAttributes.ReadU2OfU2(|records|, EncodeAttributeList(records) + rest);
    assert attrs == SmallAttributes.U2(|records|) + (EncodeAttributeList(records) + rest);
    ReadAttributeListRoundTrip(records, rest, pool);
    attributes := ReadAttributes(attrs, pool).value.0;
  }

  /** `ReadCode` step by step: when each section reads as given, the body is their assembly. */
  lemma ReadCodeOf(s: seq<byte>, s1: seq<byte>, s2: seq<byte>, s4: seq<byte>, s6: seq<byte>, pool: seq<Slot>,
                   maxStack: nat, maxLocals: nat, code: seq<byte>, handlers: seq<TryCatchFinally>,
                   attributes: seq<AttributeInfo>, rest: seq<byte>)
    requires ReadU2(s) == Success((maxStack, s1)) && ReadU2(s1) == Success((maxLocals, s2))
    requires ReadCodeBytes(s2) == Success((code, s4))
    requires ReadExceptionTable(s4, pool) == Success((handlers, s6))
    requires ReadAttributes(s6, pool) == Success((attributes, rest))
    ensures ReadCode(s, pool) == Success((Code(maxStack, maxLocals, code, handlers, Some(attributes)), rest))
  {
  }

  lemma CodeBytesRoundTrip(s: seq<byte>, code: seq<byte>, rest: seq<byte>)
    requires ReadS4(s) == Success((|code|, code + rest))
    ensures ReadCodeBytes(s) == Success((code, rest))
  {
    var after := code + rest;
    assert after[..|code|] == code && after[|code|..] == rest;
  }

  lemma ReadS4Of(v: nat, after: seq<byte>)
    requires v < 0x8000_0000
    ensures ReadS4(ToBytes(v, 4) + after) == Success((v, after))
  {
    assert Pow256(4) == 0x1_0000_0000;
    ReadSignedRoundTrip(v, 4, after);
  }

  lemma ExceptionTableRoundTrip(entries: seq<seq<byte>>, handlers: seq<TryCatchFinally>, rest: seq<byte>, pool: seq<Slot>)
    requires |entries| < 0x1_0000 && |entries| == |handlers|
    requires forall i, tail :: 0 <= i < |entries| ==>
               ReadTryCatchFinally(pool)(entries[i] + tail) == Success((handlers[i], tail))
    ensures ReadExceptionTable(SmallAttributes.U2(|entries|) + Flatten(entries) + rest, pool) == Success((handlers, rest))
  {
    assert SmallAttributes.U2(|entries|) + Flatten(entries) + rest == SmallAttributes.U2(|entries|) + (Flatten(entries) + rest);
    SmallAttributes.ReadU2OfU2(|entries|, Flatten(entries) + rest);
    ReadCountedRoundTrip(entries, handlers, rest, ReadTryCatchFinally(pool));
  }

  // ---------------------------------------------------------------- line numbers

  /** `attributes.get(name)` on a body; a body without a table dereferences `null`. */
  function AttributeOf(c: Code, name: string): (r: Result<Option<AttributeInfo>, DecodeError>)
    ensures c.attributes.None? ==> r == Failure(NullDereference)
    ensures c.attributes.Some? ==> r == AttributeTable.Get(c.attributes.value, Some(name))
  {
    if c.attributes.None? then Failure(NullDereference) else AttributeTable.Get(c.attributes.value, Some(name))
  }

  /** `getFirstLineNr`: -1 without a LineNumberTable attribute, otherwise the
      table's smallest line number. Decoding that table belongs to
      `LineNumberTable`, which is not part of this model, so it is the
      parameter `minLine` applied to the attribute's payload. */
  function FirstLineNr(c: Code, minLine: seq<byte> -> Result<int, DecodeError>): (r: Result<int, DecodeError>)
    ensures AttributeOf(c, "LineNumberTable") == Success(None) ==> r == Success(-1)
    ensures AttributeOf(c, "LineNumberTable").Failure? ==> r == Failure(NullDereference)
    ensures AttributeOf(c, "LineNumberTable").Success? && AttributeOf(c, "LineNumberTable").value.Some? ==>
              r == minLine(AttributeOf(c, "LineNumberTable").value.value.data)
  {
    var table :- AttributeOf(c, "LineNumberTable");
    if table.None? then Success(-1) else minLine(table.value.data)
  }

  /** `getLastLineNr`: as `getFirstLineNr`, with the table's largest line number. */
  function LastLineNr(c: Code, maxLine: seq<byte> -> Result<int, DecodeError>): (r: Result<int, DecodeError>)
    ensures AttributeOf(c, "LineNumberTable") == Success(None) ==> r == Success(-1)
    ensures AttributeOf(c, "LineNumberTable").Failure? ==> r == Failure(NullDereference)
    ensures AttributeOf(c, "LineNumberTable").Success? && AttributeOf(c, "LineNumberTable").value.Some? ==>
              r == maxLine(AttributeOf(c, "LineNumberTable").value.value.data)
  {
    var table :- AttributeOf(c, "LineNumberTable");
    if table.None? then Success(-1) else maxLine(table.value.data)
  }

  /** A body read from a class file whose attributes are all pool strings
      other than "LineNumberTable" has no line numbers: both lookups give -1. */
  lemma NoLineNumberTable(c: Code, minLine: seq<byte> -> Result<int, DecodeError>,
                          maxLine: seq<byte> -> Result<int, DecodeError>)
    requires c.attributes.Some?
    requires forall j :: 0 <= j < |c.attributes.value| ==> PassedOver(c.attributes.value[j], "LineNumberTable")
    ensures FirstLineNr(c, minLine) == Success(-1) && LastLineNr(c, maxLine) == Success(-1)
  {
    NothingNamed(c.attributes.value, "LineNumberTable", 0);
  }

  lemma {:induction false} NothingNamed(attrs: seq<AttributeInfo>, name: string, from: nat)
    requires from <= |attrs|
    requires forall j :: 0 <= j < |attrs| ==> PassedOver(attrs[j], name)
    ensures Find(attrs, name, from) == Success(None)
    decreases |attrs| - from
  {
    if from < |attrs| {
      assert PassedOver(attrs[from], name);
      NothingNamed(attrs, name, from + 1);
    }
  }

  /** The body of the no-argument constructor has no attribute table, so
      asking it for line numbers dereferences `null`. */
  lemma EmptyCodeLineNumbersFail(minLine: seq<byte> -> Result<int, DecodeError>)
    ensures FirstLineNr(EmptyCode(), minLine) == Failure(NullDereference)
  {
  }

  // ---------------------------------------------------------------- super() detection

  /** The code opens with `aload_0; invokespecial`. */
  predicate OpensWithInvokeSpecial(code: seq<byte>) {
    |code| >= 4 && code[0] == 0x2a && code[1] == 0xb7
  }

  /** The code is exactly `aload_0; invokespecial #idx; return`. */
  predicate IsInitReturnShape(code: seq<byte>) {
    |code| == 5 && code[0] == 0x2a && code[1] == 0xb7 && code[4] == 0xb1
  }

  /** A Java `byte` read as `int`: sign-extended. */
  function SignExtend(b: byte): (x: int)
    ensures -128 <= x < 128 && (x - b) % 256 == 0
  {
    if b < 128 then b else b - 256
  }

  /** `x & 0xFF00` on a 32-bit `int`: bits 8 to 15 of its two's-complement pattern. */
  function AndFF00(x: int): (r: int)
    ensures 0 <= r <= 0xFF00 && r % 256 == 0
  {
    (x % 0x1_0000_0000) / 0x100 % 0x100 * 0x100
  }

  /** `x & 0xFF` on a 32-bit `int`. */
  function AndFF(x: int): (r: int)
    ensures 0 <= r < 0x100
  {
    x % 0x100
  }

  /** The pool index as `startWithSuperInit` computes it:
      `(codeData[2] & 0xFF << 8) + (codeData[3] & 0xFF)`. Shift binds tighter
      than `&`, so the high byte is masked with 0xFF00 instead of shifted. */
  function IndexAsWritten(hi: byte, lo: byte): int {
    AndFF00(SignExtend(hi)) + AndFF(SignExtend(lo))
  }

  /** The u2 the two operand bytes of `invokespecial` encode. */
  function OperandIndex(hi: byte, lo: byte): (r: nat)
    ensures r < 0x1_0000 && r / 256 == hi && r % 256 == lo
  {
    hi as int * 256 + lo
  }

  /** The masked high byte is 0 or 0xFF00 and the low byte comes through, so
      the computed index is the low byte, plus 0xFF00 when the high byte has
      its top bit set. */
  lemma IndexAsWrittenValue(hi: byte, lo: byte)
    ensures IndexAsWritten(hi, lo) == (if hi >= 0x80 then 0xFF00 else 0) + lo
  {
    if hi >= 0x80 {
      assert SignExtend(hi) % 0x1_0000_0000 == 0xFFFF_FF00 + hi;
      assert (0xFFFF_FF00 + hi) / 0x100 == 0xFF_FFFF;
    }
    if lo >= 0x80 {
      assert SignExtend(lo) % 0x100 == lo;
    }
  }

  /** The computed index agrees with the operand exactly when the high byte is 0 or 0xFF. */
  lemma IndexAsWrittenAgrees(hi: byte, lo: byte)
    ensures IndexAsWritten(hi, lo) == OperandIndex(hi, lo) <==> hi == 0 || hi == 0xFF
  {
    IndexAsWrittenValue(hi, lo);
  }

  /** The owner of the method ref at `index` is, by identity, `superClass`;
      a `null` slot dereferences `null`. */
  function OwnerIs(pool: seq<Slot>, index: int, superClass: Option<ClassRef>): (r: Result<bool, DecodeError>)
    ensures r == Success(true) <==>
              0 <= index < |pool| && pool[index].Value? && IsMethodRefConstant(pool[index].c)
              && pool[index].c.ref.owner == superClass
    ensures r.Success? <==> MethodRefAt(pool, index).Success? && pool[index].Value?
  {
    var ref :- MethodRefAt(pool, index);
    if ref.None? then Failure(NullDereference) else Success(ref.value.owner == superClass)
  }

  /** `startWithSuperInit` as written, with the index of `IndexAsWritten`. */
  function StartWithSuperInitAsWritten(code: seq<byte>, pool: seq<Slot>, superClass: Option<ClassRef>): (r: Result<bool, DecodeError>)
    ensures !OpensWithInvokeSpecial(code) ==> r == Success(false)
    ensures r == Success(true) <==>
              OpensWithInvokeSpecial(code)
              && var index := IndexAsWritten(code[2], code[3]);
                 0 <= index < |pool| && pool[index].Value? && IsMethodRefConstant(pool[index].c)
                 && pool[index].c.ref.owner == superClass
  {
    if OpensWithInvokeSpecial(code) then OwnerIs(pool, IndexAsWritten(code[2], code[3]), superClass)
    else Success(false)
  }

  /** `startWithSuperInit` with the operand read as the u2 it is: the code
      opens with `aload_0; invokespecial` whose method ref is owned by `superClass`. */
  function StartWithSuperInit(code: seq<byte>, pool: seq<Slot>, superClass: Option<ClassRef>): (r: Result<bool, DecodeError>)
    ensures !OpensWithInvokeSpecial(code) ==> r == Success(false)
    ensures r == Success(true) <==>
              OpensWithInvokeSpecial(code)
              && var index := OperandIndex(code[2], code[3]);
                 index < |pool| && pool[index].Value? && IsMethodRefConstant(pool[index].c)
                 && pool[index].c.ref.owner == superClass
  {
    if OpensWithInvokeSpecial(code) then OwnerIs(pool, OperandIndex(code[2], code[3]), superClass)
    else Success(false)
  }

  /** `isSuperInitReturn` with the operand read as a u2: the whole body is
      `aload_0; invokespecial; return` on a method of `superClass`. */
  function IsSuperInitReturn(code: seq<byte>, pool: seq<Slot>, superClass: Option<ClassRef>): (r: Result<bool, DecodeError>)
    ensures !IsInitReturnShape(code) ==> r == Success(false)
    ensures r == Success(true) <==>
              IsInitReturnShape(code)
              && var index := OperandIndex(code[2], code[3]);
                 index < |pool| && pool[index].Value? && IsMethodRefConstant(pool[index].c)
                 && pool[index].c.ref.owner == superClass
  {
    if IsInitReturnShape(code) then OwnerIs(pool, OperandIndex(code[2], code[3]), superClass)
    else Success(false)
  }

  /** `isSuperInitReturn` as written, with the index of `IndexAsWritten`. */
  function IsSuperInitReturnAsWritten(code: seq<byte>, pool: seq<Slot>, superClass: Option<ClassRef>): (r: Result<bool, DecodeError>)
    ensures !IsInitReturnShape(code) ==> r == Success(false)
    ensures IsInitReturnShape(code) ==> r == StartWithSuperInitAsWritten(code, pool, superClass)
  {
    if IsInitReturnShape(code) then OwnerIs(pool, IndexAsWritten(code[2], code[3]), superClass)
    else Success(false)
  }

  /** A body that is only `super(); return` starts with `super()`, and on such
      a body the two tests give the same answer. */
  lemma SuperInitReturnStartsWithSuperInit(code: seq<byte>, pool: seq<Slot>, superClass: Option<ClassRef>)
    ensures IsSuperInitReturn(code, pool, superClass) == Success(true) ==> StartWithSuperInit(code, pool, superClass) == Success(true)
    ensures IsInitReturnShape(code) ==> IsSuperInitReturn(code, pool, superClass) == StartWithSuperInit(code, pool, superClass)
  {
  }

  /** Whenever the operand's high byte is 0 (a pool of at most 256 entries)
      the written and the corrected test agree. */
  lemma SmallPoolsAgree(code: seq<byte>, pool: seq<Slot>, superClass: Option<ClassRef>)
    requires OpensWithInvokeSpecial(code) && code[2] == 0
    ensures StartWithSuperInitAsWritten(code, pool, superClass) == StartWithSuperInit(code, pool, superClass)
  {
    IndexAsWrittenAgrees(code[2], code[3]);
  }

  /** `aload_0; invokespecial #0x105; return` against a pool whose slot 0x105
      is `superClass`'s constructor and whose other slots are empty: the
      corrected tests answer true, while the written ones look at slot 5 and
      dereference `null`. */
  lemma SuperInitIndexMisread(superClass: ClassRef)
    ensures var code: seq<byte> := [0x2a, 0xb7, 0x01, 0x05, 0xb1];
            var pool := seq(0x106, i => if i == 0x105 then Value(MemberRefC(MemberRef(MethodRef, Some(superClass), None))) else Empty);
            IndexAsWritten(0x01, 0x05) == 5 && OperandIndex(0x01, 0x05) == 0x105
            && StartWithSuperInit(code, pool, Some(superClass)) == Success(true)
            && IsSuperInitReturn(code, pool, Some(superClass)) == Success(true)
            && StartWithSuperInitAsWritten(code, pool, Some(superClass)) == Failure(NullDereference)
            && IsSuperInitReturnAsWritten(code, pool, Some(superClass)) == Failure(NullDereference)
  {
    IndexAsWrittenValue(0x01, 0x05);
    var pool := seq(0x106, i => if i == 0x105 then Value(MemberRefC(MemberRef(MethodRef, Some(superClass), None))) else Empty);
    assert pool[5] == Empty;
    assert pool[0x105] == Value(MemberRefC(MemberRef(MethodRef, Some(superClass), None)));
  }
}

=== FILE: constants.dfy ===
/** The structured values a resolved constant-pool slot can hold
    (section 4.4 of the Java Virtual Machine Specification), and the
    `ConstantMethodHandle` record with its reference kinds (section 4.4.8). */
module Constants {
  import opened Wrappers
  import opened Selection

  /** `ConstantClass`. The slot it was resolved at stands for Java object
      identity: references resolved from the same slot share one object. */
  datatype ClassRef = ClassRef(slot: nat, name: Option<string>)

  /** `ConstantNameAndType`: either string may be null. */
  datatype NameAndType = NameAndType(name: Option<string>, descriptor: Option<string>)

  /** Which of the three member-reference classes an entry was built as. */
  datatype RefKind = FieldRef | MethodRef | InterfaceMethodRef

  /** `ConstantFieldRef`, `ConstantMethodRef`, `ConstantInterfaceMethodRef`. */
  datatype MemberRef = MemberRef(kind: RefKind, owner: Option<ClassRef>, nameAndType: Option<NameAndType>)

  /** `ConstantMethodHandle.ReferenceKind`, in declaration order. */
  datatype ReferenceKind =
    | GetField | GetStatic | PutField | PutStatic
    | InvokeVirtual | InvokeStatic | InvokeSpecial | NewInvokeSpecial | InvokeInterface

  /** The `kind` field of each reference kind. */
  function Code(k: ReferenceKind): (c: int)
    ensures 1 <= c <= 9
  {
    match k
    case GetField => 1
    case GetStatic => 2
    case PutField => 3
    case PutStatic => 4
    case InvokeVirtual => 5
    case InvokeStatic => 6
    case InvokeSpecial => 7
    case NewInvokeSpecial => 8
    case InvokeInterface => 9
  }

  /** `ReferenceKind.values()`. */
  const ReferenceKinds: seq<ReferenceKind> :=
    [GetField, GetStatic, PutField, PutStatic, InvokeVirtual, InvokeStatic,
     InvokeSpecial, NewInvokeSpecial, InvokeInterface]

  /** The codes run 1..9 in declaration order, so they are pairwise distinct. */
  lemma ReferenceKindCodes()
    ensures |ReferenceKinds| == 9
    ensures forall i :: 0 <= i < |ReferenceKinds| ==> Code(ReferenceKinds[i]) == i + 1
    ensures forall k :: k in ReferenceKinds
    ensures forall k, l :: Code(k) == Code(l) ==> k == l
  {
    forall k ensures k in ReferenceKinds {
      assert ReferenceKinds[Code(k) - 1] == k;
    }
  }

  function HasCode(code: int): ReferenceKind -> bool {
    k => Code(k) == code
  }

  /** The constructor's search: the first reference kind whose code is
      `code`, and `GET_FIELD` when none is. */
  function KindFromCode(code: int): (k: ReferenceKind)
    ensures 1 <= code <= 9 ==> Code(k) == code
    ensures !(1 <= code <= 9) ==> k == GetField
  {
    CodeListed(code);
    var found := First(ReferenceKinds, HasCode(code));
    if found.Some? then found.value else GetField
  }

  /** Code `c` from 1 to 9 is carried by the kind at position `c - 1`. */
  lemma CodeListed(code: int)
    ensures 1 <= code <= 9 ==> HasCode(code)(ReferenceKinds[code - 1])
  {
    ReferenceKindCodes();
  }

  /** `ConstantMethodHandle`. */
  datatype MethodHandle = MethodHandle(referenceKind: ReferenceKind, reference: MemberRef)

  /** `new ConstantMethodHandle(kind, reference)`. */
  function NewMethodHandle(kind: int, reference: MemberRef): (h: MethodHandle)
    ensures h.reference == reference
    ensures 1 <= kind <= 9 ==> GetKind(h) == kind
    ensures !(1 <= kind <= 9) ==> GetKind(h) == 1
  {
    MethodHandle(KindFromCode(kind), reference)
  }

  /** `getKind()`. */
  function GetKind(h: MethodHandle): int {
    Code(h.referenceKind)
  }

  /** The reference class `getName` casts to is the one the handle holds:
      a field ref for kinds 1-4, a method ref for 5 and 8, either method ref
      class for 6-7, an interface-method ref for 9. */
  predicate TargetFits(h: MethodHandle) {
    match h.referenceKind
    case GetField | GetStatic | PutField | PutStatic => h.reference.kind == FieldRef
    case InvokeVirtual | NewInvokeSpecial => h.reference.kind == MethodRef
    case InvokeStatic | InvokeSpecial => h.reference.kind != FieldRef
    case InvokeInterface => h.reference.kind == InterfaceMethodRef
  }

  /** `ConstantRef.getName()`: the name in the reference's NameAndType. */
  function MemberName(r: MemberRef): Option<string>
    requires r.nameAndType.Some?
  {
    r.nameAndType.value.name
  }

  /** `ConstantRef.getType()`: the descriptor in the reference's NameAndType. */
  function MemberDescriptor(r: MemberRef): Option<string>
    requires r.nameAndType.Some?
  {
    r.nameAndType.value.descriptor
  }

  /** `getName()`: switch on the reference kind and cast to the matching
      reference class. The casts cannot fail when the target fits the kind,
      and every branch then yields the held reference's name. */
  function HandleName(h: MethodHandle): (r: Option<string>)
    requires TargetFits(h) && h.reference.nameAndType.Some?
    ensures r == h.reference.nameAndType.value.name
  {
    match h.referenceKind
    case GetField | GetStatic | PutField | PutStatic =>
      assert h.reference.kind == FieldRef;
      MemberName(h.reference)
    case InvokeVirtual | NewInvokeSpecial =>
      assert h.reference.kind == MethodRef;
      MemberName(h.reference)
    case InvokeStatic | InvokeSpecial =>
      if h.reference.kind == InterfaceMethodRef then MemberName(h.reference)
      else MemberName(h.reference)
    case InvokeInterface =>
      assert h.reference.kind == InterfaceMethodRef;
      MemberName(h.reference)
  }

  /** A resolved constant-pool value. A CONSTANT_String, Module or Package
      entry resolves to the referenced slot's value itself, so it has no
      constructor of its own. Float and Double keep their raw bit patterns. */
  datatype Constant =
    | Utf8(text: string)
    | IntegerC(int32: int)
    | FloatC(bits: nat)
    | LongC(int64: int)
    | DoubleC(bits: nat)
    | ClassC(cls: ClassRef)
    | NameAndTypeC(nt: NameAndType)
    | MemberRefC(ref: MemberRef)
    | MethodHandleC(handle: MethodHandle)
    | MethodTypeC(descriptor: Option<string>)
    | DynamicC(bootstrapIndex: int, dynamicNt: Option<NameAndType>)
    | InvokeDynamicC(bootstrapIndex: int, invokeNt: Option<NameAndType>)

  /** `getClass().getSimpleName()` of a resolved value, as an error message shows it. */
  function SimpleName(c: Constant): string {
    match c
    case Utf8(_) => "String"
    case IntegerC(_) => "Integer"
    case FloatC(_) => "Float"
    case LongC(_) => "Long"
    case DoubleC(_) => "Double"
    case ClassC(_) => "ConstantClass"
    case NameAndTypeC(_) => "ConstantNameAndType"
    case MemberRefC(r) =>
      (match r.kind
       case FieldRef => "ConstantFieldRef"
       case MethodRef => "ConstantMethodRef"
       case InterfaceMethodRef => "ConstantInterfaceMethodRef")
    case MethodHandleC(_) => "ConstantMethodHandle"
    case MethodTypeC(_) => "ConstantMethodType"
    case DynamicC(_, _) => "ConstantDynamic"
    case InvokeDynamicC(_, _) => "ConstantInvokeDynamic"
  }

  /** One slot of the constant-pool array: `null`, a resolved value, or the
      `int[]` placeholder `{tag, a, b}` left by the first phase (`b` is 0 for
      the two-element placeholders). */
  datatype Slot = Empty | Value(c: Constant) | Pending(tag: int, a: int, b: int)
}

=== FILE: descriptors.dfy ===
/** The static descriptor helpers of `utils/ClassUtils` over field descriptors
    and internal class names (section 4.3.2 of the Java Virtual Machine
    Specification), written as functions. */
module DescriptorUtils {
  import opened Wrappers
  import opened JavaStrings
  import opened TypeCodes

  /** `hasGenerics`: the name contains both '<' and '>'. */
  predicate HasGenerics(name: string) {
    '<' in name && '>' in name
  }

  /** `substring(indexOf('<') + 1, lastIndexOf('>'))` is only defined when the
      last '>' does not come before the first '<'. */
  predicate GenericBracketsOrdered(name: string) {
    !HasGenerics(name) || IndexOf(name, '<') < LastIndexOf(name, '>')
  }

  /** `getGenericTypes`: no entries without generics, otherwise the text between
      the first '<' and the last '>' split on ';'. */
  function GenericTypes(name: string): (r: seq<string>)
    requires GenericBracketsOrdered(name)
    ensures !HasGenerics(name) ==> r == []
    ensures forall i :: 0 <= i < |r| ==> ';' !in r[i]
  {
    if !HasGenerics(name) then []
    else Split(name[IndexOf(name, '<') + 1 .. LastIndexOf(name, '>')], ';')
  }

  /** The type arguments of `owner<a1;a2;...;an;>tail` come back as `a1 .. an`. */
  lemma GenericTypesRoundTrip(owner: string, args: seq<string>, tail: string)
    requires '<' !in owner && '>' !in tail
    requires |args| >= 1 && args[|args| - 1] != ""
    requires forall i :: 0 <= i < |args| ==> ';' !in args[i] && '>' !in args[i]
    ensures GenericBracketsOrdered(owner + ['<'] + (Join(args, ';') + [';']) + ['>'] + tail)
    ensures GenericTypes(owner + ['<'] + (Join(args, ';') + [';']) + ['>'] + tail) == args
  {
    JoinFree(args, ';', '>');
    GenericTypesBetween(owner, Join(args, ';') + [';'], tail);
    SplitTerminated(args, ';');
  }

  /** With one '<' opening and one '>' closing, `getGenericTypes` splits exactly the text between. */
  lemma GenericTypesBetween(owner: string, inner: string, tail: string)
    requires '<' !in owner && '>' !in inner && '>' !in tail
    ensures GenericBracketsOrdered(owner + ['<'] + inner + ['>'] + tail)
    ensures GenericTypes(owner + ['<'] + inner + ['>'] + tail) == Split(inner, ';')
  {
    var name := owner + ['<'] + inner + ['>'] + tail;
    var i, j := |owner|, |owner| + 1 + |inner|;
    assert name[..i] == owner && name[j + 1..] == tail;
    assert name[i + 1 .. j] == inner;
    GenericTypesAt(name, i, j);
  }

  /** A first '<' at `i` and a last '>' at `j > i` delimit the generic types. */
  lemma GenericTypesAt(name: string, i: nat, j: nat)
    requires i < j < |name| && name[i] == '<' && name[j] == '>'
    requires '<' !in name[..i] && '>' !in name[j + 1..]
    ensures GenericBracketsOrdered(name) && GenericTypes(name) == Split(name[i + 1 .. j], ';')
  {
    FirstAt(name, '<', i);
    LastAt(name, '>', j);
    assert name[i] in name && name[j] in name;
    assert HasGenerics(name);
  }

  /** A character absent from every piece and distinct from the separator is absent from the join. */
  lemma {:induction false} JoinFree(pieces: seq<string>, sep: char, c: char)
    requires |pieces| >= 1 && c != sep
    requires forall i :: 0 <= i < |pieces| ==> c !in pieces[i]
    ensures c !in Join(pieces, sep)
    decreases |pieces|
  {
    if |pieces| > 1 {
      JoinFree(pieces[1..], sep, c);
    }
  }

  predicate IsArray(name: string) {
    StartsWith(name, '[')
  }

  predicate IsObject(name: string) {
    StartsWith(name, 'L')
  }

  /** `isPrimitive`: neither an object nor an array descriptor. */
  predicate IsPrimitive(name: string) {
    !StartsWith(name, 'L') && !StartsWith(name, '[')
  }

  /** Every name is exactly one of array, object and primitive. */
  lemma ClassificationPartitions(name: string)
    ensures (if IsArray(name) then 1 else 0) + (if IsObject(name) then 1 else 0)
            + (if IsPrimitive(name) then 1 else 0) == 1
  {
  }

  /** `getArrayDimensions`: every '[' in the string, wherever it occurs. */
  function ArrayDimensions(name: string): (n: nat)
    ensures n <= |name|
    ensures n == 0 <==> '[' !in name
  {
    if |name| == 0 then 0
    else
      var rest := ArrayDimensions(name[1..]);
      assert name == [name[0]] + name[1..];
      (if name[0] == '[' then 1 else 0) + rest
  }

  /** `d` brackets. */
  function Brackets(d: nat): (s: string)
    ensures |s| == d && forall i :: 0 <= i < d ==> s[i] == '['
  {
    if d == 0 then "" else "[" + Brackets(d - 1)
  }

  /** The dimension count of `d` brackets before a bracket-free element type is `d`. */
  lemma {:induction false} ArrayDimensionsOfBrackets(d: nat, element: string)
    requires '[' !in element
    ensures ArrayDimensions(Brackets(d) + element) == d
  {
    if d > 0 {
      assert (Brackets(d) + element)[1..] == Brackets(d - 1) + element;
      ArrayDimensionsOfBrackets(d - 1, element);
    }
  }

  /** The length of the leading run of '['. */
  function LeadingBrackets(name: string): (k: nat)
    ensures k <= |name|
    ensures forall i :: 0 <= i < k ==> name[i] == '['
    ensures k < |name| ==> name[k] != '['
  {
    if |name| == 0 || name[0] != '[' then 0
    else 1 + LeadingBrackets(name[1..])
  }

  lemma {:induction false} LeadingBracketsOf(d: nat, element: string)
    requires !StartsWith(element, '[')
    ensures LeadingBrackets(Brackets(d) + element) == d
  {
    var s := Brackets(d) + element;
    LeadingBracketsAt(s, d);
  }

  /** A '[' run of length `i` followed by the end or another character is the leading run. */
  lemma LeadingBracketsAt(s: string, i: nat)
    requires i <= |s| && forall j :: 0 <= j < i ==> s[j] == '['
    requires i < |s| ==> s[i] != '['
    ensures LeadingBrackets(s) == i
  {
  }

  /** `isArrayOfPrimitives`: an array whose first non-'[' character exists and is not 'L'. */
  predicate IsArrayOfPrimitives(name: string) {
    IsArray(name) && LeadingBrackets(name) < |name| && name[LeadingBrackets(name)] != 'L'
  }

  /** `isArrayOfObjects`: an array whose first non-'[' character is 'L'. */
  predicate IsArrayOfObjects(name: string) {
    IsArray(name) && LeadingBrackets(name) < |name| && name[LeadingBrackets(name)] == 'L'
  }

  /** The two array tests never both hold, and both fail on non-arrays and on all-'[' strings;
      otherwise exactly one holds. */
  lemma ArrayKindsExclusive(name: string)
    ensures !(IsArrayOfPrimitives(name) && IsArrayOfObjects(name))
    ensures !IsArray(name) || LeadingBrackets(name) == |name| ==>
              !IsArrayOfPrimitives(name) && !IsArrayOfObjects(name)
    ensures IsArray(name) && LeadingBrackets(name) < |name| ==>
              IsArrayOfPrimitives(name) || IsArrayOfObjects(name)
  {
  }

  /** `getPrimitiveType(String)` needs a non-'[' character to look at. */
  predicate HasElementCode(name: string) {
    LeadingBrackets(name) < |name|
  }

  /** `getPrimitiveType(String)`: strip leading '[' and look the next code up. */
  function PrimitiveTypeOfName(name: string): (r: Option<PrimitiveType>)
    requires HasElementCode(name)
    ensures r.Some? <==> IsPrimitiveCode(name[LeadingBrackets(name)])
    ensures r.Some? ==> PrimitiveTerm(r.value) == name[LeadingBrackets(name)]
  {
    PrimitiveTypeOf(name[LeadingBrackets(name)])
  }

  /** Where `getReferenceClass` cuts the class name, or `None` when it returns null:
      after the '['* run and its 'L', after a lone 'L', nowhere for a bare name, and
      null for a primitive code or an array of anything but objects. */
  function ReferenceStart(name: string): (r: Option<nat>)
    requires |name| > 0
    ensures r.Some? ==> r.value <= |name|
    ensures r.Some? && EndsWith(name, ';') ==> r.value < |name|
  {
    if name[0] == '[' then
      var k := LeadingBrackets(name);
      if k == |name| then Some(k)
      else if name[k] == 'L' then Some(k + 1)
      else None
    else if name[0] == 'L' then Some(1)
    else if IsTypeCode(name[0]) then None
    else Some(0)
  }

  /** `getReferenceClass`: the class name with the array and object prefix and a
      trailing ';' removed; null for primitive and primitive-array descriptors. */
  function ReferenceClass(name: string): (r: Option<string>)
    requires |name| > 0
    ensures r.None? <==> IsPrimitiveCode(name[0])
                         || (name[0] == '[' && LeadingBrackets(name) < |name| && name[LeadingBrackets(name)] != 'L')
    ensures !IsTypeCode(name[0]) ==> r == Some(if EndsWith(name, ';') then name[..|name| - 1] else name)
  {
    var start :- ReferenceStart(name);
    Some(if EndsWith(name, ';') then name[start .. |name| - 1] else name[start..])
  }

  /** An object or object-array descriptor gives back its class name. */
  lemma ReferenceClassOfObject(d: nat, cls: string)
    ensures ReferenceClass(Brackets(d) + "L" + cls + ";") == Some(cls)
  {
    var name := Brackets(d) + "L" + cls + ";";
    LeadingBracketsOf(d, "L" + cls + ";");
    assert name == Brackets(d) + ("L" + cls + ";");
    assert name[d] == 'L';
    assert name[d + 1 .. |name| - 1] == cls;
  }

  /** A primitive or primitive-array descriptor gives null. */
  lemma ReferenceClassOfPrimitive(d: nat, code: char)
    requires IsPrimitiveCode(code)
    ensures ReferenceClass(Brackets(d) + [code]) == None
  {
    LeadingBracketsOf(d, [code]);
    assert (Brackets(d) + [code])[d] == code;
  }

  /** The unit-test cases of `getReferenceClass` on a class name and an object descriptor. */
  lemma ReferenceClassObjectExamples()
    ensures ReferenceClass("java/lang/Object") == Some("java/lang/Object")
    ensures ReferenceClass("Ljava/lang/Object;") == Some("java/lang/Object")
  {
    assert Brackets(0) + "L" + "java/lang/Object" + ";" == "Ljava/lang/Object;";
    ReferenceClassOfObject(0, "java/lang/Object");
  }

  /** The unit-test cases of `getReferenceClass` on object-array descriptors. */
  lemma ReferenceClassObjectArrayExample()
    ensures ReferenceClass("[Ljava/lang/Object;") == Some("java/lang/Object")
  {
    assert Brackets(1) == "[";
    assert Brackets(1) + "L" + "java/lang/Object" + ";" == "[Ljava/lang/Object;";
    ReferenceClassOfObject(1, "java/lang/Object");
  }

  /** The two-dimensional unit-test case. */
  lemma ReferenceClassObjectMatrixExample()
    ensures ReferenceClass("[[Ljava/lang/Object;") == Some("java/lang/Object")
  {
    assert Brackets(2) == "[[";
    assert Brackets(2) + "L" + "java/lang/Object" + ";" == "[[Ljava/lang/Object;";
    ReferenceClassOfObject(2, "java/lang/Object");
  }

  /** The unit-test cases of `getReferenceClass` on primitive descriptors. */
  lemma ReferenceClassPrimitiveExamples()
    ensures ReferenceClass("[[I") == None
    ensures ReferenceClass("[I") == None
    ensures ReferenceClass("I") == None
  {
    ReferenceClassOfPrimitive(2, 'I');
    ReferenceClassOfPrimitive(1, 'I');
    assert Brackets(1) == "[";
    assert Brackets(2) == "[[";
  }
}

/** `constants/ClassUtils`: the older copy of the descriptor helpers, written
    with the loops of that file and proved to agree with `DescriptorUtils`. */
module PoolClassUtils {
  import opened Wrappers
  import opened JavaStrings
  import opened TypeCodes
  import DescriptorUtils

  /** `getArrayDimensions`: one pass counting '['. */
  method ArrayDimensions(name: string) returns (total: nat)
    ensures total == DescriptorUtils.ArrayDimensions(name)
  {
    total := 0;
    var i := |name|;
    assert name[..i] == name;
    while i > 0
      invariant 0 <= i <= |name|
      invariant total + DescriptorUtils.ArrayDimensions(name[..i]) == DescriptorUtils.ArrayDimensions(name)
    {
      SuffixStep(name[..i]);
      assert name[..i][..i - 1] == name[..i - 1];
      if name[i - 1] == '[' {
        total := total + 1;
      }
      i := i - 1;
    }
  }

  /** Counting from the back: dropping the last character loses it from the count. */
  lemma {:induction false} SuffixStep(s: string)
    requires |s| > 0
    ensures DescriptorUtils.ArrayDimensions(s)
            == DescriptorUtils.ArrayDimensions(s[..|s| - 1]) + (if s[|s| - 1] == '[' then 1 else 0)
    decreases |s|
  {
    if |s| > 1 {
      SuffixStep(s[1..]);
      assert s[1..][..|s[1..]| - 1] == s[..|s| - 1][1..];
    }
  }

  /** `isArrayOfPrimitives` and `isArrayOfObjects`: skip the '[' run from index 1
      and test the first other character against 'L'. */
  method ArrayElementTests(name: string) returns (primitives: bool, objects: bool)
    ensures primitives == DescriptorUtils.IsArrayOfPrimitives(name)
    ensures objects == DescriptorUtils.IsArrayOfObjects(name)
  {
    if !StartsWith(name, '[') {
      return false, false;
    }
    var i := 1;
    while i < |name|
      invariant 1 <= i <= |name|
      invariant forall j :: 0 <= j < i ==> name[j] == '['
    {
      if name[i] == '[' {
        i := i + 1;
        continue;
      }
      DescriptorUtils.LeadingBracketsAt(name, i);
      return name[i] != 'L', name[i] == 'L';
    }
    DescriptorUtils.LeadingBracketsAt(name, |name|);
    return false, false;
  }

  /** `getPrimitiveType(String)`: drop '[' while the first character is one, then
      search the primitive codes. */
  method PrimitiveTypeOfName(name: string) returns (r: Option<PrimitiveType>)
    requires DescriptorUtils.HasElementCode(name)
    ensures r == DescriptorUtils.PrimitiveTypeOfName(name)
  {
    var rest := name;
    var dropped := 0;
    while rest[0] == '['
      invariant 0 <= dropped <= DescriptorUtils.LeadingBrackets(name)
      invariant rest == name[dropped..]
      decreases |rest|
    {
      rest := rest[1..];
      dropped := dropped + 1;
    }
    DescriptorUtils.LeadingBracketsAt(name, dropped);
    r := PrimitiveTypeOf(rest[0]);
  }

  /** `getReferenceClass`, with the loop over the '[' run and its 'L'. */
  method ReferenceClass(name: string) returns (r: Option<string>)
    requires |name| > 0
    ensures r == DescriptorUtils.ReferenceClass(name)
  {
    var offset := 0;
    if name[0] == '[' {
      offset := 1;
      while offset < |name| && name[offset] == '['
        invariant 1 <= offset <= |name|
        invariant forall j :: 0 <= j < offset ==> name[j] == '['
      {
        offset := offset + 1;
      }
      DescriptorUtils.LeadingBracketsAt(name, offset);
      if offset < |name| {
        if name[offset] != 'L' {
          return None;
        }
        offset := offset + 1;
      }
    } else if name[0] == 'L' {
      offset := 1;
    } else if PrimitiveOrReferenceTypeOf(name[0]).Some? {
      return None;
    }
    if EndsWith(name, ';') {
      var rest := name[offset..];
      assert rest[..|rest| - 1] == name[offset .. |name| - 1];
      return Some(rest[..|rest| - 1]);
    }
    return Some(name[offset..]);
  }
}

=== FILE: java_strings.dfy ===
/** The `java.lang.String` operations the decoder relies on, over `seq<char>`. */
module JavaStrings {

  predicate StartsWith(s: string, c: char) {
    |s| > 0 && s[0] == c
  }

  predicate EndsWith(s: string, c: char) {
    |s| > 0 && s[|s| - 1] == c
  }

  /** `indexOf(c)`: the first position of `c`, or -1. */
  function IndexOf(s: string, c: char): (r: int)
    ensures -1 <= r < |s|
    ensures r == -1 <==> c !in s
    ensures r >= 0 ==> s[r] == c && c !in s[..r]
  {
    if |s| == 0 then -1
    else if s[0] == c then 0
    else
      var k := IndexOf(s[1..], c);
      assert k >= 0 ==> s[1..][..k] == s[1..k + 1];
      if k == -1 then -1 else k + 1
  }

  /** `lastIndexOf(c)`: the last position of `c`, or -1. */
  function LastIndexOf(s: string, c: char): (r: int)
    ensures -1 <= r < |s|
    ensures r == -1 <==> c !in s
    ensures r >= 0 ==> s[r] == c && c !in s[r + 1..]
  {
    LastIndexBelow(s, c, |s|)
  }

  /** The last position of `c` before `n`, or -1. */
  function LastIndexBelow(s: string, c: char, n: nat): (r: int)
    requires n <= |s|
    ensures -1 <= r < n
    ensures r == -1 <==> c !in s[..n]
    ensures r >= 0 ==> s[r] == c && forall j :: r < j < n ==> s[j] != c
  {
    if n == 0 then -1
    else if s[n - 1] == c then n - 1
    else
      assert s[..n] == s[..n - 1] + [s[n - 1]];
      LastIndexBelow(s, c, n - 1)
  }

  /** The first position of `c` is the `i` with `s[i] == c` and no `c` before it. */
  lemma FirstAt(s: string, c: char, i: nat)
    requires i < |s| && s[i] == c && c !in s[..i]
    ensures IndexOf(s, c) == i
  {
    assert s[i] in s;
    forall k | 0 <= k < i ensures s[k] != c { assert s[..i][k] == s[k]; }
  }

  /** The last position of `c` is the `j` with `s[j] == c` and no `c` after it. */
  lemma LastAt(s: string, c: char, j: nat)
    requires j < |s| && s[j] == c && c !in s[j + 1..]
    ensures LastIndexOf(s, c) == j
  {
    assert s[j] in s;
    forall k | j < k < |s| ensures s[k] != c { assert s[j + 1..][k - j - 1] == s[k]; }
  }

  /** The pieces joined back with `sep` between them. */
  function Join(pieces: seq<string>, sep: char): string
    requires |pieces| >= 1
  {
    if |pieces| == 1 then pieces[0] else pieces[0] + [sep] + Join(pieces[1..], sep)
  }

  /** Every maximal run between separators, empty runs included. */
  function SplitAll(s: string, sep: char): (r: seq<string>)
    ensures |r| >= 1
    ensures forall i :: 0 <= i < |r| ==> sep !in r[i]
    ensures Join(r, sep) == s
    decreases |s|
  {
    if sep !in s then [s]
    else
      var k := IndexOf(s, sep);
      var tail := SplitAll(s[k + 1..], sep);
      var r := [s[..k]] + tail;
      assert r[1..] == tail;
      assert s == s[..k] + [sep] + s[k + 1..];
      r
  }

  /** Splitting undoes joining, for separator-free pieces. */
  lemma {:induction false} SplitAllJoin(pieces: seq<string>, sep: char)
    requires |pieces| >= 1
    requires forall i :: 0 <= i < |pieces| ==> sep !in pieces[i]
    ensures SplitAll(Join(pieces, sep), sep) == pieces
    decreases |pieces|
  {
    if |pieces| > 1 {
      var s := Join(pieces, sep);
      var rest := Join(pieces[1..], sep);
      assert s == pieces[0] + [sep] + rest;
      SplitAllCons(pieces[0], sep, rest);
      SplitAllJoin(pieces[1..], sep);
      assert pieces == [pieces[0]] + pieces[1..];
    }
  }

  /** A separator-free first piece splits off whole. */
  lemma SplitAllCons(first: string, sep: char, rest: string)
    requires sep !in first
    ensures SplitAll(first + [sep] + rest, sep) == [first] + SplitAll(rest, sep)
  {
    var s := first + [sep] + rest;
    assert s[..|first|] == first;
    FirstAt(s, sep, |first|);
    assert s[|first| + 1..] == rest;
  }

  /** The pieces with every trailing empty string removed. */
  function DropTrailingEmpty(pieces: seq<string>): (r: seq<string>)
    ensures |r| <= |pieces| && r == pieces[..|r|]
    ensures |r| > 0 ==> r[|r| - 1] != ""
    ensures forall i :: |r| <= i < |pieces| ==> pieces[i] == ""
  {
    if |pieces| == 0 || pieces[|pieces| - 1] != "" then pieces
    else DropTrailingEmpty(pieces[..|pieces| - 1])
  }

  /** `split(String.valueOf(sep))` for a separator that is not a regular-expression
      metacharacter: the input itself when the separator does not occur,
      otherwise every piece with the trailing empty ones removed. */
  function Split(s: string, sep: char): (r: seq<string>)
    ensures forall i :: 0 <= i < |r| ==> sep !in r[i]
    ensures sep !in s ==> r == [s]
    ensures sep in s ==> r == DropTrailingEmpty(SplitAll(s, sep))
  {
    if sep !in s then [s] else DropTrailingEmpty(SplitAll(s, sep))
  }

  /** A separator-terminated list splits back into its elements. */
  lemma SplitTerminated(pieces: seq<string>, sep: char)
    requires |pieces| >= 1 && pieces[|pieces| - 1] != ""
    requires forall i :: 0 <= i < |pieces| ==> sep !in pieces[i]
    ensures Split(Join(pieces, sep) + [sep], sep) == pieces
  {
    var all := pieces + [""];
    JoinSnoc(pieces, "", sep);
    assert Join(all, sep) == Join(pieces, sep) + [sep];
    SplitAllJoin(all, sep);
    assert Join(all, sep)[|Join(all, sep)| - 1] == sep;
    assert all[..|all| - 1] == pieces;
  }

  lemma {:induction false} JoinSnoc(pieces: seq<string>, last: string, sep: char)
    requires |pieces| >= 1
    ensures Join(pieces + [last], sep) == Join(pieces, sep) + [sep] + last
    decreases |pieces|
  {
    if |pieces| > 1 {
      assert (pieces + [last])[1..] == pieces[1..] + [last];
      JoinSnoc(pieces[1..], last, sep);
    }
  }

  /** ASCII letter case; other characters are their own upper and lower case. */
  function ToUpper(c: char): char {
    if 'a' <= c <= 'z' then (c as int - 32) as char else c
  }

  function ToLower(c: char): char {
    if 'A' <= c <= 'Z' then (c as int + 32) as char else c
  }

  /** `equalsIgnoreCase`: equal lengths and, position by position, equal
      characters or characters equal after upper- or lower-casing. */
  predicate EqualsIgnoreCase(a: string, b: string) {
    |a| == |b| && forall i :: 0 <= i < |a| ==>
      a[i] == b[i] || ToUpper(a[i]) == ToUpper(b[i]) || ToLower(a[i]) == ToLower(b[i])
  }

  lemma EqualsIgnoreCaseReflexive(a: string)
    ensures EqualsIgnoreCase(a, a)
  {
  }
}

=== FILE: local_variables.dfy ===
/** The LocalVariableTable attribute of a Code attribute (section 4.7.13 of
    the Java Virtual Machine Specification): the variables indexed by their
    local-variable slot, first declaration winning, and optionally packed in
    slot order. */
module LocalVariables {
  import opened Wrappers
  import opened Bytes

  /** One table entry, as far as this table uses it. Decoding an entry
      belongs to `LocalVariable`, which is not part of this model: the
      `entry` parameter of `Read` stands for it and receives the entry's
      position in the table. */
  datatype LocalVariable = LocalVariable(position: nat, index: int, name: Option<string>)

  /** The table: `table` by slot, `positions` packed, `count` entries read. */
  datatype LocalVariableTable = LocalVariableTable(table: seq<Option<LocalVariable>>,
                                                   positions: seq<Option<LocalVariable>>, count: nat)

  type EntryReader = (seq<byte>, nat) -> Parse<LocalVariable>

  /** The constructor: `maxLocals` empty slots in both arrays. */
  function NewTable(maxLocals: nat): (t: LocalVariableTable)
    ensures Size(t) == maxLocals && PositionSize(t) == maxLocals && t.count == 0
    ensures forall j :: 0 <= j < maxLocals ==> t.table[j].None? && t.positions[j].None?
  {
    LocalVariableTable(seq(maxLocals, _ => None), seq(maxLocals, _ => None), 0)
  }

  // ---------------------------------------------------------------- reference definitions

  /** Entries `i` to `count - 1`, in stream order; reading stops at the first
      entry whose slot lies outside the `maxLocals` slots. */
  function Load(s: seq<byte>, i: nat, count: nat, maxLocals: nat, entry: EntryReader): (r: Parse<seq<LocalVariable>>)
    requires i <= count
    ensures r.Success? ==> |r.value.0| == count - i
                           && forall k :: 0 <= k < |r.value.0| ==> 0 <= r.value.0[k].index < maxLocals
    decreases count - i
  {
    if i == count then Success(([], s))
    else
      var (v, next) :- entry(s, i);
      if !(0 <= v.index < maxLocals) then Failure(IndexOutOfRange(v.index))
      else
        var (others, rest) :- Load(next, i + 1, count, maxLocals, entry);
        Success(([v] + others, rest))
  }

  /** The entries of a LocalVariableTable payload: a u2 count, then the entries. */
  function Entries(s: seq<byte>, maxLocals: nat, entry: EntryReader): (r: Parse<seq<LocalVariable>>)
    ensures r.Success? ==> |s| >= 2 && |r.value.0| == s[0] as int * 256 + s[1] as int
  {
    var (count, afterCount) :- ReadU2(s);
    Load(afterCount, 0, count, maxLocals, entry)
  }

  /** The first variable declared in slot `j`, if any. */
  function FirstWithIndex(vars: seq<LocalVariable>, j: int): (r: Option<LocalVariable>)
    ensures r.Some? <==> exists k :: 0 <= k < |vars| && vars[k].index == j
    ensures r.Some? ==> r.value.index == j && r.value in vars
  {
    if |vars| == 0 then None
    else if vars[0].index == j then Some(vars[0])
    else
      var r := FirstWithIndex(vars[1..], j);
      assert forall k :: 1 <= k < |vars| ==> vars[k] == vars[1..][k - 1];
      r
  }

  /** The occupied slots in slot order. */
  function Compact(slots: seq<Option<LocalVariable>>): (r: seq<Option<LocalVariable>>)
    ensures |r| <= |slots|
    ensures forall x :: x in r <==> x in slots && x.Some?
  {
    if |slots| == 0 then []
    else
      var init := slots[..|slots| - 1];
      assert slots == init + [slots[|slots| - 1]];
      Compact(init) + (if slots[|slots| - 1].Some? then [slots[|slots| - 1]] else [])
  }

  lemma CompactSnoc(slots: seq<Option<LocalVariable>>, x: Option<LocalVariable>)
    ensures Compact(slots + [x]) == Compact(slots) + (if x.Some? then [x] else [])
  {
    assert (slots + [x])[..|slots|] == slots;
  }

  /** A result wrapped with `vars` in front of its items. */
  function Prepend(vars: seq<LocalVariable>, r: Parse<seq<LocalVariable>>): Parse<seq<LocalVariable>> {
    if r.Success? then Success((vars + r.value.0, r.value.1)) else r
  }

  lemma PrependNothing(r: Parse<seq<LocalVariable>>)
    ensures Prepend([], r) == r
  {
    if r.Success? {
      assert [] + r.value.0 == r.value.0;
    }
  }

  lemma PrependTwice(vars: seq<LocalVariable>, v: LocalVariable, r: Parse<seq<LocalVariable>>)
    ensures Prepend(vars, Prepend([v], r)) == Prepend(vars + [v], r)
  {
    if r.Success? {
      assert vars + ([v] + r.value.0) == vars + [v] + r.value.0;
    }
  }

  /** Appending a variable changes only the slot it declares, and only when
      that slot had no variable yet. */
  lemma {:induction false} FirstWithIndexSnoc(vars: seq<LocalVariable>, v: LocalVariable, j: int)
    ensures FirstWithIndex(vars + [v], j)
            == if FirstWithIndex(vars, j).Some? then FirstWithIndex(vars, j)
               else if v.index == j then Some(v) else None
    decreases |vars|
  {
    if |vars| > 0 {
      assert (vars + [v])[1..] == vars[1..] + [v];
      FirstWithIndexSnoc(vars[1..], v, j);
    }
  }

  // ---------------------------------------------------------------- read

  /** `read(input, withPositions)`: every entry goes into the slot it
      declares unless an earlier entry took that slot; with `withPositions`
      the occupied slots are then packed, in slot order, at the front of
      `positions`. */
  method Read(input: seq<byte>, maxLocals: nat, withPositions: bool, entry: EntryReader)
      returns (r: Result<(LocalVariableTable, seq<byte>), DecodeError>)
    ensures r.Success? <==> Entries(input, maxLocals, entry).Success?
    ensures r.Failure? ==> r.error == Entries(input, maxLocals, entry).error
    ensures r.Success? ==>
              var vars := Entries(input, maxLocals, entry).value.0;
              var t := r.value.0;
              r.value.1 == Entries(input, maxLocals, entry).value.1
              && t.count == |vars| && Size(t) == maxLocals && PositionSize(t) == maxLocals
              && (forall j :: 0 <= j < maxLocals ==> t.table[j] == FirstWithIndex(vars, j))
              && (withPositions ==> t.positions[..|Compact(t.table)|] == Compact(t.table)
                                    && forall j :: |Compact(t.table)| <= j < maxLocals ==> t.positions[j].None?)
              && (!withPositions ==> forall j :: 0 <= j < maxLocals ==> t.positions[j].None?)
  {
    var counted := ReadU2(input);
    if counted.Failure? {
      return Failure(counted.error);
    }
    var (count, afterCount) := counted.value;
    var filled := FillSlots(afterCount, count, maxLocals, entry);
    if filled.Failure? {
      return Failure(filled.error);
    }
    var (table, rest) := filled.value;
    var positions := seq(maxLocals, _ => None);
    if withPositions {
      positions := Pack(table);
    }
    return Success((LocalVariableTable(table, positions, count), rest));
  }

  /** The loop over the entries: slot `j` ends up holding the first entry
      declaring it. */
  method FillSlots(s: seq<byte>, count: nat, maxLocals: nat, entry: EntryReader)
      returns (r: Result<(seq<Option<LocalVariable>>, seq<byte>), DecodeError>)
    ensures r.Success? <==> Load(s, 0, count, maxLocals, entry).Success?
    ensures r.Failure? ==> r.error == Load(s, 0, count, maxLocals, entry).error
    ensures r.Success? ==>
              var vars := Load(s, 0, count, maxLocals, entry).value.0;
              r.value.1 == Load(s, 0, count, maxLocals, entry).value.1 && |r.value.0| == maxLocals
              && forall j :: 0 <= j < maxLocals ==> r.value.0[j] == FirstWithIndex(vars, j)
  {
    var table := new Option<LocalVariable>[maxLocals](_ => None);
    var wasSet := new bool[maxLocals](_ => false);
    ghost var vars: seq<LocalVariable> := [];
    var cursor := s;
    var i := 0;
    PrependNothing(Load(s, 0, count, maxLocals, entry));
    while i < count
      invariant 0 <= i <= count && |vars| == i
      invariant Load(s, 0, count, maxLocals, entry) == Prepend(vars, Load(cursor, i, count, maxLocals, entry))
      invariant forall j :: 0 <= j < maxLocals ==> table[j] == FirstWithIndex(vars, j) && (wasSet[j] <==> table[j].Some?)
    {
      var step := entry(cursor, i);
      if step.Failure? {
        return Failure(step.error);
      }
      var (v, next) := step.value;
      if !(0 <= v.index < maxLocals) {
        return Failure(IndexOutOfRange(v.index));
      }
      if !wasSet[v.index] {
        table[v.index] := Some(v);
        wasSet[v.index] := true;
      }
      forall j | 0 <= j < maxLocals
        ensures FirstWithIndex(vars + [v], j) == if FirstWithIndex(vars, j).Some? then FirstWithIndex(vars, j)
                                                 else if v.index == j then Some(v) else None
      {
        FirstWithIndexSnoc(vars, v, j);
      }
      PrependTwice(vars, v, Load(next, i + 1, count, maxLocals, entry));
      vars := vars + [v];
      cursor := next;
      i := i + 1;
    }
    assert vars + [] == vars;
    return Success((table[..], cursor));
  }

  /** Every position from `t` on is empty. */
  predicate EmptyFrom(packed: seq<Option<LocalVariable>>, t: nat) {
    forall j :: t <= j < |packed| ==> packed[j].None?
  }

  /** Writing the next occupied slot at position `t` extends the packed
      prefix by it and leaves the positions after it empty. */
  lemma PlaceNext(packed: seq<Option<LocalVariable>>, t: nat, x: Option<LocalVariable>, after: seq<Option<LocalVariable>>)
    requires t < |packed| && after == packed[t := x] && EmptyFrom(packed, t)
    ensures after[..t + 1] == packed[..t] + [x] && EmptyFrom(after, t + 1)
  {
    assert after[..t + 1] == packed[..t] + [x];
  }

  /** After `k` slots, the first `t` positions hold the occupied slots seen
      so far, in slot order, and the rest are empty. */
  predicate PackedUpTo(slots: seq<Option<LocalVariable>>, k: nat, t: nat, packed: seq<Option<LocalVariable>>) {
    t <= k <= |slots| && |packed| == |slots|
    && t == |Compact(slots[..k])| && packed[..t] == Compact(slots[..k]) && EmptyFrom(packed, t)
  }

  /** One turn of the `withPositions` loop keeps the packing invariant. */
  lemma PackStep(slots: seq<Option<LocalVariable>>, k: nat, t: nat, packed: seq<Option<LocalVariable>>)
    requires k < |slots| && PackedUpTo(slots, k, t, packed)
    ensures slots[k].Some? ==> t < |packed| && PackedUpTo(slots, k + 1, t + 1, packed[t := slots[k]])
    ensures slots[k].None? ==> PackedUpTo(slots, k + 1, t, packed)
  {
    CompactSnoc(slots[..k], slots[k]);
    assert slots[..k + 1] == slots[..k] + [slots[k]];
    if slots[k].Some? {
      PlaceNext(packed, t, slots[k], packed[t := slots[k]]);
    }
  }

  /** The `withPositions` loop: the occupied slots, in slot order, at the front. */
  method Pack(slots: seq<Option<LocalVariable>>) returns (positions: seq<Option<LocalVariable>>)
    ensures |positions| == |slots|
    ensures positions[..|Compact(slots)|] == Compact(slots)
    ensures forall j :: |Compact(slots)| <= j < |slots| ==> positions[j].None?
  {
    var packed: seq<Option<LocalVariable>> := seq(|slots|, _ => None);
    var k := 0;
    var t := 0;
    assert slots[..0] == [];
    while k < |slots|
      invariant PackedUpTo(slots, k, t, packed)
    {
      PackStep(slots, k, t, packed);
      if slots[k].Some? {
        packed := packed[t := slots[k]];
        t := t + 1;
      }
      k := k + 1;
    }
    assert slots[..|slots|] == slots;
    positions := packed;
  }

  // ---------------------------------------------------------------- queries

  /** `getSize`: the number of slots. */
  function Size(t: LocalVariableTable): nat {
    |t.table|
  }

  /** `getPositionSize`: also the number of slots, whatever was packed. */
  function PositionSize(t: LocalVariableTable): nat {
    |t.positions|
  }

  /** `get(int)`: the variable in a slot; any other index fails. */
  function GetAt(t: LocalVariableTable, idx: int): (r: Result<Option<LocalVariable>, DecodeError>)
    ensures r.Success? <==> 0 <= idx < Size(t)
    ensures r.Success? ==> r.value == t.table[idx]
    ensures r.Failure? ==> r.error == IndexOutOfRange(idx)
  {
    if 0 <= idx < |t.table| then Success(t.table[idx]) else Failure(IndexOutOfRange(idx))
  }

  /** `getPosition(int)`: the variable at a packed position. */
  function GetPosition(t: LocalVariableTable, pos: int): (r: Result<Option<LocalVariable>, DecodeError>)
    ensures r.Success? <==> 0 <= pos < PositionSize(t)
    ensures r.Success? ==> r.value == t.positions[pos]
    ensures r.Failure? ==> r.error == IndexOutOfRange(pos)
  {
    if 0 <= pos < |t.positions| then Success(t.positions[pos]) else Failure(IndexOutOfRange(pos))
  }

  /** A slot `get(String)` passes over: occupied by a variable of another name. */
  predicate PassedOver(slot: Option<LocalVariable>, name: string) {
    slot.Some? && slot.value.name != Some(name)
  }

  /** `get(String)` as written: `null` for a `null` name; otherwise the slots
      are scanned in order calling `table[i].getName()`, so an empty slot
      (the second slot of a long or double, or a slot no entry names)
      reached before a match dereferences `null`. */
  function GetNamedAsWritten(t: LocalVariableTable, name: Option<string>): (r: Result<Option<LocalVariable>, DecodeError>)
    ensures name.None? ==> r == Success(None)
    ensures r.Success? && r.value.Some? ==>
              exists k :: 0 <= k < |t.table| && t.table[k] == r.value && r.value.value.name == name
                          && forall j :: 0 <= j < k ==> PassedOver(t.table[j], name.value)
    ensures name.Some? && r == Success(None) ==> forall j :: 0 <= j < |t.table| ==> PassedOver(t.table[j], name.value)
    ensures r.Failure? ==> r.error == NullDereference && name.Some?
                            && exists k :: 0 <= k < |t.table| && t.table[k].None?
                                           && forall j :: 0 <= j < k ==> PassedOver(t.table[j], name.value)
  {
    if name.None? then Success(None) else ScanAsWritten(t.table, name.value, 0)
  }

  function ScanAsWritten(slots: seq<Option<LocalVariable>>, name: string, from: nat): (r: Result<Option<LocalVariable>, DecodeError>)
    requires from <= |slots|
    requires forall j :: 0 <= j < from ==> PassedOver(slots[j], name)
    ensures r.Success? && r.value.Some? ==>
              exists k :: from <= k < |slots| && slots[k] == r.value && r.value.value.name == Some(name)
                          && forall j :: 0 <= j < k ==> PassedOver(slots[j], name)
    ensures r == Success(None) ==> forall j :: 0 <= j < |slots| ==> PassedOver(slots[j], name)
    ensures r.Failure? ==> r.error == NullDereference
                            && exists k :: from <= k < |slots| && slots[k].None?
                                           && forall j :: 0 <= j < k ==> PassedOver(slots[j], name)
    decreases |slots| - from
  {
    if from == |slots| then Success(None)
    else if slots[from].None? then Failure(NullDereference)
    else if slots[from].value.name == Some(name) then Success(slots[from])
    else ScanAsWritten(slots, name, from + 1)
  }

  /** `get(String)` as evidently intended: the first occupied slot whose
      variable has that name, empty slots skipped. */
  function GetNamed(t: LocalVariableTable, name: Option<string>): (r: Option<LocalVariable>)
    ensures name.None? ==> r.None?
    ensures r.Some? ==> name.Some? && r.value.name == name
                        && exists k :: 0 <= k < |t.table| && t.table[k] == r
                                       && forall j :: 0 <= j < k ==> !Named(t.table[j], name.value)
    ensures name.Some? && r.None? ==> forall j :: 0 <= j < |t.table| ==> !Named(t.table[j], name.value)
  {
    if name.None? then None else Scan(t.table, name.value, 0)
  }

  /** The slot holds a variable called `name`. */
  predicate Named(slot: Option<LocalVariable>, name: string) {
    slot.Some? && slot.value.name == Some(name)
  }

  function Scan(slots: seq<Option<LocalVariable>>, name: string, from: nat): (r: Option<LocalVariable>)
    requires from <= |slots|
    requires forall j :: 0 <= j < from ==> !Named(slots[j], name)
    ensures r.Some? ==> r.value.name == Some(name)
                        && exists k :: from <= k < |slots| && slots[k] == r
                                       && forall j :: 0 <= j < k ==> !Named(slots[j], name)
    ensures r.None? ==> forall j :: 0 <= j < |slots| ==> !Named(slots[j], name)
    decreases |slots| - from
  {
    if from == |slots| then None
    else if Named(slots[from], name) then slots[from]
    else Scan(slots, name, from + 1)
  }

  /** The two agree on every table without empty slots. */
  lemma {:induction false} GetNamedAgreesWhenFull(t: LocalVariableTable, name: Option<string>)
    requires forall j :: 0 <= j < |t.table| ==> t.table[j].Some?
    ensures GetNamedAsWritten(t, name) == Success(GetNamed(t, name))
  {
    if name.Some? {
      ScanAgrees(t.table, name.value, 0);
    }
  }

  lemma {:induction false} ScanAgrees(slots: seq<Option<LocalVariable>>, name: string, from: nat)
    requires from <= |slots|
    requires forall j :: 0 <= j < |slots| ==> slots[j].Some?
    requires forall j :: 0 <= j < from ==> PassedOver(slots[j], name)
    ensures ScanAsWritten(slots, name, from) == Success(Scan(slots, name, from))
    decreases |slots| - from
  {
    if from < |slots| && !Named(slots[from], name) {
      ScanAgrees(slots, name, from + 1);
    }
  }

  /** Slot 0 holds a long `l` (so slot 1 stays empty) and slot 2 an int `y`:
      the corrected lookup finds `y`, the written one dereferences the empty slot 1. */
  lemma LookupPastLongFails(l: LocalVariable, y: LocalVariable)
    requires l.index == 0 && l.name == Some("l") && y.index == 2 && y.name == Some("y")
    ensures var t := LocalVariableTable([Some(l), None, Some(y)], [Some(l), Some(y), None], 2);
            GetNamed(t, Some("y")) == Some(y)
            && GetNamedAsWritten(t, Some("y")) == Failure(NullDereference)
  {
    var t := LocalVariableTable([Some(l), None, Some(y)], [Some(l), Some(y), None], 2);
    assert "l" != "y";
    assert !Named(t.table[0], "y") && !Named(t.table[1], "y") && Named(t.table[2], "y");
    assert PassedOver(t.table[0], "y");
  }
}

=== FILE: members.dfy ===
/** `FieldInfo` and `MethodInfo` (sections 4.5 and 4.6 of the Java Virtual
    Machine Specification): the record layout they share and the properties
    they derive lazily from their attributes, as pure functions of the record
    and the pool. */
module Members {
  import opened Wrappers
  import opened Bytes
  import opened Constants
  import opened ConstantPoolQueries
  import opened AttributeTable
  import SmallAttributes
  import CodeAttributes

  /** What both constructors read: the u2 access flags, the pool strings at the
      name and descriptor indices (either may be `null`) and the attributes. */
  datatype Member = Member(accessFlags: nat, name: Option<string>, description: Option<string>,
                           attributes: seq<AttributeInfo>)

  /** Flags, name index, descriptor index, attribute table, in that order; the
      name is cast before the descriptor index is read. */
  function ReadMember(s: seq<byte>, pool: seq<Slot>): (r: Parse<Member>)
    ensures |s| < 4 ==> r == Failure(Truncated)
    ensures r.Success? ==> |s| >= 6 && r.value.0.accessFlags == s[0] as int * 256 + s[1] as int
                           && r.value.0.accessFlags < 0x1_0000
    ensures r.Success? ==> StringAt(pool, s[2] as int * 256 + s[3] as int) == Success(r.value.0.name)
                           && StringAt(pool, s[4] as int * 256 + s[5] as int) == Success(r.value.0.description)
    ensures r.Success? ==> ReadAttributes(s[6..], pool) == Success((r.value.0.attributes, r.value.1))
    ensures |s| >= 4 && StringAt(pool, s[2] as int * 256 + s[3] as int).Failure? ==>
              r == Failure(StringAt(pool, s[2] as int * 256 + s[3] as int).error)
  {
    var (flags, afterFlags) :- ReadU2(s);
    var (nameIndex, afterName) :- ReadU2(afterFlags);
    var name :- StringAt(pool, nameIndex);
    var (descriptorIndex, afterDescriptor) :- ReadU2(afterName);
    var description :- StringAt(pool, descriptorIndex);
    var (attributes, rest) :- ReadAttributes(afterDescriptor, pool);
    assert afterFlags[0] == s[2] && afterName[0] == s[4] && afterDescriptor == s[6..];
    Success((Member(flags, name, description, attributes), rest))
  }

  /** The bytes of one member record. */
  function EncodeMember(flags: nat, nameIndex: nat, descriptorIndex: nat, records: seq<(nat, seq<byte>)>): seq<byte>
    requires flags < 0x1_0000 && nameIndex < 0x1_0000 && descriptorIndex < 0x1_0000 && |records| < 0x1_0000
    requires forall i :: 0 <= i < |records| ==> records[i].0 < 0x1_0000 && |records[i].1| < 0x8000_0000
  {
    SmallAttributes.U2(flags) + SmallAttributes.U2(nameIndex) + SmallAttributes.U2(descriptorIndex)
    + (SmallAttributes.U2(|records|) + EncodeAttributeList(records))
  }

  /** A written record reads back with its flags, the pool strings at its two
      indices and one attribute per written attribute record. */
  lemma MemberRoundTrip(flags: nat, nameIndex: nat, descriptorIndex: nat, records: seq<(nat, seq<byte>)>,
                        rest: seq<byte>, pool: seq<Slot>)
    requires flags < 0x1_0000 && nameIndex < 0x1_0000 && descriptorIndex < 0x1_0000 && |records| < 0x1_0000
    requires forall i :: 0 <= i < |records| ==> records[i].0 < 0x1_0000 && |records[i].1| < 0x8000_0000
    requires StringAt(pool, nameIndex).Success? && StringAt(pool, descriptorIndex).Success?
    requires forall i :: 0 <= i < |records| ==> StringAt(pool, records[i].0).Success?
    ensures var r := ReadMember(EncodeMember(flags, nameIndex, descriptorIndex, records) + rest, pool);
            r.Success? && r.value.1 == rest
            && r.value.0.accessFlags == flags
            && r.value.0.name == StringAt(pool, nameIndex).value
            && r.value.0.description == StringAt(pool, descriptorIndex).value
            && |r.value.0.attributes| == |records|
            && forall i :: 0 <= i < |records| ==>
                 r.value.0.attributes[i] == AttributeInfo(StringAt(pool, records[i].0).value, records[i].1)
  {
    var table := SmallAttributes.U2(|records|) + EncodeAttributeList(records);
    var attributes := CodeAttributes.AttributesRoundTrip(records, rest, pool);
    assert table + rest == SmallAttributes.U2(|records|) + EncodeAttributeList(records) + rest;
    var afterName := SmallAttributes.U2(descriptorIndex) + (table + rest);
    var afterFlags := SmallAttributes.U2(nameIndex) + afterName;
    SmallAttributes.Associate4(SmallAttributes.U2(flags), SmallAttributes.U2(nameIndex),
                               SmallAttributes.U2(descriptorIndex), table, rest);
    SmallAttributes.ReadU2OfU2(flags, afterFlags);
    SmallAttributes.ReadU2OfU2(nameIndex, afterName);
    SmallAttributes.ReadU2OfU2(descriptorIndex, table + rest);
  }

  // ---------------------------------------------------------------- index-valued attributes

  /** The u2 that opens a named attribute's payload, read with `readShort` as
      the source reads it: signed, so 0x8000 and above come out negative.
      `null` when the attribute is absent. */
  function ShortOperand(attrs: seq<AttributeInfo>, name: string): (r: Result<Option<int>, DecodeError>)
    ensures AttributeTable.Get(attrs, Some(name)).Failure? ==> r == Failure(AttributeTable.Get(attrs, Some(name)).error)
    ensures AttributeTable.Get(attrs, Some(name)) == Success(None) ==> r == Success(None)
    ensures r.Success? && r.value.Some? ==> -0x8000 <= r.value.value < 0x8000
    ensures AttributeTable.Get(attrs, Some(name)).Success? && AttributeTable.Get(attrs, Some(name)).value.Some? ==>
              var data := AttributeTable.Get(attrs, Some(name)).value.value.data;
              r == if |data| < 2 then Failure(Truncated)
                   else Success(Some(data[0] as int * 256 + data[1] as int - (if data[0] >= 0x80 then 0x1_0000 else 0)))
  {
    var info :- AttributeTable.Get(attrs, Some(name));
    if info.None? then Success(None)
    else
      var (index, _) :- ReadS2(info.value.data);
      Success(Some(index))
  }

  /** The same operand read as the unsigned u2 the class-file format defines. */
  function UnsignedOperand(attrs: seq<AttributeInfo>, name: string): (r: Result<Option<int>, DecodeError>)
    ensures AttributeTable.Get(attrs, Some(name)).Failure? ==> r == Failure(AttributeTable.Get(attrs, Some(name)).error)
    ensures AttributeTable.Get(attrs, Some(name)) == Success(None) ==> r == Success(None)
    ensures r.Success? && r.value.Some? ==> 0 <= r.value.value < 0x1_0000
    ensures AttributeTable.Get(attrs, Some(name)).Success? && AttributeTable.Get(attrs, Some(name)).value.Some? ==>
              var data := AttributeTable.Get(attrs, Some(name)).value.value.data;
              r == if |data| < 2 then Failure(Truncated) else Success(Some(data[0] as int * 256 + data[1] as int))
  {
    var info :- AttributeTable.Get(attrs, Some(name));
    if info.None? then Success(None)
    else
      var (index, _) :- ReadU2(info.value.data);
      Success(Some(index))
  }

  /** The two readings differ exactly when the operand's high byte has its top bit set. */
  lemma OperandReadingsAgree(attrs: seq<AttributeInfo>, name: string)
    requires AttributeTable.Get(attrs, Some(name)).Success? && AttributeTable.Get(attrs, Some(name)).value.Some?
    requires |AttributeTable.Get(attrs, Some(name)).value.value.data| >= 2
    ensures var hi := AttributeTable.Get(attrs, Some(name)).value.value.data[0];
            (ShortOperand(attrs, name) == UnsignedOperand(attrs, name)) <==> hi < 0x80
    ensures var hi := AttributeTable.Get(attrs, Some(name)).value.value.data[0];
            hi >= 0x80 ==> ShortOperand(attrs, name).value.value == UnsignedOperand(attrs, name).value.value - 0x1_0000
  {
  }

  /** `getSignature` as written: the pool string at the signed operand of the
      Signature attribute, or `null` without one. */
  function SignatureAsWritten(m: Member, pool: seq<Slot>): (r: Result<Option<string>, DecodeError>)
    ensures ShortOperand(m.attributes, "Signature") == Success(None) ==> r == Success(None)
    ensures ShortOperand(m.attributes, "Signature").Failure? ==> r == Failure(ShortOperand(m.attributes, "Signature").error)
    ensures ShortOperand(m.attributes, "Signature").Success? && ShortOperand(m.attributes, "Signature").value.Some? ==>
              r == StringAt(pool, ShortOperand(m.attributes, "Signature").value.value)
  {
    var index :- ShortOperand(m.attributes, "Signature");
    if index.None? then Success(None) else StringAt(pool, index.value)
  }

  /** `getSignature` with the operand read unsigned: the pool string at the
      Signature attribute's index, or `null` without one. */
  function Signature(m: Member, pool: seq<Slot>): (r: Result<Option<string>, DecodeError>)
    ensures AttributeTable.Get(m.attributes, Some("Signature")) == Success(None) ==> r == Success(None)
    ensures UnsignedOperand(m.attributes, "Signature").Failure? ==> r == Failure(UnsignedOperand(m.attributes, "Signature").error)
    ensures UnsignedOperand(m.attributes, "Signature").Success? && UnsignedOperand(m.attributes, "Signature").value.Some? ==>
              r == StringAt(pool, UnsignedOperand(m.attributes, "Signature").value.value)
  {
    var index :- UnsignedOperand(m.attributes, "Signature");
    if index.None? then Success(None) else StringAt(pool, index.value)
  }

  /** Below index 0x8000 the written and the corrected `getSignature` agree. */
  lemma SignatureReadingsAgree(m: Member, pool: seq<Slot>)
    requires AttributeTable.Get(m.attributes, Some("Signature")).Success?
    requires var info := AttributeTable.Get(m.attributes, Some("Signature")).value;
             info.Some? && |info.value.data| >= 2 ==> info.value.data[0] < 0x80
    ensures SignatureAsWritten(m, pool) == Signature(m, pool)
  {
  }

  /** A field whose signature sits at pool index 0x8000: the written code asks
      the pool for index -32768 and fails; the unsigned reading finds the string. */
  lemma HighSignatureIndexMisread()
    ensures var pool := seq(0x8001, i => if i == 0x8000 then Value(Utf8("TT;")) else Empty);
            var m := Member(0, Some("f"), Some("Ljava/lang/Object;"), [AttributeInfo(Some("Signature"), [0x80, 0x00])]);
            SignatureAsWritten(m, pool) == Failure(IndexOutOfRange(-0x8000))
            && Signature(m, pool) == Success(Some("TT;"))
  {
    var pool := seq(0x8001, i => if i == 0x8000 then Value(Utf8("TT;")) else Empty);
    var m := Member(0, Some("f"), Some("Ljava/lang/Object;"), [AttributeInfo(Some("Signature"), [0x80, 0x00])]);
    assert AttributeTable.Get(m.attributes, Some("Signature")) == Success(Some(m.attributes[0]));
    assert CastAt(pool, 0x8000, IsUtf8) == Success(Some(Utf8("TT;")));
  }

  /** `getConstantValue` as written: the pool entry at the signed operand of
      the ConstantValue attribute; `null` (the empty slot) without one. */
  function ConstantValueAsWritten(m: Member, pool: seq<Slot>): (r: Result<Slot, DecodeError>)
    ensures ShortOperand(m.attributes, "ConstantValue") == Success(None) ==> r == Success(Empty)
    ensures ShortOperand(m.attributes, "ConstantValue").Success? && ShortOperand(m.attributes, "ConstantValue").value.Some? ==>
              r == ConstantPoolQueries.Get(pool, ShortOperand(m.attributes, "ConstantValue").value.value)
  {
    var index :- ShortOperand(m.attributes, "ConstantValue");
    if index.None? then Success(Empty) else ConstantPoolQueries.Get(pool, index.value)
  }

  /** `getConstantValue` with the operand read unsigned. */
  function ConstantValue(m: Member, pool: seq<Slot>): (r: Result<Slot, DecodeError>)
    ensures AttributeTable.Get(m.attributes, Some("ConstantValue")) == Success(None) ==> r == Success(Empty)
    ensures UnsignedOperand(m.attributes, "ConstantValue").Success? && UnsignedOperand(m.attributes, "ConstantValue").value.Some? ==>
              var index := UnsignedOperand(m.attributes, "ConstantValue").value.value;
              (index < |pool| ==> r == Success(pool[index])) && (index >= |pool| ==> r == Failure(IndexOutOfRange(index)))
  {
    var index :- UnsignedOperand(m.attributes, "ConstantValue");
    if index.None? then Success(Empty) else ConstantPoolQueries.Get(pool, index.value)
  }

  /** Below index 0x8000 the two `getConstantValue` readings agree. */
  lemma ConstantValueReadingsAgree(m: Member, pool: seq<Slot>)
    requires AttributeTable.Get(m.attributes, Some("ConstantValue")).Success?
    requires var info := AttributeTable.Get(m.attributes, Some("ConstantValue")).value;
             info.Some? && |info.value.data| >= 2 ==> info.value.data[0] < 0x80
    ensures ConstantValueAsWritten(m, pool) == ConstantValue(m, pool)
  {
  }

  /** A field whose constant sits at pool index 0x8000: the written code asks
      the pool for index -32768 and fails; the unsigned reading finds the value. */
  lemma HighConstantValueIndexMisread()
    ensures var pool := seq(0x8001, i => if i == 0x8000 then Value(IntegerC(42)) else Empty);
            var m := Member(0x0018, Some("K"), Some("I"), [AttributeInfo(Some("ConstantValue"), [0x80, 0x00])]);
            ConstantValueAsWritten(m, pool) == Failure(IndexOutOfRange(-0x8000))
            && ConstantValue(m, pool) == Success(Value(IntegerC(42)))
  {
    var m := Member(0x0018, Some("K"), Some("I"), [AttributeInfo(Some("ConstantValue"), [0x80, 0x00])]);
    assert AttributeTable.Get(m.attributes, Some("ConstantValue")) == Success(Some(m.attributes[0]));
  }

  /** `getSignature` in the chosen reading of its operand. */
  function SignatureIn(variant: Variant, m: Member, pool: seq<Slot>): Result<Option<string>, DecodeError> {
    if variant == AsWritten then SignatureAsWritten(m, pool) else Signature(m, pool)
  }

  /** `getFieldSignature`: `null` exactly when `getSignature` is `null`;
      otherwise the parse of that text. The signature grammar's parser is not
      part of this model and is a parameter. */
  function FieldSignature<T>(variant: Variant, m: Member, pool: seq<Slot>, parse: string -> T): (r: Result<Option<T>, DecodeError>)
    ensures var text := SignatureIn(variant, m, pool);
            && (r.Success? <==> text.Success?)
            && (r.Failure? ==> r.error == text.error)
            && (r.Success? ==> (r.value.None? <==> text.value.None?))
            && (r.Success? && r.value.Some? ==> r.value.value == parse(text.value.value))
  {
    var signature :- SignatureIn(variant, m, pool);
    if signature.None? then Success(None) else Success(Some(parse(signature.value)))
  }

  /** The text `getMethodSignature` parses: the Signature attribute's string
      when there is one, otherwise the raw descriptor. */
  function MethodSignatureText(variant: Variant, m: Member, pool: seq<Slot>): (r: Result<Option<string>, DecodeError>)
    ensures var text := SignatureIn(variant, m, pool);
            && (r.Success? <==> text.Success?)
            && (r.Failure? ==> r.error == text.error)
            && (r.Success? && text.value.Some? ==> r.value == text.value)
            && (r.Success? && text.value.None? ==> r.value == m.description)
  {
    var signature :- SignatureIn(variant, m, pool);
    if signature.Some? then Success(signature) else Success(m.description)
  }

  /** A method whose Signature attribute names pool index 0x8000: as written,
      `getMethodSignature` fails on index -32768; corrected, it parses the
      signature text and not the descriptor. */
  lemma HighMethodSignatureIndex()
    ensures var pool := seq(0x8001, i => if i == 0x8000 then Value(Utf8("<T:Ljava/lang/Object;>()TT;")) else Empty);
            var m := Member(0, Some("get"), Some("()Ljava/lang/Object;"), [AttributeInfo(Some("Signature"), [0x80, 0x00])]);
            MethodSignatureText(AsWritten, m, pool) == Failure(IndexOutOfRange(-0x8000))
            && MethodSignatureText(Corrected, m, pool) == Success(Some("<T:Ljava/lang/Object;>()TT;"))
  {
    var pool := seq(0x8001, i => if i == 0x8000 then Value(Utf8("<T:Ljava/lang/Object;>()TT;")) else Empty);
    var m := Member(0, Some("get"), Some("()Ljava/lang/Object;"), [AttributeInfo(Some("Signature"), [0x80, 0x00])]);
    assert AttributeTable.Get(m.attributes, Some("Signature")) == Success(Some(m.attributes[0]));
    assert CastAt(pool, 0x8000, IsUtf8) == Success(Some(Utf8("<T:Ljava/lang/Object;>()TT;")));
  }

  // ---------------------------------------------------------------- attribute-backed getters

  /** The shape of `getCode`, `getAnnotationDefault`,
      `getRuntimeVisibleParameterAnnotations` and `getMethodParameters`: look
      the attribute up by name and decode its payload; without it, `absent`. */
  function Decoded<T>(m: Member, name: string, decode: seq<byte> -> Result<T, DecodeError>, absent: T): (r: Result<T, DecodeError>)
    ensures AttributeTable.Get(m.attributes, Some(name)) == Success(None) ==> r == Success(absent)
    ensures AttributeTable.Get(m.attributes, Some(name)).Failure? ==> r == Failure(NullDereference)
    ensures AttributeTable.Get(m.attributes, Some(name)).Success? && AttributeTable.Get(m.attributes, Some(name)).value.Some? ==>
              r == decode(AttributeTable.Get(m.attributes, Some(name)).value.value.data)
  {
    var info :- AttributeTable.Get(m.attributes, Some(name));
    if info.None? then Success(absent) else decode(info.value.data)
  }

  function CodeReader(pool: seq<Slot>): seq<byte> -> Result<Option<CodeAttributes.Code>, DecodeError> {
    data => var (code, _) :- CodeAttributes.ReadCode(data, pool); Success(Some(code))
  }

  /** `getCode`: `null` without a Code attribute; otherwise its payload decoded
      (the bootstrap methods handed to the constructor are only stored). */
  function CodeOf(m: Member, pool: seq<Slot>): (r: Result<Option<CodeAttributes.Code>, DecodeError>)
    ensures AttributeTable.Get(m.attributes, Some("Code")) == Success(None) ==> r == Success(None)
    ensures AttributeTable.Get(m.attributes, Some("Code")).Success? && AttributeTable.Get(m.attributes, Some("Code")).value.Some? ==>
              var payload := AttributeTable.Get(m.attributes, Some("Code")).value.value.data;
              (r.Success? <==> CodeAttributes.ReadCode(payload, pool).Success?)
              && (r.Success? ==> r.value == Some(CodeAttributes.ReadCode(payload, pool).value.0))
  {
    Decoded(m, "Code", CodeReader(pool), None)
  }

  function ParametersReader(pool: seq<Slot>): seq<byte> -> Result<SmallAttributes.MethodParameters, DecodeError> {
    data => var (parameters, _) :- SmallAttributes.ReadMethodParameters(data, pool); Success(parameters)
  }

  /** `getMethodParameters`: the MethodParameters attribute decoded, or the
      names-only constructor on an empty array when there is none. */
  function MethodParametersOf(m: Member, pool: seq<Slot>): (r: Result<SmallAttributes.MethodParameters, DecodeError>)
    ensures AttributeTable.Get(m.attributes, Some("MethodParameters")) == Success(None) ==>
              r == Success(SmallAttributes.MethodParameters([], []))
    ensures AttributeTable.Get(m.attributes, Some("MethodParameters")).Failure? ==> r == Failure(NullDereference)
    ensures AttributeTable.Get(m.attributes, Some("MethodParameters")).Success?
            && AttributeTable.Get(m.attributes, Some("MethodParameters")).value.Some? ==>
              var payload := AttributeTable.Get(m.attributes, Some("MethodParameters")).value.value.data;
              (r.Success? <==> SmallAttributes.ReadMethodParameters(payload, pool).Success?)
              && (r.Failure? ==> r.error == SmallAttributes.ReadMethodParameters(payload, pool).error)
              && (r.Success? ==> r.value == SmallAttributes.ReadMethodParameters(payload, pool).value.0)
    ensures r.Success? ==> |r.value.names| == |r.value.flags| <= 255
  {
    var absent := SmallAttributes.FromNames([]);
    assert absent == SmallAttributes.MethodParameters([], []);
    Decoded(m, "MethodParameters", ParametersReader(pool), absent)
  }
}

=== FILE: method_utils.dfy ===
/** `MethodUtils.getMethodParameters`: a cursor walk over the parameter part of
    a method descriptor (section 4.3.3 of the Java Virtual Machine
    Specification) that pairs each parameter name with the descriptor text of
    its parameter. `Token` reads one parameter at the cursor; the cursor is
    the remaining text. */
module MethodUtils {
  import opened Wrappers
  import opened Bytes
  import opened JavaStrings
  import opened TypeCodes
  import DescriptorUtils

  /** `MethodParameterInfo`. */
  datatype ParameterInfo = ParameterInfo(kind: PrimitiveOrReferenceType, name: string, description: string)

  /** One parameter: its kind, its description and how far the cursor moves. */
  datatype Token = Token(kind: PrimitiveOrReferenceType, description: string, advance: nat)

  /** `getPrimitiveOrReferenceType(charAt(k))`: reading past the end is an
      index failure, and an unknown code gives null, which the following
      `switch` or `equals` dereferences. */
  function CodeAt(s: string, k: nat): (r: Result<PrimitiveOrReferenceType, DecodeError>)
    ensures r.Success? <==> k < |s| && IsTypeCode(s[k])
    ensures r.Success? ==> Term(r.value) == s[k]
    ensures k >= |s| ==> r == Failure(IndexOutOfRange(k))
    ensures k < |s| && !IsTypeCode(s[k]) ==> r == Failure(NullDereference)
  {
    if k >= |s| then Failure(IndexOutOfRange(k))
    else
      TypeOfCodeIsLookup(s[k]);
      var t := TypeOfCode(s[k]);
      if t.None? then Failure(NullDereference) else Success(t.value)
  }

  /** The `length` of the scan for ';' from `from`: the position of the first
      ';' at or after `from` (the token starts at 0), or 1 when there is none. */
  function UpToSemicolon(s: string, from: nat): (length: nat)
    requires 1 <= from <= |s|
    ensures length <= |s|
    ensures ';' in s[from..] ==> from <= length < |s| && s[length] == ';' && ';' !in s[from..length]
    ensures ';' !in s[from..] ==> length == 1
  {
    var k := IndexOf(s[from..], ';');
    if k == -1 then 1
    else
      assert s[from..][..k] == s[from..from + k];
      from + k
  }

  /** The `while` over nested '[': with the codes at `1 .. offset` all '[', keep
      counting until the code at `1 + offset` is not an array code. */
  function BracketRun(s: string, offset: nat): (r: Result<(nat, PrimitiveOrReferenceType), DecodeError>)
    requires offset >= 1
    ensures r.Success? ==> offset <= r.value.0 && 1 + r.value.0 < |s|
    ensures r.Success? ==> forall j :: 1 + offset <= j < 1 + r.value.0 ==> s[j] == '['
    ensures r.Success? ==> r.value.1 != Array && Term(r.value.1) == s[1 + r.value.0]
    decreases |s| - offset
  {
    var nested :- CodeAt(s, 1 + offset);
    if nested == Array then
      assert s[1 + offset] == Term(Array);
      BracketRun(s, offset + 1)
    else Success((offset, nested))
  }

  /** The text of an object type, or an array of them, starting at 0: as
      written it stops before the ';' and leaves the cursor on it; corrected,
      it takes the ';' too. */
  function ObjectLength(s: string, from: nat, variant: Variant): (n: nat)
    requires 1 <= from <= |s|
    ensures 1 <= n <= |s|
  {
    var length := UpToSemicolon(s, from);
    if variant == Corrected && length < |s| && s[length] == ';' then length + 1 else length
  }

  /** One iteration of the parameter loop on the text at the cursor. */
  function ReadToken(s: string, variant: Variant): (r: Result<Token, DecodeError>)
    ensures r.Success? ==> 1 <= r.value.advance <= |s| && r.value.description == s[..r.value.advance]
    ensures r.Success? ==> Term(r.value.kind) == s[0]
    ensures |s| > 0 && IsPrimitiveCode(s[0]) ==> r.Success? && r.value.advance == 1
    ensures |s| > 1 && s[0] == '[' && IsPrimitiveCode(s[1]) ==> r.Success? && r.value.advance == 2
    ensures |s| == 0 ==> r == Failure(IndexOutOfRange(0))
    ensures |s| > 0 && !IsTypeCode(s[0]) ==> r == Failure(NullDereference)
  {
    var kind :- CodeAt(s, 0);
    if kind == Object then
      var n := ObjectLength(s, 1, variant);
      Success(Token(Object, s[..n], n))
    else if kind == Array then
      var element :- CodeAt(s, 1);
      if element == Array then
        var (offset, nested) :- BracketRun(s, 1);
        if nested == Object then
          var n := ObjectLength(s, 1 + offset, variant);
          Success(Token(Array, s[..n], n))
        else if variant == AsWritten then
          Success(Token(Array, s[..offset], offset))
        else
          Success(Token(Array, s[..offset + 2], offset + 2))
      else if element == Object then
        var n := ObjectLength(s, 2, variant);
        Success(Token(Array, s[..n], n))
      else
        Success(Token(Array, s[..2], 2))
    else
      Success(Token(kind, s[..1], 1))
  }

  /** The loop over the parameter names: one token per name, in order. */
  function ReadParameters(s: string, names: seq<string>, variant: Variant): (r: Result<seq<ParameterInfo>, DecodeError>)
    ensures r.Success? ==> |r.value| == |names|
    ensures r.Success? ==> forall i :: 0 <= i < |names| ==> r.value[i].name == names[i]
    decreases |names|
  {
    if |names| == 0 then Success([])
    else
      var t :- ReadToken(s, variant);
      var rest :- ReadParameters(s[t.advance..], names[1..], variant);
      Success([ParameterInfo(t.kind, names[0], t.description)] + rest)
  }

  /** `getMethodParameters(result, signature, parameters)` as written: drop the
      leading '(' (`substring(1)` of an empty descriptor is an index failure)
      and read one parameter per name. */
  function MethodParametersAsWritten(signature: string, names: seq<string>): (r: Result<seq<ParameterInfo>, DecodeError>)
    ensures |signature| == 0 ==> r == Failure(IndexOutOfRange(1))
    ensures r.Success? ==> |r.value| == |names| && forall i :: 0 <= i < |names| ==> r.value[i].name == names[i]
  {
    if |signature| == 0 then Failure(IndexOutOfRange(1))
    else ReadParameters(signature[1..], names, AsWritten)
  }

  /** The same walk with the cursor moved past each ';' and past the element
      code of a multi-dimensional primitive array. */
  function MethodParameters(signature: string, names: seq<string>): (r: Result<seq<ParameterInfo>, DecodeError>)
    ensures |signature| == 0 ==> r == Failure(IndexOutOfRange(1))
    ensures r.Success? ==> |r.value| == |names| && forall i :: 0 <= i < |names| ==> r.value[i].name == names[i]
  {
    if |signature| == 0 then Failure(IndexOutOfRange(1))
    else ReadParameters(signature[1..], names, Corrected)
  }

  /** As written, an object parameter's description stops before its ';' and the
      cursor is left on the ';'. */
  lemma ObjectStopsOnSemicolon(cls: string, rest: string, variant: Variant)
    requires ';' !in cls
    ensures var t := ReadToken("L" + cls + ";" + rest, AsWritten);
            t.Success? && t.value.kind == Object && t.value.description == "L" + cls
            && ("L" + cls + ";" + rest)[t.value.advance..] == ";" + rest
  {
    var s := "L" + cls + ";" + rest;
    assert s[1..] == cls + ";" + rest;
    assert (cls + ";" + rest)[|cls|] == ';';
    assert (cls + ";" + rest)[..|cls|] == cls;
    assert IndexOf(s[1..], ';') == |cls|;
    assert s[..1 + |cls|] == "L" + cls;
    assert s[1 + |cls|..] == ";" + rest;
  }

  /** As written, a multi-dimensional primitive array yields only its first
      `d - 1` brackets. */
  lemma MultiDimensionalPrimitiveTruncated(d: nat, code: char, rest: string)
    requires d >= 2 && IsPrimitiveCode(code)
    ensures var s := DescriptorUtils.Brackets(d) + [code] + rest;
            var t := ReadToken(s, AsWritten);
            t.Success? && t.value.kind == Array && t.value.description == DescriptorUtils.Brackets(d - 1)
            && t.value.advance == d - 1
  {
    var s := DescriptorUtils.Brackets(d) + [code] + rest;
    assert s[d] == code;
    RunOverBrackets(s, d, 1);
    assert s[..d - 1] == DescriptorUtils.Brackets(d - 1);
  }

  /** From any offset inside a '[' run of length `d`, the run ends at `d - 1`. */
  lemma {:induction false} RunOverBrackets(s: string, d: nat, offset: nat)
    requires 1 <= offset < d < |s|
    requires forall j :: 0 <= j < d ==> s[j] == '['
    requires IsPrimitiveCode(s[d])
    ensures BracketRun(s, offset).Success? && BracketRun(s, offset).value.0 == d - 1
    ensures BracketRun(s, offset).value.1 != Object
    decreases d - offset
  {
    if 1 + offset < d {
      RunOverBrackets(s, d, offset + 1);
    }
  }

  /** An object parameter followed by any other: the cursor left on the ';'
      makes the second lookup fail, so as written the walk aborts. */
  lemma ObjectThenParameterAborts(cls: string, next: string, n1: string, n2: string)
    requires ';' !in cls
    ensures MethodParametersAsWritten("(L" + cls + ";" + next, [n1, n2]) == Failure(NullDereference)
  {
    var ps := "L" + cls + ";" + next;
    assert ("(L" + cls + ";" + next)[1..] == ps;
    ObjectStopsOnSemicolon(cls, next, AsWritten);
    assert ReadToken(";" + next, AsWritten) == Failure(NullDereference);
    assert [n1, n2][1..] == [n2];
    LaterFailureAborts(ps, [n1, n2], AsWritten);
  }

  /** `(String s, int i)`: as written, the walk aborts on the second parameter. */
  lemma ObjectThenIntAborts()
    ensures MethodParametersAsWritten("(Ljava/lang/String;I)V", ["s", "i"]) == Failure(NullDereference)
  {
    var d := "(Ljava/lang/String;I)V";
    assert d[..2] == "(L" && d[2..18] == "java/lang/String" && d[18..19] == ";" && d[19..] == "I)V";
    assert d == d[..2] + d[2..18] + d[18..19] + d[19..];
    ObjectThenParameterAborts("java/lang/String", "I)V", "s", "i");
  }

  /** A parameter that cannot be read aborts the whole walk with its failure. */
  lemma LaterFailureAborts(s: string, names: seq<string>, variant: Variant)
    requires |names| >= 1 && ReadToken(s, variant).Success?
    requires ReadParameters(s[ReadToken(s, variant).value.advance..], names[1..], variant).Failure?
    ensures ReadParameters(s, names, variant)
            == ReadParameters(s[ReadToken(s, variant).value.advance..], names[1..], variant)
  {
  }

  /** Two parameters `int[][] a, int b`: as written they come out as "[" and "[I". */
  lemma TwoDimensionalIntMisread()
    ensures MethodParametersAsWritten("([[II)V", ["a", "b"])
            == Success([ParameterInfo(Array, "a", "["), ParameterInfo(Array, "b", "[I")])
  {
    var ps := "[[II)V";
    assert "([[II)V"[1..] == ps;
    MultiDimensionalPrimitiveTruncated(2, 'I', "I)V");
    assert DescriptorUtils.Brackets(2) + ['I'] + "I)V" == ps;
    assert DescriptorUtils.Brackets(1) == "[";
    assert ReadToken(ps, AsWritten) == Success(Token(Array, "[", 1));
    var second := "[II)V";
    assert ps[1..] == second;
    TermInjective(ReadToken(second, AsWritten).value.kind, Array);
    assert second[..2] == "[I";
    assert ReadToken(second, AsWritten) == Success(Token(Array, "[I", 2));
    assert ReadParameters(second[2..], [], AsWritten) == Success([]);
    assert ["a", "b"][1..] == ["b"];
    assert ["b"][1..] == [];
    var b := ParameterInfo(Array, "b", "[I");
    assert [b] + [] == [b];
    assert ReadParameters(second, ["b"], AsWritten) == Success([b]);
    var a := ParameterInfo(Array, "a", "[");
    assert [a] + [b] == [a, b];
    assert ReadParameters(ps, ["a", "b"], AsWritten) == Success([a, b]);
  }

  /** A well-formed field type (section 4.3.2 of the Java Virtual Machine Specification). */
  datatype FieldType = BaseType(code: char) | ObjectType(className: string) | ArrayType(component: FieldType)

  predicate ValidFieldType(t: FieldType) {
    match t
    case BaseType(c) => IsPrimitiveCode(c)
    case ObjectType(cls) => ';' !in cls
    case ArrayType(c) => ValidFieldType(c)
  }

  /** The descriptor text of a field type. */
  function Descriptor(t: FieldType): (s: string)
    ensures |s| >= 1
  {
    match t
    case BaseType(c) => [c]
    case ObjectType(cls) => "L" + cls + ";"
    case ArrayType(c) => "[" + Descriptor(c)
  }

  /** The kind `getPrimitiveOrReferenceType` gives the first code of a descriptor. */
  function KindOf(t: FieldType): PrimitiveOrReferenceType
    requires ValidFieldType(t)
  {
    match t
    case BaseType(c) => TypeOfCode(c).value
    case ObjectType(_) => Object
    case ArrayType(_) => Array
  }

  /** Array nesting depth and the innermost element type. */
  function Dimensions(t: FieldType): nat {
    if t.ArrayType? then 1 + Dimensions(t.component) else 0
  }

  function Element(t: FieldType): (e: FieldType)
    ensures !e.ArrayType?
  {
    if t.ArrayType? then Element(t.component) else t
  }

  lemma {:induction false} DescriptorSplits(t: FieldType)
    ensures Descriptor(t) == DescriptorUtils.Brackets(Dimensions(t)) + Descriptor(Element(t))
  {
    if t.ArrayType? {
      DescriptorSplits(t.component);
    }
  }

  lemma {:induction false} ElementValid(t: FieldType)
    requires ValidFieldType(t)
    ensures ValidFieldType(Element(t)) && (t.ArrayType? ==> Dimensions(t) >= 1)
  {
    if t.ArrayType? {
      ElementValid(t.component);
    }
  }

  /** An object type's text up to and including its ';' is found by the
      corrected scan from its 'L' or the character after it. */
  lemma ObjectLengthCorrected(s: string, p: nat, cls: string, from: nat)
    requires ';' !in cls && 1 <= from && p <= from <= p + 1
    requires p + 1 + |cls| < |s| && s[p] == 'L' && s[p + 1 .. p + 1 + |cls|] == cls && s[p + 1 + |cls|] == ';'
    ensures ObjectLength(s, from, Corrected) == p + 2 + |cls|
  {
    var semi := p + 1 + |cls|;
    forall j | from <= j < semi ensures s[j] != ';' {
      if j > p {
        assert s[j] == s[p + 1 .. semi][j - p - 1];
      }
    }
    assert s[from..][semi - from] == ';';
  }

  /** The corrected tokenizer reads exactly the descriptor of a well-formed field type. */
  lemma TokenRoundTrip(t: FieldType, rest: string)
    requires ValidFieldType(t)
    ensures ReadToken(Descriptor(t) + rest, Corrected)
            == Success(Token(KindOf(t), Descriptor(t), |Descriptor(t)|))
  {
    match t
    case BaseType(c) => BaseTokenRoundTrip(c, rest);
    case ObjectType(cls) => ObjectTokenRoundTrip(cls, rest);
    case ArrayType(c) =>
      DescriptorSplits(t);
      ElementValid(t);
      var d := Dimensions(t);
      var e := Element(t);
      assert Descriptor(t) + rest == DescriptorUtils.Brackets(d) + Descriptor(e) + rest;
      BracketsThen(d, Descriptor(e), rest);
      if d == 1 {
        ArrayTokenRoundTrip(Descriptor(t) + rest, e, rest, |Descriptor(t)|);
      } else {
        NestedArrayTokenRoundTrip(Descriptor(t) + rest, d, e, rest, |Descriptor(t)|);
      }
      assert (Descriptor(t) + rest)[..|Descriptor(t)|] == Descriptor(t);
  }

  lemma BaseTokenRoundTrip(c: char, rest: string)
    requires IsPrimitiveCode(c)
    ensures ReadToken([c] + rest, Corrected) == Success(Token(TypeOfCode(c).value, [c], 1))
  {
    var s := [c] + rest;
    TermInjective(ReadToken(s, Corrected).value.kind, TypeOfCode(c).value);
    assert s[..1] == [c];
  }

  lemma ObjectTokenRoundTrip(cls: string, rest: string)
    requires ';' !in cls
    ensures ReadToken("L" + cls + ";" + rest, Corrected)
            == Success(Token(Object, "L" + cls + ";", 2 + |cls|))
  {
    var s := "L" + cls + ";" + rest;
    assert s[1 .. 1 + |cls|] == cls;
    assert s[1 + |cls|] == ';';
    ObjectLengthCorrected(s, 0, cls, 1);
    assert s[..2 + |cls|] == "L" + cls + ";";
  }

  /** A one-dimensional array, laid out as '[' and then the element: one
      token of `n` characters. */
  lemma ArrayTokenRoundTrip(s: string, e: FieldType, rest: string, n: nat)
    requires ValidFieldType(e) && !e.ArrayType? && n == 1 + |Descriptor(e)|
    requires |s| == n + |rest| && s[0] == '[' && s[1..] == Descriptor(e) + rest
    ensures ReadToken(s, Corrected) == Success(Token(Array, s[..n], n))
  {
    var u := s[1..];
    assert CodeAt(s, 0) == Success(Array);
    match e
    case BaseType(code) =>
      assert s[1] == u[0] == code;
    case ObjectType(cls) =>
      var D := "L" + cls + ";";
      assert Descriptor(e) == D && u == D + rest;
      assert D[1 .. 1 + |cls|] == cls;
      assert u[1 .. 1 + |cls|] == D[1 .. 1 + |cls|];
      assert s[1] == u[0] == 'L';
      assert CodeAt(s, 1) == Success(Object);
      assert s[2 .. 2 + |cls|] == u[1 .. 1 + |cls|];
      assert s[2 + |cls|] == u[1 + |cls|] == D[1 + |cls|];
      ObjectLengthCorrected(s, 1, cls, 2);
  }

  /** An array of two or more dimensions, laid out as `d` brackets and then
      the element: the '[' run and the element code are one token. */
  lemma NestedArrayTokenRoundTrip(s: string, d: nat, e: FieldType, rest: string, n: nat)
    requires d >= 2 && ValidFieldType(e) && !e.ArrayType? && n == d + |Descriptor(e)|
    requires |s| == n + |rest| && (forall j :: 0 <= j < d ==> s[j] == '[') && s[d..] == Descriptor(e) + rest
    ensures ReadToken(s, Corrected) == Success(Token(Array, s[..n], n))
  {
    var u := s[d..];
    match e
    case BaseType(code) =>
      assert s[d] == u[0] == code;
      NestedPrimitiveToken(s, d, n);
    case ObjectType(cls) =>
      var D := "L" + cls + ";";
      assert Descriptor(e) == D && u == D + rest;
      assert D[1 .. 1 + |cls|] == cls;
      assert u[1 .. 1 + |cls|] == D[1 .. 1 + |cls|];
      assert s[d] == u[0] == 'L';
      assert s[d + 1 .. d + 1 + |cls|] == u[1 .. 1 + |cls|];
      assert s[d + 1 + |cls|] == u[1 + |cls|] == D[1 + |cls|];
      NestedObjectToken(s, d, cls, n);
  }

  /** `d` brackets followed by a text: the brackets, then the text from `d` on. */
  lemma BracketsThen(d: nat, t: string, rest: string)
    ensures var s := DescriptorUtils.Brackets(d) + t + rest;
            |s| == d + |t| + |rest| && (forall j :: 0 <= j < d ==> s[j] == '[') && s[d..] == t + rest
  {
  }

  /** A run of `d >= 2` brackets before a primitive code is one token. */
  lemma NestedPrimitiveToken(s: string, d: nat, n: nat)
    requires 2 <= d < |s| && IsPrimitiveCode(s[d]) && n == d + 1
    requires forall j :: 0 <= j < d ==> s[j] == '['
    ensures ReadToken(s, Corrected) == Success(Token(Array, s[..n], n))
  {
    assert CodeAt(s, 0) == Success(Array);
    assert CodeAt(s, 1) == Success(Array);
    RunEndsAtElement(s, d, 1);
    assert BracketRun(s, 1).value.1 != Object;
  }

  /** A run of `d >= 2` brackets before `Lcls;` is one token. */
  lemma NestedObjectToken(s: string, d: nat, cls: string, n: nat)
    requires d >= 2 && ';' !in cls && d + 1 + |cls| < |s| && n == d + 2 + |cls|
    requires forall j :: 0 <= j < d ==> s[j] == '['
    requires s[d] == 'L' && s[d + 1 .. d + 1 + |cls|] == cls && s[d + 1 + |cls|] == ';'
    ensures ReadToken(s, Corrected) == Success(Token(Array, s[..n], n))
  {
    assert CodeAt(s, 0) == Success(Array);
    assert CodeAt(s, 1) == Success(Array);
    RunEndsAtElement(s, d, 1);
    var run := BracketRun(s, 1).value;
    assert run == (d - 1, Object);
    ObjectLengthCorrected(s, d, cls, d);
    assert ObjectLength(s, 1 + run.0, Corrected) == n;
  }

  /** From any offset inside a '[' run of length `d`, followed by an element
      code, the run ends at `d - 1` with that element's kind. */
  lemma {:induction false} RunEndsAtElement(s: string, d: nat, offset: nat)
    requires 1 <= offset < d < |s|
    requires forall j :: 0 <= j < d ==> s[j] == '['
    requires IsPrimitiveCode(s[d]) || s[d] == 'L'
    ensures BracketRun(s, offset).Success? && BracketRun(s, offset).value.0 == d - 1
    ensures Term(BracketRun(s, offset).value.1) == s[d]
    decreases d - offset
  {
    if 1 + offset < d {
      RunEndsAtElement(s, d, offset + 1);
    }
  }

  /** The descriptors of a parameter list, back to back. */
  function Concat(ts: seq<FieldType>): string {
    if |ts| == 0 then "" else Descriptor(ts[0]) + Concat(ts[1..])
  }

  /** The corrected walk over `(d1 d2 ... dn)V` with one name per parameter
      yields each parameter's full descriptor and kind, in order. */
  lemma {:induction false} ParametersRoundTrip(ts: seq<FieldType>, names: seq<string>, rest: string)
    requires |ts| == |names|
    requires forall i :: 0 <= i < |ts| ==> ValidFieldType(ts[i])
    ensures var r := ReadParameters(Concat(ts) + rest, names, Corrected);
            r.Success? && forall i :: 0 <= i < |ts| ==>
              r.value[i] == ParameterInfo(KindOf(ts[i]), names[i], Descriptor(ts[i]))
    decreases |ts|
  {
    if |ts| > 0 {
      var s := Concat(ts) + rest;
      assert s == Descriptor(ts[0]) + (Concat(ts[1..]) + rest);
      TokenRoundTrip(ts[0], Concat(ts[1..]) + rest);
      assert s[|Descriptor(ts[0])|..] == Concat(ts[1..]) + rest;
      ParametersRoundTrip(ts[1..], names[1..], rest);
      var r := ReadParameters(s, names, Corrected);
      forall i | 0 <= i < |ts|
        ensures r.value[i] == ParameterInfo(KindOf(ts[i]), names[i], Descriptor(ts[i]))
      {
        if i > 0 {
          assert ts[1..][i - 1] == ts[i];
        }
      }
    }
  }
}

=== FILE: overrides.dfy ===
/** `MethodInfo.isImplementationOf`: whether a method implements (overrides)
    another, first by equal descriptors, then by comparing generic
    signatures after binding the overridden class's type parameters to the
    type arguments the implementing class passes up to it. */
module Overrides {
  import opened Wrappers
  import opened Bytes
  import opened JavaStrings
  import opened AccessMasks
  import MethodAccess
  import opened Signatures
  import opened SameType
  import ClassFiles

  /** What matching needs of a class: its binary name (`getThisClass().getName()`),
      the `thisSignature` text its constructor splits off the class
      signature, and the parsed class signature (`null` without one). */
  datatype ClassView = ClassView(name: string, thisSignature: Option<string>, signature: Option<ClassSignature>)

  /** What matching needs of a method: its flags, name and descriptor, its
      Signature attribute text, the parsed `getMethodSignature()` (from the
      Signature text when there is one, from the descriptor otherwise), and
      its declaring class. */
  datatype MethodView = MethodView(flags: u2, name: Option<string>, description: Option<string>,
                                   signatureText: Option<string>, signature: MethodSignature, declaring: ClassView)

  const ObjectText := "Ljava/lang/Object;"

  /** The binding of the `i`-th type parameter: that type argument's text,
      or `java.lang.Object` when the class type passes no type arguments. */
  function Entry(args: TypeArguments, i: nat): string
    requires args.TypeArguments? ==> i < |args.arguments|
  {
    if args.NoTypeArguments? then ObjectText else ArgText(args.arguments[i])
  }

  /** The inner loops of the binding: for each type parameter of the
      overridden class, in order, `put(identifier, entry)`. A class type
      with fewer type arguments than there are parameters makes
      `typeArgument(i)` `null`, and `getText()` on it fails. */
  function Bind(m: Bindings, params: seq<TypeParameter>, args: TypeArguments, i: nat): (r: Result<Bindings, DecodeError>)
    requires i <= |params|
    ensures r.Failure? <==> args.TypeArguments? && i < |params| && |args.arguments| < |params|
    ensures r.Failure? ==> r.error == NullDereference
    decreases |params| - i
  {
    if i == |params| then Success(m)
    else if args.TypeArguments? && i >= |args.arguments| then Failure(NullDereference)
    else Bind(m[params[i].identifier := Entry(args, i)], params, args, i + 1)
  }

  /** A successful binding adds exactly the parameters' identifiers, leaves
      every other key alone, and maps each identifier to the entry of the
      last parameter carrying it. */
  lemma BindContents(m: Bindings, params: seq<TypeParameter>, args: TypeArguments, i: nat)
    requires i <= |params| && Bind(m, params, args, i).Success?
    ensures var r := Bind(m, params, args, i).value;
            r.Keys == m.Keys + (set j | i <= j < |params| :: params[j].identifier)
    ensures var r := Bind(m, params, args, i).value;
            forall x :: x in m && (forall j :: i <= j < |params| ==> params[j].identifier != x) ==> r[x] == m[x]
    ensures var r := Bind(m, params, args, i).value;
            forall j :: i <= j < |params| && (forall k :: j < k < |params| ==> params[k].identifier != params[j].identifier) ==>
              r[params[j].identifier] == Entry(args, j)
  {
    BindKeys(m, params, args, i);
    var r := Bind(m, params, args, i).value;
    forall x | x in m && (forall j :: i <= j < |params| ==> params[j].identifier != x) ensures r[x] == m[x] {
      BindKeeps(m, params, args, i, x);
    }
    forall j | i <= j < |params| && (forall k :: j < k < |params| ==> params[k].identifier != params[j].identifier)
      ensures r[params[j].identifier] == Entry(args, j)
    {
      BindLast(m, params, args, i, j);
    }
  }

  lemma {:induction false} BindKeys(m: Bindings, params: seq<TypeParameter>, args: TypeArguments, i: nat)
    requires i <= |params| && Bind(m, params, args, i).Success?
    ensures Bind(m, params, args, i).value.Keys == m.Keys + (set j | i <= j < |params| :: params[j].identifier)
    decreases |params| - i
  {
    if i < |params| {
      var m' := m[params[i].identifier := Entry(args, i)];
      BindKeys(m', params, args, i + 1);
      assert (set j | i <= j < |params| :: params[j].identifier)
             == {params[i].identifier} + (set j | i + 1 <= j < |params| :: params[j].identifier);
    }
  }

  /** A key no remaining parameter carries keeps its value. */
  lemma {:induction false} BindKeeps(m: Bindings, params: seq<TypeParameter>, args: TypeArguments, i: nat, x: string)
    requires i <= |params| && Bind(m, params, args, i).Success?
    requires x in m && forall j :: i <= j < |params| ==> params[j].identifier != x
    ensures x in Bind(m, params, args, i).value && Bind(m, params, args, i).value[x] == m[x]
    decreases |params| - i
  {
    if i < |params| {
      var m' := m[params[i].identifier := Entry(args, i)];
      assert Bind(m, params, args, i) == Bind(m', params, args, i + 1);
      BindKeeps(m', params, args, i + 1, x);
    }
  }

  /** The `j`-th parameter's identifier, carried by no later parameter, ends
      up bound to the `j`-th entry. */
  lemma {:induction false} BindLast(m: Bindings, params: seq<TypeParameter>, args: TypeArguments, i: nat, j: nat)
    requires i <= j < |params| && Bind(m, params, args, i).Success?
    requires forall k :: j < k < |params| ==> params[k].identifier != params[j].identifier
    ensures params[j].identifier in Bind(m, params, args, i).value
    ensures Bind(m, params, args, i).value[params[j].identifier] == Entry(args, j)
    decreases |params| - i
  {
    var m' := m[params[i].identifier := Entry(args, i)];
    assert Bind(m, params, args, i) == Bind(m', params, args, i + 1);
    if i == j {
      BindKeeps(m', params, args, i + 1, params[j].identifier);
    } else {
      BindLast(m', params, args, i + 1, j);
    }
  }

  /** The superinterface loop from `j` on: the `j`-th superinterface binds
      the overridden class's parameters when the erasure of `compared[j]`
      equals `key`. The source erases the superclass there instead of the
      superinterface, so `compared` is a parameter. */
  function InterfaceBindings(m: Bindings, key: Option<string>, target: ClassSignature,
                             compared: seq<ClassTypeSignature>, interfaces: seq<ClassTypeSignature>, j: nat)
    : (r: Result<Bindings, DecodeError>)
    requires |compared| == |interfaces| && j <= |interfaces|
    ensures (forall i :: j <= i < |interfaces| ==> Some(Erase(compared[i])) != key) ==> r == Success(m)
    decreases |interfaces| - j
  {
    if j == |interfaces| then Success(m)
    else if Some(Erase(compared[j])) != key then InterfaceBindings(m, key, target, compared, interfaces, j + 1)
    else
      var m' :- Bind(m, target.typeParameters, interfaces[j].simple.typeArguments, 0);
      InterfaceBindings(m', key, target, compared, interfaces, j + 1)
  }

  /** The bindings of the superclass block: when the erased superclass
      equals `key`, the superclass's type arguments bind the parameters. */
  function SuperclassBindings(key: Option<string>, target: ClassSignature, own: ClassSignature)
    : (r: Result<Bindings, DecodeError>)
  {
    if own.superclass.Some? && Some(Erase(own.superclass.value)) == key
    then Bind(map[], target.typeParameters, own.superclass.value.simple.typeArguments, 0)
    else Success(map[])
  }

  /** The bindings as written: keyed by the overridden class's
      `thisSignature`, and with every superinterface compared through the
      erased superclass, which is `null`-dereferenced when absent. */
  function SubstitutionAsWritten(key: Option<string>, target: ClassSignature, own: ClassSignature)
    : (r: Result<Bindings, DecodeError>)
    ensures own.superclass.None? && |own.superinterfaces| > 0 ==> r == Failure(NullDereference)
  {
    var m :- SuperclassBindings(key, target, own);
    if own.superclass.None? then (if |own.superinterfaces| > 0 then Failure(NullDereference) else Success(m))
    else
      var superclass := own.superclass.value;
      InterfaceBindings(m, key, target, seq(|own.superinterfaces|, _ => superclass), own.superinterfaces, 0)
  }

  /** The bindings keyed by the overridden class's binary name, each
      superinterface compared through its own erasure. */
  function Substitution(name: string, target: ClassSignature, own: ClassSignature): (r: Result<Bindings, DecodeError>)
    ensures (own.superclass.None? || Erase(own.superclass.value) != name)
            && (forall i :: 0 <= i < |own.superinterfaces| ==> Erase(own.superinterfaces[i]) != name)
            ==> r == Success(map[])
  {
    var m :- SuperclassBindings(Some(name), target, own);
    InterfaceBindings(m, Some(name), target, own.superinterfaces, own.superinterfaces, 0)
  }

  /** A direct superclass `name<A1, ..., An>` binds each type parameter of
      the overridden class to the text of its type argument when the
      parameters are distinct and no superinterface erases to `name`. */
  lemma SuperclassArgumentsBound(name: string, target: ClassSignature, own: ClassSignature)
    requires own.superclass.Some? && Erase(own.superclass.value) == name
    requires var args := own.superclass.value.simple.typeArguments;
             args.TypeArguments? && |args.arguments| >= |target.typeParameters|
    requires forall j, k :: 0 <= j < k < |target.typeParameters| ==>
               target.typeParameters[j].identifier != target.typeParameters[k].identifier
    requires forall i :: 0 <= i < |own.superinterfaces| ==> Erase(own.superinterfaces[i]) != name
    ensures var r := Substitution(name, target, own);
            var args := own.superclass.value.simple.typeArguments.arguments;
            r.Success? && r.value.Keys == (set j | 0 <= j < |target.typeParameters| :: target.typeParameters[j].identifier)
            && forall j :: 0 <= j < |target.typeParameters| ==> r.value[target.typeParameters[j].identifier] == ArgText(args[j])
  {
    var m := SuperclassBindings(Some(name), target, own);
    assert m.Success?;
    BindContents(map[], target.typeParameters, own.superclass.value.simple.typeArguments, 0);
    assert InterfaceBindings(m.value, Some(name), target, own.superinterfaces, own.superinterfaces, 0) == Success(m.value);
  }

  /** The `thisSignature` the constructor splits off is absent, empty, or
      opens with '<' or '>'. */
  lemma {:induction false} ThisSignatureShape(sig: string)
    ensures var key := ClassFiles.SplitSignature(sig).0;
            key.None? || key.value == "" || key.value[0] == '<' || key.value[0] == '>'
  {
    var key := ClassFiles.SplitSignature(sig).0;
    if key.Some? && key.value != "" {
      assert !ClassFiles.SplitsAt(sig, 0);
      assert sig[..0] == [];
      assert key.value[0] == sig[0];
    }
  }

  /** The erasure of a class type whose leading names are identifiers
      opens with an identifier character, so it is never such a key. */
  lemma ErasureIsNeverAThisSignature(sig: string, c: ClassTypeSignature)
    requires NamedClass(c)
    ensures ClassFiles.SplitSignature(sig).0 != Some(Erase(c))
  {
    ThisSignatureShape(sig);
    EraseOpensWithName(c);
  }

  /** As written, keyed by a `thisSignature`, the bindings are always empty
      (or the superinterface loop fails on an absent superclass). */
  lemma AsWrittenBindsNothing(sig: string, target: ClassSignature, own: ClassSignature)
    requires own.superclass.Some? ==> NamedClass(own.superclass.value)
    ensures var r := SubstitutionAsWritten(ClassFiles.SplitSignature(sig).0, target, own);
            r == (if own.superclass.None? && |own.superinterfaces| > 0 then Failure(NullDereference) else Success(map[]))
  {
    var key := ClassFiles.SplitSignature(sig).0;
    if own.superclass.Some? {
      ErasureIsNeverAThisSignature(sig, own.superclass.value);
      var superclass := own.superclass.value;
      var compared := seq(|own.superinterfaces|, _ => superclass);
      assert forall i :: 0 <= i < |own.superinterfaces| ==> Some(Erase(compared[i])) != key;
    }
  }

  // ---- The generic comparison ----

  /** Result types compared when neither method is void, then the
      arguments pairwise. */
  predicate SignaturesAgree(m: Bindings, target: MethodSignature, own: MethodSignature)
    requires |target.arguments| == |own.arguments|
  {
    (target.result.None? || own.result.None? || SameJava(m, target.result.value, own.result.value))
    && forall i :: 0 <= i < |target.arguments| ==> SameJava(m, target.arguments[i], own.arguments[i])
  }

  /** `isImplementationOf(ClassFile, MethodSignature)` given the bindings
      it would compute: without a class signature on either side the
      signature texts are compared; a void result on one side only, or a
      different argument count, does not match; otherwise the result and
      argument types are compared under the bindings. */
  function GenericMatch(self: MethodView, declaringFile: ClassView, target: MethodSignature,
                        bindings: Result<Bindings, DecodeError>): (r: Result<bool, DecodeError>)
    ensures declaringFile.signature.None? || self.declaring.signature.None? ==>
              r == Success(MethodSignatureText(self.signature) == MethodSignatureText(target))
    ensures declaringFile.signature.Some? && self.declaring.signature.Some? ==>
              (r == Success(true) <==>
                 IsVoid(target) == IsVoid(self.signature) && |target.arguments| == |self.signature.arguments|
                 && bindings.Success? && SignaturesAgree(bindings.value, target, self.signature))
    ensures r.Failure? ==> bindings.Failure? && r.error == bindings.error
  {
    if declaringFile.signature.None? || self.declaring.signature.None? then
      Success(MethodSignatureText(self.signature) == MethodSignatureText(target))
    else if IsVoid(target) != IsVoid(self.signature) then Success(false)
    else if |target.arguments| != |self.signature.arguments| then Success(false)
    else
      var m :- bindings;
      Success(SignaturesAgree(m, target, self.signature))
  }

  /** The generic path as written. */
  function ImplementsSignatureAsWritten(self: MethodView, declaringFile: ClassView, target: MethodSignature)
    : (r: Result<bool, DecodeError>)
    ensures declaringFile.signature.Some? && self.declaring.signature.Some? ==>
              r == GenericMatch(self, declaringFile, target,
                                SubstitutionAsWritten(declaringFile.thisSignature, declaringFile.signature.value,
                                                      self.declaring.signature.value))
  {
    GenericMatch(self, declaringFile, target,
                 if declaringFile.signature.Some? && self.declaring.signature.Some?
                 then SubstitutionAsWritten(declaringFile.thisSignature, declaringFile.signature.value,
                                            self.declaring.signature.value)
                 else Success(map[]))
  }

  /** The generic path with the bindings keyed by the overridden class's
      name and each superinterface erased on its own. */
  function ImplementsSignature(self: MethodView, declaringFile: ClassView, target: MethodSignature)
    : (r: Result<bool, DecodeError>)
    ensures declaringFile.signature.Some? && self.declaring.signature.Some? ==>
              r == GenericMatch(self, declaringFile, target,
                                Substitution(declaringFile.name, declaringFile.signature.value,
                                             self.declaring.signature.value))
  {
    GenericMatch(self, declaringFile, target,
                 if declaringFile.signature.Some? && self.declaring.signature.Some?
                 then Substitution(declaringFile.name, declaringFile.signature.value, self.declaring.signature.value)
                 else Success(map[]))
  }

  /** The generic path in the chosen reading of the bindings. */
  function ImplementsSignatureIn(variant: Variant, self: MethodView, declaringFile: ClassView, target: MethodSignature)
    : Result<bool, DecodeError>
  {
    if variant == AsWritten then ImplementsSignatureAsWritten(self, declaringFile, target)
    else ImplementsSignature(self, declaringFile, target)
  }

  // ---- The entry points ----

  predicate IsSynthetic(v: MethodView) {
    MethodAccess.Has(v.flags, MethodAccess.Synthetic)
  }

  /** Both descriptors present and equal. */
  predicate SameDescriptor(self: MethodView, other: MethodView) {
    self.description.Some? && other.description.Some? && self.description == other.description
  }

  /** `isImplementationOf(methodInfo, allowErasedMatch, allowSyntheticImplementations)`:
      `getName().equals` fails on a `null` name; different names, or a
      synthetic method when those are not allowed, do not match; equal
      descriptors match when the other method has no signature or erased
      matches are allowed; otherwise a method with a signature goes down
      the generic path, as written or with the bindings corrected. */
  function ImplementationOf(variant: Variant, self: MethodView, other: MethodView, allowErased: bool, allowSynthetic: bool)
    : (r: Result<bool, DecodeError>)
    ensures self.name.None? ==> r == Failure(NullDereference)
    ensures self.name.Some? ==>
              (r == Success(true) <==>
                 self.name == other.name && (allowSynthetic || !IsSynthetic(self))
                 && ((SameDescriptor(self, other) && (allowErased || other.signatureText.None?))
                     || (other.signatureText.Some?
                         && ImplementsSignatureIn(variant, self, other.declaring, other.signature) == Success(true))))
    ensures r.Failure? ==> self.name.None?
                           || (other.signatureText.Some? && ImplementsSignatureIn(variant, self, other.declaring, other.signature).Failure?)
  {
    if self.name.None? then Failure(NullDereference)
    else if self.name != other.name then Success(false)
    else if !allowSynthetic && IsSynthetic(self) then Success(false)
    else if (other.signatureText.None? || allowErased) && SameDescriptor(self, other) then Success(true)
    else if other.signatureText.Some? then ImplementsSignatureIn(variant, self, other.declaring, other.signature)
    else Success(false)
  }

  /** `isImplementationOf(methodInfo, allowSyntheticImplementations)`: the
      descriptor test without the erased-match condition. */
  function ImplementationOfAllowing(variant: Variant, self: MethodView, other: MethodView, allowSynthetic: bool)
    : (r: Result<bool, DecodeError>)
    ensures (SameDescriptor(self, other) && self.name.Some? && self.name == other.name
             && (allowSynthetic || !IsSynthetic(self))) ==> r == Success(true)
  {
    if self.name.None? then Failure(NullDereference)
    else if self.name != other.name then Success(false)
    else if !allowSynthetic && IsSynthetic(self) then Success(false)
    else if SameDescriptor(self, other) then Success(true)
    else if other.signatureText.Some? then ImplementsSignatureIn(variant, self, other.declaring, other.signature)
    else Success(false)
  }

  /** `isImplementationOf(methodInfo)`: erased matches allowed, synthetic
      methods not. */
  function ImplementationOfDefault(variant: Variant, self: MethodView, other: MethodView): (r: Result<bool, DecodeError>)
    ensures r == ImplementationOf(variant, self, other, true, false)
    ensures IsSynthetic(self) && self.name.Some? ==> r == Success(false)
  {
    TwoArgumentFormAllowsErased(variant, self, other, false);
    ImplementationOfAllowing(variant, self, other, false)
  }

  /** The two-argument form is the three-argument form with erased matches
      allowed. */
  lemma TwoArgumentFormAllowsErased(variant: Variant, self: MethodView, other: MethodView, allowSynthetic: bool)
    ensures ImplementationOfAllowing(variant, self, other, allowSynthetic) == ImplementationOf(variant, self, other, true, allowSynthetic)
  {
  }

  /** Refusing erased matches only changes the answer for a method whose
      counterpart has a signature and the same descriptor. */
  lemma ErasedMatchOnlyForSignatures(variant: Variant, self: MethodView, other: MethodView, allowSynthetic: bool)
    requires other.signatureText.None? || !SameDescriptor(self, other)
    ensures ImplementationOf(variant, self, other, false, allowSynthetic) == ImplementationOf(variant, self, other, true, allowSynthetic)
  {
  }

  // ---- The two binding faults ----

  function ClassOf(packages: seq<string>, name: string, args: TypeArguments): ClassTypeSignature {
    ClassTypeSignature(packages, SimpleClassTypeSignature(name, args), [])
  }

  /** `name<X>` erases to `name`. */
  lemma ErasureOfOneArgument(name: string, x: ReferenceTypeSignature)
    requires Identifier(name)
    ensures Erase(ClassOf([], name, TypeArguments([Bounded(None, x)]))) == name
  {
    var c := ClassOf([], name, TypeArguments([Bounded(None, x)]));
    assert NamedClass(c);
    EraseGivesBinaryName(c);
  }

  /** One type parameter bound by one type argument. */
  lemma BindOne(t: TypeParameter, x: ReferenceTypeSignature)
    ensures Bind(map[], [t], TypeArguments([Bounded(None, x)]), 0) == Success(map[t.identifier := RefText(x)])
  {
    var args := TypeArguments([Bounded(None, x)]);
    assert Entry(args, 0) == RefText(x);
    assert Bind(map[t.identifier := RefText(x)], [t], args, 1) == Success(map[t.identifier := RefText(x)]);
  }

  /** A type variable against a class type without type arguments in its
      text: unbound it does not match, bound to that class type's text it
      does. */
  lemma VariableAgainstPlainClass(x: string, c: ClassTypeSignature)
    requires '<' !in ClassText(c)
    ensures !SameJava(map[], Reference(TypeVariable(x)), Reference(ClassType(c)))
    ensures SameJava(map[x := ClassText(c)], Reference(TypeVariable(x)), Reference(ClassType(c)))
  {
    VariableAgainstClass(map[], x, c);
    VariableAgainstClass(map[x := ClassText(c)], x, c);
    var v := "T" + x + ";";
    assert JavaText(Reference(TypeVariable(x))) == v && v[0] == 'T';
    assert JavaText(Reference(ClassType(c))) == ClassText(c);
  }

  /** `class A<T> { void foo(T) }` and `class B extends A<C> { void foo(C) }`
      for a class type `C` written without type arguments (String, say):
      `B.foo` implements `A.foo` once `T` is bound to `C`. As written the
      bindings are keyed by A's `thisSignature`, which never equals the
      erased superclass "A", so `T` stays unbound, is compared as the empty
      text, and the match fails; keyed by A's name it succeeds. */
  lemma SuperclassBindingMissed(name: string, sig: string, t: TypeParameter, target: ClassSignature, c: ClassTypeSignature,
                                self: MethodView, foo: MethodSignature)
    requires Identifier(name) && '<' !in ClassText(c)
    requires target.typeParameters == [t]
    requires foo == MethodSignature([], [Reference(TypeVariable(t.identifier))], None, [])
    requires self.declaring.signature == Some(ClassSignature([], Some(ClassOf([], name, TypeArguments([Bounded(None, ClassType(c))]))), []))
    requires self.signature == MethodSignature([], [Reference(ClassType(c))], None, [])
    ensures ImplementsSignatureAsWritten(self, ClassView(name, ClassFiles.SplitSignature(sig).0, Some(target)), foo) == Success(false)
    ensures ImplementsSignature(self, ClassView(name, ClassFiles.SplitSignature(sig).0, Some(target)), foo) == Success(true)
  {
    var own := self.declaring.signature.value;
    AsWrittenBindsNothing(sig, target, own);
    SuperclassSubstitution(name, t, target, c, own);
    VariableAgainstPlainClass(t.identifier, c);
    ArgumentAgreement(t.identifier, c, foo, self.signature);
  }

  /** The same pair through `isImplementationOf`: `B.foo(C)` against
      `A.foo(T)`, whose descriptors differ, is rejected as written and
      accepted once the bindings are corrected. */
  lemma SuperclassOverrideMissed(name: string, sig: string, t: TypeParameter, target: ClassSignature, c: ClassTypeSignature,
                                 self: MethodView, other: MethodView, allowErased: bool)
    requires Identifier(name) && '<' !in ClassText(c)
    requires target.typeParameters == [t]
    requires other.signature == MethodSignature([], [Reference(TypeVariable(t.identifier))], None, [])
    requires other.signatureText.Some? && other.declaring == ClassView(name, ClassFiles.SplitSignature(sig).0, Some(target))
    requires self.declaring.signature == Some(ClassSignature([], Some(ClassOf([], name, TypeArguments([Bounded(None, ClassType(c))]))), []))
    requires self.signature == MethodSignature([], [Reference(ClassType(c))], None, [])
    requires self.name.Some? && self.name == other.name && !SameDescriptor(self, other)
    ensures ImplementationOf(AsWritten, self, other, allowErased, true) == Success(false)
    ensures ImplementationOf(Corrected, self, other, allowErased, true) == Success(true)
  {
    SuperclassBindingMissed(name, sig, t, target, c, self, other.signature);
  }

  /** The direct superclass `name<c>` binds the single parameter to `c`'s text. */
  lemma SuperclassSubstitution(name: string, t: TypeParameter, target: ClassSignature, c: ClassTypeSignature, own: ClassSignature)
    requires Identifier(name) && target.typeParameters == [t]
    requires own == ClassSignature([], Some(ClassOf([], name, TypeArguments([Bounded(None, ClassType(c))]))), [])
    ensures Substitution(name, target, own) == Success(map[t.identifier := ClassText(c)])
  {
    var superA := ClassOf([], name, TypeArguments([Bounded(None, ClassType(c))]));
    assert NamedClass(superA);
    ErasureOfOneArgument(name, ClassType(c));
    BindOne(t, ClassType(c));
    assert SuperclassBindings(Some(name), target, own) == Success(map[t.identifier := ClassText(c)]);
  }

  /** `foo(T)` against `foo(c)`: the arguments agree exactly when `T` is bound to `c`'s text. */
  lemma ArgumentAgreement(x: string, c: ClassTypeSignature, foo: MethodSignature, mine: MethodSignature)
    requires '<' !in ClassText(c)
    requires foo == MethodSignature([], [Reference(TypeVariable(x))], None, [])
    requires mine == MethodSignature([], [Reference(ClassType(c))], None, [])
    ensures !SignaturesAgree(map[], foo, mine)
    ensures SignaturesAgree(map[x := ClassText(c)], foo, mine)
  {
    VariableAgainstPlainClass(x, c);
    assert foo.arguments[0] == Reference(TypeVariable(x));
    assert mine.arguments[0] == Reference(ClassType(c));
  }

  /** `interface I<T>` and `class C extends S implements I<X>` for any
      superclass `S` that does not erase to "I": even keyed by the name "I",
      the as-written loop erases `S` for the superinterface and binds
      nothing, while erasing the superinterface itself binds `T` to `X`. */
  lemma SuperinterfaceBindingMissed(name: string, superclass: ClassTypeSignature, x: ReferenceTypeSignature,
                                    t: TypeParameter, target: ClassSignature)
    requires Identifier(name) && Erase(superclass) != name
    requires target.typeParameters == [t]
    ensures var own := ClassSignature([], Some(superclass), [ClassOf([], name, TypeArguments([Bounded(None, x)]))]);
            SubstitutionAsWritten(Some(name), target, own) == Success(map[])
            && Substitution(name, target, own) == Success(map[t.identifier := RefText(x)])
  {
    var i := ClassOf([], name, TypeArguments([Bounded(None, x)]));
    var own := ClassSignature([], Some(superclass), [i]);
    ErasureOfOneArgument(name, x);
    BindOne(t, x);
    assert SuperclassBindings(Some(name), target, own) == Success(map[]);
    assert InterfaceBindings(map[], Some(name), target, seq(1, _ => superclass), [i], 0) == Success(map[]);
    assert InterfaceBindings(map[t.identifier := RefText(x)], Some(name), target, [i], [i], 1)
           == Success(map[t.identifier := RefText(x)]);
  }
}

=== FILE: pool_encoding.dfy ===
/** The constant pool as a class-file writer lays it down (section 4.4 of the
    Java Virtual Machine Specification): an independent description of the
    bytes the first phase of `ConstantPool`'s constructor reads, and the
    round trip from entries to the slots that phase fills. */
module PoolEncoding {
  import opened Wrappers
  import opened Bytes
  import opened Constants
  import opened ConstantPoolScan

  /** One constant-pool entry before it is written. A UTF-8 entry holds its
      modified-UTF-8 bytes; a placeholder kind holds its tag and operands. */
  datatype Entry =
    | Utf8Entry(data: seq<byte>)
    | IntegerEntry(value: int)
    | FloatEntry(bits: nat)
    | LongEntry(value: int)
    | DoubleEntry(bits: nat)
    | IndexEntry(tag: int, index: nat)
    | PairEntry(tag: int, first: nat, second: nat)
    | HandleEntry(kind: int, reference: nat)

  /** An `n`-byte two's-complement value. */
  predicate FitsSigned(v: int, n: nat) {
    1 <= n && -Pow256(n) / 2 <= v < Pow256(n) / 2
  }

  /** Every field fits the width the format gives it. */
  predicate Writable(e: Entry) {
    match e
    case Utf8Entry(data) => |data| < Pow256(2)
    case IntegerEntry(v) => FitsSigned(v, 4)
    case FloatEntry(bits) => bits < Pow256(4)
    case LongEntry(v) => FitsSigned(v, 8)
    case DoubleEntry(bits) => bits < Pow256(8)
    case IndexEntry(tag, index) => OneIndexTag(tag) && index < Pow256(2)
    case PairEntry(tag, first, second) => TwoIndexTag(tag) && first < Pow256(2) && second < Pow256(2)
    case HandleEntry(kind, reference) => FitsSigned(kind, 1) && reference < Pow256(2)
  }

  /** The supplied decoder accepts a UTF-8 entry's bytes. */
  predicate Decodes(e: Entry, utf: Utf8Decoder) {
    e.Utf8Entry? ==> utf(e.data).Some?
  }

  /** The unsigned bit pattern that spells a two's-complement value. */
  function Pattern(v: int, n: nat): (p: nat)
    requires FitsSigned(v, n)
    ensures p < Pow256(n) && Signed(p, n) == v
  {
    assert Pow256(n) == 256 * Pow256(n - 1);
    if v < 0 then v + Pow256(n) else v
  }

  /** The tag byte of an entry. */
  function TagOf(e: Entry): int {
    match e
    case Utf8Entry(_) => 1
    case IntegerEntry(_) => 3
    case FloatEntry(_) => 4
    case LongEntry(_) => 5
    case DoubleEntry(_) => 6
    case IndexEntry(tag, _) => tag
    case PairEntry(tag, _, _) => tag
    case HandleEntry(_, _) => 15
  }

  /** An entry's bytes after its tag. */
  function Payload(e: Entry): (p: seq<byte>)
    requires Writable(e)
    ensures !e.Utf8Entry? ==> |p| == PayloadSize(TagOf(e))
  {
    match e
    case Utf8Entry(data) => ToBytes(|data|, 2) + data
    case IntegerEntry(v) => ToBytes(Pattern(v, 4), 4)
    case FloatEntry(bits) => ToBytes(bits, 4)
    case LongEntry(v) => ToBytes(Pattern(v, 8), 8)
    case DoubleEntry(bits) => ToBytes(bits, 8)
    case IndexEntry(_, index) => ToBytes(index, 2)
    case PairEntry(_, first, second) => ToBytes(first, 2) + ToBytes(second, 2)
    case HandleEntry(kind, reference) => ToBytes(Pattern(kind, 1), 1) + ToBytes(reference, 2)
  }

  /** The tag byte, then the payload. */
  function EncodeEntry(e: Entry): (s: seq<byte>)
    requires Writable(e)
    ensures |s| >= 1 && TagValue(s[0]) == TagOf(e) && KnownTag(TagOf(e))
  {
    [TagOf(e)] + Payload(e)
  }

  /** The slot the first phase should fill for an entry. */
  function SlotOf(e: Entry, utf: Utf8Decoder): Slot
    requires Decodes(e, utf)
  {
    match e
    case Utf8Entry(data) => Value(Utf8(utf(data).value))
    case IntegerEntry(v) => Value(IntegerC(v))
    case FloatEntry(bits) => Value(FloatC(bits))
    case LongEntry(v) => Value(LongC(v))
    case DoubleEntry(bits) => Value(DoubleC(bits))
    case IndexEntry(tag, index) => Pending(tag, index, 0)
    case PairEntry(tag, first, second) => Pending(tag, first, second)
    case HandleEntry(kind, reference) => Pending(15, kind, reference)
  }

  /** Long and Double entries take two slots. */
  predicate IsWide(e: Entry) {
    e.LongEntry? || e.DoubleEntry?
  }

  /** The u2 written by `ToBytes` is the u2 `U2Of` reads back. */
  lemma U2OfToBytes(v: nat, rest: seq<byte>)
    requires v < Pow256(2)
    ensures |ToBytes(v, 2) + rest| >= 2 && U2Of(ToBytes(v, 2) + rest) == v
  {
    var s := ToBytes(v, 2) + rest;
    assert s[..2] == ToBytes(v, 2);
    ReadUnsignedRoundTrip(v, 2, rest);
    assert ReadU2(s).value.0 == v;
  }

  /** `readUTF` gives back the decoder's text for bytes written with their
      length in front, and the decoder's rejection otherwise. */
  lemma ReadUtfRoundTrip(data: seq<byte>, rest: seq<byte>, utf: Utf8Decoder)
    requires |data| < Pow256(2)
    ensures ReadUtf(ToBytes(|data|, 2) + data + rest, utf)
            == if utf(data).Some? then Success((utf(data).value, rest)) else Failure(BadUtf8)
  {
    U2OfToBytes(|data|, []);
    assert ToBytes(|data|, 2) + [] == ToBytes(|data|, 2);
    ReadUtfFramed(ToBytes(|data|, 2), data, rest, utf);
  }

  /** `readUTF` of bytes behind a two-byte header that holds their length. */
  lemma ReadUtfFramed(h: seq<byte>, data: seq<byte>, rest: seq<byte>, utf: Utf8Decoder)
    requires |h| == 2 && U2Of(h) == |data|
    ensures ReadUtf(h + data + rest, utf)
            == if utf(data).Some? then Success((utf(data).value, rest)) else Failure(BadUtf8)
  {
    var s := h + data + rest;
    assert s[0] == h[0] && s[1] == h[1];
    Middle(h, data, rest);
  }

  /** The middle and the end of three sequences put back to back. */
  lemma Middle<T>(a: seq<T>, b: seq<T>, c: seq<T>)
    ensures (a + b + c)[|a|..|a| + |b|] == b && (a + b + c)[|a| + |b|..] == c
  {
  }

  /** A fixed-size payload behind its tag reads back as that payload's slot. */
  lemma FixedRoundTrip(tag: int, p: seq<byte>, rest: seq<byte>, utf: Utf8Decoder)
    requires KnownTag(tag) && tag != 1 && |p| == PayloadSize(tag) && 0 <= tag < 128
    ensures ReadEntry([tag] + p + rest, utf) == Success(((FixedSlot(tag, p), tag == 5 || tag == 6), rest))
  {
    var s := [tag] + p + rest;
    assert s[1..1 + |p|] == p && s[1 + |p|..] == rest;
  }

  /** The payload a writer produces reads back, through `FixedSlot`, as the
      entry's own slot. */
  lemma FixedSlotOfPayload(e: Entry, utf: Utf8Decoder)
    requires Writable(e) && !e.Utf8Entry?
    ensures FixedSlot(TagOf(e), Payload(e)) == SlotOf(e, utf)
  {
    if e.IntegerEntry? || e.FloatEntry? || e.LongEntry? || e.DoubleEntry? {
      NumberSlotOfPayload(e, utf);
    } else {
      PlaceholderSlotOfPayload(e, utf);
    }
  }

  lemma NumberSlotOfPayload(e: Entry, utf: Utf8Decoder)
    requires Writable(e) && (e.IntegerEntry? || e.FloatEntry? || e.LongEntry? || e.DoubleEntry?)
    ensures FixedSlot(TagOf(e), Payload(e)) == SlotOf(e, utf)
  {
    match e
    case IntegerEntry(v) => BigEndianOfToBytes(Pattern(v, 4), 4);
    case FloatEntry(bits) => BigEndianOfToBytes(bits, 4);
    case LongEntry(v) => BigEndianOfToBytes(Pattern(v, 8), 8);
    case DoubleEntry(bits) => BigEndianOfToBytes(bits, 8);
  }

  lemma PlaceholderSlotOfPayload(e: Entry, utf: Utf8Decoder)
    requires Writable(e) && (e.IndexEntry? || e.PairEntry? || e.HandleEntry?)
    ensures FixedSlot(TagOf(e), Payload(e)) == SlotOf(e, utf)
  {
    match e
    case IndexEntry(_, index) => U2OfToBytes(index, []);
    case PairEntry(_, first, second) =>
      var p := Payload(e);
      U2OfToBytes(first, ToBytes(second, 2));
      assert p[2..] == ToBytes(second, 2) + [];
      U2OfToBytes(second, []);
    case HandleEntry(kind, reference) =>
      var p := Payload(e);
      BigEndianOfToBytes(Pattern(kind, 1), 1);
      assert p[0] == BigEndian(ToBytes(Pattern(kind, 1), 1)) by {
        assert ToBytes(Pattern(kind, 1), 1)[..0] == [];
      }
      assert p[1..] == ToBytes(reference, 2) + [];
      U2OfToBytes(reference, []);
  }

  /** A UTF-8 entry reads back as the decoder's text. */
  lemma Utf8EntryRoundTrip(e: Entry, rest: seq<byte>, utf: Utf8Decoder)
    requires e.Utf8Entry? && Writable(e) && Decodes(e, utf)
    ensures ReadEntry(EncodeEntry(e) + rest, utf) == Success(((SlotOf(e, utf), false), rest))
  {
    var s := EncodeEntry(e) + rest;
    assert s[1..] == ToBytes(|e.data|, 2) + e.data + rest;
    ReadUtfRoundTrip(e.data, rest, utf);
  }

  /** A fixed-size entry reads back as its slot, flagged wide for a Long or Double. */
  lemma FixedEntryRoundTrip(e: Entry, rest: seq<byte>, utf: Utf8Decoder)
    requires !e.Utf8Entry? && Writable(e)
    ensures ReadEntry(EncodeEntry(e) + rest, utf) == Success(((SlotOf(e, utf), IsWide(e)), rest))
  {
    assert EncodeEntry(e) + rest == [TagOf(e)] + Payload(e) + rest;
    FixedRoundTrip(TagOf(e), Payload(e), rest, utf);
    FixedSlotOfPayload(e, utf);
  }

  /** Every entry, whatever follows it, reads back as its slot, flagged wide
      exactly when it is a Long or Double. */
  lemma EntryRoundTrip(e: Entry, rest: seq<byte>, utf: Utf8Decoder)
    requires Writable(e) && Decodes(e, utf)
    ensures ReadEntry(EncodeEntry(e) + rest, utf) == Success(((SlotOf(e, utf), IsWide(e)), rest))
  {
    if e.Utf8Entry? {
      Utf8EntryRoundTrip(e, rest, utf);
    } else {
      FixedEntryRoundTrip(e, rest, utf);
    }
  }

  /** One step of the scan: an entry read at slot `i`, then the scan of the
      slots after it. */
  lemma ScanStep(s: seq<byte>, i: nat, count: nat, utf: Utf8Decoder, slot: Slot, wide: bool,
                 after: seq<byte>, tail: seq<Slot>, rest: seq<byte>)
    requires 1 <= i < count && (wide ==> i + 1 < count)
    requires ReadEntry(s, utf) == Success(((slot, wide), after))
    requires ScanFrom(after, if wide then i + 2 else i + 1, count, utf) == Success((tail, rest))
    ensures ScanFrom(s, i, count, utf) == Success(((if wide then [slot, Empty] else [slot]) + tail, rest))
  {
  }

  predicate AllWritable(es: seq<Entry>) {
    forall k :: 0 <= k < |es| ==> Writable(es[k])
  }

  predicate AllDecode(es: seq<Entry>, utf: Utf8Decoder) {
    forall k :: 0 <= k < |es| ==> Decodes(es[k], utf)
  }

  /** The entries back to back. */
  function EncodeEntries(es: seq<Entry>): seq<byte>
    requires AllWritable(es)
  {
    if |es| == 0 then [] else EncodeEntry(es[0]) + EncodeEntries(es[1..])
  }

  /** The slots the entries occupy: two for a Long or Double, one otherwise. */
  function TotalWidth(es: seq<Entry>): nat {
    if |es| == 0 then 0 else (if IsWide(es[0]) then 2 else 1) + TotalWidth(es[1..])
  }

  /** The slots the entries fill, a Long or Double followed by its empty slot. */
  function SlotsOf(es: seq<Entry>, utf: Utf8Decoder): (slots: seq<Slot>)
    requires AllDecode(es, utf)
    ensures |slots| == TotalWidth(es)
  {
    if |es| == 0 then []
    else if IsWide(es[0]) then [SlotOf(es[0], utf), Empty] + SlotsOf(es[1..], utf)
    else [SlotOf(es[0], utf)] + SlotsOf(es[1..], utf)
  }

  /** Scanning the written entries from slot `i` fills exactly their slots
      and stops right after the last one. */
  lemma {:induction false} ScanFromRoundTrip(es: seq<Entry>, i: nat, count: nat, rest: seq<byte>, utf: Utf8Decoder)
    requires AllWritable(es) && AllDecode(es, utf)
    requires 1 <= i && count == i + TotalWidth(es)
    ensures ScanFrom(EncodeEntries(es) + rest, i, count, utf) == Success((SlotsOf(es, utf), rest))
    decreases |es|
  {
    if |es| == 0 {
      assert EncodeEntries(es) + rest == rest;
    } else {
      var tail := es[1..];
      AllOfTail(es, utf);
      var after := EncodeEntries(tail) + rest;
      assert EncodeEntries(es) + rest == EncodeEntry(es[0]) + after;
      EntryRoundTrip(es[0], after, utf);
      var next := if IsWide(es[0]) then i + 2 else i + 1;
      ScanFromRoundTrip(tail, next, count, rest, utf);
      var head := if IsWide(es[0]) then [SlotOf(es[0], utf), Empty] else [SlotOf(es[0], utf)];
      assert SlotsOf(es, utf) == head + SlotsOf(tail, utf);
      ScanStep(EncodeEntries(es) + rest, i, count, utf, SlotOf(es[0], utf), IsWide(es[0]),
               after, SlotsOf(tail, utf), rest);
    }
  }

  /** What holds of every entry holds of every entry after the first. */
  lemma AllOfTail(es: seq<Entry>, utf: Utf8Decoder)
    requires |es| > 0 && AllWritable(es) && AllDecode(es, utf)
    ensures AllWritable(es[1..]) && AllDecode(es[1..], utf)
  {
    forall k | 0 <= k < |es| - 1 ensures Writable(es[1..][k]) && Decodes(es[1..][k], utf) {
      assert es[1..][k] == es[k + 1];
    }
  }

  /** The pool's count: slot 0 plus the slots of its entries. */
  function PoolCount(es: seq<Entry>): nat {
    1 + TotalWidth(es)
  }

  /** The u2 count, then the entries. */
  function EncodePool(es: seq<Entry>): seq<byte>
    requires AllWritable(es) && PoolCount(es) < Pow256(2)
  {
    ToBytes(PoolCount(es), 2) + EncodeEntries(es)
  }

  /** Scanning a written pool yields the empty slot 0 followed by the slots
      of the entries, in order, and leaves what follows the pool. */
  lemma ScanPoolRoundTrip(es: seq<Entry>, rest: seq<byte>, utf: Utf8Decoder)
    requires AllWritable(es) && AllDecode(es, utf) && PoolCount(es) < Pow256(2)
    ensures ScanPool(EncodePool(es) + rest, utf) == Success(([Empty] + SlotsOf(es, utf), rest))
  {
    var s := EncodePool(es) + rest;
    assert s == ToBytes(PoolCount(es), 2) + (EncodeEntries(es) + rest);
    U2OfToBytes(PoolCount(es), EncodeEntries(es) + rest);
    assert s[2..] == EncodeEntries(es) + rest;
    ScanFromRoundTrip(es, 1, PoolCount(es), rest, utf);
  }
}

=== FILE: pool_queries.dfy ===
/** The read-only queries of a resolved `ConstantPool`: indexed access and
    the four "collect every entry of one kind" scans. */
module ConstantPoolQueries {
  import opened Wrappers
  import opened Bytes
  import opened Selection
  import opened Constants

  /** `get(index)`: the slot at `index`; any other index is an array-index failure. */
  function Get(pool: seq<Slot>, index: int): (r: Result<Slot, DecodeError>)
    ensures r.Success? <==> 0 <= index < |pool|
    ensures r.Success? ==> r.value == pool[index]
    ensures r.Failure? ==> r.error == IndexOutOfRange(index)
  {
    if 0 <= index < |pool| then Success(pool[index]) else Failure(IndexOutOfRange(index))
  }

  predicate IsClass(s: Slot) {
    s.Value? && s.c.ClassC?
  }

  /** The class a slot holds; only consulted on slots satisfying `IsClass`. */
  function ClassOf(s: Slot): ClassRef {
    if IsClass(s) then s.c.cls else ClassRef(0, None)
  }

  /** A slot holding a member reference of kind `k`. */
  predicate IsRefOf(s: Slot, k: RefKind) {
    s.Value? && s.c.MemberRefC? && s.c.ref.kind == k
  }

  predicate IsFieldRef(s: Slot) {
    IsRefOf(s, FieldRef)
  }

  /** `instanceof ConstantMethodRef` or `instanceof ConstantInterfaceMethodRef`. */
  predicate IsMethodRef(s: Slot) {
    IsRefOf(s, MethodRef) || IsRefOf(s, InterfaceMethodRef)
  }

  /** The member reference a slot holds; only consulted on member-ref slots. */
  function RefOf(s: Slot): MemberRef {
    if s.Value? && s.c.MemberRefC? then s.c.ref else MemberRef(FieldRef, None, None)
  }

  /** `getType()` of the held reference; only consulted on member-ref slots
      whose NameAndType is present. */
  function DescriptorOf(s: Slot): Option<string> {
    var r := RefOf(s);
    if r.nameAndType.Some? then MemberDescriptor(r) else None
  }

  /** `getConstantClasses()`: every ConstantClass in the pool, in slot order. */
  function ConstantClasses(pool: seq<Slot>): (r: seq<ClassRef>)
    ensures SelectsExactly(pool, IsClass, ClassOf, r)
    ensures forall c :: c in r <==> exists k :: 0 <= k < |pool| && pool[k] == Value(ClassC(c))
  {
    var r := Select(pool, IsClass, ClassOf);
    forall c ensures c in r <==> exists k :: 0 <= k < |pool| && pool[k] == Value(ClassC(c)) {
      SelectsExactlyMembers(pool, IsClass, ClassOf, r, c);
    }
    r
  }

  /** `getConstantFieldDescriptors()`: the descriptor of every field ref, in slot order. */
  function ConstantFieldDescriptors(pool: seq<Slot>): (r: seq<Option<string>>)
    requires forall k :: 0 <= k < |pool| && IsFieldRef(pool[k]) ==> pool[k].c.ref.nameAndType.Some?
    ensures SelectsExactly(pool, IsFieldRef, DescriptorOf, r)
    ensures forall d :: d in r <==> exists k :: 0 <= k < |pool| && IsFieldRef(pool[k])
                                              && pool[k].c.ref.nameAndType.value.descriptor == d
  {
    var r := Select(pool, IsFieldRef, DescriptorOf);
    forall d ensures d in r <==> exists k :: 0 <= k < |pool| && IsFieldRef(pool[k])
                                           && pool[k].c.ref.nameAndType.value.descriptor == d {
      SelectsExactlyMembers(pool, IsFieldRef, DescriptorOf, r, d);
    }
    r
  }

  /** `getConstantMethodDescriptors()`: the descriptor of every method and
      interface-method ref, in slot order. */
  function ConstantMethodDescriptors(pool: seq<Slot>): (r: seq<Option<string>>)
    requires forall k :: 0 <= k < |pool| && IsMethodRef(pool[k]) ==> pool[k].c.ref.nameAndType.Some?
    ensures SelectsExactly(pool, IsMethodRef, DescriptorOf, r)
    ensures forall d :: d in r <==> exists k :: 0 <= k < |pool| && IsMethodRef(pool[k])
                                              && pool[k].c.ref.nameAndType.value.descriptor == d
  {
    var r := Select(pool, IsMethodRef, DescriptorOf);
    forall d ensures d in r <==> exists k :: 0 <= k < |pool| && IsMethodRef(pool[k])
                                           && pool[k].c.ref.nameAndType.value.descriptor == d {
      SelectsExactlyMembers(pool, IsMethodRef, DescriptorOf, r, d);
    }
    r
  }

  /** `getConstantMethodRefs()`: every method and interface-method ref, in slot order. */
  method ConstantMethodRefs(pool: seq<Slot>) returns (r: seq<MemberRef>)
    ensures SelectsExactly(pool, IsMethodRef, RefOf, r)
    ensures forall m :: m in r <==> exists k :: 0 <= k < |pool| && pool[k] == Value(MemberRefC(m))
                                              && m.kind != FieldRef
  {
    r := CollectWhere(pool, IsMethodRef, RefOf);
    forall m ensures m in r <==> exists k :: 0 <= k < |pool| && pool[k] == Value(MemberRefC(m))
                                           && m.kind != FieldRef {
      SelectsExactlyMembers(pool, IsMethodRef, RefOf, r, m);
    }
  }

  /** Method refs and method descriptors are taken from the same slots, so the
      two lists line up entry for entry. */
  lemma MethodDescriptorsMatchRefs(pool: seq<Slot>, refs: seq<MemberRef>)
    requires forall k :: 0 <= k < |pool| && IsMethodRef(pool[k]) ==> pool[k].c.ref.nameAndType.Some?
    requires SelectsExactly(pool, IsMethodRef, RefOf, refs)
    ensures |ConstantMethodDescriptors(pool)| == |refs|
    ensures forall i :: 0 <= i < |refs| ==>
              refs[i].nameAndType.Some? && ConstantMethodDescriptors(pool)[i] == MemberDescriptor(refs[i])
  {
    var ds := ConstantMethodDescriptors(pool);
    forall i | 0 <= i < |refs|
      ensures refs[i].nameAndType.Some? && ds[i] == MemberDescriptor(refs[i])
    {
      var j := MatchLandingAt(pool, IsMethodRef, i);
    }
  }

  /** A slot a cast to some class `T` lets through: `null`, or a value of that class. */
  predicate CastsTo(s: Slot, fits: Constant -> bool) {
    s.Empty? || (s.Value? && fits(s.c))
  }

  /** `(T) get(index)`, for the class `T` whose values `fits` accepts: an index
      outside the array fails, `null` casts to `null`, and any other object
      (a different constant, or a leftover `int[]` placeholder) fails the cast. */
  function CastAt(pool: seq<Slot>, index: int, fits: Constant -> bool): (r: Result<Option<Constant>, DecodeError>)
    ensures r.Success? <==> 0 <= index < |pool| && CastsTo(pool[index], fits)
    ensures r.Success? ==> (r.value.None? <==> pool[index].Empty?)
    ensures r.Success? && r.value.Some? ==> pool[index] == Value(r.value.value) && fits(r.value.value)
    ensures !(0 <= index < |pool|) ==> r == Failure(IndexOutOfRange(index))
    ensures 0 <= index < |pool| && !CastsTo(pool[index], fits) ==> r == Failure(WrongConstantKind(index))
  {
    var slot :- Get(pool, index);
    match slot
    case Empty => Success(None)
    case Value(c) => if fits(c) then Success(Some(c)) else Failure(WrongConstantKind(index))
    case Pending(_, _, _) => Failure(WrongConstantKind(index))
  }

  predicate IsUtf8(c: Constant) { c.Utf8? }
  predicate IsClassConstant(c: Constant) { c.ClassC? }
  predicate IsNameAndType(c: Constant) { c.NameAndTypeC? }
  predicate IsMethodRefConstant(c: Constant) { c.MemberRefC? && c.ref.kind == MethodRef }
  predicate IsMethodHandle(c: Constant) { c.MethodHandleC? }

  /** `(String) get(index)`. */
  function StringAt(pool: seq<Slot>, index: int): (r: Result<Option<string>, DecodeError>)
    ensures r.Success? <==> CastAt(pool, index, IsUtf8).Success?
    ensures r.Failure? ==> r.error == CastAt(pool, index, IsUtf8).error
    ensures r.Success? ==> (r.value.None? <==> pool[index].Empty?)
    ensures r.Success? && r.value.Some? ==> pool[index] == Value(Utf8(r.value.value))
  {
    var c :- CastAt(pool, index, IsUtf8);
    if c.None? then Success(None) else Success(Some(c.value.text))
  }

  /** `(ConstantClass) get(index)`. */
  function ClassAt(pool: seq<Slot>, index: int): (r: Result<Option<ClassRef>, DecodeError>)
    ensures r.Success? <==> CastAt(pool, index, IsClassConstant).Success?
    ensures r.Failure? ==> r.error == CastAt(pool, index, IsClassConstant).error
    ensures r.Success? ==> (r.value.None? <==> pool[index].Empty?)
    ensures r.Success? && r.value.Some? ==> pool[index] == Value(ClassC(r.value.value))
  {
    var c :- CastAt(pool, index, IsClassConstant);
    if c.None? then Success(None) else Success(Some(c.value.cls))
  }

  /** `(ConstantNameAndType) get(index)`. */
  function NameAndTypeAt(pool: seq<Slot>, index: int): (r: Result<Option<NameAndType>, DecodeError>)
    ensures r.Success? <==> CastAt(pool, index, IsNameAndType).Success?
    ensures r.Failure? ==> r.error == CastAt(pool, index, IsNameAndType).error
    ensures r.Success? ==> (r.value.None? <==> pool[index].Empty?)
    ensures r.Success? && r.value.Some? ==> pool[index] == Value(NameAndTypeC(r.value.value))
  {
    var c :- CastAt(pool, index, IsNameAndType);
    if c.None? then Success(None) else Success(Some(c.value.nt))
  }

  /** `(ConstantMethodRef) get(index)`: an interface-method ref is a different class. */
  function MethodRefAt(pool: seq<Slot>, index: int): (r: Result<Option<MemberRef>, DecodeError>)
    ensures r.Success? <==> CastAt(pool, index, IsMethodRefConstant).Success?
    ensures r.Failure? ==> r.error == CastAt(pool, index, IsMethodRefConstant).error
    ensures r.Success? ==> (r.value.None? <==> pool[index].Empty?)
    ensures r.Success? && r.value.Some? ==> pool[index] == Value(MemberRefC(r.value.value)) && r.value.value.kind == MethodRef
  {
    var c :- CastAt(pool, index, IsMethodRefConstant);
    if c.None? then Success(None) else Success(Some(c.value.ref))
  }

  /** `(ConstantMethodHandle) get(index)`. */
  function MethodHandleAt(pool: seq<Slot>, index: int): (r: Result<Option<MethodHandle>, DecodeError>)
    ensures r.Success? <==> CastAt(pool, index, IsMethodHandle).Success?
    ensures r.Failure? ==> r.error == CastAt(pool, index, IsMethodHandle).error
    ensures r.Success? ==> (r.value.None? <==> pool[index].Empty?)
    ensures r.Success? && r.value.Some? ==> pool[index] == Value(MethodHandleC(r.value.value))
  {
    var c :- CastAt(pool, index, IsMethodHandle);
    if c.None? then Success(None) else Success(Some(c.value.handle))
  }
}

=== FILE: pool_resolve.dfy ===
/** Second phase of `ConstantPool`'s constructor: the do-while fixed point
    that replaces each placeholder with a structured value once the slots it
    refers to are no longer placeholders.

    `Step` is one visit of slot `i` in a pass over the current array;
    `Resolved` is the declarative value a slot ends up with; `Pass` and
    `Resolution` are the loop as functions, and `ResolvePool` is the loop
    itself, proved equal to `Resolution` and to agree with `Resolved` slot by
    slot. Which slot's error the loop reports depends on the order of the
    visits, not only on the slot number (`PassOrderDecidesError`). The loop
    has no exit for a pool that refers to itself, and its outcome depends on
    slot order when an entry reads a placeholder it casts or copies, so
    `ResolvePool` requires `Layered`: each entry only refers to entries of a
    lower layer (Utf8 and other plain values, then Class / String /
    NameAndType / MethodType / Module / Package, then member refs and
    (Invoke)Dynamic, then MethodHandle), which bounds the number of passes
    by three. */
module ConstantPoolResolve {
  import opened Wrappers
  import opened Bytes
  import opened Constants

  predicate MemberTag(t: int) { t == 9 || t == 10 || t == 11 }
  predicate CopyTag(t: int) { t == 8 || t == 19 || t == 20 }
  predicate BootstrapTag(t: int) { t == 17 || t == 18 }

  /** Tags whose resolution waits while an operand is still a placeholder. */
  predicate DeferringTag(t: int) { MemberTag(t) || t == 15 || BootstrapTag(t) }

  function RefKindOf(t: int): RefKind
    requires MemberTag(t)
  {
    if t == 9 then FieldRef else if t == 10 then MethodRef else InterfaceMethodRef
  }

  /** `pool[k]`: `None` when `k` is outside the array. */
  function Lookup(p: seq<Slot>, k: int): (r: Option<Slot>)
    ensures r.Some? <==> 0 <= k < |p|
    ensures r.Some? ==> r.value == p[k]
  {
    if 0 <= k < |p| then Some(p[k]) else None
  }

  /** `(String) pool[k]`: null passes the cast, anything but a string fails it. */
  function CastString(s: Option<Slot>, k: int): (r: Result<Option<string>, DecodeError>)
    ensures s.None? ==> r == Failure(IndexOutOfRange(k))
    ensures s == Some(Empty) ==> r == Success(None)
    ensures r.Success? && r.value.Some? ==> s == Some(Value(Utf8(r.value.value)))
    ensures r.Failure? && s.Some? ==> r == Failure(WrongConstantKind(k))
  {
    match s
    case None => Failure(IndexOutOfRange(k))
    case Some(Empty) => Success(None)
    case Some(Value(Utf8(t))) => Success(Some(t))
    case Some(_) => Failure(WrongConstantKind(k))
  }

  /** `(ConstantClass) pool[k]`. */
  function CastClass(s: Option<Slot>, k: int): (r: Result<Option<ClassRef>, DecodeError>)
    ensures s.None? ==> r == Failure(IndexOutOfRange(k))
    ensures s == Some(Empty) ==> r == Success(None)
    ensures r.Success? && r.value.Some? ==> s == Some(Value(ClassC(r.value.value)))
    ensures r.Failure? && s.Some? ==> r == Failure(WrongConstantKind(k))
  {
    match s
    case None => Failure(IndexOutOfRange(k))
    case Some(Empty) => Success(None)
    case Some(Value(ClassC(c))) => Success(Some(c))
    case Some(_) => Failure(WrongConstantKind(k))
  }

  /** `(ConstantNameAndType) pool[k]`. */
  function CastNameAndType(s: Option<Slot>, k: int): (r: Result<Option<NameAndType>, DecodeError>)
    ensures s.None? ==> r == Failure(IndexOutOfRange(k))
    ensures s == Some(Empty) ==> r == Success(None)
    ensures r.Success? && r.value.Some? ==> s == Some(Value(NameAndTypeC(r.value.value)))
    ensures r.Failure? && s.Some? ==> r == Failure(WrongConstantKind(k))
  {
    match s
    case None => Failure(IndexOutOfRange(k))
    case Some(Empty) => Success(None)
    case Some(Value(NameAndTypeC(nt))) => Success(Some(nt))
    case Some(_) => Failure(WrongConstantKind(k))
  }

  /** Which member-reference class a method-handle kind admits (section 4.4.8
      of the Java Virtual Machine Specification, with interface method refs
      allowed for kinds 6 and 7 only from major version 52). */
  predicate Admits(kind: int, rk: RefKind, major: int) {
    || (1 <= kind <= 4 && rk == FieldRef)
    || ((kind == 5 || kind == 8) && rk == MethodRef)
    || ((kind == 6 || kind == 7) && (rk == MethodRef || (major >= 52 && rk == InterfaceMethodRef)))
    || (kind == 9 && rk == InterfaceMethodRef)
  }

  /** The thrown message's "but found" part: `getClass().getSimpleName()`,
      which throws on null. */
  function Mismatch(expected: string, b: int, target: Slot): (r: Result<Slot, DecodeError>)
    ensures r.Failure?
  {
    match target
    case Empty => Failure(NullDereference)
    case Value(c) => Failure(HandleTargetMismatch(expected, b, SimpleName(c)))
    case Pending(_, _, _) => Failure(HandleTargetMismatch(expected, b, "int[]"))
  }

  /** An admitted target becomes a handle of that kind whose reference fits it. */
  function Accept(kind: int, ref: MemberRef, major: int): (r: Result<Slot, DecodeError>)
    requires Admits(kind, ref.kind, major)
    ensures r.Success? && r.value.Value? && r.value.c.MethodHandleC?
    ensures r.value.c.handle.reference == ref && GetKind(r.value.c.handle) == kind && TargetFits(r.value.c.handle)
  {
    AdmittedFits(kind, ref, major);
    Success(Value(MethodHandleC(NewMethodHandle(kind, ref))))
  }

  lemma AdmittedFits(kind: int, ref: MemberRef, major: int)
    requires Admits(kind, ref.kind, major)
    ensures GetKind(NewMethodHandle(kind, ref)) == kind && TargetFits(NewMethodHandle(kind, ref))
  {
    var k := KindFromCode(kind);
    assert Code(k) == kind;
    match k
    case GetField | GetStatic | PutField | PutStatic => assert 1 <= kind <= 4;
    case InvokeVirtual | NewInvokeSpecial => assert kind == 5 || kind == 8;
    case InvokeStatic | InvokeSpecial => assert kind == 6 || kind == 7;
    case InvokeInterface => assert kind == 9;
  }

  /** The method-handle kind check once the target slot `b` is resolved. The
      message for kinds 5 and 8 names ConstantFieldRef although the check is
      for ConstantMethodRef, as in the source. */
  function CheckHandle(kind: int, target: Slot, b: int, major: int): (r: Result<Slot, DecodeError>)
    ensures r.Success? <==> target.Value? && target.c.MemberRefC? && Admits(kind, target.c.ref.kind, major)
    ensures r.Success? ==> r.value == Value(MethodHandleC(NewMethodHandle(kind, target.c.ref)))
                           && GetKind(r.value.c.handle) == kind && TargetFits(r.value.c.handle)
    ensures !(1 <= kind <= 9) ==> r == Failure(UnknownReferenceKind(kind))
    ensures 1 <= kind <= 9 && target == Empty ==> r == Failure(NullDereference)
  {
    var isRef := target.Value? && target.c.MemberRefC?;
    if 1 <= kind <= 4 then
      if isRef && target.c.ref.kind == FieldRef then Accept(kind, target.c.ref, major)
      else Mismatch("ConstantFieldRef", b, target)
    else if kind == 5 || kind == 8 then
      if isRef && target.c.ref.kind == MethodRef then Accept(kind, target.c.ref, major)
      else Mismatch("ConstantFieldRef", b, target)
    else if kind == 6 || kind == 7 then
      if major < 52 then
        if isRef && target.c.ref.kind == MethodRef then Accept(kind, target.c.ref, major)
        else Mismatch("ConstantMethodRef", b, target)
      else
        if isRef && target.c.ref.kind == MethodRef then Accept(kind, target.c.ref, major)
        else if isRef && target.c.ref.kind == InterfaceMethodRef then Accept(kind, target.c.ref, major)
        else Mismatch("ConstantMethodRef or ConstantInterfaceMethodRef", b, target)
    else if kind == 9 then
      if isRef && target.c.ref.kind == InterfaceMethodRef then Accept(kind, target.c.ref, major)
      else Mismatch("ConstantInterfaceMethodRef", b, target)
    else
      Failure(UnknownReferenceKind(kind))
  }

  /** The value a placeholder `{t, a, b}` at slot `i` is replaced with, given
      what `pool[a]` and `pool[b]` hold (`None`: the index is out of range). */
  function Build(t: int, i: nat, a: int, b: int, A: Option<Slot>, B: Option<Slot>, major: int): (r: Result<Slot, DecodeError>)
    ensures r.Success? && r.value.Pending? ==> CopyTag(t) && A == Some(r.value)
    ensures r.Success? && MemberTag(t) ==>
              r.value.Value? && r.value.c.MemberRefC? && r.value.c.ref.kind == RefKindOf(t)
    ensures !(CopyTag(t) || DeferringTag(t) || t == 7 || t == 12 || t == 16) ==> r == Failure(UnknownConstantTag(t))
  {
    if t == 7 then
      var name :- CastString(A, a);
      Success(Value(ClassC(ClassRef(i, name))))
    else if CopyTag(t) then
      if A.None? then Failure(IndexOutOfRange(a)) else Success(A.value)
    else if MemberTag(t) then
      var owner :- CastClass(A, a);
      var nt :- CastNameAndType(B, b);
      Success(Value(MemberRefC(MemberRef(RefKindOf(t), owner, nt))))
    else if t == 12 then
      var name :- CastString(A, a);
      var descriptor :- CastString(B, b);
      Success(Value(NameAndTypeC(NameAndType(name, descriptor))))
    else if t == 15 then
      if B.None? then Failure(IndexOutOfRange(b)) else CheckHandle(a, B.value, b, major)
    else if t == 16 then
      var descriptor :- CastString(A, a);
      Success(Value(MethodTypeC(descriptor)))
    else if t == 17 then
      var nt :- CastNameAndType(B, b);
      Success(Value(DynamicC(a, nt)))
    else if t == 18 then
      var nt :- CastNameAndType(B, b);
      Success(Value(InvokeDynamicC(a, nt)))
    else
      Failure(UnknownConstantTag(t))
  }

  /** What visiting slot `i` during a pass does. */
  datatype Outcome = Keep | Defer | Done(slot: Slot) | Fail(error: DecodeError)

  /** One visit of slot `i`: non-placeholders are left alone; member refs wait
      while the class or NameAndType slot is a placeholder, method handles and
      (invoke)dynamic entries while slot `b` is; everything else resolves at once. */
  function Step(p: seq<Slot>, major: int, i: nat): (o: Outcome)
    requires i < |p|
    ensures o.Keep? <==> !p[i].Pending?
    ensures o.Defer? ==> p[i].Pending? && DeferringTag(p[i].tag)
    ensures o.Defer? && MemberTag(p[i].tag) ==>
              (0 <= p[i].a < |p| && p[p[i].a].Pending?) || (0 <= p[i].b < |p| && p[p[i].b].Pending?)
    ensures o.Defer? && !MemberTag(p[i].tag) ==> 0 <= p[i].b < |p| && p[p[i].b].Pending?
    ensures o.Done? && MemberTag(p[i].tag) ==>
              0 <= p[i].a < |p| && 0 <= p[i].b < |p| && !p[p[i].a].Pending? && !p[p[i].b].Pending?
    ensures o.Done? && (p[i].tag == 15 || BootstrapTag(p[i].tag)) ==>
              0 <= p[i].b < |p| && !p[p[i].b].Pending?
  {
    match p[i]
    case Pending(t, a, b) =>
      var A := Lookup(p, a);
      var B := Lookup(p, b);
      if MemberTag(t) then
        if A.None? then Fail(IndexOutOfRange(a))
        else if A.value.Pending? then Defer
        else if B.None? then Fail(IndexOutOfRange(b))
        else if B.value.Pending? then Defer
        else Finish(Build(t, i, a, b, A, B, major))
      else if t == 15 || BootstrapTag(t) then
        if B.None? then Fail(IndexOutOfRange(b))
        else if B.value.Pending? then Defer
        else Finish(Build(t, i, a, b, None, B, major))
      else
        Finish(Build(t, i, a, b, A, B, major))
    case _ => Keep
  }

  function Finish(r: Result<Slot, DecodeError>): (o: Outcome)
    ensures o.Done? || o.Fail?
  {
    if r.Success? then Done(r.value) else Fail(r.error)
  }

  /** 0 for a resolved value, 1 for entries that resolve in the first pass,
      2 for member refs and (invoke)dynamic, 3 for method handles. */
  function Layer(s: Slot): (n: nat)
    ensures n <= 3
  {
    match s
    case Pending(t, _, _) =>
      if MemberTag(t) || BootstrapTag(t) then 2 else if t == 15 then 3 else 1
    case _ => 0
  }

  /** The operands a placeholder's resolution reads lie below it: entries that
      never wait read only resolved values, the waiting ones only lower layers. */
  predicate OperandsBelow(p: seq<Slot>, t: int, a: int, b: int) {
    && (MemberTag(t) ==> (0 <= a < |p| ==> Layer(p[a]) < 2) && (0 <= b < |p| ==> Layer(p[b]) < 2))
    && (BootstrapTag(t) ==> (0 <= b < |p| ==> Layer(p[b]) < 2))
    && (t == 15 ==> (0 <= b < |p| ==> Layer(p[b]) < 3))
    && (t == 7 || t == 16 || CopyTag(t) ==> (0 <= a < |p| ==> !p[a].Pending?))
    && (t == 12 ==> (0 <= a < |p| ==> !p[a].Pending?) && (0 <= b < |p| ==> !p[b].Pending?))
  }

  predicate Layered(p: seq<Slot>) {
    forall i :: 0 <= i < |p| && p[i].Pending? ==> OperandsBelow(p, p[i].tag, p[i].a, p[i].b)
  }

  /** The value slot `i` of the scanned pool `p0` ends up with, or the failure
      that resolving it raises. */
  function Resolved(p0: seq<Slot>, major: int, i: nat): (r: Result<Slot, DecodeError>)
    requires Layered(p0) && i < |p0|
    ensures r.Success? ==> !r.value.Pending?
    ensures !p0[i].Pending? ==> r == Success(p0[i])
    decreases Layer(p0[i])
  {
    match p0[i]
    case Pending(t, a, b) =>
      assert OperandsBelow(p0, t, a, b);
      if MemberTag(t) then
        if !(0 <= a < |p0|) then Failure(IndexOutOfRange(a))
        else
          var A :- if p0[a].Pending? then Resolved(p0, major, a) else Success(p0[a]);
          if !(0 <= b < |p0|) then Failure(IndexOutOfRange(b))
          else
            var B :- if p0[b].Pending? then Resolved(p0, major, b) else Success(p0[b]);
            Build(t, i, a, b, Some(A), Some(B), major)
      else if t == 15 || BootstrapTag(t) then
        if !(0 <= b < |p0|) then Failure(IndexOutOfRange(b))
        else
          var B :- if p0[b].Pending? then Resolved(p0, major, b) else Success(p0[b]);
          Build(t, i, a, b, None, Some(B), major)
      else
        Build(t, i, a, b, Lookup(p0, a), Lookup(p0, b), major)
    case _ => Success(p0[i])
  }

  /** Slot `k` of the working array `p` is either still the untouched
      placeholder or already holds its final value. */
  ghost predicate Good(p0: seq<Slot>, major: int, p: seq<Slot>, k: nat)
    requires Layered(p0) && |p| == |p0| && k < |p0|
  {
    if p[k].Pending? then p[k] == p0[k]
    else Resolved(p0, major, k) == Success(p[k])
  }

  ghost predicate AllGood(p0: seq<Slot>, major: int, p: seq<Slot>)
    requires Layered(p0) && |p| == |p0|
  {
    forall k :: 0 <= k < |p0| ==> Good(p0, major, p, k)
  }

  /** A resolved operand in the working array is the operand's final value. */
  lemma ResolvedOperand(p0: seq<Slot>, major: int, p: seq<Slot>, k: nat)
    requires Layered(p0) && |p| == |p0| && k < |p0| && AllGood(p0, major, p)
    requires !p[k].Pending?
    ensures (if p0[k].Pending? then Resolved(p0, major, k) else Success(p0[k])) == Success(p[k])
  {
    assert Good(p0, major, p, k);
  }

  /** Visiting a placeholder whose operands are final does exactly what the
      declarative resolution says. */
  lemma StepAgrees(p0: seq<Slot>, major: int, p: seq<Slot>, i: nat)
    requires Layered(p0) && |p| == |p0| && i < |p0| && AllGood(p0, major, p)
    requires p[i].Pending?
    ensures Step(p, major, i).Done? ==> Resolved(p0, major, i) == Success(Step(p, major, i).slot)
    ensures Step(p, major, i).Fail? ==> Resolved(p0, major, i) == Failure(Step(p, major, i).error)
  {
    assert Good(p0, major, p, i);
    var Pending(t, a, b) := p0[i];
    assert OperandsBelow(p0, t, a, b);
    var o := Step(p, major, i);
    if o.Done? || o.Fail? {
      if MemberTag(t) {
        if 0 <= a < |p0| {
          ResolvedOperand(p0, major, p, a);
          if 0 <= b < |p0| {
            ResolvedOperand(p0, major, p, b);
          }
        }
      } else if t == 15 || BootstrapTag(t) {
        if 0 <= b < |p0| {
          ResolvedOperand(p0, major, p, b);
        }
      } else {
        if 0 <= a < |p0| && (t == 7 || t == 16 || CopyTag(t) || t == 12) {
          assert Good(p0, major, p, a);
          assert p[a] == p0[a];
        }
        if 0 <= b < |p0| && t == 12 {
          assert Good(p0, major, p, b);
          assert p[b] == p0[b];
        }
      }
    }
  }

  /** A placeholder only waits on an operand of a higher layer than every
      layer already finished, so waiting is impossible from the third pass on. */
  lemma DeferNeedsHighLayer(p0: seq<Slot>, major: int, p: seq<Slot>, i: nat, passes: nat)
    requires Layered(p0) && |p| == |p0| && i < |p0| && AllGood(p0, major, p)
    requires forall k :: 0 <= k < |p0| && Layer(p0[k]) <= passes ==> !p[k].Pending?
    requires Step(p, major, i).Defer?
    ensures Layer(p0[i]) >= passes + 2
  {
    assert Good(p0, major, p, i);
    var Pending(t, a, b) := p0[i];
    assert OperandsBelow(p0, t, a, b);
    if MemberTag(t) && 0 <= a < |p0| && p[a].Pending? {
      assert Good(p0, major, p, a);
    } else {
      assert Good(p0, major, p, b);
    }
  }

  /** Every slot of layer `passes` or below is no longer a placeholder. */
  predicate Finished(p0: seq<Slot>, p: seq<Slot>, passes: nat)
    requires |p| == |p0|
  {
    forall k :: 0 <= k < |p0| && Layer(p0[k]) <= passes ==> !p[k].Pending?
  }

  /** One pass of the do-while from slot `i` on: each slot is visited in
      index order and replaced as soon as it resolves, so later slots see the
      values written earlier in the same pass. The first failing visit ends
      the whole resolution; otherwise the array and whether any slot waited. */
  function Pass(p: seq<Slot>, major: int, i: nat, deferred: bool): (r: Result<(seq<Slot>, bool), DecodeError>)
    requires i <= |p|
    ensures r.Success? ==> |r.value.0| == |p|
    ensures deferred && r.Success? ==> r.value.1
    decreases |p| - i
  {
    if i == |p| then Success((p, deferred))
    else
      match Step(p, major, i)
      case Keep => Pass(p, major, i + 1, deferred)
      case Defer => Pass(p, major, i + 1, true)
      case Done(v) => Pass(p[i := v], major, i + 1, deferred)
      case Fail(e) => Failure(e)
  }

  /** The do-while itself, cut off after `left` passes. */
  function Passes(p: seq<Slot>, major: int, left: nat): Result<seq<Slot>, DecodeError>
    decreases left
  {
    var (q, deferred) :- Pass(p, major, 0, false);
    if deferred && left > 1 then Passes(q, major, left - 1) else Success(q)
  }

  /** What a pass numbered `passes` ends with: a failure that some slot's
      declarative resolution also raises, or an array whose slots are all
      untouched or final, with the next layer done, that defers only in the
      first two passes and otherwise holds no placeholder. */
  ghost predicate PassOutcome(p0: seq<Slot>, major: int, r: Result<(seq<Slot>, bool), DecodeError>, passes: nat)
    requires Layered(p0)
  {
    && (r.Failure? ==> exists k :: 0 <= k < |p0| && Resolved(p0, major, k) == Failure(r.error))
    && (r.Success? ==> && |r.value.0| == |p0| && AllGood(p0, major, r.value.0) && Finished(p0, r.value.0, passes + 1)
                       && (r.value.1 ==> passes <= 1)
                       && (!r.value.1 ==> forall k :: 0 <= k < |p0| ==> !r.value.0[k].Pending?))
  }

  /** The state of pass number `passes` before it visits slot `i`: every
      slot is untouched or final, the earlier layers are done, the next layer
      is done below `i`, and, unless a slot has waited, so is everything below `i`. */
  ghost predicate Visiting(p0: seq<Slot>, major: int, p: seq<Slot>, i: nat, deferred: bool, passes: nat)
    requires Layered(p0)
  {
    && |p| == |p0| && i <= |p0| && passes <= 2
    && AllGood(p0, major, p) && Finished(p0, p, passes)
    && (forall k :: 0 <= k < i && Layer(p0[k]) <= passes + 1 ==> !p[k].Pending?)
    && (deferred ==> passes <= 1)
    && (!deferred ==> forall k :: 0 <= k < i ==> !p[k].Pending?)
  }

  /** The array after visiting slot `i`, when the visit does not fail. */
  function Visited(p: seq<Slot>, major: int, i: nat): (q: seq<Slot>)
    requires i < |p|
    ensures |q| == |p|
    ensures Step(p, major, i).Done? ==> q == p[i := Step(p, major, i).slot]
    ensures !Step(p, major, i).Done? ==> q == p
  {
    match Step(p, major, i)
    case Done(v) => p[i := v]
    case _ => p
  }

  /** A visit that does not fail hands the rest of the pass the visited
      array, and notes whether the slot waited. */
  lemma PassVisits(p: seq<Slot>, major: int, i: nat, deferred: bool)
    requires i < |p| && !Step(p, major, i).Fail?
    ensures Pass(p, major, i, deferred) == Pass(Visited(p, major, i), major, i + 1, deferred || Step(p, major, i).Defer?)
  {
  }

  /** A visit that does not fail keeps every slot untouched or final and moves
      the pass on; a waiting slot needs a layer that a later pass handles. */
  lemma VisitMoves(p0: seq<Slot>, major: int, p: seq<Slot>, i: nat, deferred: bool, passes: nat)
    requires Layered(p0) && Visiting(p0, major, p, i, deferred, passes) && i < |p0|
    requires !Step(p, major, i).Fail?
    ensures Visiting(p0, major, Visited(p, major, i), i + 1, deferred || Step(p, major, i).Defer?, passes)
  {
    var o := Step(p, major, i);
    if o.Defer? {
      DeferNeedsHighLayer(p0, major, p, i, passes);
    } else if o.Done? {
      StepAgrees(p0, major, p, i);
      var q := p[i := o.slot];
      forall k | 0 <= k < |p0| ensures Good(p0, major, q, k) {
        if k != i {
          assert Good(p0, major, p, k);
        }
      }
    }
  }

  /** A pass that reaches the end of the array has done the next layer. */
  lemma PassEnds(p0: seq<Slot>, major: int, p: seq<Slot>, deferred: bool, passes: nat)
    requires Layered(p0) && Visiting(p0, major, p, |p0|, deferred, passes)
    ensures PassOutcome(p0, major, Success((p, deferred)), passes)
  {
    assert Finished(p0, p, passes + 1);
  }

  /** A pass from slot `i`, started on an array where every slot is either
      untouched or final and the lower layers are done, ends in `PassOutcome`. */
  lemma {:induction false} PassGood(p0: seq<Slot>, major: int, p: seq<Slot>, i: nat, deferred: bool, passes: nat)
    requires Layered(p0) && Visiting(p0, major, p, i, deferred, passes)
    ensures PassOutcome(p0, major, Pass(p, major, i, deferred), passes)
    decreases |p0| - i
  {
    if i == |p0| {
      PassEnds(p0, major, p, deferred, passes);
      assert Pass(p, major, i, deferred) == Success((p, deferred));
    } else if Step(p, major, i).Fail? {
      StepAgrees(p0, major, p, i);
      assert Resolved(p0, major, i) == Failure(Step(p, major, i).error);
      assert Pass(p, major, i, deferred) == Failure(Step(p, major, i).error);
    } else {
      var next := deferred || Step(p, major, i).Defer?;
      VisitMoves(p0, major, p, i, deferred, passes);
      PassGood(p0, major, Visited(p, major, i), i + 1, next, passes);
      PassVisits(p, major, i, deferred);
    }
  }

  /** Passes from pass number `passes` on, over a pool in the state that pass
      starts from, end within the three passes with every slot final, or fail
      with some slot's declarative failure. */
  lemma {:induction false} PassesGood(p0: seq<Slot>, major: int, p: seq<Slot>, passes: nat)
    requires Layered(p0) && |p| == |p0| && passes <= 2
    requires AllGood(p0, major, p) && Finished(p0, p, passes)
    ensures var r := Passes(p, major, 3 - passes);
            && (r.Failure? ==> exists k :: 0 <= k < |p0| && Resolved(p0, major, k) == Failure(r.error))
            && (r.Success? ==> |r.value| == |p0| && AllGood(p0, major, r.value)
                               && forall k :: 0 <= k < |p0| ==> !r.value[k].Pending?)
    decreases 3 - passes
  {
    PassGood(p0, major, p, 0, false, passes);
    var pass := Pass(p, major, 0, false);
    assert PassOutcome(p0, major, pass, passes);
    if pass.Success? && pass.value.1 {
      PassesGood(p0, major, pass.value.0, passes + 1);
    }
  }

  /** The pool the constructor's loop leaves behind, or the failure it stops
      on: the first failing visit in pass order. A layered pool needs at most
      three passes. On success this is the slot-by-slot `ResolvedPool`; on
      failure it is some slot's declarative failure, though not necessarily
      the lowest-numbered one's (`PassOrderDecidesError`). */
  function Resolution(p0: seq<Slot>, major: int): (r: Result<seq<Slot>, DecodeError>)
    requires Layered(p0)
    ensures r.Success? ==> |r.value| == |p0| && forall k :: 0 <= k < |p0| ==> !r.value[k].Pending?
    ensures r.Success? ==> forall k :: 0 <= k < |p0| ==> Resolved(p0, major, k) == Success(r.value[k])
    ensures r.Failure? ==> exists k :: 0 <= k < |p0| && Resolved(p0, major, k) == Failure(r.error)
    ensures r.Success? <==> ResolvedPool(p0, major).Success?
    ensures r.Success? ==> r == ResolvedPool(p0, major)
  {
    forall k | 0 <= k < |p0| ensures Good(p0, major, p0, k) { }
    PassesGood(p0, major, p0, 0);
    var r := Passes(p0, major, 3);
    if r.Success? then
      assert forall k :: 0 <= k < |p0| ==> Resolved(p0, major, k) == Success(r.value[k]) by {
        forall k | 0 <= k < |p0| ensures Resolved(p0, major, k) == Success(r.value[k]) {
          assert Good(p0, major, r.value, k);
        }
      }
      var whole := ResolvedPool(p0, major);
      assert whole.Success? && whole.value == r.value by {
        assert |whole.value| == |r.value|;
        forall k | 0 <= k < |p0| ensures whole.value[k] == r.value[k] {
          assert Resolved(p0, major, k) == Success(whole.value[k]);
        }
      }
      r
    else
      r
  }

  /** The fixed point as the constructor runs it: passes over the array until
      one pass defers nothing, stopping on the first failing visit. Returns
      the pool and the number of passes made. */
  method ResolvePool(pool0: seq<Slot>, major: int) returns (r: Result<seq<Slot>, DecodeError>, passes: nat)
    requires Layered(pool0)
    ensures passes <= 3
    ensures r == Resolution(pool0, major)
    ensures r.Success? ==> |r.value| == |pool0|
    ensures r.Success? ==> forall k :: 0 <= k < |pool0| ==> !r.value[k].Pending?
    ensures r.Success? ==> forall k :: 0 <= k < |pool0| ==> Resolved(pool0, major, k) == Success(r.value[k])
    ensures r.Failure? ==> exists k :: 0 <= k < |pool0| && Resolved(pool0, major, k) == Failure(r.error)
    ensures r.Success? <==> ResolvedPool(pool0, major).Success?
    ensures r.Success? ==> r == ResolvedPool(pool0, major)
  {
    var p := pool0;
    forall k | 0 <= k < |pool0| ensures Good(pool0, major, pool0, k) { }
    passes := 0;
    var repeat := true;
    while repeat
      invariant |p| == |pool0|
      invariant passes <= 3 && (repeat ==> passes <= 2)
      invariant repeat ==> AllGood(pool0, major, p) && Finished(pool0, p, passes)
                           && Passes(p, major, 3 - passes) == Resolution(pool0, major)
      invariant !repeat ==> Success(p) == Resolution(pool0, major)
      decreases 3 - passes
    {
      ghost var start := p;
      PassGood(pool0, major, start, 0, false, passes);
      repeat := false;
      var i := 0;
      while i < |p|
        invariant 0 <= i <= |p| && |p| == |pool0|
        invariant Pass(p, major, i, repeat) == Pass(start, major, 0, false)
      {
        var o := Step(p, major, i);
        if o.Fail? {
          assert Passes(start, major, 3 - passes) == Failure(o.error);
          return Failure(o.error), passes;
        }
        PassVisits(p, major, i, repeat);
        match o {
          case Keep =>
          case Defer =>
            repeat := true;
          case Done(v) =>
            p := p[i := v];
        }
        i := i + 1;
      }
      passes := passes + 1;
    }
    r := Success(p);
  }


  /** Slots `from ..` of the scanned pool, resolved; the first failing slot in
      index order decides the error. */
  function ResolveFrom(p0: seq<Slot>, major: int, from: nat): (r: Result<seq<Slot>, DecodeError>)
    requires Layered(p0) && from <= |p0|
    ensures r.Success? ==> forall k: nat :: from <= k < |p0| ==> Resolved(p0, major, k).Success?
    ensures (forall k: nat :: from <= k < |p0| ==> Resolved(p0, major, k).Success?) ==> r.Success?
    ensures r.Success? ==> |r.value| == |p0| - from
                           && forall k :: 0 <= k < |r.value| ==> Resolved(p0, major, from + k) == Success(r.value[k])
    ensures r.Failure? ==> exists k :: from <= k < |p0| && Resolved(p0, major, k) == Failure(r.error)
    decreases |p0| - from
  {
    if from == |p0| then Success([])
    else
      var head := Resolved(p0, major, from);
      if head.Failure? then Failure(head.error)
      else
        var tail := ResolveFrom(p0, major, from + 1);
        if tail.Failure? then Failure(tail.error)
        else
          var slots := [head.value] + tail.value;
          assert forall k :: 0 <= k < |slots| ==> Resolved(p0, major, from + k) == Success(slots[k]) by {
            forall k | 0 <= k < |slots| ensures Resolved(p0, major, from + k) == Success(slots[k]) {
              if k > 0 {
                assert slots[k] == tail.value[k - 1];
                assert from + k == from + 1 + (k - 1);
              }
            }
          }
          Success(slots)
  }

  /** The pool the constructor leaves behind, defined slot by slot: equal to
      `Resolution` on success, but on failure it reports the lowest-numbered
      failing slot rather than the first failing visit. */
  function ResolvedPool(p0: seq<Slot>, major: int): (r: Result<seq<Slot>, DecodeError>)
    requires Layered(p0)
    ensures r.Success? ==> forall k: nat :: k < |p0| ==> Resolved(p0, major, k).Success?
    ensures (forall k: nat :: k < |p0| ==> Resolved(p0, major, k).Success?) ==> r.Success?
    ensures r.Success? ==> |r.value| == |p0| && forall k :: 0 <= k < |p0| ==> Resolved(p0, major, k) == Success(r.value[k])
    ensures r.Success? ==> forall k :: 0 <= k < |p0| ==> !r.value[k].Pending?
    ensures r.Failure? ==> exists k :: 0 <= k < |p0| && Resolved(p0, major, k) == Failure(r.error)
  {
    ResolveFrom(p0, major, 0)
  }

  /** CONSTANT_Class becomes a ConstantClass carrying the Utf8 text at its
      index, and identified by its own slot. */
  lemma ClassResolvesToName(p0: seq<Slot>, major: int, i: nat, a: int, b: int, text: string)
    requires Layered(p0) && i < |p0| && p0[i] == Pending(7, a, b)
    requires 0 <= a < |p0| && p0[a] == Value(Utf8(text))
    ensures Resolved(p0, major, i) == Success(Value(ClassC(ClassRef(i, Some(text)))))
  {
  }

  /** CONSTANT_String, Module and Package become the referenced slot's value itself. */
  lemma CopyResolvesToOperand(p0: seq<Slot>, major: int, i: nat, t: int, a: int, b: int)
    requires Layered(p0) && i < |p0| && p0[i] == Pending(t, a, b) && CopyTag(t)
    requires 0 <= a < |p0|
    ensures Resolved(p0, major, i) == Success(p0[a])
  {
  }

  /** A method handle resolves iff its target is a member ref its kind admits. */
  lemma HandleResolution(p0: seq<Slot>, major: int, i: nat, kind: int, b: int)
    requires Layered(p0) && i < |p0| && p0[i] == Pending(15, kind, b)
    requires 0 <= b < |p0| && Resolved(p0, major, b).Success?
    ensures var target := Resolved(p0, major, b).value;
            Resolved(p0, major, i).Success? <==>
              target.Value? && target.c.MemberRefC? && Admits(kind, target.c.ref.kind, major)
    ensures !(1 <= kind <= 9) ==> Resolved(p0, major, i) == Failure(UnknownReferenceKind(kind))
  {
  }

  /** A member ref naming its own slot as its class waits on itself on every
      pass, so the constructor never returns; `Layered` rules such pools out. */
  lemma SelfReferenceWaitsForever(p: seq<Slot>, major: int, i: nat, t: int, b: int)
    requires i < |p| && p[i] == Pending(t, i, b) && MemberTag(t)
    ensures Step(p, major, i) == Defer
    ensures !Layered(p)
  {
    assert !OperandsBelow(p, t, i, b);
  }

  /** `Layered` also rules out pools the loop does get through. A Class,
      NameAndType or MethodType entry reading a slot that is still a
      placeholder stops on a ClassCastException, and a String, Module or
      Package entry copies it. A member reference whose class or NameAndType
      operand is itself a member reference, dynamic entry or method handle
      waits for it and then stops on a ClassCastException. Which of these
      happens depends on the order of the slots within a pass. */
  lemma LayeredExcludesPlaceholderOperands(p: seq<Slot>, i: nat)
    requires i < |p| && p[i].Pending?
    requires var e := p[i];
             || ((e.tag == 7 || e.tag == 12 || e.tag == 16 || CopyTag(e.tag)) && 0 <= e.a < |p| && p[e.a].Pending?)
             || (MemberTag(e.tag) && 0 <= e.a < |p| && Layer(p[e.a]) >= 2)
             || (MemberTag(e.tag) && 0 <= e.b < |p| && Layer(p[e.b]) >= 2)
    ensures !Layered(p)
  {
    assert !OperandsBelow(p, p[i].tag, p[i].a, p[i].b);
  }

  /** The pool `PassOrderDecidesError` is about. */
  function ErrorOrderPool(): (p: seq<Slot>)
    ensures Layered(p)
  {
    [Empty, Pending(15, 0, 2), Pending(10, 3, 4), Pending(7, 5, 0),
     Pending(12, 5, 5), Value(Utf8("x")), Pending(7, 99, 0)]
  }

  /** The first pass defers slots 1 and 2, resolves slots 3 and 4 and stops at
      slot 6, whose index 99 is out of range. */
  lemma LoopStopsAtSlotSix()
    ensures Resolution(ErrorOrderPool(), 52) == Failure(IndexOutOfRange(99))
  {
    var p := ErrorOrderPool();
    var x: Option<string> := Some("x");
    var class3 := Value(ClassC(ClassRef(3, x)));
    var pair4 := Value(NameAndTypeC(NameAndType(x, x)));
    var q3 := p[3 := class3];
    var q4 := q3[4 := pair4];
    assert Step(p, 52, 1) == Defer;
    assert Step(p, 52, 2) == Defer;
    assert Step(p, 52, 3) == Done(class3);
    assert Step(q3, 52, 4) == Done(pair4);
    assert Step(q4, 52, 5) == Keep;
    assert Step(q4, 52, 6) == Fail(IndexOutOfRange(99));
    assert Pass(q4, 52, 5, true) == Failure(IndexOutOfRange(99));
    assert Pass(p, 52, 3, true) == Failure(IndexOutOfRange(99));
    assert Pass(p, 52, 0, false) == Failure(IndexOutOfRange(99));
  }

  /** Slot by slot, slot 1 is the first that fails: its member ref resolves,
      but kind 0 is unknown. */
  lemma SlotOneFailsFirst()
    ensures ResolvedPool(ErrorOrderPool(), 52) == Failure(UnknownReferenceKind(0))
  {
    var p := ErrorOrderPool();
    var x: Option<string> := Some("x");
    var ref := MemberRef(MethodRef, Some(ClassRef(3, x)), Some(NameAndType(x, x)));
    assert Resolved(p, 52, 3) == Success(Value(ClassC(ClassRef(3, x))));
    assert Resolved(p, 52, 4) == Success(Value(NameAndTypeC(NameAndType(x, x))));
    assert Resolved(p, 52, 2) == Success(Value(MemberRefC(ref)));
    assert Resolved(p, 52, 1) == Failure(UnknownReferenceKind(0));
    assert ResolveFrom(p, 52, 1) == Failure(UnknownReferenceKind(0));
  }

  /** The order of the visits decides which error the loop reports. The
      handle at slot 1 has the unknown kind 0, but in the first pass it waits
      for the member ref at slot 2, which waits for slots 3 and 4; the same
      pass then reaches the Class entry at slot 6, whose index 99 is out of
      range. The loop reports the index, the slot-by-slot resolution the kind. */
  lemma PassOrderDecidesError()
    ensures var p := [Empty, Pending(15, 0, 2), Pending(10, 3, 4), Pending(7, 5, 0),
                      Pending(12, 5, 5), Value(Utf8("x")), Pending(7, 99, 0)];
            && Layered(p)
            && Resolution(p, 52) == Failure(IndexOutOfRange(99))
            && ResolvedPool(p, 52) == Failure(UnknownReferenceKind(0))
  {
    LoopStopsAtSlotSix();
    SlotOneFailsFirst();
  }
}

=== FILE: pool_scan.dfy ===
/** First phase of `ConstantPool`'s constructor: read the u2 entry count and
    then one tagged entry per slot from index 1 (section 4.4 of the Java
    Virtual Machine Specification). Self-contained values are stored
    directly; entries that refer to other slots are stored as placeholders. */
module ConstantPoolScan {
  import opened Wrappers
  import opened Bytes
  import opened Constants

  /** `readUTF`'s modified-UTF-8 decoding, supplied by the caller;
      `None` stands for a `UTFDataFormatException`. */
  type Utf8Decoder = seq<byte> -> Option<string>

  /** Tags whose placeholder holds one u2 slot index. */
  predicate OneIndexTag(tag: int) {
    tag == 7 || tag == 8 || tag == 16 || tag == 19 || tag == 20
  }

  /** Tags whose placeholder holds two u2 values. */
  predicate TwoIndexTag(tag: int) {
    tag == 9 || tag == 10 || tag == 11 || tag == 12 || tag == 17 || tag == 18
  }

  /** Every tag the scanner accepts. */
  predicate KnownTag(tag: int) {
    tag == 1 || tag == 3 || tag == 4 || tag == 5 || tag == 6 || tag == 15
    || OneIndexTag(tag) || TwoIndexTag(tag)
  }

  /** A tag byte as `readByte` returns it: sign-extended. */
  function TagValue(b: byte): int {
    if b < 128 then b as int else b as int - 256
  }

  /** The big-endian u2 at the front of `s`. */
  function U2Of(s: seq<byte>): nat
    requires |s| >= 2
  {
    s[0] as int * 256 + s[1] as int
  }

  /** `readUTF`: a u2 byte length, then that many bytes of modified UTF-8.
      Too few bytes is an end of stream; bytes the decoder rejects are a
      `UTFDataFormatException`. */
  function ReadUtf(s: seq<byte>, utf: Utf8Decoder): (r: Parse<string>)
    ensures |s| < 2 || |s| - 2 < U2Of(s) ==> r == Failure(Truncated)
    ensures |s| >= 2 && U2Of(s) <= |s| - 2 ==>
              var data := s[2..2 + U2Of(s)];
              (r.Success? <==> utf(data).Some?)
              && (r.Failure? ==> r.error == BadUtf8)
              && (r.Success? ==> r.value == (utf(data).value, s[2 + U2Of(s)..]))
  {
    var (len, rest) :- ReadU2(s);
    var (data, rest') :- ReadBytes(rest, len);
    assert rest[..len] == s[2..2 + len] && rest[len..] == s[2 + len..];
    var text := utf(data);
    if text.None? then Failure(BadUtf8) else Success((text.value, rest'))
  }

  /** The number of bytes after the tag that an entry of a fixed-size kind
      occupies (section 4.4 of the Java Virtual Machine Specification). */
  function PayloadSize(tag: int): nat {
    if tag == 3 || tag == 4 then 4
    else if tag == 5 || tag == 6 then 8
    else if OneIndexTag(tag) then 2
    else if TwoIndexTag(tag) then 4
    else if tag == 15 then 3
    else 0
  }

  /** The slot a fixed-size entry fills, read straight off its payload: the
      two's-complement int and long, the raw float and double bits, and the
      placeholders `{tag, u2}`, `{tag, u2, u2}` and `{15, signed byte, u2}`. */
  function FixedSlot(tag: int, p: seq<byte>): Slot
    requires KnownTag(tag) && tag != 1 && |p| == PayloadSize(tag)
  {
    if tag == 3 then Value(IntegerC(Signed(BigEndian(p), 4)))
    else if tag == 4 then Value(FloatC(BigEndian(p)))
    else if tag == 5 then Value(LongC(Signed(BigEndian(p), 8)))
    else if tag == 6 then Value(DoubleC(BigEndian(p)))
    else if OneIndexTag(tag) then Pending(tag, U2Of(p), 0)
    else if TwoIndexTag(tag) then Pending(tag, U2Of(p), U2Of(p[2..]))
    else Pending(tag, TagValue(p[0]), U2Of(p[1..]))
  }

  /** The payload of a fixed-size entry, read with the `DataInputStream`
      calls the constructor makes for its tag. */
  function ReadFixed(tag: int, p: seq<byte>): (r: Parse<Slot>)
    requires KnownTag(tag) && tag != 1
    ensures r.Success? <==> |p| >= PayloadSize(tag)
    ensures r.Failure? ==> r.error == Truncated
    ensures r.Success? ==> r.value == (FixedSlot(tag, p[..PayloadSize(tag)]), p[PayloadSize(tag)..])
  {
    if tag == 3 then
      var (v, rest) :- ReadS4(p);
      Success((Value(IntegerC(v)), rest))
    else if tag == 4 then
      var (bits, rest) :- ReadU4(p);
      Success((Value(FloatC(bits)), rest))
    else if tag == 5 then
      var (v, rest) :- ReadS8(p);
      Success((Value(LongC(v)), rest))
    else if tag == 6 then
      var (bits, rest) :- ReadUnsigned(p, 8);
      Success((Value(DoubleC(bits)), rest))
    else if OneIndexTag(tag) then
      var (a, rest) :- ReadU2(p);
      assert p[..2] == p[..PayloadSize(tag)];
      Success((Pending(tag, a, 0), rest))
    else if TwoIndexTag(tag) then
      var (a, rest) :- ReadU2(p);
      var (b, rest') :- ReadU2(rest);
      assert p[..4][2..] == rest[..2];
      Success((Pending(tag, a, b), rest'))
    else
      var (kind, rest) :- ReadS1(p);
      var (b, rest') :- ReadU2(rest);
      assert p[..3][1..] == rest[..2];
      Success((Pending(tag, kind, b), rest'))
  }

  /** One entry, tag byte first: the slot it fills and whether it is a Long
      or Double, which also claims the following slot. */
  function ReadEntry(s: seq<byte>, utf: Utf8Decoder): (r: Parse<(Slot, bool)>)
    ensures |s| == 0 ==> r == Failure(Truncated)
    ensures |s| >= 1 && !KnownTag(TagValue(s[0])) ==> r == Failure(UnknownConstantTag(TagValue(s[0])))
    ensures |s| >= 1 && TagValue(s[0]) == 1 ==>
              var u := ReadUtf(s[1..], utf);
              (r.Success? <==> u.Success?) && (r.Failure? ==> r.error == u.error)
              && (r.Success? ==> r.value == ((Value(Utf8(u.value.0)), false), u.value.1))
    ensures |s| >= 1 && KnownTag(TagValue(s[0])) && TagValue(s[0]) != 1 ==>
              var n := PayloadSize(TagValue(s[0]));
              (r.Success? <==> |s| >= 1 + n) && (r.Failure? ==> r.error == Truncated)
              && (r.Success? ==> r.value == ((FixedSlot(TagValue(s[0]), s[1..1 + n]), TagValue(s[0]) == 5 || TagValue(s[0]) == 6),
                                               s[1 + n..]))
  {
    var (tag, rest) :- ReadS1(s);
    if tag == 1 then
      var (text, rest') :- ReadUtf(rest, utf);
      Success(((Value(Utf8(text)), false), rest'))
    else if KnownTag(tag) then
      var (slot, rest') :- ReadFixed(tag, rest);
      assert rest[..PayloadSize(tag)] == s[1..1 + PayloadSize(tag)];
      Success(((slot, tag == 5 || tag == 6), rest'))
    else
      Failure(UnknownConstantTag(tag))
  }

  /** What every entry read satisfies: the flag says Long or Double, a
      placeholder carries the entry's own tag, which the second phase knows,
      and no entry leaves its slot empty. */
  lemma EntryShape(s: seq<byte>, utf: Utf8Decoder)
    requires ReadEntry(s, utf).Success?
    ensures var ((slot, wide), rest) := ReadEntry(s, utf).value;
            && |rest| < |s| && slot != Empty && (wide <==> Wide(slot))
            && (slot.Pending? ==> slot.tag == TagValue(s[0]) && PlaceholderTag(slot.tag))
  {
    var t := TagValue(s[0]);
    if t == 1 {
      assert |ReadUtf(s[1..], utf).value.1| < |s|;
    } else {
      FixedSlotShape(t, s[1..1 + PayloadSize(t)]);
    }
  }

  /** The slot of a fixed-size entry is never empty, is wide exactly for a
      Long or Double, and a placeholder keeps the entry's tag. */
  lemma FixedSlotShape(tag: int, p: seq<byte>)
    requires KnownTag(tag) && tag != 1 && |p| == PayloadSize(tag)
    ensures var slot := FixedSlot(tag, p);
            && slot != Empty && (Wide(slot) <==> tag == 5 || tag == 6)
            && (slot.Pending? <==> PlaceholderTag(tag))
            && (slot.Pending? ==> slot.tag == tag)
  {
  }

  predicate Wide(slot: Slot) {
    slot.Value? && (slot.c.LongC? || slot.c.DoubleC?)
  }

  /** A placeholder's tag is one the second phase knows how to resolve. */
  predicate PlaceholderTag(tag: int) {
    OneIndexTag(tag) || TwoIndexTag(tag) || tag == 15
  }

  /** Slot `k` of a run is empty exactly when the slot before it holds a
      Long or Double, and a placeholder there carries a tag the second phase
      can resolve. */
  predicate SlotLaid(slots: seq<Slot>, k: nat)
    requires k < |slots|
  {
    (slots[k] == Empty <==> k > 0 && Wide(slots[k - 1]))
    && (slots[k].Pending? ==> PlaceholderTag(slots[k].tag))
  }

  /** How a run of scanned slots is laid out. */
  predicate Laid(slots: seq<Slot>) {
    forall k: nat :: k < |slots| ==> SlotLaid(slots, k)
  }

  /** A narrow entry's slot in front of a laid-out run. */
  lemma {:induction false} LaidNarrow(slot: Slot, tail: seq<Slot>)
    requires slot != Empty && !Wide(slot) && (slot.Pending? ==> PlaceholderTag(slot.tag))
    requires Laid(tail)
    ensures Laid([slot] + tail)
  {
    var all := [slot] + tail;
    forall k: nat | k < |all| ensures SlotLaid(all, k) {
      if k > 0 {
        assert SlotLaid(tail, k - 1) && all[k] == tail[k - 1];
        if k > 1 { assert all[k - 1] == tail[k - 2]; }
      }
    }
  }

  /** A Long or Double slot and the empty slot it claims, in front of a
      laid-out run. */
  lemma {:induction false} LaidWide(slot: Slot, tail: seq<Slot>)
    requires Wide(slot) && Laid(tail)
    ensures Laid([slot, Empty] + tail)
  {
    var all := [slot, Empty] + tail;
    forall k: nat | k < |all| ensures SlotLaid(all, k) {
      if k > 1 {
        assert SlotLaid(tail, k - 2) && all[k] == tail[k - 2];
        if k > 2 { assert all[k - 1] == tail[k - 3]; }
      }
    }
  }

  /** Slots `i .. count-1`: a Long or Double at `i` fills `i` and leaves `i+1`
      empty, and scanning resumes at `i+2`. */
  function ScanFrom(s: seq<byte>, i: nat, count: nat, utf: Utf8Decoder): (r: Parse<seq<Slot>>)
    requires 1 <= i <= count
    ensures r.Success? ==> |r.value.0| == count - i && Laid(r.value.0)
    decreases count - i
  {
    if i == count then Success(([], s))
    else
      var ((slot, wide), rest) :- ReadEntry(s, utf);
      EntryShape(s, utf);
      if wide && i + 1 < count then
        var (tail, rest') :- ScanFrom(rest, i + 2, count, utf);
        LaidWide(slot, tail);
        Success(([slot, Empty] + tail, rest'))
      else if wide then
        Success(([slot], rest))
      else
        var (tail, rest') :- ScanFrom(rest, i + 1, count, utf);
        LaidNarrow(slot, tail);
        Success(([slot] + tail, rest'))
  }

  /** The whole first phase: the u2 count, then slots 1 .. count-1. Slot 0
      is never written. */
  function ScanPool(s: seq<byte>, utf: Utf8Decoder): (r: Parse<seq<Slot>>)
    ensures r.Success? ==> |s| >= 2 && |r.value.0| == U2Of(s)
    ensures r.Success? && |r.value.0| > 0 ==> r.value.0[0] == Empty
  {
    var (count, rest) :- ReadU2(s);
    if count == 0 then Success(([], rest))
    else
      var (slots, rest') :- ScanFrom(rest, 1, count, utf);
      Success(([Empty] + slots, rest'))
  }

  /** In a scanned pool a slot is empty exactly when it is slot 0 or follows
      a Long or Double, and only resolvable placeholders remain. */
  lemma ScanPoolShape(s: seq<byte>, utf: Utf8Decoder)
    requires ScanPool(s, utf).Success?
    ensures var pool := ScanPool(s, utf).value.0;
            && (forall k :: 0 <= k < |pool| ==> (pool[k] == Empty <==> k == 0 || Wide(pool[k - 1])))
            && (forall k :: 0 <= k < |pool| && pool[k].Pending? ==> PlaceholderTag(pool[k].tag))
  {
    var (count, rest) := ReadU2(s).value;
    if count > 0 {
      var slots := ScanFrom(rest, 1, count, utf).value.0;
      var pool := ScanPool(s, utf).value.0;
      assert pool == [Empty] + slots;
      forall k | 0 < k < |pool| ensures (pool[k] == Empty <==> Wide(pool[k - 1])) && (pool[k].Pending? ==> PlaceholderTag(pool[k].tag)) {
        assert SlotLaid(slots, k - 1) && pool[k] == slots[k - 1];
        if k > 1 { assert pool[k - 1] == slots[k - 2]; }
      }
    }
  }

  /** An unrecognised tag byte at the start of an entry aborts the scan with that tag. */
  lemma UnknownTagAborts(s: seq<byte>, tag: byte, entry: seq<byte>, utf: Utf8Decoder)
    requires |s| >= 2 && s[0] as int * 256 + s[1] as int >= 2
    requires s[2..] == [tag] + entry
    requires !KnownTag(if tag < 128 then tag as int else tag as int - 256)
    ensures ScanPool(s, utf) == Failure(UnknownConstantTag(if tag < 128 then tag as int else tag as int - 256))
  {
    var (count, rest) := ReadU2(s).value;
    assert rest == [tag] + entry;
  }
}

=== FILE: same_type.dfy ===
/** The `isSameType` family of `MethodInfo`: whether two signature trees
    denote the same type once the type variables of the overridden method's
    class are replaced by the texts a subclass binds them to. `Bindings` is
    that map, from a type-parameter identifier to a type-argument text. */
module SameType {
  import opened Wrappers
  import opened JavaStrings
  import opened Signatures

  type Bindings = map<string, string>

  /** `isSameType(JavaTypeSignature, JavaTypeSignature)`: equal texts match;
      two base types match on their letter; two reference types are
      compared as such; anything else does not match. */
  function SameJava(m: Bindings, a: JavaTypeSignature, b: JavaTypeSignature): bool
    decreases a
  {
    if JavaText(a) == JavaText(b) then true
    else if a.BaseType? && b.BaseType? then a.code == b.code
    else if a.Reference? && b.Reference? then SameRef(m, a.reference, b.reference)
    else false
  }

  /** `isSameType(ReferenceTypeSignature, ...)`: class with class and array
      with array compare structurally; when either side is a type variable
      both sides are reduced to a text (`Side`) and the texts compared. */
  function SameRef(m: Bindings, a: ReferenceTypeSignature, b: ReferenceTypeSignature): bool
    decreases a
  {
    if a.ClassType? && b.ClassType? then SameClass(m, a.classType, b.classType)
    else if a.ArrayType? && b.ArrayType? then SameJava(m, a.component, b.component)
    else if a.TypeVariable? || b.TypeVariable? then Side(m, a) == Side(m, b)
    else false
  }

  /** A class type's text with everything from its first '<' replaced by ';'. */
  function CutAtAngle(t: string): (r: string)
    ensures '<' !in r
  {
    if '<' in t then t[..IndexOf(t, '<')] + ";" else t
  }

  /** One side of a comparison involving a type variable: a bound variable
      gives its binding, a class type its text cut at '<', and anything else
      (an unbound variable, an array) the empty text. */
  function Side(m: Bindings, r: ReferenceTypeSignature): string {
    if r.TypeVariable? && r.identifier in m then m[r.identifier]
    else if r.ClassType? then CutAtAngle(ClassText(r.classType))
    else ""
  }

  /** The package-specifier walk: both chains absent, or equal identifier by
      identifier to the same length. */
  function ChainsMatch(p: seq<string>, q: seq<string>): (r: bool)
    ensures r <==> p == q
  {
    if |p| == 0 && |q| == 0 then true
    else if |p| == 0 || |q| == 0 then false
    else if p[0] != q[0] then false
    else
      assert p == [p[0]] + p[1..] && q == [q[0]] + q[1..];
      ChainsMatch(p[1..], q[1..])
  }

  /** `isSameType(ClassTypeSignature, ...)`: package chains, then the simple
      class types, then the suffix lists. */
  function SameClass(m: Bindings, a: ClassTypeSignature, b: ClassTypeSignature): bool
    decreases a, 1
  {
    ChainsMatch(a.packages, b.packages) && SameSimple(m, a.simple, b.simple)
    && |a.suffixes| == |b.suffixes| && SameSuffixes(m, a, b, 0)
  }

  /** The suffix list, pairwise from `i` on. */
  function SameSuffixes(m: Bindings, a: ClassTypeSignature, b: ClassTypeSignature, i: nat): bool
    requires |a.suffixes| == |b.suffixes| && i <= |a.suffixes|
    decreases a, 0, |a.suffixes| - i
  {
    i == |a.suffixes| || (SameSimple(m, a.suffixes[i], b.suffixes[i]) && SameSuffixes(m, a, b, i + 1))
  }

  /** `isSameType(SimpleClassTypeSignature, ...)`: type arguments present on
      both sides or on neither, equally many, each pair matching unless one
      of them is `*` (wildcard indicators are not looked at); then equal
      identifiers. */
  function SameSimple(m: Bindings, a: SimpleClassTypeSignature, b: SimpleClassTypeSignature): bool
    decreases a
  {
    if a.typeArguments.TypeArguments? != b.typeArguments.TypeArguments? then false
    else if a.typeArguments.TypeArguments? then
      |a.typeArguments.arguments| == |b.typeArguments.arguments|
      && SameArguments(m, a.typeArguments, b.typeArguments, 0) && a.identifier == b.identifier
    else a.identifier == b.identifier
  }

  function SameArguments(m: Bindings, a: TypeArguments, b: TypeArguments, i: nat): bool
    requires a.TypeArguments? && b.TypeArguments? && |a.arguments| == |b.arguments| && i <= |a.arguments|
    decreases a, |a.arguments| - i
  {
    i == |a.arguments|
    || ((a.arguments[i].AnyType? || b.arguments[i].AnyType? || SameRef(m, a.arguments[i].bound, b.arguments[i].bound))
        && SameArguments(m, a, b, i + 1))
  }

  // ---- Symmetry ----

  /** The comparison does not depend on which side is which. */
  lemma {:induction false} SameJavaSymmetric(m: Bindings, a: JavaTypeSignature, b: JavaTypeSignature)
    ensures SameJava(m, a, b) == SameJava(m, b, a)
    decreases a
  {
    if a.Reference? && b.Reference? {
      SameRefSymmetric(m, a.reference, b.reference);
    }
  }

  lemma {:induction false} SameRefSymmetric(m: Bindings, a: ReferenceTypeSignature, b: ReferenceTypeSignature)
    ensures SameRef(m, a, b) == SameRef(m, b, a)
    decreases a
  {
    if a.ClassType? && b.ClassType? {
      SameClassSymmetric(m, a.classType, b.classType);
    } else if a.ArrayType? && b.ArrayType? {
      SameJavaSymmetric(m, a.component, b.component);
    }
  }

  lemma {:induction false} SameClassSymmetric(m: Bindings, a: ClassTypeSignature, b: ClassTypeSignature)
    ensures SameClass(m, a, b) == SameClass(m, b, a)
    decreases a, 1
  {
    SameSimpleSymmetric(m, a.simple, b.simple);
    if |a.suffixes| == |b.suffixes| {
      SameSuffixesSymmetric(m, a, b, 0);
    }
  }

  lemma {:induction false} SameSuffixesSymmetric(m: Bindings, a: ClassTypeSignature, b: ClassTypeSignature, i: nat)
    requires |a.suffixes| == |b.suffixes| && i <= |a.suffixes|
    ensures SameSuffixes(m, a, b, i) == SameSuffixes(m, b, a, i)
    decreases a, 0, |a.suffixes| - i
  {
    if i < |a.suffixes| {
      SameSimpleSymmetric(m, a.suffixes[i], b.suffixes[i]);
      SameSuffixesSymmetric(m, a, b, i + 1);
    }
  }

  lemma {:induction false} SameSimpleSymmetric(m: Bindings, a: SimpleClassTypeSignature, b: SimpleClassTypeSignature)
    ensures SameSimple(m, a, b) == SameSimple(m, b, a)
    decreases a
  {
    if a.typeArguments.TypeArguments? && b.typeArguments.TypeArguments?
       && |a.typeArguments.arguments| == |b.typeArguments.arguments| {
      SameArgumentsSymmetric(m, a.typeArguments, b.typeArguments, 0);
    }
  }

  lemma {:induction false} SameArgumentsSymmetric(m: Bindings, a: TypeArguments, b: TypeArguments, i: nat)
    requires a.TypeArguments? && b.TypeArguments? && |a.arguments| == |b.arguments| && i <= |a.arguments|
    ensures SameArguments(m, a, b, i) == SameArguments(m, b, a, i)
    decreases a, |a.arguments| - i
  {
    if i < |a.arguments| {
      if a.arguments[i].Bounded? && b.arguments[i].Bounded? {
        SameRefSymmetric(m, a.arguments[i].bound, b.arguments[i].bound);
      }
      SameArgumentsSymmetric(m, a, b, i + 1);
    }
  }

  // ---- Type variables ----

  /** A type variable matches a class type exactly when it is bound, and
      bound to that class type's text cut at '<'. */
  lemma VariableAgainstClass(m: Bindings, x: string, c: ClassTypeSignature)
    ensures SameRef(m, TypeVariable(x), ClassType(c)) <==> x in m && m[x] == CutAtAngle(ClassText(c))
  {
    assert |CutAtAngle(ClassText(c))| > 0 by {
      var t := ClassText(c);
      if '<' in t { assert |t[..IndexOf(t, '<')] + ";"| > 0; }
    }
  }

  /** A binding holding type arguments (a '<') never matches a class type,
      since the class side is always cut at '<'. */
  lemma ParameterisedBindingNeverMatchesClass(m: Bindings, x: string, c: ClassTypeSignature)
    requires x in m && '<' in m[x]
    ensures !SameRef(m, TypeVariable(x), ClassType(c))
  {
    VariableAgainstClass(m, x, c);
  }

  /** An unbound type variable matches any array type and any other unbound
      type variable: both sides reduce to the empty text. */
  lemma UnboundVariableMatchesAnyUnboundOrArray(m: Bindings, x: string, b: ReferenceTypeSignature)
    requires x !in m
    requires b.ArrayType? || (b.TypeVariable? && b.identifier !in m)
    ensures SameRef(m, TypeVariable(x), b) && SameRef(m, b, TypeVariable(x))
  {
  }

  /** Wildcard indicators are not compared: `? extends X`, `? super X` and
      `X` as an argument all match `X`. */
  lemma {:induction false} IndicatorIgnored(m: Bindings, id: string, i1: Option<char>, i2: Option<char>, bound: ReferenceTypeSignature)
    ensures var a := SimpleClassTypeSignature(id, TypeArguments([Bounded(i1, bound)]));
            var b := SimpleClassTypeSignature(id, TypeArguments([Bounded(i2, bound)]));
            SameSimple(m, a, b)
  {
    var a := TypeArguments([Bounded(i1, bound)]);
    var b := TypeArguments([Bounded(i2, bound)]);
    SameRefReflexive(m, bound);
    assert SameArguments(m, a, b, 1);
  }

  /** Every type matches itself. */
  lemma SameRefReflexive(m: Bindings, r: ReferenceTypeSignature)
    ensures SameRef(m, r, r)
  {
    if r.ClassType? {
      SameClassReflexive(m, r.classType);
    }
  }

  lemma {:induction false} SameClassReflexive(m: Bindings, c: ClassTypeSignature)
    ensures SameClass(m, c, c)
    decreases c, 1
  {
    SameSimpleReflexive(m, c.simple);
    SameSuffixesReflexive(m, c, 0);
  }

  lemma {:induction false} SameSuffixesReflexive(m: Bindings, c: ClassTypeSignature, i: nat)
    requires i <= |c.suffixes|
    ensures SameSuffixes(m, c, c, i)
    decreases c, 0, |c.suffixes| - i
  {
    if i < |c.suffixes| {
      SameSimpleReflexive(m, c.suffixes[i]);
      SameSuffixesReflexive(m, c, i + 1);
    }
  }

  lemma {:induction false} SameSimpleReflexive(m: Bindings, s: SimpleClassTypeSignature)
    ensures SameSimple(m, s, s)
    decreases s
  {
    if s.typeArguments.TypeArguments? {
      SameArgumentsReflexive(m, s.typeArguments, 0);
    }
  }

  lemma {:induction false} SameArgumentsReflexive(m: Bindings, a: TypeArguments, i: nat)
    requires a.TypeArguments? && i <= |a.arguments|
    ensures SameArguments(m, a, a, i)
    decreases a, |a.arguments| - i
  {
    if i < |a.arguments| {
      if a.arguments[i].Bounded? && a.arguments[i].bound.ClassType? {
        SameClassReflexive(m, a.arguments[i].bound.classType);
      }
      SameArgumentsReflexive(m, a, i + 1);
    }
  }
}

=== FILE: selection.dfy ===
/** Order-preserving selection from a sequence: the shape shared by every
    "collect the entries that match" loop and every "first entry that matches"
    search in the decoder. */
module Selection {
  import opened Wrappers

  /** How many elements of `s` satisfy `p`. */
  function Count<T>(s: seq<T>, p: T -> bool): (n: nat)
    ensures n <= |s|
  {
    if |s| == 0 then 0 else Count(s[..|s| - 1], p) + (if p(s[|s| - 1]) then 1 else 0)
  }

  /** `r` lists `f` of the elements of `s` that satisfy `p`, in the order they
      occur: the matching element at position `j` lands at index
      `Count(s[..j], p)`, i.e. after every earlier match and before every later one. */
  ghost predicate SelectsExactly<T, U>(s: seq<T>, p: T -> bool, f: T -> U, r: seq<U>) {
    && |r| == Count(s, p)
    && forall j :: 0 <= j < |s| && p(s[j]) ==>
         Count(s[..j], p) < |r| && r[Count(s[..j], p)] == f(s[j])
  }

  /** Every index below `Count(s, p)` is the landing place of some match. */
  lemma {:induction false} MatchLandingAt<T>(s: seq<T>, p: T -> bool, k: nat) returns (j: nat)
    requires k < Count(s, p)
    ensures j < |s| && p(s[j]) && Count(s[..j], p) == k
  {
    var init := s[..|s| - 1];
    if k < Count(init, p) {
      j := MatchLandingAt(init, p, k);
      assert s[..j] == init[..j];
    } else {
      j := |s| - 1;
      assert s[..j] == init;
    }
  }

  /** The selection is determined by `s`, `p` and `f`. */
  lemma SelectsExactlyUnique<T, U>(s: seq<T>, p: T -> bool, f: T -> U, r1: seq<U>, r2: seq<U>)
    requires SelectsExactly(s, p, f, r1) && SelectsExactly(s, p, f, r2)
    ensures r1 == r2
  {
    forall k | 0 <= k < |r1|
      ensures r1[k] == r2[k]
    {
      var j := MatchLandingAt(s, p, k);
    }
  }

  /** A value occurs in the selection iff some matching element maps to it. */
  lemma SelectsExactlyMembers<T, U>(s: seq<T>, p: T -> bool, f: T -> U, r: seq<U>, y: U)
    requires SelectsExactly(s, p, f, r)
    ensures y in r <==> exists j :: 0 <= j < |s| && p(s[j]) && f(s[j]) == y
  {
    if y in r {
      var k :| 0 <= k < |r| && r[k] == y;
      var j := MatchLandingAt(s, p, k);
    }
  }

  /** `f` of the elements of `s` satisfying `p`, in order (functional form). */
  function Select<T, U>(s: seq<T>, p: T -> bool, f: T -> U): (r: seq<U>)
    ensures SelectsExactly(s, p, f, r)
  {
    if |s| == 0 then []
    else
      var init := s[..|s| - 1];
      var r0 := Select(init, p, f);
      assert forall j :: 0 <= j < |init| ==> s[..j] == init[..j];
      if p(s[|s| - 1]) then r0 + [f(s[|s| - 1])] else r0
  }

  function Id<T>(x: T): T { x }

  /** The elements of `s` satisfying `p`, in order. */
  function Filter<T>(s: seq<T>, p: T -> bool): (r: seq<T>)
    ensures SelectsExactly(s, p, Id, r)
    ensures forall k :: 0 <= k < |r| ==> r[k] in s && p(r[k])
    ensures forall i :: 0 <= i < |s| && p(s[i]) ==> s[i] in r
  {
    var r := Select(s, p, Id);
    forall k | 0 <= k < |r| ensures r[k] in s && p(r[k]) {
      var j := MatchLandingAt(s, p, k);
    }
    r
  }

  /** The Java idiom: walk the array once, appending `f(x)` for every match. */
  method CollectWhere<T, U>(s: seq<T>, p: T -> bool, f: T -> U) returns (r: seq<U>)
    ensures SelectsExactly(s, p, f, r)
  {
    r := [];
    for i := 0 to |s|
      invariant SelectsExactly(s[..i], p, f, r)
    {
      SelectStep(s, i, p, f, r);
      if p(s[i]) {
        r := r + [f(s[i])];
      }
    }
    assert s[..|s|] == s;
  }

  /** One more element of `s` extends the selection by `f` of it exactly when it matches. */
  lemma SelectStep<T, U>(s: seq<T>, i: nat, p: T -> bool, f: T -> U, r: seq<U>)
    requires i < |s| && SelectsExactly(s[..i], p, f, r)
    ensures SelectsExactly(s[..i + 1], p, f, if p(s[i]) then r + [f(s[i])] else r)
  {
    assert s[..i + 1][..i] == s[..i];
    assert forall j :: 0 <= j < i ==> s[..i + 1][..j] == s[..i][..j];
  }

  /** When the three predicates split `s`, the three selections account for every element. */
  lemma {:induction false} CountPartition<T>(s: seq<T>, p: T -> bool, q: T -> bool, o: T -> bool)
    requires forall x :: x in s ==> (if p(x) then 1 else 0) + (if q(x) then 1 else 0) + (if o(x) then 1 else 0) == 1
    ensures Count(s, p) + Count(s, q) + Count(s, o) == |s|
  {
    if |s| > 0 {
      CountPartition(s[..|s| - 1], p, q, o);
    }
  }

  /** Index of the first element satisfying `p`, if any. */
  function FirstIndex<T>(s: seq<T>, p: T -> bool): (r: Option<nat>)
    ensures r.None? <==> forall i :: 0 <= i < |s| ==> !p(s[i])
    ensures r.Some? ==> r.value < |s| && p(s[r.value])
                        && forall i :: 0 <= i < r.value ==> !p(s[i])
  {
    if |s| == 0 then None
    else if p(s[0]) then Some(0)
    else
      var r := FirstIndex(s[1..], p);
      if r.None? then None else Some(r.value + 1)
  }

  /** The first element satisfying `p`, if any (Java's "loop and return, else null"). */
  function First<T>(s: seq<T>, p: T -> bool): (r: Option<T>)
    ensures r.None? <==> forall i :: 0 <= i < |s| ==> !p(s[i])
    ensures r.Some? ==> exists j :: 0 <= j < |s| && s[j] == r.value && p(s[j])
                                   && forall i :: 0 <= i < j ==> !p(s[i])
  {
    var k := FirstIndex(s, p);
    if k.None? then None else Some(s[k.value])
  }
}

=== FILE: signatures.dfy ===
/** The parse trees of generic signatures (section 4.7.9.1 of the Java
    Virtual Machine Specification) as the decoder's ANTLR-generated
    `SignatureParser` hands them over, and their `getText()` renderings.
    A tree stands for the parsed text; the parser itself is not modelled. */
module Signatures {
  import opened Wrappers
  import opened JavaStrings

  /** `JavaTypeSignature`: a base-type letter or a reference type. */
  datatype JavaTypeSignature = BaseType(code: char) | Reference(reference: ReferenceTypeSignature)

  datatype ReferenceTypeSignature =
    | ClassType(classType: ClassTypeSignature)
    | TypeVariable(identifier: string)
    | ArrayType(component: JavaTypeSignature)

  /** `L` package-specifier? simple-class-type suffix* `;`. An empty
      `packages` is the absent package specifier. */
  datatype ClassTypeSignature =
    ClassTypeSignature(packages: seq<string>, simple: SimpleClassTypeSignature, suffixes: seq<SimpleClassTypeSignature>)

  datatype SimpleClassTypeSignature = SimpleClassTypeSignature(identifier: string, typeArguments: TypeArguments)

  /** The optional `<` ... `>` node of a simple class type. */
  datatype TypeArguments = NoTypeArguments | TypeArguments(arguments: seq<TypeArgument>)

  /** `*`, or an optional wildcard indicator ('+' or '-') and a bound. */
  datatype TypeArgument = AnyType | Bounded(indicator: Option<char>, bound: ReferenceTypeSignature)

  /** A type parameter: its identifier, the optional reference type of its
      class bound, and the optional node holding its interface bounds. */
  datatype TypeParameter = TypeParameter(identifier: string, classBound: Option<ReferenceTypeSignature>,
                                         interfaceBounds: Option<seq<ReferenceTypeSignature>>)

  datatype ClassSignature = ClassSignature(typeParameters: seq<TypeParameter>, superclass: Option<ClassTypeSignature>,
                                           superinterfaces: seq<ClassTypeSignature>)

  /** A method signature; `result` is `None` for a `V` (void) result. */
  datatype MethodSignature = MethodSignature(typeParameters: seq<TypeParameter>, arguments: seq<JavaTypeSignature>,
                                             result: Option<JavaTypeSignature>, throws: seq<ReferenceTypeSignature>)

  /** The characters an identifier may not hold. */
  predicate Reserved(c: char) {
    c == '.' || c == ';' || c == '[' || c == '/' || c == '<' || c == '>' || c == ':'
  }

  predicate Identifier(s: string) {
    |s| > 0 && forall i :: 0 <= i < |s| ==> !Reserved(s[i])
  }

  /** The names a class type opens with are identifiers. */
  predicate NamedClass(c: ClassTypeSignature) {
    (forall i :: 0 <= i < |c.packages| ==> Identifier(c.packages[i])) && Identifier(c.simple.identifier)
  }

  // ---- getText() ----

  function JavaText(j: JavaTypeSignature): string {
    match j
    case BaseType(code) => [code]
    case Reference(r) => RefText(r)
  }

  function RefText(r: ReferenceTypeSignature): string {
    match r
    case ClassType(c) => ClassText(c)
    case TypeVariable(id) => "T" + id + ";"
    case ArrayType(component) => "[" + JavaText(component)
  }

  /** A class type's text opens with 'L' and closes with ';'. */
  function ClassText(c: ClassTypeSignature): (t: string)
    ensures |t| >= 2 && t[0] == 'L' && t[|t| - 1] == ';'
    decreases c, 1
  {
    "L" + PackageText(c.packages) + SimpleText(c.simple) + SuffixesText(c, 0) + ";"
  }

  /** Each package identifier followed by '/'. */
  function PackageText(ps: seq<string>): string {
    if |ps| == 0 then "" else ps[0] + "/" + PackageText(ps[1..])
  }

  function SuffixesText(c: ClassTypeSignature, i: nat): string
    requires i <= |c.suffixes|
    decreases c, 0, |c.suffixes| - i
  {
    if i == |c.suffixes| then "" else "." + SimpleText(c.suffixes[i]) + SuffixesText(c, i + 1)
  }

  function SimpleText(s: SimpleClassTypeSignature): string {
    match s.typeArguments
    case NoTypeArguments => s.identifier
    case TypeArguments(_) => s.identifier + "<" + ArgumentsText(s.typeArguments, 0) + ">"
  }

  function ArgumentsText(a: TypeArguments, i: nat): string
    requires a.TypeArguments? && i <= |a.arguments|
    decreases a, |a.arguments| - i
  {
    if i == |a.arguments| then "" else ArgText(a.arguments[i]) + ArgumentsText(a, i + 1)
  }

  function ArgText(t: TypeArgument): string {
    match t
    case AnyType => "*"
    case Bounded(indicator, bound) => (if indicator.Some? then [indicator.value] else "") + RefText(bound)
  }

  /** A reference type's text has at least two characters and opens with 'L', 'T' or '['. */
  lemma RefTextOpens(r: ReferenceTypeSignature)
    ensures |RefText(r)| >= 2 && (RefText(r)[0] == 'L' || RefText(r)[0] == 'T' || RefText(r)[0] == '[')
  {
    match r
    case ClassType(c) =>
    case TypeVariable(id) =>
    case ArrayType(component) =>
      assert |JavaText(component)| >= 1;
  }

  function TypeParametersText(ps: seq<TypeParameter>): string {
    if |ps| == 0 then "" else "<" + TypeParameterList(ps) + ">"
  }

  function TypeParameterList(ps: seq<TypeParameter>): string {
    if |ps| == 0 then "" else TypeParameterText(ps[0]) + TypeParameterList(ps[1..])
  }

  function TypeParameterText(p: TypeParameter): string {
    p.identifier + ":" + (if p.classBound.Some? then RefText(p.classBound.value) else "")
    + (if p.interfaceBounds.Some? then InterfaceBoundsText(p.interfaceBounds.value) else "")
  }

  function InterfaceBoundsText(bs: seq<ReferenceTypeSignature>): string {
    if |bs| == 0 then "" else ":" + RefText(bs[0]) + InterfaceBoundsText(bs[1..])
  }

  function JavaListText(js: seq<JavaTypeSignature>): string {
    if |js| == 0 then "" else JavaText(js[0]) + JavaListText(js[1..])
  }

  function ThrowsText(ts: seq<ReferenceTypeSignature>): string {
    if |ts| == 0 then "" else "^" + RefText(ts[0]) + ThrowsText(ts[1..])
  }

  /** `MethodSignature.getSignatureContext().getText()`. */
  function MethodSignatureText(m: MethodSignature): string {
    TypeParametersText(m.typeParameters) + "(" + JavaListText(m.arguments) + ")"
    + (if m.result.Some? then JavaText(m.result.value) else "V") + ThrowsText(m.throws)
  }

  /** `isVoidMethod`. */
  predicate IsVoid(m: MethodSignature) {
    m.result.None?
  }

  // ---- TypeArgumentUtils ----

  /** `isExtendsWildcard`: a bounded argument whose indicator is '+'. */
  function IsExtendsWildcard(t: TypeArgument): (r: bool)
    ensures r <==> StartsWith(ArgText(t), '+')
  {
    RefTextOpens(if t.Bounded? then t.bound else TypeVariable(""));
    if t.AnyType? then false
    else if t.indicator.None? then false
    else t.indicator.value == '+'
  }

  /** `isSuperWildcard`: a bounded argument whose indicator is '-'. */
  function IsSuperWildcard(t: TypeArgument): (r: bool)
    ensures r <==> StartsWith(ArgText(t), '-')
  {
    RefTextOpens(if t.Bounded? then t.bound else TypeVariable(""));
    if t.AnyType? then false
    else if t.indicator.None? then false
    else t.indicator.value == '-'
  }

  /** `isAnyType`: the argument is `*`. */
  function IsAnyType(t: TypeArgument): (r: bool)
    ensures r <==> ArgText(t) == "*"
  {
    RefTextOpens(if t.Bounded? then t.bound else TypeVariable(""));
    assert t.Bounded? ==> |ArgText(t)| > 1;
    t.AnyType?
  }

  /** At most one of the three tests holds. */
  lemma WildcardTestsExclusive(t: TypeArgument)
    ensures !(IsExtendsWildcard(t) && IsSuperWildcard(t))
    ensures !(IsAnyType(t) && (IsExtendsWildcard(t) || IsSuperWildcard(t)))
  {
  }

  // ---- Erasure of a class type's text ----

  /** The text of `c` from just past 'L' up to its first '<', or up to its
      first ';' when it has no '<' (`MethodInfo` cuts class types this way). */
  function Erase(c: ClassTypeSignature): (r: string)
    ensures |r| < |ClassText(c)|
  {
    var t := ClassText(c);
    if '<' in t then t[1..IndexOf(t, '<')] else t[1..IndexOf(t, ';')]
  }

  lemma NoReservedInPackages(ps: seq<string>)
    requires forall i :: 0 <= i < |ps| ==> Identifier(ps[i])
    ensures forall k :: 0 <= k < |PackageText(ps)| ==> PackageText(ps)[k] != '<' && PackageText(ps)[k] != ';'
  {
    if |ps| > 0 {
      NoReservedInPackages(ps[1..]);
      var t := PackageText(ps);
      assert t == ps[0] + "/" + PackageText(ps[1..]);
      forall k | 0 <= k < |t| ensures t[k] != '<' && t[k] != ';' {
        if k < |ps[0]| {
          assert t[k] == ps[0][k];
          assert !Reserved(ps[0][k]);
        } else if k > |ps[0]| {
          assert t[k] == PackageText(ps[1..])[k - |ps[0]| - 1];
        }
      }
    }
  }

  /** The erasure of a class type whose leading names are identifiers is
      not empty and opens with an identifier character. */
  lemma EraseOpensWithName(c: ClassTypeSignature)
    requires NamedClass(c)
    ensures |Erase(c)| > 0 && !Reserved(Erase(c)[0])
  {
    var t := ClassText(c);
    if |c.packages| > 0 {
      assert PackageText(c.packages)[0] == c.packages[0][0];
      assert t[1] == c.packages[0][0];
      assert !Reserved(c.packages[0][0]);
    } else {
      assert SimpleText(c.simple)[0] == c.simple.identifier[0];
      assert t[1] == c.simple.identifier[0];
    }
    assert IndexOf(t, '<') != 1 && IndexOf(t, ';') != 1;
  }

  /** When the simple class type carries the type arguments, or there are no
      suffixes, erasing gives the binary class name: the package path and
      the simple identifier. */
  lemma {:induction false} EraseGivesBinaryName(c: ClassTypeSignature)
    requires NamedClass(c)
    requires c.simple.typeArguments.TypeArguments? || c.suffixes == []
    ensures Erase(c) == PackageText(c.packages) + c.simple.identifier
    ensures |Erase(c)| > 0 && !Reserved(Erase(c)[0])
  {
    var t := ClassText(c);
    var name := PackageText(c.packages) + c.simple.identifier;
    var k := 1 + |name|;
    NoReservedInPackages(c.packages);
    assert t == "L" + name + (SimpleText(c.simple)[|c.simple.identifier|..] + SuffixesText(c, 0) + ";");
    assert forall j :: 0 <= j < |name| ==> t[1 + j] == name[j];
    forall j | 0 <= j < |name| ensures name[j] != '<' && name[j] != ';' {
      if j >= |PackageText(c.packages)| {
        assert name[j] == c.simple.identifier[j - |PackageText(c.packages)|];
        assert !Reserved(c.simple.identifier[j - |PackageText(c.packages)|]);
      }
    }
    assert '<' !in t[..k] && ';' !in t[..k] by {
      forall j | 0 <= j < k ensures t[..k][j] != '<' && t[..k][j] != ';' {
        if j > 0 { assert t[..k][j] == name[j - 1]; }
      }
    }
    if c.simple.typeArguments.TypeArguments? {
      assert t[k] == '<';
      FirstAt(t, '<', k);
    } else {
      assert SuffixesText(c, 0) == "";
      assert t == "L" + name + ";";
      assert '<' !in t by {
        forall j | 0 <= j < |t| ensures t[j] != '<' {
          if 0 < j < k { assert t[j] == name[j - 1]; }
        }
      }
      FirstAt(t, ';', k);
    }
    assert t[1..k] == name;
    if |PackageText(c.packages)| > 0 {
      assert name[0] == c.packages[0][0];
      assert !Reserved(c.packages[0][0]);
    } else {
      assert name[0] == c.simple.identifier[0];
    }
  }

  /** `java.util.List<TE;>`, the erasure the tests of the decoder see for a
      generic list: its text and its binary name. */
  lemma ListOfEExample()
    ensures var list := ClassTypeSignature(["java", "util"],
                          SimpleClassTypeSignature("List", TypeArguments([Bounded(None, TypeVariable("E"))])), []);
            ClassText(list) == "Ljava/util/List<TE;>;" && Erase(list) == "java/util/List"
  {
    var list := ClassTypeSignature(["java", "util"],
                  SimpleClassTypeSignature("List", TypeArguments([Bounded(None, TypeVariable("E"))])), []);
    JavaUtilText();
    ListOfEText(list);
    ListOfEErase(list);
  }

  lemma ListOfEErase(list: ClassTypeSignature)
    requires list.packages == ["java", "util"] && list.simple.identifier == "List"
    requires list.simple.typeArguments.TypeArguments?
    requires PackageText(["java", "util"]) == "java/util/"
    ensures Erase(list) == "java/util/List"
  {
    JavaUtilListNamed(list.packages, list.simple.identifier);
    EraseGivesBinaryName(list);
    assert Erase(list) == "java/util/" + "List";
  }

  lemma JavaUtilListNamed(packages: seq<string>, identifier: string)
    requires packages == ["java", "util"] && identifier == "List"
    ensures (forall i :: 0 <= i < |packages| ==> Identifier(packages[i])) && Identifier(identifier)
  {
    assert Identifier("java") && Identifier("util") && Identifier("List");
  }

  lemma JavaUtilText()
    ensures PackageText(["java", "util"]) == "java/util/"
  {
    assert ["java", "util"][1..] == ["util"];
    assert PackageText(["util"]) == "util/" + PackageText([]);
  }

  lemma ListOfEText(list: ClassTypeSignature)
    requires list == ClassTypeSignature(["java", "util"],
                       SimpleClassTypeSignature("List", TypeArguments([Bounded(None, TypeVariable("E"))])), [])
    requires PackageText(["java", "util"]) == "java/util/"
    ensures ClassText(list) == "Ljava/util/List<TE;>;"
  {
    var args := list.simple.typeArguments;
    assert ArgumentsText(args, 0) == "TE;" + ArgumentsText(args, 1);
    assert SimpleText(list.simple) == "List<TE;>";
    assert SuffixesText(list, 0) == "";
  }
}

=== FILE: small_attributes.dfy ===
/** The small fixed-layout attribute entries: `InnerClassRef` (section 4.7.6
    of the Java Virtual Machine Specification), `EnclosingMethod` (4.7.7),
    `BootstrapMethods` and `BootstrapMethod` (4.7.23) and `MethodParameters`
    (4.7.24). Each reads u2 pool indices and resolves them against the pool. */
module SmallAttributes {
  import opened Wrappers
  import opened Bytes
  import opened Constants
  import opened ConstantPoolQueries
  import AccessMasks
  import ClassAccess

  /** The two bytes of a u2. */
  function U2(v: nat): (s: seq<byte>)
    requires v < 0x1_0000
    ensures |s| == 2
  {
    ToBytes(v, 2)
  }

  lemma ReadU2OfU2(v: nat, rest: seq<byte>)
    requires v < 0x1_0000
    ensures ReadU2(U2(v) + rest) == Success((v, rest))
  {
    ReadUnsignedRoundTrip(v, 2, rest);
  }

  lemma Associate3(a: seq<byte>, b: seq<byte>, c: seq<byte>, d: seq<byte>)
    ensures a + b + c + d == a + (b + (c + d))
  {
  }

  lemma Associate4(a: seq<byte>, b: seq<byte>, c: seq<byte>, d: seq<byte>, e: seq<byte>)
    ensures a + b + c + d + e == a + (b + (c + (d + e)))
  {
  }

  // ---------------------------------------------------------------- InnerClassRef

  /** One `classes` entry of an InnerClasses attribute. */
  datatype InnerClassRef = InnerClassRef(innerClass: Option<ClassRef>, outerClass: Option<ClassRef>,
                                         innerName: Option<string>, accessFlags: nat)

  /** Inner index, outer index, name index, flags; an outer index of 0 is not
      looked up and gives `null`. */
  function ReadInnerClassRef(s: seq<byte>, pool: seq<Slot>): (r: Parse<InnerClassRef>)
    ensures r.Success? ==> |s| >= 8 && r.value.1 == s[8..] && r.value.0.accessFlags < 0x1_0000
    ensures r.Success? && s[2] == 0 && s[3] == 0 ==> r.value.0.outerClass.None?
  {
    var (innerIndex, s1) :- ReadU2(s);
    var inner :- ClassAt(pool, innerIndex);
    var (outerIndex, s2) :- ReadU2(s1);
    var outer :- if outerIndex > 0 then ClassAt(pool, outerIndex) else Success(None);
    var (nameIndex, s3) :- ReadU2(s2);
    var name :- StringAt(pool, nameIndex);
    var (flags, rest) :- ReadU2(s3);
    assert rest == s[8..];
    Success((InnerClassRef(inner, outer, name, flags), rest))
  }

  /** Reading written indices resolves each against the pool; a zero outer
      index gives no outer class whatever slot 0 holds. */
  lemma InnerClassRefRoundTrip(inner: nat, outer: nat, name: nat, flags: nat, rest: seq<byte>, pool: seq<Slot>)
    requires inner < 0x1_0000 && outer < 0x1_0000 && name < 0x1_0000 && flags < 0x1_0000
    requires ClassAt(pool, inner).Success? && StringAt(pool, name).Success?
    requires outer > 0 ==> ClassAt(pool, outer).Success?
    ensures ReadInnerClassRef(U2(inner) + U2(outer) + U2(name) + U2(flags) + rest, pool)
            == Success((InnerClassRef(ClassAt(pool, inner).value,
                                      if outer > 0 then ClassAt(pool, outer).value else None,
                                      StringAt(pool, name).value, flags), rest))
  {
    var t3 := U2(flags) + rest;
    var t2 := U2(name) + t3;
    var t1 := U2(outer) + t2;
    Associate3(U2(inner), U2(outer), U2(name), t3);
    assert U2(inner) + U2(outer) + U2(name) + U2(flags) + rest == U2(inner) + t1;
    ReadU2OfU2(inner, t1);
    ReadU2OfU2(outer, t2);
    ReadU2OfU2(name, t3);
    ReadU2OfU2(flags, rest);
  }

  /** `getClassAccessFlags`: every class flag whose mask is wholly set in the
      entry's flags, in declaration order. The list is computed from the
      stored flags alone, so every call yields the same list. */
  function InnerClassFlags(ref: InnerClassRef): (r: seq<ClassAccess.Flag>)
    requires ref.accessFlags < 0x1_0000
    ensures forall f :: f in r <==> AccessMasks.WhollySet(AccessMasks.FlagWord(ref.accessFlags), ClassAccess.Mask(f))
  {
    ClassAccess.FlagsOf(AccessMasks.FlagWord(ref.accessFlags))
  }

  // ---------------------------------------------------------------- EnclosingMethod

  datatype EnclosingMethod = EnclosingMethod(declaringClass: Option<ClassRef>, nameAndType: Option<NameAndType>)

  /** Class index, then method index; a method index of 0 gives `null`. */
  function ReadEnclosingMethod(s: seq<byte>, pool: seq<Slot>): (r: Parse<EnclosingMethod>)
    ensures r.Success? ==> |s| >= 4 && r.value.1 == s[4..]
    ensures r.Success? && s[2] == 0 && s[3] == 0 ==> r.value.0.nameAndType.None?
  {
    var (classIndex, s1) :- ReadU2(s);
    var declaring :- ClassAt(pool, classIndex);
    var (methodIndex, rest) :- ReadU2(s1);
    var nameAndType :- if methodIndex > 0 then NameAndTypeAt(pool, methodIndex) else Success(None);
    Success((EnclosingMethod(declaring, nameAndType), rest))
  }

  lemma EnclosingMethodRoundTrip(cls: nat, nt: nat, rest: seq<byte>, pool: seq<Slot>)
    requires cls < 0x1_0000 && nt < 0x1_0000
    requires ClassAt(pool, cls).Success? && (nt > 0 ==> NameAndTypeAt(pool, nt).Success?)
    ensures ReadEnclosingMethod(U2(cls) + U2(nt) + rest, pool)
            == Success((EnclosingMethod(ClassAt(pool, cls).value,
                                        if nt > 0 then NameAndTypeAt(pool, nt).value else None), rest))
  {
    ReadU2OfU2(cls, U2(nt) + rest);
    assert U2(cls) + U2(nt) + rest == U2(cls) + (U2(nt) + rest);
    ReadU2OfU2(nt, rest);
  }

  // ---------------------------------------------------------------- BootstrapMethods

  /** `BootstrapMethod`: the handle and its static arguments, each the pool
      object at its index (`null` for an empty slot). */
  datatype BootstrapMethod = BootstrapMethod(handle: Option<MethodHandle>, arguments: seq<Slot>)

  /** One static argument: the pool object at a u2 index. */
  function ReadArgumentAt(s: seq<byte>, pool: seq<Slot>): Parse<Slot> {
    var (index, rest) :- ReadU2(s);
    var slot :- Get(pool, index);
    Success((slot, rest))
  }

  function ReadArgument(pool: seq<Slot>): seq<byte> -> Parse<Slot> {
    s => ReadArgumentAt(s, pool)
  }

  /** The `BootstrapMethod` constructor: a u2 argument count, then that many pool indices. */
  function ReadBootstrapArguments(s: seq<byte>, handle: Option<MethodHandle>, pool: seq<Slot>): (r: Parse<BootstrapMethod>)
    ensures r.Success? ==> r.value.0.handle == handle && |s| >= 2
                           && |r.value.0.arguments| == s[0] as int * 256 + s[1] as int
  {
    var (count, afterCount) :- ReadU2(s);
    var (arguments, rest) :- ReadCounted(afterCount, count, ReadArgument(pool));
    Success((BootstrapMethod(handle, arguments), rest))
  }

  /** One entry of the `BootstrapMethods` loop: the handle index is read and cast first. */
  function ReadBootstrapMethodAt(s: seq<byte>, pool: seq<Slot>): Parse<BootstrapMethod> {
    var (handleIndex, afterHandle) :- ReadU2(s);
    var handle :- MethodHandleAt(pool, handleIndex);
    ReadBootstrapArguments(afterHandle, handle, pool)
  }

  function ReadBootstrapMethod(pool: seq<Slot>): seq<byte> -> Parse<BootstrapMethod> {
    s => ReadBootstrapMethodAt(s, pool)
  }

  /** `BootstrapMethods`: a u2 count, then that many entries in stream order. */
  function ReadBootstrapMethods(s: seq<byte>, pool: seq<Slot>): (r: Parse<seq<BootstrapMethod>>)
    ensures r.Success? ==> |s| >= 2 && |r.value.0| == s[0] as int * 256 + s[1] as int
  {
    var (count, afterCount) :- ReadU2(s);
    ReadCounted(afterCount, count, ReadBootstrapMethod(pool))
  }

  /** The bytes of one bootstrap entry. */
  function EncodeBootstrapMethod(handle: nat, arguments: seq<nat>): seq<byte>
    requires handle < 0x1_0000 && |arguments| < 0x1_0000
    requires forall i :: 0 <= i < |arguments| ==> arguments[i] < 0x1_0000
  {
    U2(handle) + U2(|arguments|) + Flatten(EncodeIndices(arguments))
  }

  function EncodeIndices(indices: seq<nat>): (r: seq<seq<byte>>)
    requires forall i :: 0 <= i < |indices| ==> indices[i] < 0x1_0000
    ensures |r| == |indices| && forall i :: 0 <= i < |r| ==> r[i] == U2(indices[i])
  {
    if |indices| == 0 then [] else [U2(indices[0])] + EncodeIndices(indices[1..])
  }

  function SlotsAt(pool: seq<Slot>, indices: seq<nat>): (r: seq<Slot>)
    requires forall i :: 0 <= i < |indices| ==> indices[i] < |pool|
    ensures |r| == |indices| && forall i :: 0 <= i < |r| ==> r[i] == pool[indices[i]]
  {
    if |indices| == 0 then [] else [pool[indices[0]]] + SlotsAt(pool, indices[1..])
  }

  /** A written entry reads back as its handle and, in order, the pool object
      at each argument index. */
  lemma BootstrapMethodRoundTrip(handle: nat, arguments: seq<nat>, rest: seq<byte>, pool: seq<Slot>)
    requires handle < 0x1_0000 && |arguments| < 0x1_0000
    requires forall i :: 0 <= i < |arguments| ==> arguments[i] < 0x1_0000 && arguments[i] < |pool|
    requires MethodHandleAt(pool, handle).Success?
    ensures ReadBootstrapMethodAt(EncodeBootstrapMethod(handle, arguments) + rest, pool)
            == Success((BootstrapMethod(MethodHandleAt(pool, handle).value, SlotsAt(pool, arguments)), rest))
  {
    var args := Flatten(EncodeIndices(arguments)) + rest;
    var h := MethodHandleAt(pool, handle).value;
    Associate3(U2(handle), U2(|arguments|), Flatten(EncodeIndices(arguments)), rest);
    ReadU2OfU2(handle, U2(|arguments|) + args);
    ArgumentsRoundTrip(arguments, rest, pool);
    ReadU2OfU2(|arguments|, args);
  }

  lemma ArgumentsRoundTrip(arguments: seq<nat>, rest: seq<byte>, pool: seq<Slot>)
    requires forall i :: 0 <= i < |arguments| ==> arguments[i] < 0x1_0000 && arguments[i] < |pool|
    ensures ReadCounted(Flatten(EncodeIndices(arguments)) + rest, |arguments|, ReadArgument(pool))
            == Success((SlotsAt(pool, arguments), rest))
  {
    var chunks := EncodeIndices(arguments);
    var values := SlotsAt(pool, arguments);
    forall i, tail | 0 <= i < |chunks|
      ensures ReadArgument(pool)(chunks[i] + tail) == Success((values[i], tail))
    {
      ReadArgumentOf(arguments[i], tail, pool);
    }
    ReadCountedRoundTrip(chunks, values, rest, ReadArgument(pool));
  }

  lemma ReadArgumentOf(index: nat, tail: seq<byte>, pool: seq<Slot>)
    requires index < 0x1_0000 && index < |pool|
    ensures ReadArgument(pool)(U2(index) + tail) == Success((pool[index], tail))
  {
    ReadU2OfU2(index, tail);
  }

  // ---------------------------------------------------------------- MethodParameters

  /** `MethodParameters`: parallel arrays of names and access flags. */
  datatype MethodParameters = MethodParameters(names: seq<Option<string>>, flags: seq<nat>)

  /** One parameter entry: the pool name at a u2 index, then u2 flags. */
  function ReadParameterAt(s: seq<byte>, pool: seq<Slot>): Parse<(Option<string>, nat)> {
    var (nameIndex, afterName) :- ReadU2(s);
    var name :- StringAt(pool, nameIndex);
    var (flags, rest) :- ReadU2(afterName);
    Success(((name, flags), rest))
  }

  function ReadParameter(pool: seq<Slot>): seq<byte> -> Parse<(Option<string>, nat)> {
    s => ReadParameterAt(s, pool)
  }

  /** The stream constructor: a u1 count, then that many (name index, flags) pairs. */
  function ReadMethodParameters(s: seq<byte>, pool: seq<Slot>): (r: Parse<MethodParameters>)
    ensures r.Success? ==> |s| >= 1 && |r.value.0.names| == |r.value.0.flags| == s[0] <= 255
  {
    var (count, afterCount) :- ReadU1(s);
    var (pairs, rest) :- ReadCounted(afterCount, count, ReadParameter(pool));
    Success((Unzip(pairs), rest))
  }

  /** The pairs as two parallel arrays. */
  function Unzip(pairs: seq<(Option<string>, nat)>): (r: MethodParameters)
    ensures |r.names| == |r.flags| == |pairs|
    ensures forall i :: 0 <= i < |pairs| ==> r.names[i] == pairs[i].0 && r.flags[i] == pairs[i].1
  {
    if |pairs| == 0 then MethodParameters([], [])
    else
      var tail := Unzip(pairs[1..]);
      MethodParameters([pairs[0].0] + tail.names, [pairs[0].1] + tail.flags)
  }

  /** The names-only constructor: the names as given, every flag zero. */
  function FromNames(names: seq<Option<string>>): (r: MethodParameters)
    ensures r.names == names && |r.flags| == |names|
    ensures forall i :: 0 <= i < |r.flags| ==> r.flags[i] == 0
  {
    MethodParameters(names, seq(|names|, _ => 0))
  }

  /** Written pairs read back as the pool names at their indices and their flags. */
  lemma MethodParametersRoundTrip(nameIndices: seq<nat>, flags: seq<nat>, rest: seq<byte>, pool: seq<Slot>)
    requires |nameIndices| == |flags| <= 255
    requires forall i :: 0 <= i < |flags| ==> nameIndices[i] < 0x1_0000 && flags[i] < 0x1_0000
    requires forall i :: 0 <= i < |flags| ==> StringAt(pool, nameIndices[i]).Success?
    ensures var r := ReadMethodParameters([|flags| as byte] + Flatten(EncodePairs(nameIndices, flags)) + rest, pool);
            r.Success? && r.value.1 == rest && r.value.0.flags == flags
            && forall i :: 0 <= i < |flags| ==> r.value.0.names[i] == StringAt(pool, nameIndices[i]).value
  {
    var chunks := EncodePairs(nameIndices, flags);
    var values := seq(|flags|, i requires 0 <= i < |flags| => (StringAt(pool, nameIndices[i]).value, flags[i]));
    forall i, tail | 0 <= i < |chunks|
      ensures ReadParameter(pool)(chunks[i] + tail) == Success((values[i], tail))
    {
      ReadParameterOf(nameIndices[i], flags[i], tail, pool);
    }
    ReadCountedRoundTrip(chunks, values, rest, ReadParameter(pool));
    var tail := Flatten(chunks) + rest;
    assert ([|flags| as byte] + tail)[1..] == tail;
    assert [|flags| as byte] + Flatten(chunks) + rest == [|flags| as byte] + tail;
  }

  lemma ReadParameterOf(nameIndex: nat, flags: nat, tail: seq<byte>, pool: seq<Slot>)
    requires nameIndex < 0x1_0000 && flags < 0x1_0000 && StringAt(pool, nameIndex).Success?
    ensures ReadParameter(pool)(U2(nameIndex) + U2(flags) + tail)
            == Success(((StringAt(pool, nameIndex).value, flags), tail))
  {
    ReadU2OfU2(nameIndex, U2(flags) + tail);
    assert U2(nameIndex) + U2(flags) + tail == U2(nameIndex) + (U2(flags) + tail);
    ReadU2OfU2(flags, tail);
  }

  function EncodePairs(nameIndices: seq<nat>, flags: seq<nat>): (r: seq<seq<byte>>)
    requires |nameIndices| == |flags|
    requires forall i :: 0 <= i < |flags| ==> nameIndices[i] < 0x1_0000 && flags[i] < 0x1_0000
    ensures |r| == |flags| && forall i :: 0 <= i < |r| ==> r[i] == U2(nameIndices[i]) + U2(flags[i])
  {
    if |flags| == 0 then []
    else [U2(nameIndices[0]) + U2(flags[0])] + EncodePairs(nameIndices[1..], flags[1..])
  }
}

=== FILE: type_codes.dfy ===
/** The one-character type codes of field descriptors (section 4.3.2 of the
    Java Virtual Machine Specification): `PrimitiveType` and
    `PrimitiveOrReferenceType` with their lookups by character. */
module TypeCodes {
  import opened Wrappers
  import opened Selection

  datatype PrimitiveType = Byte | Char | Double | Float | Int | Long | Short | Boolean

  function PrimitiveTerm(t: PrimitiveType): char {
    match t
    case Byte => 'B'
    case Char => 'C'
    case Double => 'D'
    case Float => 'F'
    case Int => 'I'
    case Long => 'J'
    case Short => 'S'
    case Boolean => 'Z'
  }

  /** `PrimitiveType.values()`. */
  const PrimitiveTypes: seq<PrimitiveType> := [Byte, Char, Double, Float, Int, Long, Short, Boolean]

  /** The eight primitive codes. */
  predicate IsPrimitiveCode(c: char) {
    c == 'B' || c == 'C' || c == 'D' || c == 'F' || c == 'I' || c == 'J' || c == 'S' || c == 'Z'
  }

  datatype PrimitiveOrReferenceType =
    | PByte | PChar | PDouble | PFloat | PInt | PLong | Object | PShort | PBoolean | Array

  function Term(t: PrimitiveOrReferenceType): char {
    match t
    case PByte => 'B'
    case PChar => 'C'
    case PDouble => 'D'
    case PFloat => 'F'
    case PInt => 'I'
    case PLong => 'J'
    case Object => 'L'
    case PShort => 'S'
    case PBoolean => 'Z'
    case Array => '['
  }

  /** `PrimitiveOrReferenceType.values()`. */
  const PrimitiveOrReferenceTypes: seq<PrimitiveOrReferenceType> :=
    [PByte, PChar, PDouble, PFloat, PInt, PLong, Object, PShort, PBoolean, Array]

  /** Every code `getPrimitiveOrReferenceType` recognises. */
  predicate IsTypeCode(c: char) {
    IsPrimitiveCode(c) || c == 'L' || c == '['
  }

  function PrimitiveTermIs(c: char): PrimitiveType -> bool {
    t => PrimitiveTerm(t) == c
  }

  function TermIs(c: char): PrimitiveOrReferenceType -> bool {
    t => Term(t) == c
  }

  /** `getPrimitiveType(char)`: the first value whose term is `c`, or null. */
  function PrimitiveTypeOf(c: char): (r: Option<PrimitiveType>)
    ensures r.Some? ==> PrimitiveTerm(r.value) == c
    ensures r.None? <==> !IsPrimitiveCode(c)
  {
    PrimitiveCodeListed(c);
    First(PrimitiveTypes, PrimitiveTermIs(c))
  }

  lemma PrimitiveCodeListed(c: char)
    ensures IsPrimitiveCode(c) ==> exists i :: 0 <= i < |PrimitiveTypes| && PrimitiveTermIs(c)(PrimitiveTypes[i])
    ensures !IsPrimitiveCode(c) ==> forall i :: 0 <= i < |PrimitiveTypes| ==> !PrimitiveTermIs(c)(PrimitiveTypes[i])
  {
    if IsPrimitiveCode(c) {
      var t: PrimitiveType := match c
        case 'B' => Byte case 'C' => Char case 'D' => Double case 'F' => Float
        case 'I' => Int case 'J' => Long case 'S' => Short case _ => Boolean;
      assert PrimitiveTermIs(c)(PrimitiveTypes[PrimitiveOrdinal(t)]);
    }
  }

  function PrimitiveOrdinal(t: PrimitiveType): (i: nat)
    ensures i < |PrimitiveTypes| && PrimitiveTypes[i] == t
  {
    match t
    case Byte => 0 case Char => 1 case Double => 2 case Float => 3
    case Int => 4 case Long => 5 case Short => 6 case Boolean => 7
  }

  function Ordinal(t: PrimitiveOrReferenceType): (i: nat)
    ensures i < |PrimitiveOrReferenceTypes| && PrimitiveOrReferenceTypes[i] == t
  {
    match t
    case PByte => 0 case PChar => 1 case PDouble => 2 case PFloat => 3 case PInt => 4
    case PLong => 5 case Object => 6 case PShort => 7 case PBoolean => 8 case Array => 9
  }

  /** `getPrimitiveOrReferenceType(char)`: the first value whose term is `c`, or null. */
  function PrimitiveOrReferenceTypeOf(c: char): (r: Option<PrimitiveOrReferenceType>)
    ensures r.Some? ==> Term(r.value) == c
    ensures r.None? <==> !IsTypeCode(c)
  {
    TypeCodeListed(c);
    First(PrimitiveOrReferenceTypes, TermIs(c))
  }

  lemma TypeCodeListed(c: char)
    ensures IsTypeCode(c) ==> exists i :: 0 <= i < |PrimitiveOrReferenceTypes| && TermIs(c)(PrimitiveOrReferenceTypes[i])
    ensures !IsTypeCode(c) ==> forall i :: 0 <= i < |PrimitiveOrReferenceTypes| ==> !TermIs(c)(PrimitiveOrReferenceTypes[i])
  {
    if IsTypeCode(c) {
      var t: PrimitiveOrReferenceType := match c
        case 'B' => PByte case 'C' => PChar case 'D' => PDouble case 'F' => PFloat
        case 'I' => PInt case 'J' => PLong case 'L' => Object case 'S' => PShort
        case 'Z' => PBoolean case _ => Array;
      assert TermIs(c)(PrimitiveOrReferenceTypes[Ordinal(t)]);
    }
  }

  lemma PrimitiveTermInjective(a: PrimitiveType, b: PrimitiveType)
    ensures PrimitiveTerm(a) == PrimitiveTerm(b) ==> a == b
  {
  }

  lemma TermInjective(a: PrimitiveOrReferenceType, b: PrimitiveOrReferenceType)
    ensures Term(a) == Term(b) ==> a == b
  {
  }

  /** The same lookup read off as a table, one case per code. */
  function TypeOfCode(c: char): (r: Option<PrimitiveOrReferenceType>)
    ensures r.Some? ==> Term(r.value) == c
    ensures r.None? <==> !IsTypeCode(c)
  {
    match c
    case 'B' => Some(PByte) case 'C' => Some(PChar) case 'D' => Some(PDouble) case 'F' => Some(PFloat)
    case 'I' => Some(PInt) case 'J' => Some(PLong) case 'L' => Some(Object) case 'S' => Some(PShort)
    case 'Z' => Some(PBoolean) case '[' => Some(Array) case _ => None
  }

  /** The scan over `values()` and the table agree on every character. */
  lemma TypeOfCodeIsLookup(c: char)
    ensures TypeOfCode(c) == PrimitiveOrReferenceTypeOf(c)
  {
    if IsTypeCode(c) {
      TermInjective(TypeOfCode(c).value, PrimitiveOrReferenceTypeOf(c).value);
    }
  }

  /** `getPrimitiveType` inverts `getTerm`, so the primitive codes are pairwise distinct. */
  lemma PrimitiveLookupInvertsTerm(t: PrimitiveType)
    ensures PrimitiveTypeOf(PrimitiveTerm(t)) == Some(t)
  {
    PrimitiveTermInjective(PrimitiveTypeOf(PrimitiveTerm(t)).value, t);
  }

  /** `getPrimitiveOrReferenceType` inverts `getTerm`. */
  lemma LookupInvertsTerm(t: PrimitiveOrReferenceType)
    ensures PrimitiveOrReferenceTypeOf(Term(t)) == Some(t)
  {
    TermInjective(PrimitiveOrReferenceTypeOf(Term(t)).value, t);
  }
}

=== FILE: type_variables.dfy ===
/** Looking up the type parameter a type variable names: `ResolvedTypeVariable`
    and the `resolveTypeVariable` methods of `ClassFile` and `MethodInfo`.
    `UnresolvedTypeVariableException` is the `Unresolved` failure, carrying the
    variable name it reports. */
module TypeVariables {
  import opened Wrappers
  import opened JavaStrings
  import opened Selection
  import opened Signatures

  /** A type variable together with the bounds of the parameter it names;
      a missing interface-bounds node gives no interface bounds. */
  datatype ResolvedTypeVariable =
    ResolvedTypeVariable(variableName: string, classBound: Option<ReferenceTypeSignature>,
                         interfaceBounds: seq<ReferenceTypeSignature>)

  datatype Unresolved = Unresolved(variableName: string)

  /** `new ResolvedTypeVariable(name, parameter)`: the class bound and the
      interface bounds in order. */
  function Resolve(name: string, p: TypeParameter): (r: ResolvedTypeVariable)
    ensures r.variableName == name && r.classBound == p.classBound
    ensures p.interfaceBounds.Some? ==> r.interfaceBounds == p.interfaceBounds.value
    ensures p.interfaceBounds.None? ==> r.interfaceBounds == []
  {
    ResolvedTypeVariable(name, p.classBound, if p.interfaceBounds.Some? then p.interfaceBounds.value else [])
  }

  /** Nothing of the parameter is lost: its text is rebuilt from the
      resolved variable's name and bounds. */
  lemma ResolvedParameterRendersBack(p: TypeParameter)
    ensures var r := Resolve(p.identifier, p);
            TypeParameterText(p) == r.variableName + ":" + (if r.classBound.Some? then RefText(r.classBound.value) else "")
                                    + InterfaceBoundsText(r.interfaceBounds)
  {
    assert InterfaceBoundsText([]) == "";
  }

  /** Dropping one leading 'T', as both lookups do. */
  function StripT(name: string): (r: string)
    ensures StartsWith(name, 'T') ==> "T" + r == name
    ensures !StartsWith(name, 'T') ==> r == name
  {
    if StartsWith(name, 'T') then name[1..] else name
  }

  function NamedParameter(id: string): TypeParameter -> bool {
    (p: TypeParameter) => p.identifier == id
  }

  /** `ClassFile.resolveTypeVariable`: without a class signature it fails with
      the name as given; otherwise it strips a leading 'T' and takes the first
      class type parameter with that identifier, failing with the stripped
      name when there is none. */
  function ClassResolve(signature: Option<ClassSignature>, name: string): (r: Result<ResolvedTypeVariable, Unresolved>)
    ensures signature.None? ==> r == Failure(Unresolved(name))
    ensures signature.Some? ==>
              var ps := signature.value.typeParameters;
              (r.Failure? <==> forall i :: 0 <= i < |ps| ==> ps[i].identifier != StripT(name))
              && (r.Failure? ==> r.error == Unresolved(StripT(name)))
              && (r.Success? ==> exists k :: 0 <= k < |ps| && ps[k].identifier == StripT(name)
                                             && r.value == Resolve(StripT(name), ps[k])
                                             && forall i :: 0 <= i < k ==> ps[i].identifier != StripT(name))
  {
    if signature.None? then Failure(Unresolved(name))
    else
      var id := StripT(name);
      var ps := signature.value.typeParameters;
      match FirstIndex(ps, NamedParameter(id))
      case None => Failure(Unresolved(id))
      case Some(k) => Success(Resolve(id, ps[k]))
  }

  /** A method type parameter the method lookup accepts: named `id`, and not
      both without a class-bound type and without an interface-bounds node. */
  function BoundedParameter(id: string): TypeParameter -> bool {
    (p: TypeParameter) => p.identifier == id && !(p.classBound.None? && p.interfaceBounds.None?)
  }

  /** `MethodInfo.resolveTypeVariable` as written: it strips a leading 'T',
      takes the first accepted method type parameter, and otherwise hands the
      stripped name to the class lookup, which strips a leading 'T' again. */
  function MethodResolveAsWritten(m: MethodSignature, classSignature: Option<ClassSignature>, name: string)
    : (r: Result<ResolvedTypeVariable, Unresolved>)
    ensures var ps := m.typeParameters;
            (forall i :: 0 <= i < |ps| ==> !BoundedParameter(StripT(name))(ps[i])) ==>
              r == ClassResolve(classSignature, StripT(name))
  {
    var id := StripT(name);
    var ps := m.typeParameters;
    match FirstIndex(ps, BoundedParameter(id))
    case Some(k) => Success(Resolve(id, ps[k]))
    case None => ClassResolve(classSignature, id)
  }

  /** The lookup with the class fallback given the name as received, so both
      levels look for the same identifier. A name that resolves names either
      the first accepted method type parameter with the stripped identifier
      or, when there is none, the first class type parameter with it. */
  function MethodResolve(m: MethodSignature, classSignature: Option<ClassSignature>, name: string)
    : (r: Result<ResolvedTypeVariable, Unresolved>)
    ensures var ps := m.typeParameters; var id := StripT(name);
            (exists k :: 0 <= k < |ps| && BoundedParameter(id)(ps[k])) ==>
              exists k :: 0 <= k < |ps| && BoundedParameter(id)(ps[k]) && r == Success(Resolve(id, ps[k]))
                          && forall i :: 0 <= i < k ==> !BoundedParameter(id)(ps[i])
    ensures var ps := m.typeParameters; var id := StripT(name);
            (forall i :: 0 <= i < |ps| ==> !BoundedParameter(id)(ps[i])) ==>
              (classSignature.None? ==> r == Failure(Unresolved(name)))
              && (classSignature.Some? ==>
                    var cs := classSignature.value.typeParameters;
                    (r.Success? <==> exists i :: 0 <= i < |cs| && cs[i].identifier == id)
                    && (r.Success? ==> r.value.variableName == id)
                    && (r.Failure? ==> r.error == Unresolved(id)))
  {
    var id := StripT(name);
    var ps := m.typeParameters;
    match FirstIndex(ps, BoundedParameter(id))
    case Some(k) => Success(Resolve(id, ps[k]))
    case None => ClassResolve(classSignature, name)
  }

  /** The two lookups differ only for identifiers that themselves start with
      'T' (or in the name an absent class signature reports). */
  lemma {:induction false} ResolutionsAgree(m: MethodSignature, classSignature: ClassSignature, name: string)
    requires !StartsWith(StripT(name), 'T')
    ensures MethodResolveAsWritten(m, Some(classSignature), name) == MethodResolve(m, Some(classSignature), name)
  {
    assert StripT(StripT(name)) == StripT(name);
  }

  /** A class `C<T>` whose method `m` declares no type parameters: the type
      variable `TT;` of `m`'s signature names the class parameter `T`. As
      written the fallback looks for the identifier "" and fails; the
      corrected lookup finds `T`. */
  lemma ClassParameterTMissed()
    ensures var obj := ClassType(ClassTypeSignature(["java", "lang"], SimpleClassTypeSignature("Object", NoTypeArguments), []));
            var t := TypeParameter("T", Some(obj), None);
            var cls := ClassSignature([t], Some(obj.classType), []);
            var sig := MethodSignature([], [Reference(TypeVariable("T"))], None, []);
            MethodResolveAsWritten(sig, Some(cls), "TT") == Failure(Unresolved(""))
            && MethodResolve(sig, Some(cls), "TT") == Success(ResolvedTypeVariable("T", Some(obj), []))
  {
    var obj := ClassType(ClassTypeSignature(["java", "lang"], SimpleClassTypeSignature("Object", NoTypeArguments), []));
    var t := TypeParameter("T", Some(obj), None);
    var cls := ClassSignature([t], Some(obj.classType), []);
    assert StripT("TT") == "T";
    assert StripT("T") == "";
    assert NamedParameter("T")(t);
    assert !NamedParameter("")(t);
  }
}

=== FILE: wrappers.dfy ===
/** Failure-compatible Option and Result types used throughout the decoder model.
    A Java `null` is modelled as `None`; a thrown exception as `Failure`. */
module Wrappers {

  datatype Option<+T> = None | Some(value: T) {

    predicate IsFailure() {
      None?
    }

    function PropagateFailure<U>(): Option<U>
      requires None?
    {
      None
    }

    function Extract(): T
      requires Some?
    {
      value
    }
  }

  datatype Result<+R, +E> = Success(value: R) | Failure(error: E) {

    predicate IsFailure() {
      Failure?
    }

    function PropagateFailure<U>(): Result<U, E>
      requires Failure?
    {
      Failure(error)
    }

    function Extract(): R
      requires Success?
    {
      value
    }
  }
}
